=== FILE: README.md ===
# fantasy-don-api core, modelled in Dafny

This project models the logic of an NFL fantasy-statistics pipeline built from AWS Lambda functions. The model covers:

- **Data fetcher** (`fetcher.dfy`, `validation.dfy`, `schema.dfy`). It retries a fetch. It validates a week's player list and its metadata, shapes the stored documents into a write log, and diffs two injury reports into changes. Its thresholds agree with the data-validator schema.
- **Insights engine**:
  - the per-player calculators (`player_insights.dfy`, with the three-week regression in `trends.dfy`);
  - the per-team calculators (`team_insights.dfy`);
  - the per-defense calculators (`defense_insights.dfy`);
  - the weekly superlatives (`superlatives.dfy`);
  - the output dataclasses and their `to_dict` encodings (`models.dfy`);
  - the choice of the weeks to read (`week_window.dfy`);
  - the handler that reads the weeks, runs the calculators and writes the result (`orchestrator.dfy`);
  - the week-to-week comparison script (`comparisons.dfy`).
- **Stats API** (`api.dfy`, `api_utils.dfy`, `season_totals.dfy`):
  - the player, team and insight filters and the listing of available weeks;
  - the season aggregation;
  - the calendar helpers and the response envelope.
- **Scheduled-run log parser** (`log_parser.dfy`). It turns the rows of a log query into invocations.

Shared pieces hold the rest:
- `Wrappers`, `Seqs`, `Text` and `Json` hold options, results, sequence helpers, strings and JSON values.
- `Records` holds a scalar record.
- `PyDict` holds Python's insertion-ordered dict.
- `StableSort` holds the stable descending sort behind every `sorted(..., reverse=True)`.
- `Ranking` holds the ranking of insights by a metric.

The model keeps the program's choices in three places:
- **Numbers** are reals.
- **Storage** is a map from keys to documents, and writes are an appended log.
- **The clock, `log2`, `round(·, 3)` and `float(s)`** are parameters of the operations that use them.

Every operation has a contract that says what its result means. The calculators and codecs are paired with an independent reference definition, an inverse or an invariant, and a lemma or contract proves that the two agree. The composite operations (the handler, the comparisons) state their output as built from those calculators, so the calculators' properties carry over.

## Model

| member | source | states |
|---|---|---|
| Api.MissingSectionIsEmpty | lambda_functions/api/index.py:150 | a document with no `data` dict, no list under the name, or an empty list gives the search nothing to iterate |
| Api.PlayerMatch | lambda_functions/api/index.py:153 | a player matches exactly when `str(id)` equals the query or its name equals the query ignoring letter case |
| Api.TeamMatch | lambda_functions/api/index.py:177-181 | a team matches exactly when `str(id)` equals the query, or its abbreviation, or (failing that) its name, equals the query ignoring case |
| Api.NameMatchIsWhole | lambda_functions/api/index.py:153 | a name matches only a query of the same length: no partial or substring match |
| Api.NameMatchIgnoresCase | lambda_functions/api/index.py:153 | changing the query's letter case never changes whether a name matches |
| Api.Scan | lambda_functions/api/index.py:152-158 | the search loop stops at the first candidate that matches (every earlier one misses), reports the first one that raises, or finds none exactly when all miss |
| Api.Wrapped | lambda_functions/api/index.py:154-158 | the returned dict has exactly the three keys in order, each holding its value |
| Api.Search | lambda_functions/api/index.py:150-160 | the shared search: an unreadable list propagates its error, `None` exactly when every candidate misses, otherwise the first match wrapped with the document's two context fields |
| Api.FilterPlayerStats | lambda_functions/api/index.py:139-160 | `filter_player_stats`: the first matching player with the document's timestamp and metadata; `None` exactly when no player matches |
| Api.FilterTeamStats | lambda_functions/api/index.py:163-188 | `filter_team_stats`: the first matching team with timestamp and metadata; `None` exactly when no team matches |
| Api.FilterPlayerInsights | lambda_functions/api/index.py:373-392 | `filter_player_insights`: the first insight whose `player_id` equals the query exactly, with season and week; `None` exactly when none does |
| Api.RStrip | lambda_functions/api/index.py:470 | `rstrip('/')` yields a prefix of the string that does not end in the character, and only that character was removed |
| Api.ParsedWeeks | lambda_functions/api/index.py:468-474 | prefixes whose last segment is not an integer are skipped, so there are never more weeks than prefixes |
| Api.AvailableWeeks | lambda_functions/api/index.py:466-476 | the listed weeks are returned sorted ascending and are a permutation of the parsed weeks |
| Api.SortedAscending | lambda_functions/api/index.py:476 | `sorted(weeks)` is ascending |
| Api.WeekPrefixesRoundTrip | lambda_functions/api/index.py:466-474 | reading back the week prefixes written under a season directory recovers exactly those weeks in order |
| Api.WeekOfPrefix | lambda_functions/api/index.py:470-472 | a week prefix `<dir>/<n>/` parses back to week `n` |
| Api.SplitLast | lambda_functions/api/index.py:470 | after a directory ending in `/`, `split('/')[-1]` is the name that follows it |
| Api.EstimatedWeekIsRegular | lambda_functions/api/index.py:410-420 | when the week comes from the calendar fallback it is flagged regular season exactly when it is known |
| Api.CreateResponse | lambda_functions/api/index.py:594-620 | `create_response`: the status passes through, the default headers come first, and a string body is not encoded again while any other body is JSON-encoded |
| Api.ResponseHeader | lambda_functions/api/index.py:606-614 | each response header is the caller's value for that name when given, otherwise the default |
| ApiUtils.YearStep | lambda_functions/api/utils.py:34 | the day count of `date.toordinal` grows by the year's length (365, or 366 in a leap year) from one 1 January to the next |
| ApiUtils.MonthTable | lambda_functions/api/utils.py:34 | the month lengths add up to the year's length, with February after 31 days |
| ApiUtils.MonthsIncrease | lambda_functions/api/utils.py:32 | a month ends no later than any later month of the same year starts |
| ApiUtils.YearsIncrease | lambda_functions/api/utils.py:32 | a year ends no later than any later year starts |
| ApiUtils.WithinYear | lambda_functions/api/utils.py:32 | a valid date's position inside its year lies between 1 and the year's length |
| ApiUtils.OrdinalOrder | lambda_functions/api/utils.py:32 | the date comparison `current <= end` agrees with comparing day numbers, and a day number names exactly one date |
| ApiUtils.OrdinalBefore | lambda_functions/api/utils.py:32 | a date in an earlier year has a smaller day number |
| ApiUtils.LastDateIsLatest | lambda_functions/api/utils.py:34 | no date Python can hold comes after 31 December 9999 |
| ApiUtils.NextDayOrdinal | lambda_functions/api/utils.py:34 | `current + timedelta(days=1)` is a valid date whose day number is one more |
| ApiUtils.DateRange | lambda_functions/api/utils.py:16-36 | `parse_date_range`: every day from start through end, in order, one per day number; empty when start is after end; the `OverflowError` exactly when the range ends on the last representable date |
| ApiUtils.RunEnds | lambda_functions/api/utils.py:30-36 | a run of consecutive days as long as the span starts at the start date and ends at the end date |
| ApiUtils.CurrentSeason | lambda_functions/api/utils.py:81-94 | `get_current_season`: the season whose 1 September is the latest one on or before now |
| ApiUtils.CurrentNflWeek | lambda_functions/api/utils.py:97-124 | `get_current_nfl_week`: week w exactly when now falls in the seven days starting 7(w-1) days after the season's 7 September, weeks 1 to 18 only; none before it or after week 18 |
| ApiUtils.SeasonOpensOnSeptemberSeventh | lambda_functions/api/utils.py:112-119 | 7 September is week 1 and 1 to 6 September are still offseason |
| ApiUtils.OffseasonMonths | lambda_functions/api/utils.py:112-122 | from February to August no week is reported |
| ApiUtils.FormatApiResponse | lambda_functions/api/utils.py:58-78 | `format_api_response`: keys success, data, timestamp in that order, then metadata exactly when it is truthy; success is true and the data and metadata pass through unchanged |
| ApiUtils.EnvelopeKeys | lambda_functions/api/utils.py:69-76 | the envelope's key order: metadata comes last and only when truthy |
| Comparisons.PairCount | scripts/generate_all_combinations.py:30-46 | n available weeks give n(n-1)/2 pairs |
| Comparisons.WeekPairsMembers | scripts/generate_all_combinations.py:41-44 | a pair is produced exactly when its first week sits at an earlier index of the list than its second |
| Comparisons.HeadPairs | scripts/generate_all_combinations.py:43-44 | the pairs led by one week are that week with each week after it |
| Comparisons.IsPairSplit | scripts/generate_all_combinations.py:42-44 | an index pair of the list is led either by the first week or lies wholly in the rest |
| Comparisons.PairsGoForward | scripts/generate_all_combinations.py:32 | for strictly increasing weeks every pair has `week_from < week_to`, as the docstring promises |
| Comparisons.PairsSorted | scripts/generate_all_combinations.py:41-46 | for strictly increasing weeks the pairs come in strictly increasing lexicographic order, so none repeats |
| Comparisons.PairHistory | scripts/generate_all_combinations.py:109 | a comparison history is both lines when the earlier line is truthy, otherwise the later line alone, and always ends with the later line |
| Comparisons.ComparisonPlayers | scripts/generate_all_combinations.py:101-114 | one insight per player of the later week, in its map order, each computed against the same player's earlier line |
| Comparisons.ComparisonTeam | scripts/generate_all_combinations.py:121-136 | a compared team keeps its name, season and the later week, and with at most two weeks of history its trends carry no slope |
| Comparisons.ComparisonTeamIsTeamInsight | scripts/generate_all_combinations.py:121-136 | a compared team's insight is the team calculation on the later week's aggregate as current, the earlier week's aggregate as previous (passed even when empty), a history of both aggregates when the earlier one is non-empty and of the later one alone otherwise, and the later week's team lines |
| Comparisons.ComparisonTeams | scripts/generate_all_combinations.py:117-138 | one team insight per team, in order, each the comparison of that team across the two weeks, none with a slope |
| Comparisons.ComparisonReadAt | scripts/generate_all_combinations.py:153-161 | each metadata entry is what a read of its key finds |
| Comparisons.ComparisonWeeksRead | scripts/generate_all_combinations.py:154-155 | the metadata names the comparison type and the earlier week |
| Comparisons.ComparisonWeekToRead | scripts/generate_all_combinations.py:156 | the metadata records the later week |
| Comparisons.ComparisonDeltaRead | scripts/generate_all_combinations.py:157 | the metadata records the distance between the weeks |
| Comparisons.ComparisonCountsRead | scripts/generate_all_combinations.py:158-160 | the metadata records the three counts |
| Comparisons.ComparisonOmits | scripts/generate_all_combinations.py:153-161 | the comparison metadata has no defense count and no analysed-weeks list |
| Comparisons.ComparisonMetadata | scripts/generate_all_combinations.py:153-161 | the comparison metadata block: type, both weeks, their distance and the three counts, with nothing else the regular metadata carries |
| Comparisons.ReadPair | scripts/generate_all_combinations.py:77-95 | either week missing or empty raises the missing-data error; otherwise both player lists and id maps, failing exactly when a line has no `player_id` |
| Comparisons.CompareWeeks | scripts/generate_all_combinations.py:49-168 | `calculate_comparison_insights`: succeeds exactly when both weeks are readable; the output is for the later week, has no defense insights, holds the compared player insights, and its team insights are the per-team comparisons of the teams named in the later week, its superlatives are the five award families computed from the compared player insights, and its metadata counts match the lists |
| Comparisons.FieldTrendFlat | scripts/generate_all_combinations.py:109 | with at most two history lines a field trend has no slope, direction or projection |
| Comparisons.RatioTrendFlat | scripts/generate_all_combinations.py:109 | with at most two history lines a ratio trend has no slope, direction or projection |
| Comparisons.ShortHistoryNoRegression | scripts/generate_all_combinations.py:106-112 | a player insight built from at most two lines carries no regression anywhere |
| Comparisons.ComparisonsNeverRegress | scripts/generate_all_combinations.py:101-114 | no comparison player insight carries a slope, direction or projection |
| Comparisons.OutcomeOf | scripts/generate_all_combinations.py:241-267 | a pair's entry names its two weeks; it is a success exactly when the comparison succeeds, carrying that output's player and superlative counts, and otherwise carries the comparison's error |
| Comparisons.WritesOf | scripts/generate_all_combinations.py:248-250 | a successful pair writes two files (insights, then superlatives) and a failed pair none |
| Comparisons.RunPairs | scripts/generate_all_combinations.py:239-267 | every pair gets its own outcome in order (a failure does not stop the loop), and two files are written per success |
| Comparisons.Successes | scripts/generate_all_combinations.py:273 | the success count never exceeds the number of results |
| Comparisons.SuccessesAndFailures | scripts/generate_all_combinations.py:273-274 | `len(results) - successful` is exactly the number of failed entries |
| Comparisons.SeasonComparisons | scripts/generate_all_combinations.py:214-290 | `generate_all_season_comparisons`: n(n-1)/2 outcomes, successes plus failures make the total, two writes per success, and a pair succeeds exactly when both of its weeks are readable; the i-th result is the outcome of the i-th (earlier, later) pair of the available weeks, and the writes are those of the successful pairs in pair order |
| DefenseInsights.PositionPointsAppend | lambda_functions/insights_engine/calculators/defense_insights.py:88-95 | the points scored at a position over two groups of opponent lines add up |
| DefenseInsights.OtherPositionsScoreNothing | lambda_functions/insights_engine/calculators/defense_insights.py:89-95 | opponents at other positions contribute nothing to a position's points |
| DefenseInsights.PrevPoints | lambda_functions/insights_engine/calculators/defense_insights.py:97-106 | previous points exist exactly when the previous opponent list is truthy (non-empty) |
| DefenseInsights.PointsHistory | lambda_functions/insights_engine/calculators/defense_insights.py:108-119 | only history weeks in which the position scored a positive total are kept |
| DefenseInsights.PointsAllowedTrend | lambda_functions/insights_engine/calculators/defense_insights.py:76-131 | `_calculate_points_allowed_by_position`: current total, previous and delta exactly when the previous list is truthy, percentage exactly when the previous total is non-zero, the last three positive history weeks or none, and no regression |
| DefenseInsights.PointsAllowedIsTrend | lambda_functions/insights_engine/calculators/defense_insights.py:121-131 | the points-allowed trend is the shared trend builder with its regression removed |
| DefenseInsights.DefenseInsightOf | lambda_functions/insights_engine/calculators/defense_insights.py:16-74 | `calculate_defense_insights`: each of the four position trends is the shared trend (without regression) of the points allowed to that position this week, the previous week and the history weeks; the sack and interception trends are never set |
| DefenseInsights.AccumulateDefenseSums | lambda_functions/insights_engine/calculators/defense_insights.py:167-172 | the aggregation loop leaves each total equal to its column's sum over the defenders |
| DefenseInsights.MapTail | lambda_functions/insights_engine/calculators/defense_insights.py:167-172 | a column's sum is the first line's value plus the rest's sum |
| DefenseInsights.AggregateDefensiveStats | lambda_functions/insights_engine/calculators/defense_insights.py:133-174 | `aggregate_defensive_stats_from_players`: `{}` exactly when the team has no player at a defensive position, otherwise the team name and the five column sums over its defenders |
| DefenseInsights.TotalsRecord | lambda_functions/insights_engine/calculators/defense_insights.py:158-165 | the aggregated dict holds the team name and exactly the five totals |
| DefenseInsights.Matchups | lambda_functions/insights_engine/calculators/defense_insights.py:176-216 | `get_defense_vs_position_matchups`: one entry per defense with a trend for the position, each built from one such defense |
| DefenseInsights.UnknownPositionEmpty | lambda_functions/insights_engine/calculators/defense_insights.py:196-203 | a position other than QB, RB, WR or TE has no matchups |
| DefenseInsights.MatchupsOrdered | lambda_functions/insights_engine/calculators/defense_insights.py:213-214 | the matchups run from the most points allowed down |
| DefenseInsights.MatchupsComplete | lambda_functions/insights_engine/calculators/defense_insights.py:193-211 | every defense with a trend for the position is listed |
| DefenseInsights.MatchupsSortEntries | lambda_functions/insights_engine/calculators/defense_insights.py:205-214 | ranking the defenses first gives the same list as the stable descending sort of the built entries |
| Fetcher.Pow2 | lambda_functions/data_fetcher/index.py:55 | `2 ** attempt` is at least one second |
| Fetcher.Backoff | lambda_functions/data_fetcher/index.py:53-57 | before attempt k the fetcher has slept k times, 1, 2, 4, ... seconds |
| Fetcher.BackoffTotal | lambda_functions/data_fetcher/index.py:53-57 | before attempt k the fetcher has waited 2^k - 1 seconds in all |
| Fetcher.FetchWithRetry | lambda_functions/data_fetcher/index.py:38-59 | `get_nfl_stats_with_retry`: returns the first successful attempt's data with every earlier attempt failed and the backoff slept; re-raises the last attempt's error only after all `max_retries` attempts failed, with no sleep after the last; falls through with `None` exactly when `max_retries <= 0` |
| Fetcher.ReraiseWaits | lambda_functions/data_fetcher/index.py:53-59 | a run that re-raises slept `max_retries - 1` times, 2^(max_retries-1) - 1 seconds in all |
| Fetcher.KeyedWellFormed | lambda_functions/data_fetcher/index.py:277-278 | the keyed snapshot holds each gsis_id once, beside a record carrying it |
| Fetcher.LastReport | lambda_functions/data_fetcher/index.py:277-278 | the record found for an id carries that id |
| Fetcher.LastReportIffReported | lambda_functions/data_fetcher/index.py:277-278 | a player has a last record exactly when the snapshot reports them under a truthy id |
| Fetcher.KeyedGet | lambda_functions/data_fetcher/index.py:277-278 | looking a player up in the keyed snapshot finds their last record (a later duplicate overwrites an earlier one), and finds one exactly when they are reported |
| Fetcher.Common | lambda_functions/data_fetcher/index.py:293-294 | the shared players are drawn from the previous snapshot's keys |
| Fetcher.CommonSound | lambda_functions/data_fetcher/index.py:293-296 | each shared entry pairs a previous entry with the current record under the same key |
| Fetcher.CommonComplete | lambda_functions/data_fetcher/index.py:293-294 | every previous key that the current map holds is shared |
| Fetcher.UnmatchedIsFilter | lambda_functions/data_fetcher/index.py:281-288 | the new and cleared loops keep, in map order, the records whose key the other map lacks |
| Fetcher.ChangesIsFilter | lambda_functions/data_fetcher/index.py:293-321 | each change list holds, in order, one entry per shared player its condition accepts |
| Fetcher.DiffSizes | lambda_functions/data_fetcher/index.py:257-323 | at most one new injury per current record and one cleared per previous record, and upgrades plus downgrades never exceed the previous records |
| Fetcher.KeyedShorter | lambda_functions/data_fetcher/index.py:277-278 | the keyed snapshot has no more entries than the list |
| Fetcher.FilterSplit | lambda_functions/data_fetcher/index.py:302-313 | upgrades and downgrades come from disjoint parts of the shared players |
| Fetcher.KeyedFilterSound | lambda_functions/data_fetcher/index.py:277-288 | every record a filter of the keyed snapshot keeps is its player's last record |
| Fetcher.KeyedFilterComplete | lambda_functions/data_fetcher/index.py:277-288 | a reported player whose last record the filter accepts is kept |
| Fetcher.KeyedFilter | lambda_functions/data_fetcher/index.py:277-288 | a filter of the keyed snapshot lists a player exactly when they are reported and the filter accepts their last record |
| Fetcher.NewInjuries | lambda_functions/data_fetcher/index.py:280-283 | new injuries are exactly the players reported today and not yesterday, each with today's last record |
| Fetcher.ClearedInjuries | lambda_functions/data_fetcher/index.py:285-288 | cleared players are exactly those reported yesterday and not today, each with yesterday's last record |
| Fetcher.Pair | lambda_functions/data_fetcher/index.py:295-296 | a player in both snapshots is compared through their last record in each |
| Fetcher.CommonIsPairs | lambda_functions/data_fetcher/index.py:293-296 | every shared entry is some player's pair of last records |
| Fetcher.CommonHasPair | lambda_functions/data_fetcher/index.py:293-296 | every player both snapshots report has a shared entry |
| Fetcher.CommonFilterSound | lambda_functions/data_fetcher/index.py:293-321 | a player in a change list is reported in both snapshots and their pair passes the condition |
| Fetcher.CommonFilterComplete | lambda_functions/data_fetcher/index.py:293-321 | a player in both snapshots whose pair passes the condition is in the change list |
| Fetcher.CommonFilter | lambda_functions/data_fetcher/index.py:293-321 | a change list names a player exactly when both snapshots report them and their pair of last records passes the condition |
| Fetcher.CommonEntries | lambda_functions/data_fetcher/index.py:303-320 | every change entry holds today's record and the field from both last records |
| Fetcher.Upgraded | lambda_functions/data_fetcher/index.py:299-307 | a player is upgraded exactly when both snapshots report them, they practised yesterday (level above 0) and practise more today |
| Fetcher.Downgraded | lambda_functions/data_fetcher/index.py:308-313 | a player is downgraded exactly when both snapshots report them, they practise today (level above 0) and less than yesterday |
| Fetcher.UpgradeExcludesDowngrade | lambda_functions/data_fetcher/index.py:302-313 | no player is both upgraded and downgraded |
| Fetcher.PracticeEntries | lambda_functions/data_fetcher/index.py:303-313 | each upgrade or downgrade entry holds today's record and the practice status from yesterday's and today's last records |
| Fetcher.StatusChanged | lambda_functions/data_fetcher/index.py:315-321 | a status change is recorded exactly when both snapshots report the player and `report_status` differs; each entry's two statuses differ |
| Fetcher.KeyedSnoc | lambda_functions/data_fetcher/index.py:277-278 | keying one more record assigns it under its id when it has one |
| Fetcher.FilterOne | lambda_functions/data_fetcher/index.py:277 | the id filter keeps a single record exactly when it has an id |
| Fetcher.KeyedSkipsUnidentified | lambda_functions/data_fetcher/index.py:277-278 | dropping the records without a truthy gsis_id does not change the keyed snapshot |
| Fetcher.IgnoresUnidentified | lambda_functions/data_fetcher/index.py:257-323 | records without a truthy gsis_id take no part in the diff |
| Fetcher.ChangesFor | lambda_functions/data_fetcher/index.py:482-484 | a diff is computed exactly when there is a non-empty previous snapshot |
| Fetcher.CurrentWeekWrites | lambda_functions/data_fetcher/index.py:490-546 | the current week writes the dated snapshot, then latest, then a changes file exactly when there is a diff in which something changed |
| Fetcher.WeekInjuryWrites | lambda_functions/data_fetcher/index.py:464-575 | one pass of the injury loop ends with the week's final file and writes no week or metadata file; a changes file only for the current week |
| Fetcher.InjuryWrites | lambda_functions/data_fetcher/index.py:464-575 | the injury loop writes only injury files, and a changes file only for the current week with a previous snapshot and a change |
| Fetcher.InjuryFilesAppend | lambda_functions/data_fetcher/index.py:464-575 | the injury-file property survives concatenating the loop's passes |
| Fetcher.EveryWeekFinal | lambda_functions/data_fetcher/index.py:549-575 | every week of `injury_data` gets its final file |
| Fetcher.AggregateWrites | lambda_functions/data_fetcher/index.py:402-608 | once every week passed: no week file, changes files only as above, and the metadata file is written exactly when it validates, as the last write |
| Fetcher.LaterWrites | lambda_functions/data_fetcher/index.py:398-608 | nothing after the week loop is written when a week failed; the metadata file exactly when all weeks pass and the metadata validates |
| Fetcher.RunError | lambda_functions/data_fetcher/index.py:398-400 | the run raises exactly when a week failed (with the count of failing weeks) or the metadata fails validation |
| Fetcher.SaveWith | lambda_functions/data_fetcher/index.py:326-611 | `save_to_s3` under any week verdict: a run that does not raise ends with the metadata file |
| Fetcher.SaveToStore | lambda_functions/data_fetcher/index.py:326-611 | `save_to_s3`: raises exactly when a week fails `validate_weekly_data` or the metadata fails `validate_metadata`; the week failure is the one reported first; a run that does not raise ends with the metadata write |
| Fetcher.WeekWrittenIffPasses | lambda_functions/data_fetcher/index.py:353-395 | under any verdict a week's file is written exactly when that week passed, whether or not the run fails later |
| Fetcher.WeekWrittenIffValid | lambda_functions/data_fetcher/index.py:367-395 | a week's file is written exactly when that week passed `validate_weekly_data` |
| Fetcher.InvalidWeekStopsEarly | lambda_functions/data_fetcher/index.py:398-400 | a failing week stops the run with only week files written, and the error counts the failing weeks |
| Fetcher.MetadataWrittenIffSuccessWith | lambda_functions/data_fetcher/index.py:587-608 | under any verdict the metadata file is written exactly when the run does not raise |
| Fetcher.MetadataOnlyLater | lambda_functions/data_fetcher/index.py:353-395 | week files add no metadata file |
| Fetcher.MetadataWrittenIffSuccess | lambda_functions/data_fetcher/index.py:587-608 | the metadata file is written exactly when `save_to_s3` does not raise |
| Fetcher.ChangesFileOnlyWithChanges | lambda_functions/data_fetcher/index.py:530-546 | the changes file is written only for the current week, only with a previous snapshot, and only when some category changed |
| LogParser.Field | scripts/check_scheduled_runs.py:66 | a row's field holds the value of the last cell carrying that name (a later duplicate overrides an earlier one), and is absent when no cell names it |
| LogParser.ReportIffBilled | scripts/check_scheduled_runs.py:70 | a message counts as a REPORT line exactly when it contains "Billed Duration"; the separate "Duration" test never decides anything |
| LogParser.MetricOr | scripts/check_scheduled_runs.py:72-77 | a metric reads the last tab-separated part whose stripped key matches, and falls back to the default when no part carries that key |
| LogParser.ToInvocation | scripts/check_scheduled_runs.py:79-86 | an invocation takes timestamp and request id from the row's fields (possibly absent) and its durations, memory and status from the REPORT metrics, using "N/A" or "success" when a metric is missing |
| LogParser.ParseLogResults | scripts/check_scheduled_runs.py:61-88 | the invocations are exactly the REPORT rows, converted in their original order; non-REPORT rows are dropped, so there are never more invocations than rows |
| LogParser.InvocationSource | scripts/check_scheduled_runs.py:65-86 | every invocation comes from a REPORT row, and it is the j-th invocation exactly when j REPORT rows come before that row |
| LogParser.InvocationOfReport | scripts/check_scheduled_runs.py:65-86 | every REPORT row yields an invocation, placed after the invocations of the REPORT rows before it |
| LogParser.MetricSplitsAtFirstColon | scripts/check_scheduled_runs.py:75-76 | a part is split at its first colon: the key never contains a colon, and key and value are the stripped text on either side of that colon |
| LogParser.StripKeepsCharacters | scripts/check_scheduled_runs.py:76 | stripping a key or value only removes characters and never introduces one |
| Models.ParseDirection | lambda_functions/insights_engine/models.py:19 | a direction is recognised only from its own name ("rising", "falling", "stable") |
| Models.ParseName | lambda_functions/insights_engine/models.py:19 | every direction's name reads back as that direction |
| Models.TrendToDict | lambda_functions/insights_engine/models.py:11-24 | a trend's dict holds the current value and the three-week values always; each of the optional numbers (previous value, delta, delta percentage, slope, projection) and the direction is a key exactly when it is not None, holding that value (the direction by its name), never a null; it has no other key |
| Models.TrendRoundTrip | lambda_functions/insights_engine/models.py:23-24 | dropping the None fields loses nothing: decoding a trend's dict gives back that trend |
| Models.VolumeToDict | lambda_functions/insights_engine/models.py:36-48 | each volume metric appears, as its trend's dict, exactly when that trend is set |
| Models.VolumeRoundTrip | lambda_functions/insights_engine/models.py:36-48 | decoding the volume dict gives back the same volume trends |
| Models.EfficiencyToDict | lambda_functions/insights_engine/models.py:60-72 | each efficiency ratio appears, as its trend's dict, exactly when that trend is set |
| Models.EfficiencyRoundTrip | lambda_functions/insights_engine/models.py:60-72 | decoding the efficiency dict gives back the same efficiency trends |
| Models.PlayerToDict | lambda_functions/insights_engine/models.py:100-124 | the identity fields are always present; the trend groups and the deltas appear exactly when set; a rank appears exactly when it is set and non-zero |
| Models.PlayerRoundTrip | lambda_functions/insights_engine/models.py:100-124 | encoding a player insight loses exactly the ranks equal to 0, and an insight reads back unchanged iff neither rank is 0 |
| Models.NumObjRoundTrip | lambda_functions/insights_engine/models.py:141 | a name-to-share dict reads back as the same pairs, in the same order |
| Models.TeamToDict | lambda_functions/insights_engine/models.py:146-165 | the identity fields are always present; each pace trend appears when set; the entropy appears when not None; the WR distribution appears only when it is non-empty |
| Models.TeamRoundTrip | lambda_functions/insights_engine/models.py:146-165 | encoding a team insight loses exactly an empty WR distribution, and an insight reads back unchanged iff its distribution is not the empty dict |
| Models.DefenseToDict | lambda_functions/insights_engine/models.py:188-209 | the identity fields are always present, and each position or pressure trend appears exactly when it is set |
| Models.SuperlativeToDict | lambda_functions/insights_engine/models.py:212-231 | an award's dict carries every field of the award under its own name |
| Models.SuperlativeRoundTrip | lambda_functions/insights_engine/models.py:230-231 | decoding an award's dict gives back that award |
| Models.OutputToDict | lambda_functions/insights_engine/models.py:268-278 | the output dict has exactly the eight top-level keys, each holding its field unchanged |
| Orchestrator.Loaded | lambda_functions/insights_engine/index.py:176-183 | a week's data is usable exactly when its file is stored and is a non-empty dict |
| Orchestrator.IdPairs | lambda_functions/insights_engine/index.py:201 | building the id map succeeds exactly when every line has a player id (otherwise the lookup raises), pairing each line with its id in line order |
| Orchestrator.ById | lambda_functions/insights_engine/index.py:201-202 | the id map has distinct keys, no more entries than lines, and maps each id to a line carrying that id; a line without an id makes it fail |
| Orchestrator.ByIdLastWins | lambda_functions/insights_engine/index.py:201-202 | when two lines share an id, the map keeps the later one |
| Orchestrator.ByIdComplete | lambda_functions/insights_engine/index.py:201-202 | every line's id is a key of the id map |
| Orchestrator.WeekMaps | lambda_functions/insights_engine/index.py:205-219 | per fetched week, an id map exists exactly when that week's data is usable; it fails exactly when some usable week has a line without an id |
| Orchestrator.PlayerHistoryIsSubsequence | lambda_functions/insights_engine/index.py:206-219 | a player's history is that player's line from each fetched week that has one, in week order, skipping the weeks without it |
| Orchestrator.PlayerHistoryOwnLines | lambda_functions/insights_engine/index.py:216-218 | every line in a player's history carries that player's id |
| Orchestrator.PlayerInsightsOf | lambda_functions/insights_engine/index.py:224-237 | one insight per entry of the current id map, in map order, each built from the current line, the previous week's line for the same id and the player's history |
| Orchestrator.TeamNamesMembers | lambda_functions/insights_engine/index.py:241 | a team is listed exactly when some current line names it with a non-empty team |
| Orchestrator.Teams | lambda_functions/insights_engine/index.py:241 | the team set has no repeats and holds exactly the non-empty teams the current lines name |
| Orchestrator.TeamHistory | lambda_functions/insights_engine/index.py:259-273 | a team's history keeps only the non-empty aggregates of the usable fetched weeks, at most one per week |
| Orchestrator.TeamInsightFor | lambda_functions/insights_engine/index.py:245-286 | a team's insight is the team calculation on the aggregate of the team's current lines, the aggregate of its previous lines when it has any (else none), its history of earlier weeks and its current lines; it carries its team, season and week, and never a pace trend |
| Orchestrator.NamedTeamIsMeasured | lambda_functions/insights_engine/index.py:247-253 | a team named in the current week always gets plays-per-game, pass-rate, RB entropy and WR distribution values |
| Orchestrator.TeamsOf | lambda_functions/insights_engine/index.py:240-286 | exactly one team insight per team named in the current week, no team twice |
| Orchestrator.TeamsOfContent | lambda_functions/insights_engine/index.py:245-286 | each team's insight is computed from that team's lines alone |
| Orchestrator.LoadedWeeks | lambda_functions/insights_engine/index.py:208-210 | the file of each fetched week, in fetch order, or nothing where the week is not usable |
| Orchestrator.ReadInputs | lambda_functions/insights_engine/index.py:161-202 | reading fails with "no data for week_to" when that week is unusable, else with "no data for week_from"; on success it holds both weeks' lines, their id maps and the fetched weeks |
| Orchestrator.ReadSucceeds | lambda_functions/insights_engine/index.py:176-202 | when both compared weeks are usable and every fetched week's lines have ids, reading succeeds |
| Orchestrator.PlayerIds | lambda_functions/insights_engine/index.py:224-237 | the player insights carry the current id map's ids, in map order |
| Orchestrator.IdsCoverLines | lambda_functions/insights_engine/index.py:201 | the id map's keys are distinct and include every current line's id |
| Orchestrator.OnePerPlayer | lambda_functions/insights_engine/index.py:201-237 | exactly one player insight per distinct player id of the current week |
| Orchestrator.PlayerInsightInputs | lambda_functions/insights_engine/index.py:225-235 | each player's insight is built from the last current line with its id, the last previous line with its id (if any), and its history |
| Orchestrator.MetadataOf | lambda_functions/insights_engine/index.py:310-316 | the metadata block holds the four counts and the weeks analysed |
| Orchestrator.GenerateInsights | lambda_functions/insights_engine/index.py:137-319 | generation fails exactly when reading the inputs fails, with the same error; on success, the output carries the requested season and week, one insight per current player, no defense insights, one team insight per team named this week, each from that team's lines, the five award families computed from the player insights (at most 18), and metadata counts equal to the list lengths |
| Orchestrator.OnePerTeam | lambda_functions/insights_engine/index.py:240-307 | the output's team insights are one per team named in the current week |
| Orchestrator.ResolveWindow | lambda_functions/insights_engine/index.py:37-56 | explicit weeks win (season defaulting to 2025); otherwise missing or empty metadata stops with 500, metadata without a current week raises, and otherwise the current week is compared with the one before it |
| Orchestrator.Writes | lambda_functions/insights_engine/index.py:84-99 | a successful run writes the week's output, then its superlatives, then the same output as the latest snapshot |
| Orchestrator.Respond | lambda_functions/insights_engine/index.py:75-134 | 200 exactly when generation succeeds and all three writes go through; otherwise 500, keeping the writes made before the failing one |
| Orchestrator.Handler | lambda_functions/insights_engine/index.py:21-134 | the handler raises exactly when the window cannot be resolved because of a missing week; it answers 400 exactly when either compared week has no stored file, and 200 exactly when all three writes were made |
| Orchestrator.SuccessfulRunWrites | lambda_functions/insights_engine/index.py:75-99 | a 200 answer means generation succeeded and the three writes are exactly that output's writes |
| Orchestrator.ScheduledRunSucceeds | lambda_functions/insights_engine/index.py:44-125 | a scheduled run with readable current and previous weeks answers 200, after writing the current week's output |
| Schema.MinPlayersForWeek | lambda_functions/data_validator/schema.py:96-108 | a week is a playoff week exactly when its minimum is below 800; the rounds expect 300, 150, 100 and 50 players, and every other week 800 |
| Schema.MinimumsAgree | lambda_functions/data_validator/schema.py:96-108 | the schema's minimum for every week equals the fetcher's validator's minimum |
| Schema.MinimumsBounded | lambda_functions/data_validator/schema.py:70-77 | no week expects fewer than 50 players, and later playoff rounds never expect more than earlier ones |
| Schema.ExpectedWeeks | lambda_functions/data_validator/schema.py:28-36 | an unlisted season is expected to have 22 weeks; every season expects between 1 and 22 |
| Schema.SeasonsCovered | lambda_functions/data_validator/schema.py:23-36 | every valid season has a week count; past seasons have their regular weeks plus four playoff weeks (17 in 2020, 18 after) |
| Schema.RangesWellFormed | lambda_functions/data_validator/schema.py:84-94 | every stat range is non-empty, in the schema's table and in the validator's |
| Schema.SchemaRangesWithinFetcher | lambda_functions/data_validator/schema.py:84-94 | the two tables list the same stats in the same order with the same upper bounds; they differ only in rushing and receiving yards, whose fetcher lower bound is lower |
| Validation.MinPlayersForWeek | lambda_functions/data_fetcher/validation.py:42-54 | the minimum is 800 exactly outside weeks 19-22, and 300, 150, 100 and 50 in those weeks |
| Validation.PlayoffMinimumsShrink | lambda_functions/data_fetcher/validation.py:36-54 | later playoff rounds never expect more players than earlier ones |
| Validation.Sample | lambda_functions/data_fetcher/validation.py:88-92 | a sample exists exactly when one of the first ten entries is a non-empty dict |
| Validation.FirstPlayer | lambda_functions/data_fetcher/validation.py:89-92 | the sample is the first entry that is a non-empty dict |
| Validation.MissingFields | lambda_functions/data_fetcher/validation.py:95-98 | the missing fields are exactly the required fields the sample lacks |
| Validation.PlayerOutliers | lambda_functions/data_fetcher/validation.py:108-110 | every reported outlier lies outside its stat's range |
| Validation.PlayerOutliersExact | lambda_functions/data_fetcher/validation.py:107-110 | each reported outlier is a `STAT_RANGES` entry the player breaks, carrying the player's name and value, and every entry the player breaks is reported |
| Validation.Outliers | lambda_functions/data_fetcher/validation.py:104-111 | there are at most as many outliers as entries times stats |
| Validation.OutliersJoined | lambda_functions/data_fetcher/validation.py:104-111 | the scan is the in-order concatenation of each player dict's own outliers; entries that are empty or not dicts contribute nothing |
| Validation.ValidateWeekly | lambda_functions/data_fetcher/validation.py:57-130 | a missing `data` or `players` key fails with that single message; the verdict is valid exactly when no message mentions "missing" or "corruption"; too few players puts the count message first |
| Validation.NoneCriticalAppend | lambda_functions/data_fetcher/validation.py:126 | a list of messages has no critical message exactly when neither of its parts has one |
| Validation.OutlierErrorsHarmless | lambda_functions/data_fetcher/validation.py:111-122 | the outlier messages are harmless exactly when there are at most 20 outliers and none of the first three names a player whose name contains "missing" or "corruption" |
| Validation.WeeklyValidIff | lambda_functions/data_fetcher/validation.py:77-130 | a player list is valid exactly when there is no sample, or the sample has every required field, there are at most 20 outliers, and none of the three logged names looks critical; the player count never matters |
| Validation.ValidityIgnoresWeek | lambda_functions/data_fetcher/validation.py:124-128 | the verdict's validity does not depend on the week |
| Validation.UnusualMessages | lambda_functions/data_fetcher/validation.py:111-116 | only the first three outliers are logged, in scan order |
| Validation.CorruptionIff | lambda_functions/data_fetcher/validation.py:118-122 | one corruption warning, with the outlier count, appears exactly when there is a sample and more than 20 outliers |
| Validation.OnlyFirstHundredScanned | lambda_functions/data_fetcher/validation.py:104 | entries after the first hundred never change the verdict, beyond how many entries there are |
| Validation.SampleErrorsByPrefix | lambda_functions/data_fetcher/validation.py:89-104 | the sample checks read only the first hundred entries |
| Validation.ValidateMetadata | lambda_functions/data_fetcher/validation.py:133-156 | metadata is valid exactly when it has the season, the week and a non-empty weeks list; each missing field is reported, with at most three messages |
| WeekWindow.InsertSorted | lambda_functions/insights_engine/index.py:168 | inserting a week into an ascending list gives an ascending list holding the old weeks and the new one |
| WeekWindow.SortedSet | lambda_functions/insights_engine/index.py:168 | `sorted(set(weeks))` is ascending, without repeats, and holds exactly the given weeks |
| WeekWindow.WeeksToFetch | lambda_functions/insights_engine/index.py:161-168 | the fetched weeks are ascending, at most three, and are exactly week_from, week_to and, when week_from is at least 2, the week before week_from |
| WeekWindow.ScheduledWindow | lambda_functions/insights_engine/index.py:161-168 | a scheduled run for week w of at least 3 fetches weeks w-2, w-1 and w |
| WeekWindow.FirstWeeksWindow | lambda_functions/insights_engine/index.py:161-168 | comparing week 1 with week 2 fetches only those two weeks |
| Validation.RangeOutliers | lambda_functions/data_fetcher/validation.py:107-110 | at most one outlier per checked stat, and each one lies outside its range |
| Validation.RangeOutliersExact | lambda_functions/data_fetcher/validation.py:107-110 | the outliers are exactly the ranges whose stat is present and outside the bounds, in range order, each reported once with the player's name (`Unknown` when missing) and value |
| Validation.RangeOutliersCover | lambda_functions/data_fetcher/validation.py:107-110 | every reported outlier is a range whose stat is present and outside the bounds, carrying the player's name and value, and every such range is reported |
| PlayerInsights.PrevField | lambda_functions/insights_engine/calculators/player_insights.py:83 | the previous value is read only when there is a non-empty previous line that holds the field |
| PlayerInsights.FieldHistoryAppend | lambda_functions/insights_engine/calculators/player_insights.py:84 | the history values of consecutive weeks are the values of each week in turn: weeks without the field contribute nothing |
| PlayerInsights.FieldHistoryOne | lambda_functions/insights_engine/calculators/player_insights.py:84 | one week contributes its value exactly when it holds the field |
| PlayerInsights.FieldTrend | lambda_functions/insights_engine/calculators/player_insights.py:80-87 | a counted field has a trend exactly when the current line holds it, computed from the current value, the previous value and the history values |
| PlayerInsights.VolumeTrendsOf | lambda_functions/insights_engine/calculators/player_insights.py:69-120 | target share, carries and targets are trended when present; snap share never is; touch share is the bare carries-plus-targets figure, present exactly when that figure is positive |
| PlayerInsights.RatioHistoryAppend | lambda_functions/insights_engine/calculators/player_insights.py:139-142 | the ratio history of consecutive weeks is each week's ratio history in turn |
| PlayerInsights.RatioHistoryOne | lambda_functions/insights_engine/calculators/player_insights.py:141-142 | one week contributes its ratio exactly when its denominator is positive |
| PlayerInsights.PrevRatio | lambda_functions/insights_engine/calculators/player_insights.py:136-137 | the previous ratio exists exactly when there is a previous line whose denominator is positive, and then it is that line's ratio |
| PlayerInsights.RatioTrend | lambda_functions/insights_engine/calculators/player_insights.py:133-148 | a ratio has a trend exactly when its current denominator is positive, built from the current ratio, the previous ratio and the ratio history |
| PlayerInsights.EfficiencyTrendsOf | lambda_functions/insights_engine/calculators/player_insights.py:122-231 | each of the five ratios is present exactly when its current denominator (carries, targets, targets, receptions, carries plus receptions) is positive, and its current value is that quotient |
| PlayerInsights.TouchesDelta | lambda_functions/insights_engine/calculators/player_insights.py:312-316 | adding the delta to the previous week's carries plus receptions gives the current week's |
| PlayerInsights.PlayerInsightOf | lambda_functions/insights_engine/calculators/player_insights.py:17-67 | the insight copies the identity fields (empty when missing), always carries both trend groups, has both deltas exactly when there is a non-empty previous line (each adding back to the current value), and no ranks |
| PlayerInsights.EmptyPreviousIsAbsent | lambda_functions/insights_engine/calculators/player_insights.py:58 | an empty previous line gives the same insight as no previous line |
| PlayerInsights.TopGainersBy | lambda_functions/insights_engine/calculators/player_insights.py:349-362 | the top gainers are a prefix of the stable descending ranking of the players that have the metric, of length min(top_n, candidates) |
| PlayerInsights.TopGainersAreTop | lambda_functions/insights_engine/calculators/player_insights.py:349-362 | a player with the metric who is left out is not above any returned player |
| PlayerInsights.TopGainers | lambda_functions/insights_engine/calculators/player_insights.py:318-362 | every returned player is one of the given insights and has a value at the dotted path; values do not increase along the result; a non-negative `top_n` yields min(top_n, players with a value) entries; the result is the ranking step applied to the path's value |
| Trends.SquareDevNonNegative | lambda_functions/insights_engine/calculators/player_insights.py:295 | the regression's denominator is never negative |
| Trends.XSpreadPositive | lambda_functions/insights_engine/calculators/player_insights.py:295-300 | with two or more points the denominator is positive, so the zero-denominator branch is unreachable |
| Trends.Regression | lambda_functions/insights_engine/calculators/player_insights.py:275-310 | no values give slope 0 and projection 0; one value gives slope 0 and that value as projection |
| Trends.ProjectionNonNegative | lambda_functions/insights_engine/calculators/player_insights.py:310 | with two or more points the projection is never negative |
| Trends.Regression3 | lambda_functions/insights_engine/calculators/player_insights.py:275-310 | for three values the slope is half the change from first to last, and the projection is the mean plus that change, clamped at 0 |
| Trends.Fit3 | lambda_functions/insights_engine/calculators/player_insights.py:275-310 | the three-point fit never projects below 0, and its slope is positive exactly when the last value exceeds the first |
| Trends.Fit3IsRegression | lambda_functions/insights_engine/calculators/player_insights.py:275-310 | the closed form agrees with the least-squares computation |
| Trends.RegressionOfLine | lambda_functions/insights_engine/calculators/player_insights.py:275-310 | three points on a line are fitted by that line, projected one step further |
| Trends.RegressionExample | lambda_functions/insights_engine/calculators/player_insights.py:275-310 | [10, 20, 30] gives slope 10 and projection 40 |
| Trends.Classify | lambda_functions/insights_engine/calculators/player_insights.py:266-271 | rising exactly above 0.05, falling exactly below -0.05, stable in between, bounds included |
| Trends.CalculateTrend | lambda_functions/insights_engine/calculators/player_insights.py:233-273 | a delta exactly when there is a previous value, a percentage exactly when that value is non-zero; with three or more history values, the last three are kept and fitted and the direction follows the slope; otherwise no regression fields |
| Trends.DeltaInverse | lambda_functions/insights_engine/calculators/player_insights.py:250-254 | the previous value plus the delta is the current value, and the percentage converts back to the delta |
| Trends.TrendUsesLastThree | lambda_functions/insights_engine/calculators/player_insights.py:257-260 | history older than the last three values never changes the trend |
| Trends.UnfittedTrend | lambda_functions/insights_engine/calculators/team_insights.py:96-104 | a trend built by hand, as the team calculator does, has no direction, slope or projection |
| Trends.UnfittedIsTrend | lambda_functions/insights_engine/calculators/team_insights.py:139-147 | the hand-built trend is exactly the player calculator's trend with its fitted line cleared: same delta, percentage and last three values |
| TeamInsights.AccumulateSums | lambda_functions/insights_engine/calculators/team_insights.py:241-257 | the aggregation loop adds up each column: QB attempts, carries, yards and touchdowns each end up as the sum over the players |
| TeamInsights.AggregateTeamStats | lambda_functions/insights_engine/calculators/team_insights.py:218-259 | a team with no lines gives the empty dict; otherwise the dict holds the team name and exactly the four totals, each the sum over that team's lines, with pass attempts from QBs only |
| TeamInsights.TotalsRecord | lambda_functions/insights_engine/calculators/team_insights.py:233-239 | the team dict is non-empty and holds the team name and exactly the four totals |
| TeamInsights.OtherTeamsIgnored | lambda_functions/insights_engine/calculators/team_insights.py:227 | lines of other teams never change a team's totals |
| TeamInsights.PlaysHistory | lambda_functions/insights_engine/calculators/team_insights.py:90-94 | only history weeks with a positive play count are kept |
| TeamInsights.PrevPlays | lambda_functions/insights_engine/calculators/team_insights.py:83-88 | the previous play count is kept exactly when there is a non-empty previous week and its count is non-zero |
| TeamInsights.PlaysTrend | lambda_functions/insights_engine/calculators/team_insights.py:70-106 | the trend holds the current play count; a previous value and delta exactly when the previous count is truthy, the delta adding back to the current count; zero or three positive history values; no fitted line |
| TeamInsights.PlaysTrendIsTrend | lambda_functions/insights_engine/calculators/team_insights.py:96-104 | the plays trend is the player calculator's trend on the play counts, without its fitted line |
| TeamInsights.PassRate | lambda_functions/insights_engine/calculators/team_insights.py:119-121 | a pass rate exists exactly when the play count is positive |
| TeamInsights.PassRateInUnit | lambda_functions/insights_engine/calculators/team_insights.py:119-121 | with non-negative attempts the pass rate lies between 0 and 1 |
| TeamInsights.PassRateHistory | lambda_functions/insights_engine/calculators/team_insights.py:131-137 | one history rate per week with a positive play count |
| TeamInsights.PrevPassRate | lambda_functions/insights_engine/calculators/team_insights.py:123-129 | the previous rate exists exactly when there is a non-empty previous week with a positive play count |
| TeamInsights.PassRateTrend | lambda_functions/insights_engine/calculators/team_insights.py:108-149 | the current rate is attempts over plays, or 0 without plays; a previous value and delta exactly when the previous rate exists, a percentage only against a non-zero rate; no fitted line |
| TeamInsights.PassRateTrendIsTrend | lambda_functions/insights_engine/calculators/team_insights.py:139-147 | the pass-rate trend is the player calculator's trend on the rates, without its fitted line |
| TeamInsights.RbTouchList | lambda_functions/insights_engine/calculators/team_insights.py:160-172 | only RBs with a positive touch count contribute, in input order |
| TeamInsights.EntropyNonNegative | lambda_functions/insights_engine/calculators/team_insights.py:178-182 | with a sound log2, entropy over shares of at most the whole is never negative |
| TeamInsights.RbCommitteeEntropy | lambda_functions/insights_engine/calculators/team_insights.py:151-184 | no RB touches give 0; with a sound log2 and rounding, the entropy is never negative |
| TeamInsights.BellCowEntropy | lambda_functions/insights_engine/calculators/team_insights.py:151-184 | a single RB with touches gives entropy 0 |
| TeamInsights.EvenSplitEntropy | lambda_functions/insights_engine/calculators/team_insights.py:151-184 | two RBs with equal touches give one bit of entropy, rounded |
| TeamInsights.EntropyOfTouches | lambda_functions/insights_engine/calculators/team_insights.py:166-184 | with some RB touches the result is the rounded entropy of each back's share of the total |
| TeamInsights.Wrs | lambda_functions/insights_engine/calculators/team_insights.py:192-195 | the WRs kept are players of the list with a positive target count |
| TeamInsights.TopWrs | lambda_functions/insights_engine/calculators/team_insights.py:207-211 | the three WRs with the most targets (fewer when there are fewer), ties kept in input order |
| TeamInsights.Shares | lambda_functions/insights_engine/calculators/team_insights.py:211-214 | each top WR is paired with its name and its rounded share of the WRs' total targets |
| TeamInsights.WrTargetDistribution | lambda_functions/insights_engine/calculators/team_insights.py:186-216 | at most three names, none twice, and empty exactly when no WR has targets |
| TeamInsights.DistributionFromTop | lambda_functions/insights_engine/calculators/team_insights.py:210-214 | every entry is the name and rounded share of one of the top three WRs |
| TeamInsights.DistributionNonNegative | lambda_functions/insights_engine/calculators/team_insights.py:213-214 | with a sound rounding every share is non-negative |
| TeamInsights.TopWrNamed | lambda_functions/insights_engine/calculators/team_insights.py:211-214 | every top-three WR's name appears in the distribution |
| TeamInsights.DistinctNamesDistribution | lambda_functions/insights_engine/calculators/team_insights.py:210-214 | when the top WRs' names differ, the distribution is exactly their shares, in ranking order |
| TeamInsights.TeamInsightOf | lambda_functions/insights_engine/calculators/team_insights.py:17-68 | the insight carries its team, week and season; the plays and pass-rate trends exactly when the team's current stats are non-empty; each trend is the shared trend (without regression) of plays and of pass rate over the current, previous and history stats; the RB committee entropy and the WR target distribution exactly when the team has current players, computed from those players; never a pace trend |
| Superlatives.Awards | lambda_functions/insights_engine/calculators/superlatives.py:70-85 | one award per ranked player, in order, with consecutive ranks and each player's metric value |
| Superlatives.TopAwards | lambda_functions/insights_engine/calculators/superlatives.py:122-148 | at most three awards, as many as there are candidates up to three, all filed under the family, ranked 1, 2, 3 in order of non-increasing value |
| Superlatives.TopAwardAt | lambda_functions/insights_engine/calculators/superlatives.py:131-148 | award i goes to the player ranked i by the metric, for that player's value |
| Superlatives.RankedDescending | lambda_functions/insights_engine/calculators/superlatives.py:53-67 | the target-share ranking lists only players with a delta, largest first |
| Superlatives.Gainers | lambda_functions/insights_engine/calculators/superlatives.py:69-85 | the gainers are the first three of the ranking, ranked 1..3, values non-increasing |
| Superlatives.Losers | lambda_functions/insights_engine/calculators/superlatives.py:87-105 | the losers are the last three of the ranking, last first, ranked 1..3, values non-decreasing |
| Superlatives.TargetShareAwards | lambda_functions/insights_engine/calculators/superlatives.py:43-107 | twice min(3, candidates) awards, all under target share: the first half descending, the second half ascending |
| Superlatives.HalvesOrdered | lambda_functions/insights_engine/calculators/superlatives.py:69-105 | gainers followed by losers stay filed under target share, each half keeping its own order |
| Superlatives.GainerAt | lambda_functions/insights_engine/calculators/superlatives.py:70-85 | the first min(3, n) awards go to the top of the ranking, as gainers of rank i + 1 |
| Superlatives.LoserAt | lambda_functions/insights_engine/calculators/superlatives.py:88-105 | the remaining awards go to the bottom of the ranking, lowest first, as losers of rank j + 1 |
| Superlatives.LosersOverlapGainers | lambda_functions/insights_engine/calculators/superlatives.py:70-90 | with fewer than six candidates the same player is both a gainer and a loser: losers are not filtered by sign or against the gainers |
| Superlatives.AllSuperlatives | lambda_functions/insights_engine/calculators/superlatives.py:16-41 | the list length is the sum of the five families' sizes, six at most for target share and three for each other family, so at most 18 |
| Superlatives.AllRanksWithinThree | lambda_functions/insights_engine/calculators/superlatives.py:16-41 | every award of the full list has rank 1, 2 or 3 |
| Superlatives.FantasyCategoryIsFantasyFamily | lambda_functions/insights_engine/calculators/superlatives.py:263-282 | asking for the fantasy category returns exactly the fantasy family's awards, in order |
| Superlatives.FantasyBlockOnly | lambda_functions/insights_engine/calculators/superlatives.py:277 | of the five families only the fantasy one is filed under the fantasy category |
| Superlatives.SubcategoryBlocks | lambda_functions/insights_engine/calculators/superlatives.py:16-41 | the full list is the five families in order (target share, touches, YPC, catch rate, fantasy): each subcategory selects exactly its own family's awards |
| Superlatives.Block | lambda_functions/insights_engine/calculators/superlatives.py:279-280 | selecting a family's subcategory keeps its block and drops the awards around it |
| Superlatives.ByCategory | lambda_functions/insights_engine/calculators/superlatives.py:263-282 | the result keeps exactly the awards of the category, narrowed to the subcategory only when one is given and non-empty, each as often as in the input |
| Superlatives.PlayerAwards | lambda_functions/insights_engine/calculators/superlatives.py:284-290 | the result keeps exactly the player's awards, each as often as in the input |
| SeasonTotals.DistinctTail | lambda_functions/api/index.py:500-513 | a list of distinct field names splits into a head absent from a distinct tail |
| SeasonTotals.LineConvertibleTail | lambda_functions/api/index.py:552-558 | a line's fields all convert exactly when the first converts and the rest all convert |
| SeasonTotals.AddFieldsConverts | lambda_functions/api/index.py:552-558 | adding a line's stats raises exactly when one of the summed values is a string `float` rejects |
| SeasonTotals.AddFieldsSpec | lambda_functions/api/index.py:552-558 | adding a line leaves every field outside the list alone, starts a missing sum at 0 and adds the value only when it is present, non-null and not the empty string (a list or object adds 0) |
| SeasonTotals.SummedFieldsDistinct | lambda_functions/api/index.py:501-513 | no field is summed twice in one line |
| SeasonTotals.DistinctGroups | lambda_functions/api/index.py:501-513 | the passing, rushing, receiving and scoring groups each list distinct fields |
| SeasonTotals.PassingApart | lambda_functions/api/index.py:501-513 | no passing field is also a rushing, receiving or scoring field |
| SeasonTotals.RushingApart | lambda_functions/api/index.py:501-513 | no rushing field is also a receiving or scoring field |
| SeasonTotals.ReceivingApart | lambda_functions/api/index.py:501-513 | no receiving field is also a scoring field |
| SeasonTotals.DistinctAppend | lambda_functions/api/index.py:501-513 | two distinct lists with no common field join into a distinct list |
| SeasonTotals.DisjointAppend | lambda_functions/api/index.py:501-513 | two lists apart from a third stay apart from it when joined |
| SeasonTotals.FoldConverts | lambda_functions/api/index.py:522-558 | the weekly loop raises exactly when some line with a truthy `player_id` holds a summed value `float` rejects; lines without an id are never read |
| SeasonTotals.ConvertibleSnoc | lambda_functions/api/index.py:530-533 | the lines convert when the earlier ones do and the last one does or has no truthy id |
| SeasonTotals.SummedConverts | lambda_functions/api/index.py:522-558 | the loop over the API's summed fields raises exactly when a line's value does not convert |
| SeasonTotals.StepOther | lambda_functions/api/index.py:530-535 | a line leaves every other player's aggregate untouched |
| SeasonTotals.StepOwn | lambda_functions/api/index.py:535-558 | a line of a player bumps their existing aggregate, or starts a new one from this line when they have none |
| SeasonTotals.BumpExpected | lambda_functions/api/index.py:537-558 | bumping the aggregate of a player's earlier lines with one more line gives the aggregate of all of them: one more week, the same identity, the new team and position added, each sum extended |
| SeasonTotals.FoldMatchesReference | lambda_functions/api/index.py:522-558 | a player is aggregated exactly when they have a line; the aggregate counts their lines, keeps the identity of the first, collects their truthy teams and positions, and holds for each summed field the total of their present values (no key when none was present) and no other key |
| SeasonTotals.FoldWellFormed | lambda_functions/api/index.py:530-535 | each player is aggregated once, under their own id |
| SeasonTotals.ByPoints | lambda_functions/api/index.py:577 | the players are reordered, not changed, most PPR points first (0 when missing) |
| SeasonTotals.Summary | lambda_functions/api/index.py:560-591 | the answer lists every aggregate once, best first, with their count, the weeks asked for and how many there were |
| SeasonTotals.AggregateSeasonStats | lambda_functions/api/index.py:482-591 | the call raises exactly when a line with a truthy id holds a value `float` rejects, and otherwise answers the summary of the fold over all chosen weeks' lines |
| SeasonTotals.SeasonPlayer | lambda_functions/api/index.py:522-591 | every listed player is the reference aggregate of their own lines across the chosen weeks, and no player is listed twice |
| SeasonTotals.SeasonListsEveryone | lambda_functions/api/index.py:522-591 | every player with a line with a truthy id in the chosen weeks is listed |

## Left out

- Records.Rec: a record cannot hold a key whose value is `null`. Python keeps such a key present, and the model treats it as absent. So a present-but-null counting field (such as `carries: None`), which makes the efficiency paths raise `TypeError`, is not represented.
- Records.Rec: a numeric stat is read from the number-valued keys only, so a value of another JSON type under a stat key (the text `"12"` under `passing_yards`) reads as absent. In Python the range comparison at lambda_functions/data_fetcher/validation.py:110 raises `TypeError` on such a value, and the error escapes `validate_weekly_data` and `save_to_s3`; the model skips that stat instead.
- Orchestrator.Payload: a weekly file whose `data` is `null`, or whose `data` is `{"players": null}`, is not representable. Python then iterates over `None` and raises `TypeError` (lambda_functions/insights_engine/index.py:187-196, scripts/generate_all_combinations.py:84-92); the model has no such error path.
- Json.Lookup: returns the value under the first occurrence of a key, where `json.loads` keeps the last one. The pipeline never writes an object with a repeated key, so its own files read the same either way.
- Validation.MissingFields: because of the above, a required field present with a `null` value is reported as missing. Python's `field not in sample` treats it as present.
- Text.LowerChar: lower-cases ASCII letters only. Python's `str.lower()` also folds non-ASCII letters. This reaches `Api.NameMatchIgnoresCase` and the critical-message check of validation.
- Text.IsSpace: recognises ASCII whitespace only, where Python's `str.strip()` also strips Unicode spaces. This reaches `LogParser.Metric`.
- Text.ParseInt: accepts an optional sign followed by ASCII digits only. It rejects the surrounding whitespace, the `_` separators and the non-ASCII digits that Python's `int()` accepts, so `Api.WeekOf` and `Api.AvailableWeeks` skip a prefix such as `week= 7/`.
- PlayerInsights.NestedValue: a path that ends at a non-numeric value reads as no value. Python would still compare that value when ranking.
- Api.StrOf: stringifies strings, integers, booleans and `None` only. A float, list or dict id goes through Python's `repr`, which is not modelled, so such an id never matches.
- ApiUtils.DateRange: takes the two dates already parsed. The `strptime` parse, and the `ValueError` it raises on a malformed date, are not modelled, and neither is the `strftime` of the result.
- ApiUtils.CurrentNflWeek: reads a single "now". The source reads the clock twice, once in `get_current_season` and once itself, so it can disagree with the model when the two readings straddle midnight of 31 August.
- ApiUtils.FormatApiResponse: the `timestamp` is a parameter, not the clock.
- SeasonTotals.AggregateSeasonStats: these parts are not modelled:
  - the per-game averages, which need `round(·, 2)` on floats;
  - the sorted comma-joins of the teams and positions, which are kept as sets;
  - the key order of each aggregate dict;
  - the `timestamp`.
  
  Storage reads and `float(s)` are parameters. The identity fields come from a player's first counted line, as the code does; the code comment calls it the most recent week.
- Comparisons.ComparisonTeam: its own contract states only the name, season, week and the missing slope. What the insight holds, the team calculation on the two weeks' aggregates, is stated by the lemma `Comparisons.ComparisonTeamIsTeamInsight`. It is kept apart so that proofs about the list of teams stay small.
- Comparisons.ComparisonTeams: Python iterates a `set` of team names in an order of its own. The model takes the teams in order of first appearance, and its contracts state only facts that hold for any order.
- Orchestrator.TeamsOf: the same set iteration order is left open, as in `Comparisons.ComparisonTeams`.
- `aggregate_player_stats` (lambda_functions/api/utils.py:39-56) is not modelled. It is a placeholder that nothing in the core calls.
- The `PlayerDelta` dataclass (lambda_functions/insights_engine/models.py:234-251) is not modelled, because no calculator builds one.
- Floating point: numbers are reals. `log2` and `round(·, 3)` are parameters (`TeamInsights.Numerics`) constrained only by `TeamInsights.Sound`: `log2` is non-positive on (0, 1], `log2(1) = 0` and `log2(0.5) = -1`, and `round(·, 3)` keeps non-negative numbers non-negative and 0 at 0. Rounding artefacts and float equality are not modelled.
- The `json.dumps` serialisation of bodies and S3 documents is not modelled. Date formatting with `strftime`/`isoformat` is not modelled either. Dates before year 1 are not rejected.
- Not modelled at all:
  - every S3 and CloudWatch call, and every upstream statistics download (`nflreadpy`, polars joins), which are reached only through storage maps, fetch results and write logs;
  - the HTTP routing of the API handler;
  - logging and `print`;
  - the CloudWatch polling of the scheduled-run checker;
  - the infrastructure code.

=== FILE: api.dfy ===
/** The pure parts of the stats API (lambda_functions/api/index.py): finding
    one player, team or player insight in a stored document, listing a
    season's weeks from the storage prefixes, the regular-season rule and
    building the HTTP response.

    Storage reads are left out: the documents and the listed prefixes are
    parameters. A document is JSON as loaded; where the code assumes a shape
    the document does not have, Python raises, and the model returns the
    error instead.
 */
module Api {
  import opened Wrappers
  import opened Seqs
  import opened Json
  import Text
  import PyDict
  import StableSort
  import ApiUtils

  /** What Python raises on a document of an unexpected shape. */
  datatype ApiError =
    | NotADict      // `.get` on a value that is not a dict (AttributeError)
    | NotIterable   // `for x in v` on null, a boolean or a number (TypeError)
    | NotAString    // `.lower()` on a value that is not a string (AttributeError)

  // ---------------------------------------------------------------- reading documents

  function AsKey(k: string): Json {
    JStr(k)
  }

  function AsChar(c: char): Json {
    JStr([c])
  }

  /** `for x in v`, with `v` defaulting to `[]` when absent: a list yields its
      items, a dict its keys, a string its characters. */
  function Items(v: Option<Json>): Result<seq<Json>, ApiError> {
    match v.GetOr(JArr([]))
    case JArr(items) => Ok(items)
    case JObj(fields) => Ok(Map(AsKey, Keys(fields)))
    case JStr(s) => Ok(Map(AsChar, s))
    case _ => Err(NotIterable)
  }

  /** `data.get("data", {}).get(name, [])`, iterated. */
  function Section(data: Json, name: string): Result<seq<Json>, ApiError> {
    if !data.JObj? then Err(NotADict)
    else
      var inner := Get(data, "data").GetOr(JObj([]));
      if !inner.JObj? then Err(NotADict) else Items(Get(inner, name))
  }

  /** A document without the list, or with an empty one, has nothing to iterate. */
  lemma MissingSectionIsEmpty(data: Json, name: string)
    requires data.JObj?
    requires Get(data, "data").None?
      || (Get(data, "data").value.JObj? && Get(Get(data, "data").value, name) in {None, Some(JArr([]))})
    ensures Section(data, name) == Ok([])
  {
  }

  /** `str(v)` for the values an id can hold (`None` for an absent key).
      Floats, lists and dicts print through `repr`, which is not modelled:
      they match no query. */
  function StrOf(v: Option<Json>): Option<string> {
    if v.None? then Some("None")
    else match v.value
      case JNull => Some("None")
      case JBool(b) => Some(if b then "True" else "False")
      case JInt(i) => Some(if i < 0 then "-" + Text.NatToString(-i) else Text.NatToString(i))
      case JStr(s) => Some(s)
      case _ => None
  }

  /** `d.get(k, "")`: absent reads as the empty string; a value that is not
      a string is `None` here, since `.lower()` on it raises. */
  function TextField(d: Json, k: string): Option<string> {
    match Get(d, k)
    case None => Some("")
    case Some(JStr(s)) => Some(s)
    case Some(_) => None
  }

  // ---------------------------------------------------------------- first match

  /** The three searches: by player id or name, by team id, abbreviation or
      name, and by the insight's player id. */
  datatype Query = PlayerQuery(id: string) | TeamQuery(id: string) | InsightQuery(id: string)

  /** How one candidate fares against a query. */
  datatype Verdict = Hit | Miss | Crash(error: ApiError)

  /** `d.get(k, "").lower() == q.lower()`, or the error `.lower()` raises. */
  function NameVerdict(d: Json, k: string, q: string): Verdict {
    match TextField(d, k)
    case None => Crash(NotAString)
    case Some(s) => if Text.Lower(s) == Text.Lower(q) then Hit else Miss
  }

  /** The condition of the `if` in each search loop, evaluated left to right
      with Python's short-circuit `or`. */
  function Judge(query: Query, item: Json): Verdict {
    if !item.JObj? then Crash(NotADict)
    else match query
      case PlayerQuery(q) =>
        if StrOf(Get(item, "id")) == Some(q) then Hit else NameVerdict(item, "name", q)
      case TeamQuery(q) =>
        if StrOf(Get(item, "id")) == Some(q) then Hit
        else (match NameVerdict(item, "abbreviation", q)
          case Miss => NameVerdict(item, "name", q)
          case v => v)
      case InsightQuery(q) =>
        if Get(item, "player_id") == Some(JStr(q)) then Hit else Miss
  }

  /** `d.get(k, "")` is a string equal to `q` up to letter case. */
  predicate NameIs(d: Json, k: string, q: string) {
    TextField(d, k).Some? && Text.EqualsIgnoreCase(TextField(d, k).value, q)
  }

  /** A player matches on its id rendered as text, or on its name ignoring
      case. */
  lemma PlayerMatch(q: string, p: Json)
    requires p.JObj?
    ensures Judge(PlayerQuery(q), p) == Hit <==> StrOf(Get(p, "id")) == Some(q) || NameIs(p, "name", q)
  {
  }

  /** A team matches on its id rendered as text, or on its abbreviation or
      name ignoring case. */
  lemma TeamMatch(q: string, t: Json)
    requires t.JObj?
    ensures Judge(TeamQuery(q), t) == Hit <==>
      StrOf(Get(t, "id")) == Some(q) || NameIs(t, "abbreviation", q) || (TextField(t, "abbreviation").Some? && NameIs(t, "name", q))
  {
  }

  /** A name matches only a query of its own length: a part of a name, or a
      name with extra characters, never matches. */
  lemma NameMatchIsWhole(d: Json, k: string, q: string)
    requires NameIs(d, k, q)
    ensures |TextField(d, k).value| == |q|
  {
    assert |Text.Lower(TextField(d, k).value)| == |Text.Lower(q)|;
  }

  /** Changing the letter case of the query never changes whether a name matches. */
  lemma NameMatchIgnoresCase(d: Json, k: string, q: string, q': string)
    requires Text.Lower(q) == Text.Lower(q')
    ensures NameIs(d, k, q) <==> NameIs(d, k, q')
  {
  }

  /** Every candidate before position `n` misses. */
  predicate MissesBefore(items: seq<Json>, query: Query, n: nat) {
    n <= |items| && forall j :: 0 <= j < n ==> Judge(query, items[j]) == Miss
  }

  /** The candidate at `i` is the first that matches, and none before it raises. */
  predicate FirstHit(items: seq<Json>, query: Query, i: nat) {
    i < |items| && Judge(query, items[i]) == Hit && MissesBefore(items, query, i)
  }

  /** Where a search loop stops. */
  datatype Outcome = Found(at: nat) | NotFound | Raised(at: nat, error: ApiError)

  /** `for item in items: if <match>: return ...`: the first candidate that
      matches, unless one before it raises. */
  method Scan(items: seq<Json>, query: Query) returns (o: Outcome)
    ensures o.NotFound? <==> MissesBefore(items, query, |items|)
    ensures o.Found? ==> FirstHit(items, query, o.at)
    ensures o.Raised? ==> o.at < |items| && Judge(query, items[o.at]) == Crash(o.error) && MissesBefore(items, query, o.at)
  {
    for i := 0 to |items|
      invariant MissesBefore(items, query, i)
    {
      match Judge(query, items[i])
      case Hit => return Found(i);
      case Crash(e) => return Raised(i, e);
      case Miss =>
    }
    return NotFound;
  }

  /** The three-key dict a search returns. */
  function Wrapped(a: string, av: Json, b: string, bv: Json, c: string, cv: Json): (r: Json)
    requires a != b && b != c && a != c
    ensures Get(r, a) == Some(av) && Get(r, b) == Some(bv) && Get(r, c) == Some(cv)
    ensures r.JObj? && Keys(r.fields) == [a, b, c]
  {
    var fs := [(a, av), (b, bv), (c, cv)];
    assert fs[1..] == [(b, bv), (c, cv)] && fs[1..][1..] == [(c, cv)];
    assert Lookup(fs[1..][1..], c) == Some(cv);
    assert Lookup(fs[1..], c) == Some(cv) && Lookup(fs[1..], b) == Some(bv);
    assert Keys(fs) == [a, b, c] by {
      assert Keys(fs)[0] == a && Keys(fs)[1] == b && Keys(fs)[2] == c;
    }
    JObj(fs)
  }

  /** `d.get(k)`, with `None` written as null. */
  function GetOrNull(d: Json, k: string): Json {
    Get(d, k).GetOr(JNull)
  }

  /** A search over `Section`/`Items` that wraps the match found, reporting
      the error that stops it. */
  method Search(items: Result<seq<Json>, ApiError>, query: Query, data: Json, a: string, b: string, c: string)
    returns (r: Result<Option<Json>, ApiError>)
    requires a != b && b != c && a != c
    ensures items.Err? ==> r == Err(items.error)
    ensures r == Ok(None) <==> items.Ok? && MissesBefore(items.value, query, |items.value|)
    ensures r.Ok? && r.value.Some? ==>
      items.Ok? &&
      exists i: nat ::
        FirstHit(items.value, query, i)
        && r.value.value == Wrapped(a, GetOrNull(data, a), b, items.value[i], c, GetOrNull(data, c))
    ensures r.Err? && items.Ok? ==> exists i: nat :: i < |items.value| && Judge(query, items.value[i]) == Crash(r.error) && MissesBefore(items.value, query, i)
  {
    if items.Err? {
      return Err(items.error);
    }
    var o := Scan(items.value, query);
    match o
    case Found(i) =>
      r := Ok(Some(Wrapped(a, GetOrNull(data, a), b, items.value[i], c, GetOrNull(data, c))));
    case NotFound =>
      r := Ok(None);
    case Raised(i, e) =>
      r := Err(e);
  }

  /** `filter_player_stats(data, player_id)`: the first player whose id or
      name matches, with the document's timestamp and metadata; `None` when
      no player matches, including when the list is missing or empty. */
  method FilterPlayerStats(data: Json, playerId: string) returns (r: Result<Option<Json>, ApiError>)
    ensures Section(data, "players").Err? ==> r == Err(Section(data, "players").error)
    ensures r == Ok(None) <==> Section(data, "players").Ok? && MissesBefore(Section(data, "players").value, PlayerQuery(playerId), |Section(data, "players").value|)
    ensures r.Ok? && r.value.Some? ==>
      Section(data, "players").Ok? &&
      exists i: nat ::
        FirstHit(Section(data, "players").value, PlayerQuery(playerId), i)
        && r.value.value == Wrapped("timestamp", GetOrNull(data, "timestamp"), "player", Section(data, "players").value[i], "metadata", GetOrNull(data, "metadata"))
  {
    r := Search(Section(data, "players"), PlayerQuery(playerId), data, "timestamp", "player", "metadata");
  }

  /** `filter_team_stats(data, team_id)`: the first team whose id,
      abbreviation or name matches, with the document's timestamp and
      metadata; `None` when no team matches. */
  method FilterTeamStats(data: Json, teamId: string) returns (r: Result<Option<Json>, ApiError>)
    ensures Section(data, "teams").Err? ==> r == Err(Section(data, "teams").error)
    ensures r == Ok(None) <==> Section(data, "teams").Ok? && MissesBefore(Section(data, "teams").value, TeamQuery(teamId), |Section(data, "teams").value|)
    ensures r.Ok? && r.value.Some? ==>
      Section(data, "teams").Ok? &&
      exists i: nat ::
        FirstHit(Section(data, "teams").value, TeamQuery(teamId), i)
        && r.value.value == Wrapped("timestamp", GetOrNull(data, "timestamp"), "team", Section(data, "teams").value[i], "metadata", GetOrNull(data, "metadata"))
  {
    r := Search(Section(data, "teams"), TeamQuery(teamId), data, "timestamp", "team", "metadata");
  }

  /** `insights_data.get("player_insights", [])`, iterated. */
  function InsightItems(insights: Json): Result<seq<Json>, ApiError> {
    if !insights.JObj? then Err(NotADict) else Items(Get(insights, "player_insights"))
  }

  /** `filter_player_insights(insights_data, player_id)`: the first insight
      whose `player_id` is exactly the query, with the document's season and
      week; `None` when there is none. */
  method FilterPlayerInsights(insights: Json, playerId: string) returns (r: Result<Option<Json>, ApiError>)
    ensures InsightItems(insights).Err? ==> r == Err(InsightItems(insights).error)
    ensures r == Ok(None) <==> InsightItems(insights).Ok? && MissesBefore(InsightItems(insights).value, InsightQuery(playerId), |InsightItems(insights).value|)
    ensures r.Ok? && r.value.Some? ==>
      InsightItems(insights).Ok? &&
      exists i: nat ::
        FirstHit(InsightItems(insights).value, InsightQuery(playerId), i)
        && Get(InsightItems(insights).value[i], "player_id") == Some(JStr(playerId))
        && r.value.value == Wrapped("season", GetOrNull(insights, "season"), "player_insight", InsightItems(insights).value[i], "week", GetOrNull(insights, "week"))
  {
    r := Search(InsightItems(insights), InsightQuery(playerId), insights, "season", "player_insight", "week");
  }

  // ---------------------------------------------------------------- weeks of a season

  /** `s.rstrip(c)`. */
  function RStrip(s: string, c: char): (r: string)
    ensures |r| <= |s| && r == s[..|r|]
    ensures |r| > 0 ==> r[|r| - 1] != c
    ensures forall j :: |r| <= j < |s| ==> s[j] == c
  {
    if |s| > 0 && s[|s| - 1] == c then RStrip(s[..|s| - 1], c) else s
  }

  /** `s.split('/')[-1]`. */
  function LastSegment(s: string): string {
    var parts := Text.Split(s, '/');
    parts[|parts| - 1]
  }

  /** The week a listed prefix names: `int(prefix.rstrip('/').split('/')[-1])`,
      or nothing when that is not an integer. */
  function WeekOf(prefix: string): Option<int> {
    Text.ParseInt(LastSegment(RStrip(prefix, '/')))
  }

  /** The weeks of the prefixes that name one, in listing order. */
  function ParsedWeeks(prefixes: seq<string>): (r: seq<int>)
    ensures |r| <= |prefixes|
  {
    if |prefixes| == 0 then []
    else
      var w := WeekOf(prefixes[0]);
      (if w.Some? then [w.value] else []) + ParsedWeeks(prefixes[1..])
  }

  function Descending(w: int): real {
    -(w as real)
  }

  /** The week loop of `get_available_weeks_for_season`: the listed weeks,
      sorted ascending. */
  function AvailableWeeks(prefixes: seq<string>): (r: seq<int>)
    ensures multiset(r) == multiset(ParsedWeeks(prefixes))
    ensures forall a, b :: 0 <= a < b < |r| ==> r[a] <= r[b]
  {
    var ws := ParsedWeeks(prefixes);
    var keys := Map(Descending, ws);
    StableSort.SortDescPermutes(ws, keys);
    SortedAscending(ws, keys);
    StableSort.SortDesc(ws, keys)
  }

  lemma SortedAscending(ws: seq<int>, keys: seq<real>)
    requires keys == Map(Descending, ws)
    ensures forall a, b :: 0 <= a < b < |ws| ==> StableSort.SortDesc(ws, keys)[a] <= StableSort.SortDesc(ws, keys)[b]
  {
    forall a, b | 0 <= a < b < |ws|
      ensures StableSort.SortDesc(ws, keys)[a] <= StableSort.SortDesc(ws, keys)[b]
    {
      StableSort.SortDescOrdered(keys, a, b);
    }
  }

  /** The storage prefix of a week under a season directory. */
  function WeekPrefix(base: string, w: nat): string {
    base + Text.NatToString(w) + "/"
  }

  /** Reading back the prefixes written for weeks `ws` under a directory
      finds exactly those weeks, in order. */
  lemma {:induction false} WeekPrefixesRoundTrip(base: string, ws: seq<nat>)
    requires |base| > 0 && base[|base| - 1] == '/'
    ensures ParsedWeeks(Map((w: nat) => WeekPrefix(base, w), ws)) == Map((w: nat) => w as int, ws)
  {
    if |ws| > 0 {
      var ps := Map((w: nat) => WeekPrefix(base, w), ws);
      assert ps[1..] == Map((w: nat) => WeekPrefix(base, w), ws[1..]);
      WeekOfPrefix(base, ws[0]);
      WeekPrefixesRoundTrip(base, ws[1..]);
    }
  }

  lemma WeekOfPrefix(base: string, w: nat)
    requires |base| > 0 && base[|base| - 1] == '/'
    ensures WeekOf(WeekPrefix(base, w)) == Some(w as int)
  {
    var digits := Text.NatToString(w);
    var s := base + digits;
    assert WeekPrefix(base, w) == s + "/";
    assert RStrip(s + "/", '/') == s by {
      assert (s + "/")[..|s|] == s;
      assert s[|s| - 1] == digits[|digits| - 1];
    }
    SplitLast(base, digits);
    Text.NatToStringRoundTrip(w);
  }

  /** After a directory ending in '/', the last segment is the name that follows it. */
  lemma {:induction false} SplitLast(dir: string, name: string)
    requires |dir| > 0 && dir[|dir| - 1] == '/'
    requires forall j :: 0 <= j < |name| ==> name[j] != '/'
    ensures LastSegment(dir + name) == name
    decreases |dir|
  {
    var s := dir + name;
    var i := Text.IndexOf(s, '/').value;
    assert s[|dir| - 1] == '/';
    var rest := s[i + 1..];
    assert Text.Split(s, '/') == [s[..i]] + Text.Split(rest, '/');
    if i + 1 == |dir| {
      assert rest == name;
      assert Text.IndexOf(name, '/').None?;
    } else {
      assert s[..|dir|] == dir && i < |dir|;
      assert s[i + 1..|dir|] == dir[i + 1..] && s[|dir|..] == name;
      assert |rest| == |dir[i + 1..] + name|;
      forall j | 0 <= j < |rest|
        ensures rest[j] == (dir[i + 1..] + name)[j]
      {
        if j < |dir| - i - 1 {
          assert rest[j] == s[i + 1 + j] == dir[i + 1 + j];
        } else {
          assert rest[j] == s[i + 1 + j] == name[i + 1 + j - |dir|];
        }
      }
      assert rest == dir[i + 1..] + name;
      SplitLast(dir[i + 1..], name);
    }
  }

  // ---------------------------------------------------------------- regular season

  /** The `is_regular_season` flag of `get_current_week_info`. */
  predicate IsRegularSeason(week: Option<int>) {
    week.Some? && week.value <= ApiUtils.REGULAR_SEASON_WEEKS
  }

  /** A week estimated from the calendar is always a regular-season week. */
  lemma EstimatedWeekIsRegular(now: ApiUtils.Date)
    requires ApiUtils.Valid(now) && ApiUtils.HasSeasonStart(now)
    ensures ApiUtils.CurrentNflWeek(now).Some? <==> IsRegularSeason(ApiUtils.CurrentNflWeek(now))
  {
  }

  // ---------------------------------------------------------------- create_response

  type Headers = seq<(string, string)>

  const DEFAULT_HEADERS: Headers := [
    ("Content-Type", "application/json"),
    ("Access-Control-Allow-Origin", "*"),
    ("Access-Control-Allow-Headers", "Content-Type,X-Amz-Date,Authorization,X-Api-Key"),
    ("Access-Control-Allow-Methods", "GET,OPTIONS")
  ]

  /** A response body: a string goes out as it is; anything else goes out
      as `json.dumps` of it (the serialisation itself is not modelled). */
  datatype Body = Verbatim(text: string) | JsonEncoded(value: Json)

  datatype Response = Response(statusCode: int, headers: Headers, body: Body)

  /** `create_response(status_code, body, headers)`: the status passes
      through, the caller's headers override the defaults by exact name, and
      a string body is not encoded again. */
  function CreateResponse(statusCode: int, body: Json, headers: Headers): (r: Response)
    ensures r.statusCode == statusCode
    ensures body.JStr? ==> r.body == Verbatim(body.s)
    ensures !body.JStr? ==> r.body == JsonEncoded(body)
    ensures |r.headers| >= |DEFAULT_HEADERS|
    ensures forall i :: 0 <= i < |DEFAULT_HEADERS| ==> r.headers[i].0 == DEFAULT_HEADERS[i].0
  {
    Response(statusCode, PyDict.Update(DEFAULT_HEADERS, headers),
             if body.JStr? then Verbatim(body.s) else JsonEncoded(body))
  }

  /** Each header of the response is the caller's last value for that
      name, or the default when the caller gives none. */
  lemma ResponseHeader(statusCode: int, body: Json, headers: Headers, name: string)
    ensures PyDict.Get(CreateResponse(statusCode, body, headers).headers, name)
      == if PyDict.LastValue(headers, name).Some? then PyDict.LastValue(headers, name) else PyDict.Get(DEFAULT_HEADERS, name)
  {
    PyDict.UpdateGet(DEFAULT_HEADERS, headers, name);
  }
}

=== FILE: api_utils.dfy ===
/** The calendar helpers of the stats API (lambda_functions/api/utils.py):
    the days between two dates, the season and the NFL week a moment falls
    in, and the response envelope.

    The clock is a parameter: each operation is handed "now" as a calendar
    date. The time of day never changes an answer (a moment on 7 September
    is not before midnight of 7 September, and whole days between two
    moments are whole days between their dates), so it is not modelled.
 */
module ApiUtils {
  import opened Wrappers
  import opened Json

  /** A date of the proleptic Gregorian calendar, as Python's `date`. */
  datatype Date = Date(year: int, month: int, day: int)

  predicate IsLeap(y: int) {
    y % 4 == 0 && (y % 100 != 0 || y % 400 == 0)
  }

  function YearLength(y: int): int {
    if IsLeap(y) then 366 else 365
  }

  function DaysInMonth(y: int, m: int): nat {
    if m == 2 then (if IsLeap(y) then 29 else 28)
    else if m == 4 || m == 6 || m == 9 || m == 11 then 30
    else 31
  }

  const MAX_YEAR: int := 9999

  /** A date Python's `datetime` can hold. */
  predicate Valid(d: Date) {
    1 <= d.year <= MAX_YEAR && 1 <= d.month <= 12 && 1 <= d.day <= DaysInMonth(d.year, d.month)
  }

  /** The last date Python can hold: one day more overflows. */
  const LAST_DATE: Date := Date(MAX_YEAR, 12, 31)

  // ---------------------------------------------------------------- comparison

  /** `a < b` on dates: by year, then month, then day. */
  predicate Before(a: Date, b: Date) {
    a.year < b.year
    || (a.year == b.year && a.month < b.month)
    || (a.year == b.year && a.month == b.month && a.day < b.day)
  }

  /** `a <= b` on dates. */
  predicate AtMost(a: Date, b: Date) {
    Before(a, b) || a == b
  }

  // ---------------------------------------------------------------- day numbers

  /** Days in the years before `y`. */
  function DaysBeforeYear(y: int): int {
    var p := y - 1;
    365 * p + p / 4 - p / 100 + p / 400
  }

  /** Days in the months of `y` before month `m`. */
  function DaysBeforeMonth(y: int, m: int): nat
    requires 1 <= m <= 13
  {
    if m == 1 then 0 else DaysBeforeMonth(y, m - 1) + DaysInMonth(y, m - 1)
  }

  /** `d.toordinal()`: 1 January of year 1 is day 1. */
  function Ordinal(d: Date): int
    requires Valid(d)
  {
    DaysBeforeYear(d.year) + DaysBeforeMonth(d.year, d.month) + d.day
  }

  /** A year adds its own length to the day count. */
  lemma YearStep(y: int)
    ensures DaysBeforeYear(y + 1) == DaysBeforeYear(y) + YearLength(y)
  {
    assert y / 4 - (y - 1) / 4 == if y % 4 == 0 then 1 else 0;
    assert y / 100 - (y - 1) / 100 == if y % 100 == 0 then 1 else 0;
    assert y / 400 - (y - 1) / 400 == if y % 400 == 0 then 1 else 0;
  }

  /** The twelve months fill the year; September starts 122 days before its end. */
  lemma MonthTable(y: int)
    ensures DaysBeforeMonth(y, 2) == 31
    ensures DaysBeforeMonth(y, 9) + 122 == YearLength(y)
    ensures DaysBeforeMonth(y, 13) == YearLength(y)
  {
    var f := if IsLeap(y) then 29 else 28;
    assert DaysBeforeMonth(y, 2) == 31;
    assert DaysBeforeMonth(y, 3) == 31 + f;
    assert DaysBeforeMonth(y, 4) == 62 + f;
    assert DaysBeforeMonth(y, 5) == 92 + f;
    assert DaysBeforeMonth(y, 6) == 123 + f;
    assert DaysBeforeMonth(y, 7) == 153 + f;
    assert DaysBeforeMonth(y, 8) == 184 + f;
    assert DaysBeforeMonth(y, 9) == 215 + f;
    assert DaysBeforeMonth(y, 10) == 245 + f;
    assert DaysBeforeMonth(y, 11) == 276 + f;
    assert DaysBeforeMonth(y, 12) == 306 + f;
  }

  /** A month ends no later than a later month starts. */
  lemma {:induction false} MonthsIncrease(y: int, m1: int, m2: int)
    requires 1 <= m1 < m2 <= 13
    ensures DaysBeforeMonth(y, m1) + DaysInMonth(y, m1) <= DaysBeforeMonth(y, m2)
    decreases m2
  {
    if m1 < m2 - 1 {
      MonthsIncrease(y, m1, m2 - 1);
    }
  }

  /** A year ends no later than a later year starts. */
  lemma {:induction false} YearsIncrease(y1: int, y2: int)
    requires y1 < y2
    ensures DaysBeforeYear(y1) + YearLength(y1) <= DaysBeforeYear(y2)
    decreases y2 - y1
  {
    YearStep(y2 - 1);
    if y1 < y2 - 1 {
      YearsIncrease(y1, y2 - 1);
    }
  }

  /** A date's place inside its year lies within the year. */
  lemma WithinYear(d: Date)
    requires Valid(d)
    ensures 1 <= DaysBeforeMonth(d.year, d.month) + d.day <= YearLength(d.year)
  {
    MonthTable(d.year);
    MonthsIncrease(d.year, d.month, 13);
  }

  /** Comparing dates is comparing their day numbers, so a day number names one date. */
  lemma OrdinalOrder(a: Date, b: Date)
    requires Valid(a) && Valid(b)
    ensures Before(a, b) <==> Ordinal(a) < Ordinal(b)
    ensures a == b <==> Ordinal(a) == Ordinal(b)
  {
    if a.year < b.year {
      OrdinalBefore(a, b);
    } else if b.year < a.year {
      OrdinalBefore(b, a);
    } else if a.month < b.month {
      MonthsIncrease(a.year, a.month, b.month);
    } else if b.month < a.month {
      MonthsIncrease(a.year, b.month, a.month);
    }
  }

  lemma OrdinalBefore(a: Date, b: Date)
    requires Valid(a) && Valid(b) && a.year < b.year
    ensures Ordinal(a) < Ordinal(b)
  {
    WithinYear(a);
    YearsIncrease(a.year, b.year);
  }

  /** No valid date comes after the last one. */
  lemma LastDateIsLatest(d: Date)
    requires Valid(d)
    ensures AtMost(d, LAST_DATE)
  {
  }

  // ---------------------------------------------------------------- next day

  /** `d + timedelta(days=1)`. */
  function NextDay(d: Date): Date {
    if d.day < DaysInMonth(d.year, d.month) then Date(d.year, d.month, d.day + 1)
    else if d.month < 12 then Date(d.year, d.month + 1, 1)
    else Date(d.year + 1, 1, 1)
  }

  /** The next day is a valid date with the next day number. */
  lemma NextDayOrdinal(d: Date)
    requires Valid(d) && d != LAST_DATE
    ensures Valid(NextDay(d))
    ensures Ordinal(NextDay(d)) == Ordinal(d) + 1
  {
    if d.day == DaysInMonth(d.year, d.month) && d.month == 12 {
      MonthTable(d.year);
      YearStep(d.year);
    }
  }

  // ---------------------------------------------------------------- parse_date_range

  /** The `OverflowError` raised by stepping past the last date. */
  datatype DateError = Overflow

  /** `parse_date_range(start, end)` on already-parsed dates: every day from
      `start` through `end`, none when `start` is after `end`. Stepping past
      the end on 31 December 9999 overflows, so a range ending there fails. */
  method DateRange(start: Date, end: Date) returns (r: Result<seq<Date>, DateError>)
    requires Valid(start) && Valid(end)
    ensures r.Err? <==> AtMost(start, end) && end == LAST_DATE
    ensures r.Ok? ==> |r.value| == if AtMost(start, end) then Ordinal(end) - Ordinal(start) + 1 else 0
    ensures r.Ok? ==> forall i :: 0 <= i < |r.value| ==> Valid(r.value[i]) && Ordinal(r.value[i]) == Ordinal(start) + i
    ensures r.Ok? && |r.value| > 0 ==> r.value[0] == start && r.value[|r.value| - 1] == end
  {
    OrdinalOrder(start, end);
    var dates: seq<Date> := [];
    var current := start;
    while AtMost(current, end)
      invariant Valid(current)
      invariant Ordinal(current) == Ordinal(start) + |dates|
      invariant AtMost(start, end) ==> Ordinal(current) <= Ordinal(end) + 1
      invariant !AtMost(start, end) ==> |dates| == 0
      invariant forall i :: 0 <= i < |dates| ==> Valid(dates[i]) && Ordinal(dates[i]) == Ordinal(start) + i
      decreases Ordinal(end) + 1 - Ordinal(current)
    {
      OrdinalOrder(current, end);
      dates := dates + [current];
      if current == LAST_DATE {
        LastDateIsLatest(end);
        return Err(Overflow);
      }
      NextDayOrdinal(current);
      current := NextDay(current);
    }
    OrdinalOrder(current, end);
    LastDateIsLatest(current);
    if |dates| > 0 {
      RunEnds(dates, start, end);
    }
    return Ok(dates);
  }

  /** A run of consecutive days as long as the span from `start` to `end`
      starts at `start` and ends at `end`. */
  lemma RunEnds(ds: seq<Date>, start: Date, end: Date)
    requires Valid(start) && Valid(end) && Ordinal(start) <= Ordinal(end)
    requires |ds| == Ordinal(end) - Ordinal(start) + 1
    requires forall i :: 0 <= i < |ds| ==> Valid(ds[i]) && Ordinal(ds[i]) == Ordinal(start) + i
    ensures ds[0] == start && ds[|ds| - 1] == end
  {
    OrdinalOrder(ds[0], start);
    OrdinalOrder(ds[|ds| - 1], end);
  }

  // ---------------------------------------------------------------- season and week

  /** `get_current_season()`: the season starts in September, so January to
      August still belong to the previous year's season. The season is the
      one whose 1 September is the latest on or before `now`. */
  function CurrentSeason(now: Date): (r: int)
    requires Valid(now)
    ensures AtMost(Date(r, 9, 1), now) && Before(now, Date(r + 1, 9, 1))
  {
    if now.month >= 9 then now.year else now.year - 1
  }

  /** `datetime(year, 9, 7)`: the approximate opening day of the season. */
  function SeasonStart(now: Date): Date
    requires Valid(now)
  {
    Date(CurrentSeason(now), 9, 7)
  }

  /** Python cannot build a season start in year 0. */
  predicate HasSeasonStart(now: Date) {
    now.year > 1 || now.month >= 9
  }

  const REGULAR_SEASON_WEEKS: int := 18

  /** `get_current_nfl_week()`: none before the season's 7 September; week
      `w` covers the seven days starting `7 * (w - 1)` days after it; none
      once the 18 weeks are over. */
  function CurrentNflWeek(now: Date): (r: Option<int>)
    requires Valid(now) && HasSeasonStart(now)
    ensures Valid(SeasonStart(now))
    ensures r.Some? ==> 1 <= r.value <= REGULAR_SEASON_WEEKS
    ensures r.Some? ==> Ordinal(SeasonStart(now)) + 7 * (r.value - 1) <= Ordinal(now) < Ordinal(SeasonStart(now)) + 7 * r.value
    ensures r.None? <==> Ordinal(now) < Ordinal(SeasonStart(now)) || Ordinal(now) >= Ordinal(SeasonStart(now)) + 7 * REGULAR_SEASON_WEEKS
  {
    var start := SeasonStart(now);
    OrdinalOrder(now, start);
    if Before(now, start) then None
    else
      var week := (Ordinal(now) - Ordinal(start)) / 7 + 1;
      if week > REGULAR_SEASON_WEEKS then None else Some(week)
  }

  /** The season's 7 September opens week 1, and the six days before it are
      still the offseason. */
  lemma SeasonOpensOnSeptemberSeventh(y: int, d: int)
    requires 1 <= y <= MAX_YEAR && 1 <= d <= 7
    ensures CurrentNflWeek(Date(y, 9, d)) == if d == 7 then Some(1) else None
  {
  }

  /** From February to August no week is reported: more than 18 weeks have
      passed since the previous season's 7 September. */
  lemma OffseasonMonths(now: Date)
    requires Valid(now) && 2 <= now.month <= 8 && now.year > 1
    ensures CurrentNflWeek(now).None?
  {
    var y := now.year;
    MonthTable(y);
    MonthTable(y - 1);
    YearStep(y - 1);
    if now.month > 2 {
      MonthsIncrease(y, 2, now.month);
    }
    assert Ordinal(now) >= DaysBeforeYear(y) + 32;
    assert Ordinal(SeasonStart(now)) == DaysBeforeYear(y) - 115;
  }

  // ---------------------------------------------------------------- format_api_response

  function EnvelopeEntries(data: Json, metadata: Option<Json>, timestamp: string): seq<Entry> {
    [ Put("success", JBool(true)),
      Put("data", data),
      Put("timestamp", JStr(timestamp)),
      ("metadata", if metadata.Some? && IsTruthy(metadata.value) then metadata else None) ]
  }

  /** `format_api_response(data, metadata)`: always `success` true, the data
      and a timestamp; the metadata only when it is truthy. */
  function FormatApiResponse(data: Json, metadata: Option<Json>, timestamp: string): (r: Json)
    ensures r.JObj? && Keys(r.fields) == ["success", "data", "timestamp"] + (if metadata.Some? && IsTruthy(metadata.value) then ["metadata"] else [])
    ensures Get(r, "success") == Some(JBool(true))
    ensures Get(r, "data") == Some(data)
    ensures Get(r, "timestamp") == Some(JStr(timestamp))
    ensures Has(r, "metadata") <==> metadata.Some? && IsTruthy(metadata.value)
    ensures Has(r, "metadata") ==> Get(r, "metadata") == metadata
  {
    var es := EnvelopeEntries(data, metadata, timestamp);
    LookupUnique(es, 0);
    LookupUnique(es, 1);
    LookupUnique(es, 2);
    LookupUnique(es, 3);
    EnvelopeKeys(data, metadata, timestamp);
    Obj(es)
  }

  /** The envelope's keys, in order: the metadata key comes last and only
      when the metadata is truthy. */
  lemma EnvelopeKeys(data: Json, metadata: Option<Json>, timestamp: string)
    ensures Keys(Present(EnvelopeEntries(data, metadata, timestamp)))
      == ["success", "data", "timestamp"] + (if metadata.Some? && IsTruthy(metadata.value) then ["metadata"] else [])
  {
    var es := EnvelopeEntries(data, metadata, timestamp);
    var last := if metadata.Some? && IsTruthy(metadata.value) then [("metadata", metadata.value)] else [];
    assert es[1..][1..][1..][1..] == [];
    assert Present(es[1..][1..][1..]) == last;
    assert Present(es[1..][1..]) == [("timestamp", JStr(timestamp))] + last;
    assert Present(es[1..]) == [("data", data), ("timestamp", JStr(timestamp))] + last;
    assert Present(es) == [("success", JBool(true)), ("data", data), ("timestamp", JStr(timestamp))] + last;
    var ks := Keys(Present(es));
    assert |ks| == 3 + |last|;
    assert ks[0] == "success" && ks[1] == "data" && ks[2] == "timestamp";
    assert |last| == 1 ==> ks[3] == "metadata";
  }
}

=== FILE: comparisons.dfy ===
/** Comparison mode (scripts/generate_all_combinations.py): every pair of
    available weeks, an insights output comparing the two weeks of a pair
    directly, and the season run that records each pair's success or
    failure without stopping.
 */
module Comparisons {
  import opened Wrappers
  import opened Seqs
  import opened Records
  import opened Json
  import opened Models
  import opened Trends
  import opened Orchestrator
  import PlayerInsights
  import TeamInsights
  import Superlatives
  import PyDict
  import WeekWindow

  // ---------------------------------------------------------------- week pairs

  /** The pairs starting at the first week, in order. */
  function PairWith(w: int): int -> (int, int) {
    (x: int) => (w, x)
  }

  /** `get_all_week_combinations`: (weeks[i], weeks[j]) for every i < j, in
      index-lexicographic order. */
  function WeekPairs(weeks: seq<int>): seq<(int, int)>
  {
    if |weeks| == 0 then []
    else Map(PairWith(weeks[0]), weeks[1..]) + WeekPairs(weeks[1..])
  }

  /** There are n(n-1)/2 pairs of n weeks. */
  lemma {:induction false} PairCount(weeks: seq<int>)
    ensures 2 * |WeekPairs(weeks)| == |weeks| * (|weeks| - 1)
  {
    if |weeks| > 0 {
      PairCount(weeks[1..]);
      var n := |weeks|;
      assert 2 * |WeekPairs(weeks[1..])| == (n - 1) * (n - 2);
      assert 2 * (n - 1) + (n - 1) * (n - 2) == n * (n - 1);
    }
  }

  predicate IsPair(weeks: seq<int>, p: (int, int)) {
    exists i, j :: 0 <= i < j < |weeks| && weeks[i] == p.0 && weeks[j] == p.1
  }

  /** The pairs are exactly the (earlier, later) index pairs of the list. */
  lemma {:induction false} WeekPairsMembers(weeks: seq<int>, p: (int, int))
    ensures p in WeekPairs(weeks) <==> IsPair(weeks, p)
  {
    if |weeks| > 0 {
      var tail := weeks[1..];
      WeekPairsMembers(tail, p);
      HeadPairs(weeks[0], tail, p);
      IsPairSplit(weeks, p);
    }
  }

  /** The pairs led by `w` are `w` with each later week. */
  lemma HeadPairs(w: int, tail: seq<int>, p: (int, int))
    ensures p in Map(PairWith(w), tail) <==> p.0 == w && p.1 in tail
  {
    var head := Map(PairWith(w), tail);
    if p in head {
      var k :| 0 <= k < |head| && head[k] == p;
      assert tail[k] == p.1;
    }
    if p.0 == w && p.1 in tail {
      var k :| 0 <= k < |tail| && tail[k] == p.1;
      assert head[k] == p;
    }
  }

  /** A pair of the list is a pair led by its first week or a pair of the rest. */
  lemma IsPairSplit(weeks: seq<int>, p: (int, int))
    requires |weeks| > 0
    ensures IsPair(weeks, p) <==> (weeks[0] == p.0 && p.1 in weeks[1..]) || IsPair(weeks[1..], p)
  {
    var tail := weeks[1..];
    if IsPair(tail, p) {
      var i, j :| 0 <= i < j < |tail| && tail[i] == p.0 && tail[j] == p.1;
      assert weeks[i + 1] == p.0 && weeks[j + 1] == p.1;
    }
    if weeks[0] == p.0 && p.1 in tail {
      var j :| 0 <= j < |tail| && tail[j] == p.1;
      assert weeks[j + 1] == p.1;
    }
    if IsPair(weeks, p) {
      var i, j :| 0 <= i < j < |weeks| && weeks[i] == p.0 && weeks[j] == p.1;
      if i == 0 {
        assert tail[j - 1] == p.1;
      } else {
        assert tail[i - 1] == p.0 && tail[j - 1] == p.1;
      }
    }
  }

  /** For a strictly increasing week list every pair goes forward in time. */
  lemma PairsGoForward(weeks: seq<int>, k: nat)
    requires WeekWindow.Increasing(weeks) && k < |WeekPairs(weeks)|
    ensures WeekPairs(weeks)[k].0 < WeekPairs(weeks)[k].1
  {
    var p := WeekPairs(weeks)[k];
    WeekPairsMembers(weeks, p);
    var i, j :| 0 <= i < j < |weeks| && weeks[i] == p.0 && weeks[j] == p.1;
  }

  /** For a strictly increasing week list a pair of the rest starts after the first week. */
  lemma TailPairsLater(weeks: seq<int>, m: nat)
    requires WeekWindow.Increasing(weeks) && |weeks| > 0 && m < |WeekPairs(weeks[1..])|
    ensures weeks[0] < WeekPairs(weeks[1..])[m].0
  {
    var tail := weeks[1..];
    var q := WeekPairs(tail)[m];
    WeekPairsMembers(tail, q);
    var i, j :| 0 <= i < j < |tail| && tail[i] == q.0 && tail[j] == q.1;
    assert weeks[0] < weeks[i + 1];
  }

  predicate LexBefore(a: (int, int), b: (int, int)) {
    a.0 < b.0 || (a.0 == b.0 && a.1 < b.1)
  }

  /** For a strictly increasing week list the pairs are listed in strictly
      increasing lexicographic order, so none repeats. */
  lemma {:induction false} PairsSorted(weeks: seq<int>, k: nat, l: nat)
    requires WeekWindow.Increasing(weeks) && k < l < |WeekPairs(weeks)|
    ensures LexBefore(WeekPairs(weeks)[k], WeekPairs(weeks)[l])
  {
    var head := Map(PairWith(weeks[0]), weeks[1..]);
    var tail := weeks[1..];
    var r := WeekPairs(weeks);
    assert WeekWindow.Increasing(tail);
    if l < |head| {
      assert r[k] == (weeks[0], weeks[k + 1]) && r[l] == (weeks[0], weeks[l + 1]);
    } else if k < |head| {
      assert r[k] == head[k] && r[l] == WeekPairs(tail)[l - |head|];
      TailPairsLater(weeks, l - |head|);
    } else {
      PairsSorted(tail, k - |head|, l - |head|);
    }
  }

  // ---------------------------------------------------------------- one comparison

  /** What `calculate_comparison_insights` raises. */
  datatype ComparisonFailure = MissingData(weekFrom: int, weekTo: int) | MissingId

  /** The history of a two-week comparison: both lines when the earlier one
      is truthy, else the later one alone. */
  function PairHistory(from: Option<Rec>, to: Rec): (h: seq<Rec>)
    ensures 1 <= |h| <= 2
    ensures h[|h| - 1] == to
  {
    if Records.Present(from) then [from.value, to] else [to]
  }

  /** One insight per entry of the later week's map, compared with the
      earlier week's line for the same id. */
  function ComparisonPlayers(toMap: IdMap, fromMap: IdMap, season: int, weekTo: int, timestamp: string)
    : (r: seq<PlayerInsight>)
    ensures |r| == |toMap|
    ensures forall i :: 0 <= i < |toMap| ==>
      var from := PyDict.Get(fromMap, toMap[i].0);
      r[i] == PlayerInsights.PlayerInsightOf(toMap[i].1, from, PairHistory(from, toMap[i].1), season, weekTo, timestamp)
  {
    if |toMap| == 0 then []
    else
      var from := PyDict.Get(fromMap, toMap[0].0);
      [PlayerInsights.PlayerInsightOf(toMap[0].1, from, PairHistory(from, toMap[0].1), season, weekTo, timestamp)]
      + ComparisonPlayers(toMap[1..], fromMap, season, weekTo, timestamp)
  }

  /** A team compared across the two weeks; the earlier aggregate is passed
      as the previous value even when it is empty. */
  function ComparisonTeam(num: TeamInsights.Numerics, team: string, fromPlayers: seq<Rec>, toPlayers: seq<Rec>,
                          season: int, weekTo: int, timestamp: string): (t: TeamInsight)
    ensures t.team == team && t.season == season && t.week == weekTo
    ensures t.playsPerGame.Some? ==> t.playsPerGame.value.slope.None?
    ensures t.passRate.Some? ==> t.passRate.value.slope.None?
  {
    var teamFrom := TeamInsights.AggregateTeamStats(Filter(TeamInsights.OnTeam(team), fromPlayers), team);
    var teamToPlayers := Filter(TeamInsights.OnTeam(team), toPlayers);
    var teamTo := TeamInsights.AggregateTeamStats(teamToPlayers, team);
    var history := if teamFrom.NonEmpty() then [teamFrom, teamTo] else [teamTo];
    TeamInsights.TeamInsightOf(num, team, teamTo, Some(teamFrom), history, teamToPlayers, season, weekTo, timestamp)
  }

  function ComparisonTeams(num: TeamInsights.Numerics, teams: seq<string>, fromPlayers: seq<Rec>, toPlayers: seq<Rec>,
                           season: int, weekTo: int, timestamp: string): (r: seq<TeamInsight>)
    ensures |r| == |teams|
    ensures forall i :: 0 <= i < |teams| ==> r[i].team == teams[i]
    ensures forall i :: 0 <= i < |r| ==> r[i].playsPerGame.Some? ==> r[i].playsPerGame.value.slope.None?
    ensures forall i :: 0 <= i < |teams| ==>
              r[i] == ComparisonTeam(num, teams[i], fromPlayers, toPlayers, season, weekTo, timestamp)
  {
    if |teams| == 0 then []
    else [ComparisonTeam(num, teams[0], fromPlayers, toPlayers, season, weekTo, timestamp)]
         + ComparisonTeams(num, teams[1..], fromPlayers, toPlayers, season, weekTo, timestamp)
  }

  /** A compared team is the team calculation with the later week's
      aggregate as current, the earlier week's as previous (passed even when
      empty), both aggregates as history when the earlier one is non-empty
      and the later one alone otherwise, and the later week's team lines. */
  lemma ComparisonTeamIsTeamInsight(num: TeamInsights.Numerics, team: string, fromPlayers: seq<Rec>, toPlayers: seq<Rec>,
                                    season: int, weekTo: int, timestamp: string)
    ensures var teamToPlayers := Filter(TeamInsights.OnTeam(team), toPlayers);
            var teamFrom := TeamInsights.AggregateTeamStats(Filter(TeamInsights.OnTeam(team), fromPlayers), team);
            var teamTo := TeamInsights.AggregateTeamStats(teamToPlayers, team);
            ComparisonTeam(num, team, fromPlayers, toPlayers, season, weekTo, timestamp)
            == TeamInsights.TeamInsightOf(num, team, teamTo, Some(teamFrom), PairHistory(Some(teamFrom), teamTo),
                                          teamToPlayers, season, weekTo, timestamp)
  {
  }

  /** The comparison's metadata block. */
  function ComparisonMetadataEntries(weekFrom: int, weekTo: int, players: nat, teams: nat, superlatives: nat)
    : seq<Entry>
  {
    [ Put("comparison_type", JStr("week_to_week")),
      Put("week_from", JInt(weekFrom)),
      Put("week_to", JInt(weekTo)),
      Put("week_delta", JInt(weekTo - weekFrom)),
      Put("total_players", JInt(players)),
      Put("total_teams", JInt(teams)),
      Put("total_superlatives", JInt(superlatives)) ]
  }

  /** Each entry of `ComparisonMetadataEntries` is what `get` finds under its key. */
  lemma ComparisonReadAt(weekFrom: int, weekTo: int, players: nat, teams: nat, superlatives: nat, i: nat)
    requires i < |ComparisonMetadataEntries(weekFrom, weekTo, players, teams, superlatives)|
    ensures var es := ComparisonMetadataEntries(weekFrom, weekTo, players, teams, superlatives);
            Get(Obj(es), es[i].0) == es[i].1
  {
    LookupUnique(ComparisonMetadataEntries(weekFrom, weekTo, players, teams, superlatives), i);
  }

  lemma ComparisonWeeksRead(weekFrom: int, weekTo: int, players: nat, teams: nat, superlatives: nat)
    ensures AsStr(Get(Obj(ComparisonMetadataEntries(weekFrom, weekTo, players, teams, superlatives)), "comparison_type"))
            == Some("week_to_week")
    ensures AsInt(Get(Obj(ComparisonMetadataEntries(weekFrom, weekTo, players, teams, superlatives)), "week_from"))
            == Some(weekFrom)
  {
    var es := ComparisonMetadataEntries(weekFrom, weekTo, players, teams, superlatives);
    ComparisonReadAt(weekFrom, weekTo, players, teams, superlatives, 0);
    ComparisonReadAt(weekFrom, weekTo, players, teams, superlatives, 1);
  }

  lemma ComparisonWeekToRead(weekFrom: int, weekTo: int, players: nat, teams: nat, superlatives: nat)
    ensures AsInt(Get(Obj(ComparisonMetadataEntries(weekFrom, weekTo, players, teams, superlatives)), "week_to"))
            == Some(weekTo)
  {
    ComparisonReadAt(weekFrom, weekTo, players, teams, superlatives, 2);
  }

  lemma ComparisonDeltaRead(weekFrom: int, weekTo: int, players: nat, teams: nat, superlatives: nat)
    ensures AsInt(Get(Obj(ComparisonMetadataEntries(weekFrom, weekTo, players, teams, superlatives)), "week_delta"))
            == Some(weekTo - weekFrom)
  {
    ComparisonReadAt(weekFrom, weekTo, players, teams, superlatives, 3);
  }

  lemma ComparisonCountsRead(weekFrom: int, weekTo: int, players: nat, teams: nat, superlatives: nat)
    ensures AsInt(Get(Obj(ComparisonMetadataEntries(weekFrom, weekTo, players, teams, superlatives)), "total_players"))
            == Some(players)
    ensures AsInt(Get(Obj(ComparisonMetadataEntries(weekFrom, weekTo, players, teams, superlatives)), "total_teams"))
            == Some(teams)
    ensures AsInt(Get(Obj(ComparisonMetadataEntries(weekFrom, weekTo, players, teams, superlatives)), "total_superlatives"))
            == Some(superlatives)
  {
    var es := ComparisonMetadataEntries(weekFrom, weekTo, players, teams, superlatives);
    ComparisonReadAt(weekFrom, weekTo, players, teams, superlatives, 4);
    ComparisonReadAt(weekFrom, weekTo, players, teams, superlatives, 5);
    ComparisonReadAt(weekFrom, weekTo, players, teams, superlatives, 6);
  }

  lemma ComparisonOmits(weekFrom: int, weekTo: int, players: nat, teams: nat, superlatives: nat)
    ensures !Has(Obj(ComparisonMetadataEntries(weekFrom, weekTo, players, teams, superlatives)), "total_defenses")
    ensures !Has(Obj(ComparisonMetadataEntries(weekFrom, weekTo, players, teams, superlatives)), "weeks_analyzed")
  {
    var es := ComparisonMetadataEntries(weekFrom, weekTo, players, teams, superlatives);
    LookupAbsent(es, "total_defenses"); LookupAbsent(es, "weeks_analyzed");
  }

  /** The comparison metadata: the two weeks, their distance and the counts;
      it has no defense count and no analysed-weeks list. */
  function ComparisonMetadata(weekFrom: int, weekTo: int, players: nat, teams: nat, superlatives: nat): (r: Json)
    ensures AsStr(Get(r, "comparison_type")) == Some("week_to_week")
    ensures AsInt(Get(r, "week_from")) == Some(weekFrom) && AsInt(Get(r, "week_to")) == Some(weekTo)
    ensures AsInt(Get(r, "week_delta")) == Some(weekTo - weekFrom)
    ensures AsInt(Get(r, "total_players")) == Some(players)
    ensures AsInt(Get(r, "total_teams")) == Some(teams)
    ensures AsInt(Get(r, "total_superlatives")) == Some(superlatives)
    ensures !Has(r, "total_defenses") && !Has(r, "weeks_analyzed")
  {
    ComparisonWeeksRead(weekFrom, weekTo, players, teams, superlatives);
    ComparisonWeekToRead(weekFrom, weekTo, players, teams, superlatives);
    ComparisonDeltaRead(weekFrom, weekTo, players, teams, superlatives);
    ComparisonCountsRead(weekFrom, weekTo, players, teams, superlatives);
    ComparisonOmits(weekFrom, weekTo, players, teams, superlatives);
    Obj(ComparisonMetadataEntries(weekFrom, weekTo, players, teams, superlatives))
  }

  /** The two weeks' lines and maps, or what reading them raises: a
      missing or empty file for either week first, then a line without an id
      (earlier week first). */
  datatype PairInputs = PairInputs(fromPlayers: seq<Rec>, toPlayers: seq<Rec>, fromMap: IdMap, toMap: IdMap)

  function ReadPair(store: Store, season: int, weekFrom: int, weekTo: int): (r: Result<PairInputs, ComparisonFailure>)
    ensures Loaded(store, season, weekFrom).None? || Loaded(store, season, weekTo).None? ==>
      r == Err(MissingData(weekFrom, weekTo))
    ensures r.Ok? <==> ComparedWeeksReadable(store, season, weekTo, weekFrom)
    ensures r.Ok? ==> r.value.fromPlayers == Loaded(store, season, weekFrom).value.Players()
    ensures r.Ok? ==> r.value.toPlayers == Loaded(store, season, weekTo).value.Players()
    ensures r.Ok? ==> r.value.fromMap == ById(r.value.fromPlayers).value && r.value.toMap == ById(r.value.toPlayers).value
  {
    var from := Loaded(store, season, weekFrom);
    var to := Loaded(store, season, weekTo);
    if from.None? || to.None? then Err(MissingData(weekFrom, weekTo))
    else
      var fromPlayers := from.value.Players();
      var toPlayers := to.value.Players();
      match ById(fromPlayers)
      case Err(_) => Err(MissingId)
      case Ok(fromMap) =>
        match ById(toPlayers)
        case Err(_) => Err(MissingId)
        case Ok(toMap) => Ok(PairInputs(fromPlayers, toPlayers, fromMap, toMap))
  }

  /** `calculate_comparison_insights`: the later week's insights compared
      directly with the earlier week's. */
  function CompareWeeks(num: TeamInsights.Numerics, store: Store, season: int, weekFrom: int, weekTo: int,
                        timestamp: string): (r: Result<InsightsOutput, ComparisonFailure>)
    ensures r.Ok? <==> ComparedWeeksReadable(store, season, weekTo, weekFrom)
    ensures r.Err? ==> r.error == ReadPair(store, season, weekFrom, weekTo).error
    ensures r.Ok? ==> r.value.season == season && r.value.week == weekTo && r.value.defenseInsights == []
    ensures r.Ok? ==> r.value.playerInsights
                      == Map(PlayerJson, ComparisonPlayers(ReadPair(store, season, weekFrom, weekTo).value.toMap,
                                                           ReadPair(store, season, weekFrom, weekTo).value.fromMap,
                                                           season, weekTo, timestamp))
    ensures r.Ok? ==>
              var inputs := ReadPair(store, season, weekFrom, weekTo).value;
              r.value.teamInsights
              == Map(TeamToDict, ComparisonTeams(num, Teams(inputs.toPlayers), inputs.fromPlayers, inputs.toPlayers,
                                                 season, weekTo, timestamp))
    ensures r.Ok? ==>
              var inputs := ReadPair(store, season, weekFrom, weekTo).value;
              r.value.superlatives
              == Map(SuperlativeToDict, Superlatives.AllSuperlatives(
                                          ComparisonPlayers(inputs.toMap, inputs.fromMap, season, weekTo, timestamp),
                                          season, weekTo, timestamp))
    ensures r.Ok? ==> AsInt(Get(r.value.metadata, "week_delta")) == Some(weekTo - weekFrom)
    ensures r.Ok? ==> AsInt(Get(r.value.metadata, "total_players")) == Some(|r.value.playerInsights|)
    ensures r.Ok? ==> AsInt(Get(r.value.metadata, "total_teams")) == Some(|r.value.teamInsights|)
    ensures r.Ok? ==> AsInt(Get(r.value.metadata, "total_superlatives")) == Some(|r.value.superlatives|)
  {
    match ReadPair(store, season, weekFrom, weekTo)
    case Err(e) => Err(e)
    case Ok(inputs) =>
      var players := ComparisonPlayers(inputs.toMap, inputs.fromMap, season, weekTo, timestamp);
      var teams := ComparisonTeams(num, Teams(inputs.toPlayers), inputs.fromPlayers, inputs.toPlayers, season, weekTo,
                                   timestamp);
      var sups := Superlatives.AllSuperlatives(players, season, weekTo, timestamp);
      Ok(InsightsOutput(season, weekTo, timestamp, Map(PlayerJson, players), Map(TeamToDict, teams), [],
                        Map(SuperlativeToDict, sups), ComparisonMetadata(weekFrom, weekTo, |players|, |teams|, |sups|)))
  }

  // ---------------------------------------------------------------- no regression in comparisons

  predicate Flat(t: Option<Trend>) {
    t.Some? ==> t.value.slope.None? && t.value.direction.None? && t.value.projected.None?
  }

  /** No trend of the insight carries a slope, direction or projection. */
  predicate NoRegression(p: PlayerInsight) {
    && (p.volume.Some? ==> Flat(p.volume.value.targetShare) && Flat(p.volume.value.snapShare)
                           && Flat(p.volume.value.touchShare) && Flat(p.volume.value.carries)
                           && Flat(p.volume.value.targets))
    && (p.efficiency.Some? ==> Flat(p.efficiency.value.yardsPerCarry) && Flat(p.efficiency.value.yardsPerTarget)
                               && Flat(p.efficiency.value.catchRate) && Flat(p.efficiency.value.yardsPerReception)
                               && Flat(p.efficiency.value.fantasyPointsPerTouch))
  }

  lemma FieldTrendFlat(current: Rec, prev: Option<Rec>, history: seq<Rec>, k: string)
    requires |history| <= 2
    ensures Flat(PlayerInsights.FieldTrend(current, prev, history, k))
  {
  }

  lemma RatioTrendFlat(q: PlayerInsights.Ratio, current: Rec, prev: Option<Rec>, history: seq<Rec>)
    requires |history| <= 2
    ensures Flat(PlayerInsights.RatioTrend(q, current, prev, history))
  {
  }

  /** With at most two history lines no trend is regressed. */
  lemma ShortHistoryNoRegression(current: Rec, prev: Option<Rec>, history: seq<Rec>, season: int, week: int,
                                 timestamp: string)
    requires |history| <= 2
    ensures NoRegression(PlayerInsights.PlayerInsightOf(current, prev, history, season, week, timestamp))
  {
    FieldTrendFlat(current, prev, history, TARGET_SHARE);
    FieldTrendFlat(current, prev, history, CARRIES);
    FieldTrendFlat(current, prev, history, TARGETS);
    RatioTrendFlat(PlayerInsights.YARDS_PER_CARRY, current, prev, history);
    RatioTrendFlat(PlayerInsights.YARDS_PER_TARGET, current, prev, history);
    RatioTrendFlat(PlayerInsights.CATCH_RATE, current, prev, history);
    RatioTrendFlat(PlayerInsights.YARDS_PER_RECEPTION, current, prev, history);
    RatioTrendFlat(PlayerInsights.FANTASY_POINTS_PER_TOUCH, current, prev, history);
  }

  /** A comparison's histories hold at most two weeks, so none of its
      player trends carries a slope, direction or projection. */
  lemma ComparisonsNeverRegress(toMap: IdMap, fromMap: IdMap, season: int, weekTo: int, timestamp: string, i: nat)
    requires i < |toMap|
    ensures NoRegression(ComparisonPlayers(toMap, fromMap, season, weekTo, timestamp)[i])
  {
    var from := PyDict.Get(fromMap, toMap[i].0);
    ShortHistoryNoRegression(toMap[i].1, from, PairHistory(from, toMap[i].1), season, weekTo, timestamp);
  }

  // ---------------------------------------------------------------- the season run

  /** One pair's entry in the run summary. */
  datatype Outcome =
    | Success(weekFrom: int, weekTo: int, insights: nat, superlatives: nat)
    | Failed(weekFrom: int, weekTo: int, error: ComparisonFailure)

  /** The two files written for a successful pair, in order. */
  datatype ComparisonWrite =
    | ComparisonInsights(season: int, weekFrom: int, weekTo: int, body: Json)
    | ComparisonSuperlatives(season: int, weekFrom: int, weekTo: int, items: seq<Json>)

  function OutcomeOf(num: TeamInsights.Numerics, store: Store, season: int, p: (int, int), timestamp: string)
    : (o: Outcome)
    ensures o.weekFrom == p.0 && o.weekTo == p.1
    ensures o.Success? <==> CompareWeeks(num, store, season, p.0, p.1, timestamp).Ok?
    ensures o.Success? ==> o.insights == |CompareWeeks(num, store, season, p.0, p.1, timestamp).value.playerInsights|
                           && o.superlatives == |CompareWeeks(num, store, season, p.0, p.1, timestamp).value.superlatives|
    ensures o.Failed? ==> o.error == CompareWeeks(num, store, season, p.0, p.1, timestamp).error
  {
    match CompareWeeks(num, store, season, p.0, p.1, timestamp)
    case Ok(out) => Success(p.0, p.1, |out.playerInsights|, |out.superlatives|)
    case Err(e) => Failed(p.0, p.1, e)
  }

  function WritesOf(num: TeamInsights.Numerics, store: Store, season: int, p: (int, int), timestamp: string)
    : (w: seq<ComparisonWrite>)
    ensures |w| == if OutcomeOf(num, store, season, p, timestamp).Success? then 2 else 0
  {
    match CompareWeeks(num, store, season, p.0, p.1, timestamp)
    case Ok(out) => [ComparisonInsights(season, p.0, p.1, OutputToDict(out)),
                     ComparisonSuperlatives(season, p.0, p.1, out.superlatives)]
    case Err(_) => []
  }

  /** Every pair in turn; a failing pair is recorded and the loop goes on. */
  function RunPairs(num: TeamInsights.Numerics, store: Store, season: int, pairs: seq<(int, int)>, timestamp: string)
    : (r: (seq<Outcome>, seq<ComparisonWrite>))
    ensures |r.0| == |pairs|
    ensures forall i :: 0 <= i < |pairs| ==> r.0[i] == OutcomeOf(num, store, season, pairs[i], timestamp)
    ensures |r.1| == 2 * Successes(r.0)
  {
    if |pairs| == 0 then ([], [])
    else
      var rest := RunPairs(num, store, season, pairs[1..], timestamp);
      var o := OutcomeOf(num, store, season, pairs[0], timestamp);
      ([o] + rest.0, WritesOf(num, store, season, pairs[0], timestamp) + rest.1)
  }

  /** `sum(1 for r in results if r['status'] == 'success')`. */
  function Successes(results: seq<Outcome>): (n: nat)
    ensures n <= |results|
  {
    if |results| == 0 then 0 else (if results[0].Success? then 1 else 0) + Successes(results[1..])
  }

  function Failures(results: seq<Outcome>): nat {
    if |results| == 0 then 0 else (if results[0].Failed? then 1 else 0) + Failures(results[1..])
  }

  /** The summary's `failed = len(results) - successful` is the number of failed entries. */
  lemma {:induction false} SuccessesAndFailures(results: seq<Outcome>)
    ensures Successes(results) + Failures(results) == |results|
  {
    if |results| > 0 {
      SuccessesAndFailures(results[1..]);
    }
  }

  datatype Summary = Summary(season: int, availableWeeks: seq<int>, total: nat, results: seq<Outcome>,
                             successful: nat, failed: nat)

  /** `generate_all_season_comparisons`: the outcome of every pair of the
      available weeks, the files written for the successful ones, and the
      summary written last. */
  function SeasonComparisons(num: TeamInsights.Numerics, store: Store, season: int, availableWeeks: seq<int>,
                             timestamp: string): (r: (Summary, seq<ComparisonWrite>))
    ensures 2 * r.0.total == |availableWeeks| * (|availableWeeks| - 1)
    ensures |r.0.results| == r.0.total
    ensures r.0.successful + r.0.failed == r.0.total
    ensures r.0.failed == Failures(r.0.results)
    ensures |r.1| == 2 * r.0.successful
    ensures forall i :: 0 <= i < |r.0.results| ==>
      (r.0.results[i].Success? <==> ComparedWeeksReadable(store, season, r.0.results[i].weekTo, r.0.results[i].weekFrom))
    ensures r.0.season == season && r.0.availableWeeks == availableWeeks
    ensures |r.0.results| == |WeekPairs(availableWeeks)|
    ensures forall i :: 0 <= i < |r.0.results| ==>
      r.0.results[i] == OutcomeOf(num, store, season, WeekPairs(availableWeeks)[i], timestamp)
    ensures r.1 == RunPairs(num, store, season, WeekPairs(availableWeeks), timestamp).1
  {
    var pairs := WeekPairs(availableWeeks);
    PairCount(availableWeeks);
    var (results, writes) := RunPairs(num, store, season, pairs, timestamp);
    var successful := Successes(results);
    SuccessesAndFailures(results);
    (Summary(season, availableWeeks, |pairs|, results, successful, |results| - successful), writes)
  }
}

=== FILE: defense_insights.dfy ===
/** The defense insights calculator
    (lambda_functions/insights_engine/calculators/defense_insights.py).

    A defense is described by the fantasy points its opponents scored at
    each skill position: a trend per position over the current week's
    opponent lines, the previous week's (absent or empty in the first week)
    and the history weeks. The calculator never sets the sack and
    interception trends and never fits a line.
 */
module DefenseInsights {
  import opened Wrappers
  import opened Seqs
  import opened Records
  import opened Models
  import opened Trends
  import Ranking
  import StableSort

  // ---------------------------------------------------------------- points allowed

  function AtPosition(position: string): Rec -> bool {
    (p: Rec) => p.Text(POSITION) == Some(position)
  }

  function FantasyPoints(p: Rec): real {
    p.Num(FANTASY_POINTS_PPR)
  }

  /** `sum(p.get('fantasy_points_ppr', 0) for p in opponents if p.get('position') == position)`. */
  function PositionPoints(opponents: seq<Rec>, position: string): real {
    Sum(Map(FantasyPoints, Filter(AtPosition(position), opponents)))
  }

  function PointsAt(position: string): seq<Rec> -> real {
    (opponents: seq<Rec>) => PositionPoints(opponents, position)
  }

  /** The points scored at a position add up over the opponent lines. */
  lemma {:induction false} PositionPointsAppend(a: seq<Rec>, b: seq<Rec>, position: string)
    ensures PositionPoints(a + b, position) == PositionPoints(a, position) + PositionPoints(b, position)
  {
    var f := AtPosition(position);
    FilterAppend(f, a, b);
    var fa := Filter(f, a);
    var fb := Filter(f, b);
    MapAppend(FantasyPoints, fa, fb);
    SumAppend(Map(FantasyPoints, fa), Map(FantasyPoints, fb));
  }

  /** Opponents at other positions add nothing. */
  lemma OtherPositionsScoreNothing(opponents: seq<Rec>, position: string)
    requires forall i :: 0 <= i < |opponents| ==> opponents[i].Text(POSITION) != Some(position)
    ensures PositionPoints(opponents, position) == 0.0
  {
    FilterNone(AtPosition(position), opponents);
  }

  /** The previous week's points, when the previous opponent list is truthy (non-empty). */
  function PrevPoints(previous: Option<seq<Rec>>, position: string): (r: Option<real>)
    ensures r.Some? <==> previous.Some? && |previous.value| > 0
  {
    if previous.Some? && |previous.value| > 0 then Some(PositionPoints(previous.value, position)) else None
  }

  /** The history weeks in which the position scored, in order. */
  function PointsHistory(history: seq<seq<Rec>>, position: string): (r: seq<real>)
    ensures forall i :: 0 <= i < |r| ==> r[i] > 0.0
  {
    Filter(IsPositive, Map(PointsAt(position), history))
  }

  /** `_calculate_points_allowed_by_position`. */
  function PointsAllowedTrend(current: seq<Rec>, previous: Option<seq<Rec>>, history: seq<seq<Rec>>,
                              position: string): (t: Trend)
    ensures t.current == PositionPoints(current, position)
    ensures t.previous.Some? <==> previous.Some? && |previous.value| > 0
    ensures t.previous.Some? ==> t.previous.value == PositionPoints(previous.value, position)
    ensures t.delta.Some? <==> t.previous.Some?
    ensures t.delta.Some? ==> t.previous.value + t.delta.value == t.current
    ensures t.deltaPct.Some? <==> t.previous.Some? && t.previous.value != 0.0
    ensures |t.threeWeek| == 0 || |t.threeWeek| == 3
    ensures forall i :: 0 <= i < |t.threeWeek| ==> t.threeWeek[i] > 0.0
    ensures t.direction.None? && t.slope.None? && t.projected.None?
  {
    UnfittedTrend(PositionPoints(current, position), PrevPoints(previous, position), PointsHistory(history, position))
  }

  /** The points-allowed trend is the shared trend primitive without its regression. */
  lemma PointsAllowedIsTrend(current: seq<Rec>, previous: Option<seq<Rec>>, history: seq<seq<Rec>>, position: string)
    ensures PointsAllowedTrend(current, previous, history, position)
         == WithoutRegression(CalculateTrend(PositionPoints(current, position), PrevPoints(previous, position),
                                             PointsHistory(history, position)))
  {
    UnfittedIsTrend(PositionPoints(current, position), PrevPoints(previous, position), PointsHistory(history, position));
  }

  /** `calculate_defense_insights`: the four position trends, always set,
      each the shared trend of the points allowed to that position; the sack
      and interception trends, never. */
  function DefenseInsightOf(team: string, current: seq<Rec>, previous: Option<seq<Rec>>, history: seq<seq<Rec>>,
                            season: int, week: int, timestamp: string): (d: DefenseInsight)
    ensures d.team == team && d.week == week && d.season == season && d.timestamp == timestamp
    ensures d.vsQb.Some? && d.vsRb.Some? && d.vsWr.Some? && d.vsTe.Some?
    ensures d.sacksPerGame.None? && d.interceptionsPerGame.None?
    ensures d.vsQb.value.current == PositionPoints(current, "QB")
    ensures d.vsRb.value.current == PositionPoints(current, "RB")
    ensures d.vsWr.value.current == PositionPoints(current, "WR")
    ensures d.vsTe.value.current == PositionPoints(current, "TE")
    ensures d.vsQb.value == WithoutRegression(CalculateTrend(PositionPoints(current, "QB"), PrevPoints(previous, "QB"),
                                                             PointsHistory(history, "QB")))
    ensures d.vsRb.value == WithoutRegression(CalculateTrend(PositionPoints(current, "RB"), PrevPoints(previous, "RB"),
                                                             PointsHistory(history, "RB")))
    ensures d.vsWr.value == WithoutRegression(CalculateTrend(PositionPoints(current, "WR"), PrevPoints(previous, "WR"),
                                                             PointsHistory(history, "WR")))
    ensures d.vsTe.value == WithoutRegression(CalculateTrend(PositionPoints(current, "TE"), PrevPoints(previous, "TE"),
                                                             PointsHistory(history, "TE")))
  {
    PointsAllowedIsTrend(current, previous, history, "QB");
    PointsAllowedIsTrend(current, previous, history, "RB");
    PointsAllowedIsTrend(current, previous, history, "WR");
    PointsAllowedIsTrend(current, previous, history, "TE");
    DefenseInsight(team, week, season,
                   Some(PointsAllowedTrend(current, previous, history, "QB")),
                   Some(PointsAllowedTrend(current, previous, history, "RB")),
                   Some(PointsAllowedTrend(current, previous, history, "WR")),
                   Some(PointsAllowedTrend(current, previous, history, "TE")),
                   None, None, timestamp)
  }

  // ---------------------------------------------------------------- defensive aggregation

  const DEFENSIVE_POSITIONS: seq<string> := ["LB", "DB", "DL", "DE", "DT", "CB", "S"]

  const SACKS := "sacks"
  const INTERCEPTIONS := "interceptions"
  const TACKLES_SOLO := "tackles_solo"
  const TACKLES_ASSIST := "tackles_assist"
  const FORCED_FUMBLES := "forced_fumbles"

  /** On the team and at a defensive position. */
  function IsDefender(team: string): Rec -> bool {
    (p: Rec) => p.Text(TEAM) == Some(team) && p.Text(POSITION).Some? && p.Text(POSITION).value in DEFENSIVE_POSITIONS
  }

  datatype DefenseTotals = DefenseTotals(sacks: real, interceptions: real, tacklesSolo: real,
                                         tacklesAssist: real, forcedFumbles: real)

  /** One pass of the aggregation loop. */
  function AddDefender(t: DefenseTotals, p: Rec): DefenseTotals {
    DefenseTotals(t.sacks + p.Num("def_sacks"), t.interceptions + p.Num("def_interceptions"),
                  t.tacklesSolo + p.Num("def_tackles_solo"), t.tacklesAssist + p.Num("def_tackles_assist"),
                  t.forcedFumbles + p.Num("def_forced_fumbles"))
  }

  /** The aggregation loop over `ps`, starting from `t`. */
  function AccumulateDefense(t: DefenseTotals, ps: seq<Rec>): DefenseTotals
    decreases |ps|
  {
    if |ps| == 0 then t else AccumulateDefense(AddDefender(t, ps[0]), ps[1..])
  }

  function Field(k: string): Rec -> real {
    (p: Rec) => p.Num(k)
  }

  /** The loop adds up each column: every total is the column's sum. */
  lemma {:induction false} AccumulateDefenseSums(t: DefenseTotals, ps: seq<Rec>)
    ensures AccumulateDefense(t, ps)
         == DefenseTotals(t.sacks + Sum(Map(Field("def_sacks"), ps)),
                          t.interceptions + Sum(Map(Field("def_interceptions"), ps)),
                          t.tacklesSolo + Sum(Map(Field("def_tackles_solo"), ps)),
                          t.tacklesAssist + Sum(Map(Field("def_tackles_assist"), ps)),
                          t.forcedFumbles + Sum(Map(Field("def_forced_fumbles"), ps)))
    decreases |ps|
  {
    if |ps| > 0 {
      AccumulateDefenseSums(AddDefender(t, ps[0]), ps[1..]);
      MapTail(Field("def_sacks"), ps);
      MapTail(Field("def_interceptions"), ps);
      MapTail(Field("def_tackles_solo"), ps);
      MapTail(Field("def_tackles_assist"), ps);
      MapTail(Field("def_forced_fumbles"), ps);
    }
  }

  lemma MapTail(f: Rec -> real, ps: seq<Rec>)
    requires |ps| > 0
    ensures Sum(Map(f, ps)) == f(ps[0]) + Sum(Map(f, ps[1..]))
  {
    assert Map(f, ps)[1..] == Map(f, ps[1..]);
  }

  /** `aggregate_defensive_stats_from_players(players, team)`: `{}` when the
      team has no defender, otherwise the team name and the five column totals
      over its defenders. */
  function AggregateDefensiveStats(players: seq<Rec>, team: string): (r: Rec)
    ensures r.NonEmpty() <==> exists i :: 0 <= i < |players| && IsDefender(team)(players[i])
    ensures !r.NonEmpty() ==> r == Rec(map[], map[])
    ensures r.NonEmpty() ==>
      && r.text == map[TEAM := team]
      && r.nums.Keys == {SACKS, INTERCEPTIONS, TACKLES_SOLO, TACKLES_ASSIST, FORCED_FUMBLES}
    ensures r.NonEmpty() ==>
      var ps := Filter(IsDefender(team), players);
      && r.Num(SACKS) == Sum(Map(Field("def_sacks"), ps))
      && r.Num(INTERCEPTIONS) == Sum(Map(Field("def_interceptions"), ps))
      && r.Num(TACKLES_SOLO) == Sum(Map(Field("def_tackles_solo"), ps))
      && r.Num(TACKLES_ASSIST) == Sum(Map(Field("def_tackles_assist"), ps))
      && r.Num(FORCED_FUMBLES) == Sum(Map(Field("def_forced_fumbles"), ps))
  {
    var ps := Filter(IsDefender(team), players);
    if |ps| == 0 then
      Rec(map[], map[])
    else
      var z := DefenseTotals(0.0, 0.0, 0.0, 0.0, 0.0);
      AccumulateDefenseSums(z, ps);
      assert ps[0] in players;
      TotalsRecord(team, AccumulateDefense(z, ps))
  }

  /** The aggregated dict for one team: its name and the five totals. */
  function TotalsRecord(team: string, t: DefenseTotals): (r: Rec)
    ensures r.NonEmpty()
    ensures r.text == map[TEAM := team]
    ensures r.nums.Keys == {SACKS, INTERCEPTIONS, TACKLES_SOLO, TACKLES_ASSIST, FORCED_FUMBLES}
    ensures && r.Num(SACKS) == t.sacks && r.Num(INTERCEPTIONS) == t.interceptions
            && r.Num(TACKLES_SOLO) == t.tacklesSolo && r.Num(TACKLES_ASSIST) == t.tacklesAssist
            && r.Num(FORCED_FUMBLES) == t.forcedFumbles
  {
    Rec(map[TEAM := team],
        map[SACKS := t.sacks, INTERCEPTIONS := t.interceptions, TACKLES_SOLO := t.tacklesSolo,
            TACKLES_ASSIST := t.tacklesAssist, FORCED_FUMBLES := t.forcedFumbles])
  }

  // ---------------------------------------------------------------- matchups

  datatype Matchup = Matchup(team: string, pointsAllowed: real, direction: Option<Direction>, delta: Option<real>)

  /** The defense's trend for `position`, for the four skill positions. */
  function PositionTrend(d: DefenseInsight, position: string): Option<Trend> {
    if position == "QB" then d.vsQb
    else if position == "RB" then d.vsRb
    else if position == "WR" then d.vsWr
    else if position == "TE" then d.vsTe
    else None
  }

  function PointsAllowed(position: string): DefenseInsight -> Option<real> {
    (d: DefenseInsight) =>
      var t := PositionTrend(d, position);
      if t.Some? then Some(t.value.current) else None
  }

  /** The matchup entry of a defense with a trend for `position`. */
  function MatchupOf(position: string): DefenseInsight -> Matchup {
    (d: DefenseInsight) =>
      var t := PositionTrend(d, position).GetOr(BareTrend(0.0));
      Matchup(d.team, t.current, t.direction, t.delta)
  }

  /** `get_defense_vs_position_matchups`: the defenses with a trend for the
      position, worst first (most points allowed), ties in input order. */
  function Matchups(defenses: seq<DefenseInsight>, position: string): (r: seq<Matchup>)
    ensures |r| == |Ranking.Candidates(defenses, PointsAllowed(position))|
    ensures forall i :: 0 <= i < |r| ==> exists d :: d in defenses && PositionTrend(d, position).Some?
                                                   && r[i] == MatchupOf(position)(d)
  {
    Map(MatchupOf(position), Ranking.Ranked(defenses, PointsAllowed(position)))
  }

  /** A position other than the four skill positions has no matchups. */
  lemma UnknownPositionEmpty(defenses: seq<DefenseInsight>, position: string)
    requires position !in ["QB", "RB", "WR", "TE"]
    ensures Matchups(defenses, position) == []
  {
    FilterNone(Ranking.Has(PointsAllowed(position)), defenses);
  }

  /** Matchups run from the most points allowed down. */
  lemma MatchupsOrdered(defenses: seq<DefenseInsight>, position: string, i: nat, j: nat)
    requires i < j < |Matchups(defenses, position)|
    ensures Matchups(defenses, position)[i].pointsAllowed >= Matchups(defenses, position)[j].pointsAllowed
  {
    var ranked := Ranking.Ranked(defenses, PointsAllowed(position));
    Ranking.RankedOrdered(defenses, PointsAllowed(position), i, j);
    assert Matchups(defenses, position)[i] == MatchupOf(position)(ranked[i]);
    assert Matchups(defenses, position)[j] == MatchupOf(position)(ranked[j]);
  }

  /** Every defense with a trend for the position has its matchup listed. */
  lemma MatchupsComplete(defenses: seq<DefenseInsight>, position: string, d: DefenseInsight)
    requires d in defenses && PositionTrend(d, position).Some?
    ensures MatchupOf(position)(d) in Matchups(defenses, position)
  {
    Ranking.RankedComplete(defenses, PointsAllowed(position), d);
    var ranked := Ranking.Ranked(defenses, PointsAllowed(position));
    var k :| 0 <= k < |ranked| && ranked[k] == d;
    assert Matchups(defenses, position)[k] == MatchupOf(position)(d);
  }

  /** Ranking the defenses and then building their entries gives the same
      list as building the entries first and stably sorting them by points
      allowed, as the calculator does. */
  lemma MatchupsSortEntries(defenses: seq<DefenseInsight>, position: string)
    ensures var c := Ranking.Candidates(defenses, PointsAllowed(position));
      var entries := Map(MatchupOf(position), c);
      Matchups(defenses, position) == StableSort.SortDesc(entries, Map(EntryPoints, entries))
  {
    var m := PointsAllowed(position);
    var c := Ranking.Candidates(defenses, m);
    var entries := Map(MatchupOf(position), c);
    var keys := Map(Ranking.Key(m), c);
    forall i | 0 <= i < |c|
      ensures Map(EntryPoints, entries)[i] == keys[i]
    {
    }
    assert Map(EntryPoints, entries) == keys;
    assert Ranking.Ranked(defenses, m) == StableSort.SortDesc(c, keys);
    Ranking.SortMap(c, keys, MatchupOf(position));
  }

  function EntryPoints(e: Matchup): real {
    e.pointsAllowed
  }
}

=== FILE: fetcher.dfy ===
/** The daily data fetcher's own logic (lambda_functions/data_fetcher/index.py):
    the retry schedule around the upstream fetch, the diff between two
    injury-report snapshots, and which files `save_to_s3` writes, in which
    order, given the validation verdicts.

    The upstream fetch and every storage call are left out: a fetch attempt's
    outcome is a parameter, and the writes are returned as a log.
 */
module Fetcher {
  import opened Wrappers
  import opened Seqs
  import opened Records
  import PyDict
  import Validation

  // ================================================================ get_nfl_stats_with_retry

  /** What one call of the upstream fetch did. */
  datatype Attempt<T> = Fetched(data: T) | Raised(error: string)

  /** `Returned` carries the data and the zero-based attempt that got it;
      `Reraised` is the last attempt's exception propagating; `FellThrough`
      is the implicit `None` of a loop over an empty `range`. */
  datatype RetryResult<T> = Returned(data: T, attempt: nat) | Reraised(error: string) | FellThrough

  function Pow2(n: nat): (r: nat)
    ensures r >= 1
  {
    if n == 0 then 1 else 2 * Pow2(n - 1)
  }

  /** The sleeps before attempt `k`: 1, 2, 4, ... seconds. */
  function Backoff(k: nat): (r: seq<nat>)
    ensures |r| == k
    ensures forall i :: 0 <= i < k ==> r[i] == Pow2(i)
  {
    if k == 0 then [] else Backoff(k - 1) + [Pow2(k - 1)]
  }

  function Total(s: seq<nat>): nat {
    if |s| == 0 then 0 else Total(s[..|s| - 1]) + s[|s| - 1]
  }

  /** Before attempt `k` the fetcher has waited `2^k - 1` seconds in all. */
  lemma {:induction false} BackoffTotal(k: nat)
    ensures Total(Backoff(k)) == Pow2(k) - 1
  {
    if k > 0 {
      BackoffTotal(k - 1);
      assert Backoff(k)[..k - 1] == Backoff(k - 1);
    }
  }

  /** `get_nfl_stats_with_retry(max_retries)`, with `fetch(a)` the outcome of
      attempt `a`. Returns what the call returns or raises, and the sleeps
      taken. */
  method FetchWithRetry<T>(fetch: nat -> Attempt<T>, maxRetries: int) returns (result: RetryResult<T>, sleeps: seq<nat>)
    ensures result.FellThrough? <==> maxRetries <= 0
    ensures result.FellThrough? ==> sleeps == []
    ensures result.Returned? ==>
              result.attempt < maxRetries && fetch(result.attempt) == Fetched(result.data)
              && (forall a :: 0 <= a < result.attempt ==> fetch(a).Raised?)
              && sleeps == Backoff(result.attempt)
    ensures result.Reraised? ==>
              (forall a :: 0 <= a < maxRetries ==> fetch(a).Raised?)
              && fetch(maxRetries - 1) == Raised(result.error)
              && sleeps == Backoff(maxRetries - 1)
  {
    var attempt: nat := 0;
    sleeps := [];
    while attempt < maxRetries
      invariant maxRetries > 0 ==> attempt < maxRetries
      invariant maxRetries <= 0 ==> attempt == 0
      invariant forall a :: 0 <= a < attempt ==> fetch(a).Raised?
      invariant sleeps == Backoff(attempt)
      decreases maxRetries - attempt
    {
      match fetch(attempt)
      case Fetched(d) =>
        return Returned(d, attempt), sleeps;
      case Raised(e) =>
        if attempt < maxRetries - 1 {
          sleeps := sleeps + [Pow2(attempt)];
          attempt := attempt + 1;
        } else {
          return Reraised(e), sleeps;
        }
    }
    result := FellThrough;
  }

  /** The fetch is tried at most `max_retries` times and the wait never
      follows the last attempt: a run that re-raises has slept
      `2^(max_retries - 1) - 1` seconds. */
  lemma ReraiseWaits(maxRetries: nat)
    requires maxRetries >= 1
    ensures |Backoff(maxRetries - 1)| == maxRetries - 1
    ensures Total(Backoff(maxRetries - 1)) == Pow2(maxRetries - 1) - 1
  {
    BackoffTotal(maxRetries - 1);
  }

  // ================================================================ detect_injury_changes

  const GSIS_ID := "gsis_id"
  const PRACTICE_STATUS := "practice_status"
  const REPORT_STATUS := "report_status"

  /** `inj.get('gsis_id')` when it is truthy. */
  function GsisId(r: Rec): Option<string> {
    if r.HasText(GSIS_ID) then Some(r.text[GSIS_ID]) else None
  }

  function HasId(r: Rec): bool {
    GsisId(r).Some?
  }

  type InjuryMap = seq<(string, Rec)>

  /** `{inj.get('gsis_id'): inj for inj in injuries if inj.get('gsis_id')}`:
      each record with an id is assigned under it in turn. */
  function Keyed(injuries: seq<Rec>): InjuryMap {
    if |injuries| == 0 then []
    else
      var m := Keyed(injuries[..|injuries| - 1]);
      var last := injuries[|injuries| - 1];
      if HasId(last) then PyDict.Put(m, GsisId(last).value, last) else m
  }

  /** The keyed snapshot holds each id once, beside a record carrying it. */
  lemma {:induction false} KeyedWellFormed(injuries: seq<Rec>)
    ensures PyDict.DistinctKeys(Keyed(injuries))
    ensures forall i :: 0 <= i < |Keyed(injuries)| ==> GsisId(Keyed(injuries)[i].1) == Some(Keyed(injuries)[i].0)
  {
    if |injuries| > 0 {
      var m := Keyed(injuries[..|injuries| - 1]);
      var last := injuries[|injuries| - 1];
      KeyedWellFormed(injuries[..|injuries| - 1]);
      if HasId(last) {
        PyDict.PutDistinct(m, GsisId(last).value, last);
      }
    }
  }

  /** The player appears in the snapshot under a truthy id. */
  predicate Reported(injuries: seq<Rec>, id: string) {
    exists i :: 0 <= i < |injuries| && GsisId(injuries[i]) == Some(id)
  }

  /** The last record of the snapshot that carries `id`. */
  function LastReport(injuries: seq<Rec>, id: string): (r: Option<Rec>)
    ensures r.Some? ==> GsisId(r.value) == Some(id)
  {
    if |injuries| == 0 then None
    else if GsisId(injuries[|injuries| - 1]) == Some(id) then Some(injuries[|injuries| - 1])
    else LastReport(injuries[..|injuries| - 1], id)
  }

  lemma {:induction false} LastReportIffReported(injuries: seq<Rec>, id: string)
    ensures LastReport(injuries, id).Some? <==> Reported(injuries, id)
  {
    if |injuries| > 0 {
      var init := injuries[..|injuries| - 1];
      LastReportIffReported(init, id);
      if Reported(injuries, id) && GsisId(injuries[|injuries| - 1]) != Some(id) {
        var i :| 0 <= i < |injuries| && GsisId(injuries[i]) == Some(id);
        assert init[i] == injuries[i];
      }
      if Reported(init, id) {
        var i :| 0 <= i < |init| && GsisId(init[i]) == Some(id);
        assert injuries[i] == init[i];
      }
    }
  }

  /** Looking a player up in the keyed snapshot finds their last record: a
      later duplicate overwrites an earlier one. */
  lemma {:induction false} KeyedGet(injuries: seq<Rec>, id: string)
    ensures PyDict.Get(Keyed(injuries), id) == LastReport(injuries, id)
    ensures PyDict.Get(Keyed(injuries), id).Some? <==> Reported(injuries, id)
  {
    LastReportIffReported(injuries, id);
    if |injuries| > 0 {
      var init := injuries[..|injuries| - 1];
      var last := injuries[|injuries| - 1];
      KeyedGet(init, id);
      if HasId(last) {
        PyDict.PutGet(Keyed(init), GsisId(last).value, last, id);
      }
    }
  }

  /** A player present in both snapshots, with their two records. */
  datatype Both = Both(id: string, prev: Rec, curr: Rec)

  /** The keys of `prevMap` that `currMap` also holds, in `prevMap` order. */
  function Common(prevMap: InjuryMap, currMap: InjuryMap): (r: seq<Both>)
    ensures |r| <= |prevMap|
  {
    if |prevMap| == 0 then []
    else
      (match PyDict.Get(currMap, prevMap[0].0)
       case Some(c) => [Both(prevMap[0].0, prevMap[0].1, c)]
       case None => [])
      + Common(prevMap[1..], currMap)
  }

  /** Each shared entry pairs an entry of `prevMap` with what `currMap`
      holds under the same key. */
  lemma {:induction false} CommonSound(prevMap: InjuryMap, currMap: InjuryMap, i: nat)
    requires i < |Common(prevMap, currMap)|
    ensures var b := Common(prevMap, currMap)[i];
            (b.id, b.prev) in prevMap && PyDict.Get(currMap, b.id) == Some(b.curr)
  {
    var rest := Common(prevMap[1..], currMap);
    var here: seq<Both> := match PyDict.Get(currMap, prevMap[0].0)
      case Some(c) => [Both(prevMap[0].0, prevMap[0].1, c)]
      case None => [];
    assert Common(prevMap, currMap) == here + rest;
    if i >= |here| {
      CommonSound(prevMap[1..], currMap, i - |here|);
      assert Common(prevMap, currMap)[i] == rest[i - |here|];
    }
  }

  /** Every key of `prevMap` that `currMap` holds is shared. */
  lemma {:induction false} CommonComplete(prevMap: InjuryMap, currMap: InjuryMap, j: nat)
    requires j < |prevMap| && PyDict.Get(currMap, prevMap[j].0).Some?
    ensures exists i :: 0 <= i < |Common(prevMap, currMap)| && Common(prevMap, currMap)[i].id == prevMap[j].0
  {
    var rest := Common(prevMap[1..], currMap);
    var here: seq<Both> := match PyDict.Get(currMap, prevMap[0].0)
      case Some(c) => [Both(prevMap[0].0, prevMap[0].1, c)]
      case None => [];
    var r := Common(prevMap, currMap);
    assert r == here + rest;
    if j == 0 {
      assert r[0].id == prevMap[0].0;
    } else {
      assert prevMap[1..][j - 1] == prevMap[j];
      CommonComplete(prevMap[1..], currMap, j - 1);
      var i :| 0 <= i < |rest| && rest[i].id == prevMap[j].0;
      assert r[|here| + i] == rest[i];
    }
  }

  datatype Change = Change(player: Rec, from: Option<string>, to: Option<string>)

  datatype InjuryChanges = InjuryChanges(
    newInjuries: seq<Rec>,
    cleared: seq<Rec>,
    upgraded: seq<Change>,
    downgraded: seq<Change>,
    statusChanged: seq<Change>)

  /** `practice_levels.get(status, 0)`. */
  function Level(status: Option<string>): nat {
    match status
    case Some("DNP") => 1
    case Some("Limited") => 2
    case Some("Full") => 3
    case _ => 0
  }

  function PracticeLevel(r: Rec): nat {
    Level(r.Text(PRACTICE_STATUS))
  }

  predicate Upgrade(prev: Rec, curr: Rec) {
    PracticeLevel(curr) > PracticeLevel(prev) && PracticeLevel(prev) > 0
  }

  predicate Downgrade(prev: Rec, curr: Rec) {
    PracticeLevel(curr) < PracticeLevel(prev) && PracticeLevel(curr) > 0
  }

  function IsUpgrade(b: Both): bool {
    Upgrade(b.prev, b.curr)
  }

  /** The `elif` branch: checked only when the player did not upgrade. */
  function IsDowngrade(b: Both): bool {
    !Upgrade(b.prev, b.curr) && Downgrade(b.prev, b.curr)
  }

  function ReportDiffers(b: Both): bool {
    b.prev.Text(REPORT_STATUS) != b.curr.Text(REPORT_STATUS)
  }

  /** The `{"player": curr, "from": ..., "to": ...}` entry for `field`. */
  function ChangeOf(field: string): Both -> Change {
    (b: Both) => Change(b.curr, b.prev.Text(field), b.curr.Text(field))
  }

  function Absent(m: InjuryMap): ((string, Rec)) -> bool {
    (e: (string, Rec)) => PyDict.Get(m, e.0).None?
  }

  function Record(e: (string, Rec)): Rec {
    e.1
  }

  /** The records of `m` whose key `other` lacks, in `m` order: the
      `for player_id in m: if player_id not in other` loops. */
  function Unmatched(m: InjuryMap, other: InjuryMap): seq<Rec> {
    if |m| == 0 then []
    else (if PyDict.Get(other, m[0].0).None? then [m[0].1] else []) + Unmatched(m[1..], other)
  }

  lemma {:induction false} UnmatchedIsFilter(m: InjuryMap, other: InjuryMap)
    ensures Unmatched(m, other) == Map(Record, Filter(Absent(other), m))
  {
    if |m| > 0 {
      UnmatchedIsFilter(m[1..], other);
    }
  }

  /** The change entries for the shared players `keep` accepts, in order. */
  function Changes(both: seq<Both>, keep: Both -> bool, field: string): seq<Change> {
    if |both| == 0 then []
    else (if keep(both[0]) then [ChangeOf(field)(both[0])] else []) + Changes(both[1..], keep, field)
  }

  lemma {:induction false} ChangesIsFilter(both: seq<Both>, keep: Both -> bool, field: string)
    ensures Changes(both, keep, field) == Map(ChangeOf(field), Filter(keep, both))
  {
    if |both| > 0 {
      ChangesIsFilter(both[1..], keep, field);
    }
  }

  /** `detect_injury_changes(previous_injuries, current_injuries)`. */
  function DetectInjuryChanges(previous: seq<Rec>, current: seq<Rec>): InjuryChanges {
    var prevMap := Keyed(previous);
    var currMap := Keyed(current);
    var both := Common(prevMap, currMap);
    InjuryChanges(
      Unmatched(currMap, prevMap),
      Unmatched(prevMap, currMap),
      Changes(both, IsUpgrade, PRACTICE_STATUS),
      Changes(both, IsDowngrade, PRACTICE_STATUS),
      Changes(both, ReportDiffers, REPORT_STATUS))
  }

  /** The diff lists each category at most once per record of its snapshot. */
  lemma DiffSizes(previous: seq<Rec>, current: seq<Rec>)
    ensures var r := DetectInjuryChanges(previous, current);
            |r.newInjuries| <= |current| && |r.cleared| <= |previous|
            && |r.upgraded| + |r.downgraded| <= |previous|
  {
    var prevMap := Keyed(previous);
    var currMap := Keyed(current);
    var both := Common(prevMap, currMap);
    KeyedShorter(previous);
    KeyedShorter(current);
    UnmatchedIsFilter(currMap, prevMap);
    UnmatchedIsFilter(prevMap, currMap);
    ChangesIsFilter(both, IsUpgrade, PRACTICE_STATUS);
    ChangesIsFilter(both, IsDowngrade, PRACTICE_STATUS);
    FilterSplit(both);
  }

  lemma {:induction false} KeyedShorter(injuries: seq<Rec>)
    ensures |Keyed(injuries)| <= |injuries|
  {
    if |injuries| > 0 {
      KeyedShorter(injuries[..|injuries| - 1]);
    }
  }

  /** Upgrades and downgrades are drawn from disjoint parts of one list. */
  lemma {:induction false} FilterSplit(both: seq<Both>)
    ensures |Filter(IsUpgrade, both)| + |Filter(IsDowngrade, both)| <= |both|
  {
    if |both| > 0 {
      FilterSplit(both[1..]);
    }
  }

  /** Some player's gsis_id is `id`. */
  predicate Listed(recs: seq<Rec>, id: string) {
    exists i :: 0 <= i < |recs| && GsisId(recs[i]) == Some(id)
  }

  /** Some change entry is about the player whose gsis_id is `id`. */
  predicate ChangeListed(changes: seq<Change>, id: string) {
    exists i :: 0 <= i < |changes| && GsisId(changes[i].player) == Some(id)
  }

  /** Each record a filter of the keyed snapshot keeps is the last record
      of its player. */
  lemma KeyedFilterSound(injuries: seq<Rec>, keep: ((string, Rec)) -> bool, i: nat)
    requires i < |Filter(keep, Keyed(injuries))|
    ensures var e := Filter(keep, Keyed(injuries))[i];
            GsisId(e.1) == Some(e.0) && LastReport(injuries, e.0) == Some(e.1) && keep(e)
  {
    var m := Keyed(injuries);
    KeyedWellFormed(injuries);
    var e := Filter(keep, m)[i];
    assert e in m;
    var j :| 0 <= j < |m| && m[j] == e;
    PyDict.GetAt(m, j);
    KeyedGet(injuries, e.0);
  }

  /** A reported player whose last record the filter accepts is kept. */
  lemma KeyedFilterComplete(injuries: seq<Rec>, keep: ((string, Rec)) -> bool, id: string)
    requires LastReport(injuries, id).Some? && keep((id, LastReport(injuries, id).value))
    ensures exists i :: 0 <= i < |Filter(keep, Keyed(injuries))| && Filter(keep, Keyed(injuries))[i].0 == id
  {
    var m := Keyed(injuries);
    var rec := LastReport(injuries, id).value;
    KeyedGet(injuries, id);
    PyDict.GetFound(m, id);
    var j :| 0 <= j < |m| && m[j] == (id, rec);
    assert m[j] in Filter(keep, m);
  }

  /** Filtering the keyed snapshot by `keep` lists a player exactly when
      they are reported and `keep` accepts their last record; every record
      listed is its player's last. */
  lemma KeyedFilter(injuries: seq<Rec>, keep: ((string, Rec)) -> bool, id: string)
    ensures Listed(Map(Record, Filter(keep, Keyed(injuries))), id) <==>
              LastReport(injuries, id).Some? && keep((id, LastReport(injuries, id).value))
    ensures forall i :: 0 <= i < |Map(Record, Filter(keep, Keyed(injuries)))| ==>
              HasId(Map(Record, Filter(keep, Keyed(injuries)))[i])
              && LastReport(injuries, GsisId(Map(Record, Filter(keep, Keyed(injuries)))[i]).value)
                 == Some(Map(Record, Filter(keep, Keyed(injuries)))[i])
  {
    var kept := Filter(keep, Keyed(injuries));
    var recs := Map(Record, kept);
    forall i | 0 <= i < |recs|
      ensures HasId(recs[i]) && LastReport(injuries, GsisId(recs[i]).value) == Some(recs[i])
    {
      KeyedFilterSound(injuries, keep, i);
    }
    if Listed(recs, id) {
      var i :| 0 <= i < |recs| && GsisId(recs[i]) == Some(id);
      KeyedFilterSound(injuries, keep, i);
    }
    if LastReport(injuries, id).Some? && keep((id, LastReport(injuries, id).value)) {
      KeyedFilterComplete(injuries, keep, id);
      var i :| 0 <= i < |kept| && kept[i].0 == id;
      KeyedFilterSound(injuries, keep, i);
      assert GsisId(recs[i]) == Some(id);
    }
  }

  /** New injuries are exactly the players reported today and not yesterday,
      each with today's last record for them. */
  lemma NewInjuries(previous: seq<Rec>, current: seq<Rec>, id: string)
    ensures Listed(DetectInjuryChanges(previous, current).newInjuries, id) <==>
              Reported(current, id) && !Reported(previous, id)
    ensures forall i :: 0 <= i < |DetectInjuryChanges(previous, current).newInjuries| ==>
              HasId(DetectInjuryChanges(previous, current).newInjuries[i])
              && LastReport(current, GsisId(DetectInjuryChanges(previous, current).newInjuries[i]).value)
                 == Some(DetectInjuryChanges(previous, current).newInjuries[i])
  {
    UnmatchedIsFilter(Keyed(current), Keyed(previous));
    KeyedFilter(current, Absent(Keyed(previous)), id);
    KeyedGet(previous, id);
    LastReportIffReported(current, id);
  }

  /** Cleared players are exactly those reported yesterday and not today,
      each with yesterday's last record for them. */
  lemma ClearedInjuries(previous: seq<Rec>, current: seq<Rec>, id: string)
    ensures Listed(DetectInjuryChanges(previous, current).cleared, id) <==>
              Reported(previous, id) && !Reported(current, id)
    ensures forall i :: 0 <= i < |DetectInjuryChanges(previous, current).cleared| ==>
              HasId(DetectInjuryChanges(previous, current).cleared[i])
              && LastReport(previous, GsisId(DetectInjuryChanges(previous, current).cleared[i]).value)
                 == Some(DetectInjuryChanges(previous, current).cleared[i])
  {
    UnmatchedIsFilter(Keyed(previous), Keyed(current));
    KeyedFilter(previous, Absent(Keyed(current)), id);
    KeyedGet(current, id);
    LastReportIffReported(previous, id);
  }

  /** The player's pair of last records, when both snapshots report them. */
  function Pair(previous: seq<Rec>, current: seq<Rec>, id: string): (b: Both)
    requires Reported(previous, id) && Reported(current, id)
    ensures b.id == id && Some(b.prev) == LastReport(previous, id) && Some(b.curr) == LastReport(current, id)
  {
    LastReportIffReported(previous, id);
    LastReportIffReported(current, id);
    Both(id, LastReport(previous, id).value, LastReport(current, id).value)
  }

  /** Every entry of `Common` over the keyed snapshots is some player's pair
      of last records. */
  lemma CommonIsPairs(previous: seq<Rec>, current: seq<Rec>, i: nat)
    requires i < |Common(Keyed(previous), Keyed(current))|
    ensures var b := Common(Keyed(previous), Keyed(current))[i];
            Reported(previous, b.id) && Reported(current, b.id) && b == Pair(previous, current, b.id)
  {
    var prevMap := Keyed(previous);
    KeyedWellFormed(previous);
    var b := Common(prevMap, Keyed(current))[i];
    CommonSound(prevMap, Keyed(current), i);
    var j :| 0 <= j < |prevMap| && prevMap[j] == (b.id, b.prev);
    PyDict.GetAt(prevMap, j);
    KeyedGet(previous, b.id);
    KeyedGet(current, b.id);
  }

  /** Some entry of `Common` over the keyed snapshots is about `id` when both
      snapshots report them. */
  lemma CommonHasPair(previous: seq<Rec>, current: seq<Rec>, id: string)
    requires Reported(previous, id) && Reported(current, id)
    ensures exists k :: 0 <= k < |Common(Keyed(previous), Keyed(current))|
                        && Common(Keyed(previous), Keyed(current))[k] == Pair(previous, current, id)
  {
    var prevMap := Keyed(previous);
    var both := Common(prevMap, Keyed(current));
    KeyedGet(previous, id);
    KeyedGet(current, id);
    PyDict.GetFound(prevMap, id);
    var j :| 0 <= j < |prevMap| && prevMap[j] == (id, PyDict.Get(prevMap, id).value);
    CommonComplete(prevMap, Keyed(current), j);
    var k :| 0 <= k < |both| && both[k].id == id;
    CommonIsPairs(previous, current, k);
  }

  lemma CommonFilterSound(previous: seq<Rec>, current: seq<Rec>, keep: Both -> bool, field: string, id: string)
    requires ChangeListed(Map(ChangeOf(field), Filter(keep, Common(Keyed(previous), Keyed(current)))), id)
    ensures Reported(previous, id) && Reported(current, id) && keep(Pair(previous, current, id))
  {
    var both := Common(Keyed(previous), Keyed(current));
    var kept := Filter(keep, both);
    var cs := Map(ChangeOf(field), kept);
    var i :| 0 <= i < |cs| && GsisId(cs[i].player) == Some(id);
    assert kept[i] in both;
    var k :| 0 <= k < |both| && both[k] == kept[i];
    CommonIsPairs(previous, current, k);
  }

  lemma CommonFilterComplete(previous: seq<Rec>, current: seq<Rec>, keep: Both -> bool, field: string, id: string)
    requires Reported(previous, id) && Reported(current, id) && keep(Pair(previous, current, id))
    ensures ChangeListed(Map(ChangeOf(field), Filter(keep, Common(Keyed(previous), Keyed(current)))), id)
  {
    var both := Common(Keyed(previous), Keyed(current));
    var kept := Filter(keep, both);
    var cs := Map(ChangeOf(field), kept);
    CommonHasPair(previous, current, id);
    var k :| 0 <= k < |both| && both[k] == Pair(previous, current, id);
    assert both[k] in kept;
    var i :| 0 <= i < |kept| && kept[i] == both[k];
    assert cs[i].player == both[k].curr;
  }

  /** Filtering the players both snapshots share by `keep` lists a player
      exactly when both report them and `keep` accepts their pair of last
      records. */
  lemma CommonFilter(previous: seq<Rec>, current: seq<Rec>, keep: Both -> bool, field: string, id: string)
    ensures ChangeListed(Map(ChangeOf(field), Filter(keep, Common(Keyed(previous), Keyed(current)))), id) <==>
              Reported(previous, id) && Reported(current, id) && keep(Pair(previous, current, id))
  {
    if ChangeListed(Map(ChangeOf(field), Filter(keep, Common(Keyed(previous), Keyed(current)))), id) {
      CommonFilterSound(previous, current, keep, field, id);
    }
    if Reported(previous, id) && Reported(current, id) && keep(Pair(previous, current, id)) {
      CommonFilterComplete(previous, current, keep, field, id);
    }
  }

  /** Every entry of a change list built from the shared players records
      its player's last records in both snapshots. */
  lemma CommonEntries(previous: seq<Rec>, current: seq<Rec>, keep: Both -> bool, field: string, i: nat)
    requires i < |Filter(keep, Common(Keyed(previous), Keyed(current)))|
    ensures var c := Map(ChangeOf(field), Filter(keep, Common(Keyed(previous), Keyed(current))))[i];
            HasId(c.player) && Reported(previous, GsisId(c.player).value) && Reported(current, GsisId(c.player).value)
            && c == ChangeOf(field)(Pair(previous, current, GsisId(c.player).value))
  {
    var both := Common(Keyed(previous), Keyed(current));
    var kept := Filter(keep, both);
    assert kept[i] in both;
    var k :| 0 <= k < |both| && both[k] == kept[i];
    CommonIsPairs(previous, current, k);
  }

  /** A player is upgraded exactly when both snapshots report them, they
      practised yesterday (level above 0) and practise more today. */
  lemma Upgraded(previous: seq<Rec>, current: seq<Rec>, id: string)
    ensures ChangeListed(DetectInjuryChanges(previous, current).upgraded, id) <==>
              Reported(previous, id) && Reported(current, id)
              && Upgrade(Pair(previous, current, id).prev, Pair(previous, current, id).curr)
  {
    ChangesIsFilter(Common(Keyed(previous), Keyed(current)), IsUpgrade, PRACTICE_STATUS);
    CommonFilter(previous, current, IsUpgrade, PRACTICE_STATUS, id);
  }

  /** A player is downgraded exactly when both snapshots report them, they
      practise today (level above 0) and less than yesterday. The `elif`
      never hides a downgrade: the two conditions cannot both hold. */
  lemma Downgraded(previous: seq<Rec>, current: seq<Rec>, id: string)
    ensures ChangeListed(DetectInjuryChanges(previous, current).downgraded, id) <==>
              Reported(previous, id) && Reported(current, id)
              && Downgrade(Pair(previous, current, id).prev, Pair(previous, current, id).curr)
  {
    ChangesIsFilter(Common(Keyed(previous), Keyed(current)), IsDowngrade, PRACTICE_STATUS);
    CommonFilter(previous, current, IsDowngrade, PRACTICE_STATUS, id);
  }

  /** No player is both upgraded and downgraded. */
  lemma UpgradeExcludesDowngrade(previous: seq<Rec>, current: seq<Rec>, id: string)
    ensures !(ChangeListed(DetectInjuryChanges(previous, current).upgraded, id)
              && ChangeListed(DetectInjuryChanges(previous, current).downgraded, id))
  {
    Upgraded(previous, current, id);
    Downgraded(previous, current, id);
  }

  /** Each upgrade or downgrade entry holds today's record and the practice
      status from yesterday's and today's last records. */
  lemma PracticeEntries(previous: seq<Rec>, current: seq<Rec>, i: nat)
    ensures i < |DetectInjuryChanges(previous, current).upgraded| ==>
              var c := DetectInjuryChanges(previous, current).upgraded[i];
              HasId(c.player) && Reported(previous, GsisId(c.player).value) && Reported(current, GsisId(c.player).value)
              && c.player == Pair(previous, current, GsisId(c.player).value).curr
              && c.from == Pair(previous, current, GsisId(c.player).value).prev.Text(PRACTICE_STATUS)
              && c.to == c.player.Text(PRACTICE_STATUS)
    ensures i < |DetectInjuryChanges(previous, current).downgraded| ==>
              var c := DetectInjuryChanges(previous, current).downgraded[i];
              HasId(c.player) && Reported(previous, GsisId(c.player).value) && Reported(current, GsisId(c.player).value)
              && c.player == Pair(previous, current, GsisId(c.player).value).curr
              && c.from == Pair(previous, current, GsisId(c.player).value).prev.Text(PRACTICE_STATUS)
              && c.to == c.player.Text(PRACTICE_STATUS)
  {
    if i < |DetectInjuryChanges(previous, current).upgraded| {
      ChangesIsFilter(Common(Keyed(previous), Keyed(current)), IsUpgrade, PRACTICE_STATUS);
      CommonEntries(previous, current, IsUpgrade, PRACTICE_STATUS, i);
    }
    if i < |DetectInjuryChanges(previous, current).downgraded| {
      ChangesIsFilter(Common(Keyed(previous), Keyed(current)), IsDowngrade, PRACTICE_STATUS);
      CommonEntries(previous, current, IsDowngrade, PRACTICE_STATUS, i);
    }
  }

  /** A status change is recorded exactly for the players both snapshots
      report whose `report_status` differs; each entry goes from yesterday's
      status to today's, so the two always differ. */
  lemma StatusChanged(previous: seq<Rec>, current: seq<Rec>, id: string)
    ensures ChangeListed(DetectInjuryChanges(previous, current).statusChanged, id) <==>
              Reported(previous, id) && Reported(current, id)
              && Pair(previous, current, id).prev.Text(REPORT_STATUS) != Pair(previous, current, id).curr.Text(REPORT_STATUS)
    ensures forall i :: 0 <= i < |DetectInjuryChanges(previous, current).statusChanged| ==>
              DetectInjuryChanges(previous, current).statusChanged[i].from
              != DetectInjuryChanges(previous, current).statusChanged[i].to
  {
    ChangesIsFilter(Common(Keyed(previous), Keyed(current)), ReportDiffers, REPORT_STATUS);
    CommonFilter(previous, current, ReportDiffers, REPORT_STATUS, id);
  }

  /** Keying one more record assigns it under its id, when it has one. */
  lemma KeyedSnoc(init: seq<Rec>, last: Rec)
    ensures Keyed(init + [last])
            == if HasId(last) then PyDict.Put(Keyed(init), GsisId(last).value, last) else Keyed(init)
  {
    assert (init + [last])[..|init|] == init;
  }

  /** Only one record, with or without an id, is kept by the id filter. */
  lemma FilterOne(last: Rec)
    ensures Filter(HasId, [last]) == if HasId(last) then [last] else []
  {
    assert [last][1..] == [];
  }

  lemma {:induction false} KeyedSkipsUnidentified(injuries: seq<Rec>)
    ensures Keyed(Filter(HasId, injuries)) == Keyed(injuries)
  {
    if |injuries| > 0 {
      var init := injuries[..|injuries| - 1];
      var last := injuries[|injuries| - 1];
      assert injuries == init + [last];
      FilterAppend(HasId, init, [last]);
      FilterOne(last);
      KeyedSkipsUnidentified(init);
      KeyedSnoc(init, last);
      var fi := Filter(HasId, init);
      KeyedSnoc(fi, last);
      if HasId(last) {
        calc {
          Keyed(Filter(HasId, injuries));
          Keyed(fi + [last]);
          PyDict.Put(Keyed(fi), GsisId(last).value, last);
          PyDict.Put(Keyed(init), GsisId(last).value, last);
        }
      } else {
        assert Filter(HasId, injuries) == fi + [];
        assert fi + [] == fi;
      }
    }
  }

  /** Records without a truthy gsis_id take no part in the diff. */
  lemma IgnoresUnidentified(previous: seq<Rec>, current: seq<Rec>)
    ensures DetectInjuryChanges(previous, current)
            == DetectInjuryChanges(Filter(HasId, previous), Filter(HasId, current))
  {
    KeyedSkipsUnidentified(previous);
    KeyedSkipsUnidentified(current);
  }

  /** `any(len(v) > 0 for v in changes.values())`. */
  predicate AnyChange(c: InjuryChanges) {
    |c.newInjuries| > 0 || |c.cleared| > 0 || |c.upgraded| > 0 || |c.downgraded| > 0 || |c.statusChanged| > 0
  }

  // ================================================================ save_to_s3

  /** One week of `weekly_data`: its player list. */
  datatype WeekInfo = WeekInfo(players: seq<Validation.Entry>)

  /** The parts of the fetched data `save_to_s3` branches on. */
  datatype FetchedData = FetchedData(
    weekly: seq<(int, WeekInfo)>,
    injuries: seq<(int, seq<Rec>)>,
    currentWeek: Option<int>,
    weeksAvailable: Validation.WeeksValue)

  /** One `put_object` call, named by the file it writes. */
  datatype StoredWrite =
    | WeekData(week: int, players: seq<Validation.Entry>)
    | TeamsFile
    | GamesFile
    | InjurySnapshot(week: int, changes: Option<InjuryChanges>)
    | InjuryLatest(week: int)
    | InjuryChangesFile(week: int, diff: InjuryChanges)
    | InjuryFinal(week: int, injuries: seq<Rec>)
    | MetadataFile(currentWeek: Option<int>, weeksAvailable: Validation.WeeksValue)

  datatype SaveError = WeeksInvalid(failed: nat) | MetadataInvalid(errors: seq<Validation.MetadataError>)

  /** The writes made, and the `ValueError` raised after them, if any. */
  datatype SaveRun = SaveRun(writes: seq<StoredWrite>, error: Option<SaveError>)

  /** A verdict on one entry of `weekly_data`: true when the week may be
      stored. */
  type WeekVerdict = ((int, WeekInfo)) -> bool

  /** The verdict `save_to_s3` uses: `validate_weekly_data` finds no
      critical error in the week. */
  function WeekPasses(e: (int, WeekInfo)): bool {
    Validation.ValidateWeekly(Validation.WithPlayers(e.1.players), e.0).valid
  }

  function Not(passes: WeekVerdict): WeekVerdict {
    e => !passes(e)
  }

  function WeekWrite(e: (int, WeekInfo)): StoredWrite {
    WeekData(e.0, e.1.players)
  }

  /** The diff stored with the current week's snapshot: `{}` (absent) when
      there is no previous snapshot to compare against. */
  function ChangesFor(injuries: seq<Rec>, previous: seq<Rec>): (r: Option<InjuryChanges>)
    ensures r.Some? <==> |previous| > 0
  {
    if |previous| > 0 then Some(DetectInjuryChanges(previous, injuries)) else None
  }

  /** The writes for the current week's injuries: the dated snapshot, the
      latest copy, and the changes file when there is a diff and something
      changed. */
  function CurrentWeekWrites(week: int, changes: Option<InjuryChanges>): (r: seq<StoredWrite>)
    ensures forall k :: 0 <= k < |r| && r[k].InjuryChangesFile? ==>
              changes == Some(r[k].diff) && AnyChange(r[k].diff) && r[k].week == week
    ensures (exists k :: 0 <= k < |r| && r[k].InjuryChangesFile?) <==> changes.Some? && AnyChange(changes.value)
    ensures |r| >= 2 && r[0] == InjurySnapshot(week, changes) && r[1] == InjuryLatest(week)
  {
    if changes.Some? && AnyChange(changes.value) then
      var r := [InjurySnapshot(week, changes), InjuryLatest(week), InjuryChangesFile(week, changes.value)];
      assert r[2].InjuryChangesFile?;
      r
    else [InjurySnapshot(week, changes), InjuryLatest(week)]
  }

  /** One pass of the injury loop: the current week's daily files, then the
      week's final file. */
  function WeekInjuryWrites(entry: (int, seq<Rec>), currentWeek: Option<int>, changes: Option<InjuryChanges>): (r: seq<StoredWrite>)
    ensures |r| > 0 && r[|r| - 1] == InjuryFinal(entry.0, entry.1)
    ensures forall k :: 0 <= k < |r| && r[k].InjuryChangesFile? ==>
              changes == Some(r[k].diff) && AnyChange(r[k].diff) && Some(r[k].week) == currentWeek
    ensures forall k :: 0 <= k < |r| ==> !r[k].WeekData? && !r[k].MetadataFile?
  {
    if Some(entry.0) == currentWeek then
      var daily := CurrentWeekWrites(entry.0, changes);
      var r := daily + [InjuryFinal(entry.0, entry.1)];
      assert forall k :: 0 <= k < |daily| ==> r[k] == daily[k];
      r
    else [InjuryFinal(entry.0, entry.1)]
  }

  /** The injury loop over every week of `injury_data`. */
  function InjuryWrites(injuries: seq<(int, seq<Rec>)>, currentWeek: Option<int>, previous: seq<Rec>): (r: seq<StoredWrite>)
    ensures InjuryFilesOnly(r, |previous| > 0, currentWeek)
  {
    if |injuries| == 0 then []
    else
      var here := WeekInjuryWrites(injuries[0], currentWeek, ChangesFor(injuries[0].1, previous));
      var rest := InjuryWrites(injuries[1..], currentWeek, previous);
      InjuryFilesAppend(here, rest, |previous| > 0, currentWeek);
      here + rest
  }

  /** Only injury files: a changes file only for the current week, with a
      previous snapshot, and with something changed. */
  predicate InjuryFilesOnly(r: seq<StoredWrite>, hasPrevious: bool, currentWeek: Option<int>) {
    forall k :: 0 <= k < |r| ==>
      && (r[k].InjuryChangesFile? ==> hasPrevious && AnyChange(r[k].diff) && Some(r[k].week) == currentWeek)
      && !r[k].WeekData? && !r[k].MetadataFile?
  }

  lemma InjuryFilesAppend(a: seq<StoredWrite>, b: seq<StoredWrite>, hasPrevious: bool, currentWeek: Option<int>)
    requires InjuryFilesOnly(a, hasPrevious, currentWeek) && InjuryFilesOnly(b, hasPrevious, currentWeek)
    ensures InjuryFilesOnly(a + b, hasPrevious, currentWeek)
  {
    forall k | |a| <= k < |a + b|
      ensures (a + b)[k] == b[k - |a|]
    {
    }
  }

  /** Every week of `injury_data` gets its final file. */
  lemma {:induction false} EveryWeekFinal(injuries: seq<(int, seq<Rec>)>, currentWeek: Option<int>, previous: seq<Rec>, i: nat)
    requires i < |injuries|
    ensures InjuryFinal(injuries[i].0, injuries[i].1) in InjuryWrites(injuries, currentWeek, previous)
  {
    var here := WeekInjuryWrites(injuries[0], currentWeek, ChangesFor(injuries[0].1, previous));
    var rest := InjuryWrites(injuries[1..], currentWeek, previous);
    assert InjuryWrites(injuries, currentWeek, previous) == here + rest;
    if i == 0 {
      assert here[|here| - 1] in here;
    } else {
      EveryWeekFinal(injuries[1..], currentWeek, previous, i - 1);
    }
  }

  /** The metadata dict always names all three fields. */
  function MetadataOf(data: FetchedData): Validation.MetadataPayload {
    Validation.MetadataPayload(true, true, Some(data.weeksAvailable))
  }

  predicate AllPass(passes: WeekVerdict, weekly: seq<(int, WeekInfo)>) {
    forall i :: 0 <= i < |weekly| ==> passes(weekly[i])
  }

  /** What `validate_metadata` accepts of the metadata `save_to_s3` builds:
      `weeks_available` must be a non-empty list. */
  predicate MetadataAccepted(data: FetchedData) {
    data.weeksAvailable.AList? && |data.weeksAvailable.weeks| > 0
  }

  /** The files written inside the week loop: every week that passed. */
  function WeekWrites(passes: WeekVerdict, weekly: seq<(int, WeekInfo)>): seq<StoredWrite> {
    Map(WeekWrite, Filter(passes, weekly))
  }

  predicate HasMetadata(writes: seq<StoredWrite>) {
    exists k :: 0 <= k < |writes| && writes[k].MetadataFile?
  }

  /** The writes once every week passed: teams, games, the injury files,
      then the metadata if it passes. */
  function AggregateWrites(data: FetchedData, previous: seq<Rec>): (r: seq<StoredWrite>)
    ensures forall k :: 0 <= k < |r| ==> !r[k].WeekData?
    ensures forall k :: 0 <= k < |r| && r[k].InjuryChangesFile? ==>
              |previous| > 0 && AnyChange(r[k].diff) && Some(r[k].week) == data.currentWeek
    ensures HasMetadata(r) <==> MetadataAccepted(data)
    ensures MetadataAccepted(data) ==> |r| > 0 && r[|r| - 1] == MetadataFile(data.currentWeek, data.weeksAvailable)
  {
    var injuryWrites := InjuryWrites(data.injuries, data.currentWeek, previous);
    var rest := [TeamsFile, GamesFile] + injuryWrites;
    assert forall k :: 2 <= k < |rest| ==> rest[k] == injuryWrites[k - 2];
    if MetadataAccepted(data) then
      var r := rest + [MetadataFile(data.currentWeek, data.weeksAvailable)];
      assert r[|r| - 1].MetadataFile?;
      r
    else rest
  }

  /** The writes after the week loop: none when a week failed, otherwise
      the aggregates. */
  function LaterWrites(passes: WeekVerdict, data: FetchedData, previous: seq<Rec>): (r: seq<StoredWrite>)
    ensures forall k :: 0 <= k < |r| ==> !r[k].WeekData?
    ensures forall k :: 0 <= k < |r| && r[k].InjuryChangesFile? ==>
              |previous| > 0 && AnyChange(r[k].diff) && Some(r[k].week) == data.currentWeek
    ensures HasMetadata(r) <==> AllPass(passes, data.weekly) && MetadataAccepted(data)
    ensures AllPass(passes, data.weekly) && MetadataAccepted(data) ==>
              |r| > 0 && r[|r| - 1] == MetadataFile(data.currentWeek, data.weeksAvailable)
  {
    if AllPass(passes, data.weekly) then AggregateWrites(data, previous) else []
  }

  /** The `ValueError` the run ends with, if any: the count of failing
      weeks, else the metadata errors. */
  function RunError(passes: WeekVerdict, data: FetchedData): (e: Option<SaveError>)
    ensures e.None? <==> AllPass(passes, data.weekly) && MetadataAccepted(data)
    ensures !AllPass(passes, data.weekly) <==> e.Some? && e.value.WeeksInvalid?
    ensures !AllPass(passes, data.weekly) ==> e.value.failed == |Filter(Not(passes), data.weekly)|
  {
    var failed := Filter(Not(passes), data.weekly);
    if |failed| > 0 then
      assert failed[0] in data.weekly && Not(passes)(failed[0]);
      Some(WeeksInvalid(|failed|))
    else
      assert forall i :: 0 <= i < |data.weekly| ==> !Not(passes)(data.weekly[i]);
      var verdict := Validation.ValidateMetadata(MetadataOf(data));
      assert verdict.valid == MetadataAccepted(data);
      if verdict.valid then None else Some(MetadataInvalid(verdict.errors))
  }

  /** `save_to_s3` with the week verdict left open: the week loop writes
      the weeks that pass and counts the ones that fail; a failure raises
      before anything else is written; otherwise teams, games and injuries
      are written and the metadata is validated before its own write. */
  function SaveWith(passes: WeekVerdict, data: FetchedData, previous: seq<Rec>): (r: SaveRun)
    ensures r.error.None? ==> |r.writes| > 0 && r.writes[|r.writes| - 1] == MetadataFile(data.currentWeek, data.weeksAvailable)
  {
    SaveRun(WeekWrites(passes, data.weekly) + LaterWrites(passes, data, previous), RunError(passes, data))
  }

  /** `save_to_s3(data, bucket, prefix)`, with `previous` the injuries of
      the stored latest snapshot (empty when there is none). It raises
      exactly when some week fails `validate_weekly_data` or the metadata
      fails `validate_metadata`, and a run that does not raise ends with the
      metadata file. */
  function SaveToStore(data: FetchedData, previous: seq<Rec>): (r: SaveRun)
    ensures r.error.None? <==> AllPass(WeekPasses, data.weekly) && MetadataAccepted(data)
    ensures !AllPass(WeekPasses, data.weekly) <==> r.error.Some? && r.error.value.WeeksInvalid?
    ensures r.error.None? ==> |r.writes| > 0 && r.writes[|r.writes| - 1] == MetadataFile(data.currentWeek, data.weeksAvailable)
  {
    SaveWith(WeekPasses, data, previous)
  }

  /** Under any verdict, a week's file is written exactly when that week
      passed, whether or not the run fails later. */
  lemma WeekWrittenIffPasses(passes: WeekVerdict, data: FetchedData, previous: seq<Rec>, week: int, players: seq<Validation.Entry>)
    ensures WeekData(week, players) in SaveWith(passes, data, previous).writes <==>
              (week, WeekInfo(players)) in data.weekly && passes((week, WeekInfo(players)))
  {
    var e := (week, WeekInfo(players));
    var passed := Filter(passes, data.weekly);
    var weekWrites := WeekWrites(passes, data.weekly);
    var later := LaterWrites(passes, data, previous);
    if e in data.weekly && passes(e) {
      var i :| 0 <= i < |passed| && passed[i] == e;
      assert weekWrites[i] == WeekData(week, players);
    }
    if WeekData(week, players) in weekWrites {
      var i :| 0 <= i < |weekWrites| && weekWrites[i] == WeekData(week, players);
      assert passed[i] == e;
    }
    assert WeekData(week, players) !in later;
  }

  /** A week's file is written exactly when that week passed
      `validate_weekly_data`. */
  lemma WeekWrittenIffValid(data: FetchedData, previous: seq<Rec>, week: int, players: seq<Validation.Entry>)
    ensures WeekData(week, players) in SaveToStore(data, previous).writes <==>
              (week, WeekInfo(players)) in data.weekly && WeekPasses((week, WeekInfo(players)))
  {
    WeekWrittenIffPasses(WeekPasses, data, previous, week, players);
  }

  /** A week that fails validation stops the run before anything but week
      files is written, and the error counts the failing weeks. */
  lemma InvalidWeekStopsEarly(data: FetchedData, previous: seq<Rec>)
    requires !AllPass(WeekPasses, data.weekly)
    ensures SaveToStore(data, previous).error == Some(WeeksInvalid(|Filter(Not(WeekPasses), data.weekly)|))
    ensures forall k :: 0 <= k < |SaveToStore(data, previous).writes| ==> SaveToStore(data, previous).writes[k].WeekData?
  {
    assert SaveToStore(data, previous) == SaveWith(WeekPasses, data, previous);
  }

  /** Under any verdict, the metadata file is written exactly when the run
      does not raise. */
  lemma MetadataWrittenIffSuccessWith(passes: WeekVerdict, data: FetchedData, previous: seq<Rec>)
    ensures HasMetadata(SaveWith(passes, data, previous).writes) <==> SaveWith(passes, data, previous).error.None?
  {
    var weekWrites := WeekWrites(passes, data.weekly);
    var later := LaterWrites(passes, data, previous);
    MetadataOnlyLater(weekWrites, later);
  }

  /** Week files in front of a run of writes add no metadata file. */
  lemma MetadataOnlyLater(weekWrites: seq<StoredWrite>, later: seq<StoredWrite>)
    requires forall k :: 0 <= k < |weekWrites| ==> weekWrites[k].WeekData?
    ensures HasMetadata(weekWrites + later) <==> HasMetadata(later)
  {
    var all := weekWrites + later;
    if k :| 0 <= k < |all| && all[k].MetadataFile? {
      assert k >= |weekWrites|;
      assert later[k - |weekWrites|] == all[k];
    }
    if k :| 0 <= k < |later| && later[k].MetadataFile? {
      assert all[|weekWrites| + k] == later[k];
    }
  }

  /** The metadata file is written exactly when `save_to_s3` does not
      raise. */
  lemma MetadataWrittenIffSuccess(data: FetchedData, previous: seq<Rec>)
    ensures HasMetadata(SaveToStore(data, previous).writes) <==> SaveToStore(data, previous).error.None?
  {
    MetadataWrittenIffSuccessWith(WeekPasses, data, previous);
  }

  /** The changes file is written only for the current week, only when a
      previous snapshot existed, and only when some category changed. */
  lemma ChangesFileOnlyWithChanges(data: FetchedData, previous: seq<Rec>, k: nat)
    requires k < |SaveToStore(data, previous).writes| && SaveToStore(data, previous).writes[k].InjuryChangesFile?
    ensures |previous| > 0 && AnyChange(SaveToStore(data, previous).writes[k].diff)
    ensures Some(SaveToStore(data, previous).writes[k].week) == data.currentWeek
  {
    var r := SaveWith(WeekPasses, data, previous);
    var weekWrites := WeekWrites(WeekPasses, data.weekly);
    var later := LaterWrites(WeekPasses, data, previous);
    assert SaveToStore(data, previous) == r;
    assert k >= |weekWrites|;
    assert r.writes[k] == later[k - |weekWrites|];
  }
}

=== FILE: json.dfy ===
/** The JSON values the pipeline writes, with dict key order kept.

    A Python `to_dict` builds its dict key by key, skipping some keys; the
    model writes that as a list of candidate entries (`key`, optional value)
    from which `Present` keeps the ones with a value.
 */
module Json {
  import opened Wrappers
  import opened Seqs

  datatype Json =
    | JNull
    | JBool(b: bool)
    | JInt(i: int)
    | JNum(n: real)
    | JStr(s: string)
    | JArr(items: seq<Json>)
    | JObj(fields: seq<(string, Json)>)

  type Entry = (string, Option<Json>)

  /** Python truthiness: `None`, `False`, zero and empty containers are false. */
  predicate IsTruthy(j: Json) {
    match j
    case JNull => false
    case JBool(b) => b
    case JInt(i) => i != 0
    case JNum(n) => n != 0.0
    case JStr(s) => |s| > 0
    case JArr(items) => |items| > 0
    case JObj(fields) => |fields| > 0
  }

  function KeyOf(e: (string, Json)): string {
    e.0
  }

  function EntryKey(e: Entry): string {
    e.0
  }

  /** The keys of an object, in order. */
  function Keys(fields: seq<(string, Json)>): seq<string> {
    Map(KeyOf, fields)
  }

  /** `d.get(k)`: the value under the first occurrence of `k`. */
  function Lookup(fields: seq<(string, Json)>, k: string): (r: Option<Json>)
    ensures r.None? <==> k !in Keys(fields)
  {
    if |fields| == 0 then None
    else if fields[0].0 == k then Some(fields[0].1)
    else
      assert Keys(fields) == [fields[0].0] + Keys(fields[1..]);
      Lookup(fields[1..], k)
  }

  /** `k in d`. */
  predicate Has(j: Json, k: string) {
    j.JObj? && k in Keys(j.fields)
  }

  /** `d[k]`, absent when `j` is not an object or has no key `k`. */
  function Get(j: Json, k: string): Option<Json> {
    if j.JObj? then Lookup(j.fields, k) else None
  }

  /** The entries that carry a value, in order. */
  function Present(es: seq<Entry>): (r: seq<(string, Json)>)
    ensures |r| <= |es|
  {
    if |es| == 0 then []
    else if es[0].1.Some? then [(es[0].0, es[0].1.value)] + Present(es[1..])
    else Present(es[1..])
  }

  /** No other candidate carries the `i`th candidate's key. */
  predicate KeyUnique(es: seq<Entry>, i: nat) {
    i < |es| && forall j :: 0 <= j < |es| && j != i ==> es[j].0 != es[i].0
  }

  /** Looking up a candidate's key finds that candidate's value, or nothing
      when it carries none, as long as no other candidate carries the key. */
  lemma {:induction false} LookupUnique(es: seq<Entry>, i: nat)
    requires KeyUnique(es, i)
    ensures Lookup(Present(es), es[i].0) == es[i].1
  {
    var t := es[1..];
    if i > 0 {
      assert t[i - 1] == es[i];
      assert KeyUnique(t, i - 1) by {
        forall j | 0 <= j < |t| && j != i - 1
          ensures t[j].0 != es[i].0
        {
          assert t[j] == es[j + 1];
        }
      }
      LookupUnique(t, i - 1);
      assert es[0].0 != es[i].0;
    } else {
      forall j | 0 <= j < |t|
        ensures t[j].0 != es[0].0
      {
        assert t[j] == es[j + 1];
      }
      LookupAbsent(t, es[0].0);
    }
  }

  /** A key no candidate carries is not in the dict. */
  lemma {:induction false} LookupAbsent(es: seq<Entry>, k: string)
    requires forall i :: 0 <= i < |es| ==> es[i].0 != k
    ensures Lookup(Present(es), k).None?
  {
    if |es| > 0 {
      LookupAbsent(es[1..], k);
    }
  }

  /** When every candidate carries a value, the dict has exactly the candidates' keys. */
  lemma {:induction false} PresentKeys(es: seq<Entry>)
    requires forall i :: 0 <= i < |es| ==> es[i].1.Some?
    ensures Keys(Present(es)) == Map(EntryKey, es)
  {
    if |es| > 0 {
      PresentKeys(es[1..]);
      assert Keys(Present(es)) == [es[0].0] + Keys(Present(es[1..]));
    }
  }

  /** A dict whose keys are the candidates' keys that carry a value. */
  function Obj(es: seq<Entry>): (r: Json)
    ensures r.JObj?
  {
    JObj(Present(es))
  }

  /** A present entry. */
  function Put(k: string, v: Json): Entry {
    (k, Some(v))
  }

  /** An entry present iff the Python value is not None. */
  function PutNum(k: string, v: Option<real>): Entry {
    (k, if v.Some? then Some(JNum(v.value)) else None)
  }

  function Nums(s: seq<real>): (r: Json)
    ensures r.JArr? && |r.items| == |s|
  {
    JArr(Map((x: real) => JNum(x), s))
  }

  /** Reading a number back: `Some` iff the value is a JSON number. */
  function AsNum(j: Option<Json>): Option<real> {
    if j.Some? && j.value.JNum? then Some(j.value.n) else None
  }

  function AsInt(j: Option<Json>): Option<int> {
    if j.Some? && j.value.JInt? then Some(j.value.i) else None
  }

  function AsStr(j: Option<Json>): Option<string> {
    if j.Some? && j.value.JStr? then Some(j.value.s) else None
  }

  /** Reading a list of numbers back; fails on any other item. */
  function AsNums(items: seq<Json>): (r: Option<seq<real>>)
    ensures r.Some? ==> |r.value| == |items|
  {
    if |items| == 0 then Some([])
    else if items[0].JNum? then
      match AsNums(items[1..])
      case Some(rest) => Some([items[0].n] + rest)
      case None => None
    else None
  }

  /** Numbers written with `Nums` read back unchanged. */
  lemma {:induction false} NumsRoundTrip(s: seq<real>)
    ensures AsNums(Nums(s).items) == Some(s)
  {
    if |s| > 0 {
      NumsRoundTrip(s[1..]);
      assert Nums(s).items[0] == JNum(s[0]);
      assert Nums(s).items[1..] == Nums(s[1..]).items;
      assert [s[0]] + s[1..] == s;
    }
  }
}

=== FILE: log_parser.dfy ===
/** The reader of CloudWatch Logs Insights rows in the scheduled-run checker
    (scripts/check_scheduled_runs.py, `ScheduledRunChecker._parse_log_results`):
    each row whose message is a Lambda REPORT line becomes one invocation
    carrying its duration, billed duration, memory and status metrics.
 */
module LogParser {
  import opened Wrappers
  import opened Seqs
  import Text
  import PyDict

  /** One `{'field': ..., 'value': ...}` cell of a result row. */
  datatype Cell = Cell(field: string, value: string)

  type Row = seq<Cell>

  /** The dict appended per REPORT line; `None` stands for a missing field. */
  datatype Invocation = Invocation(
    timestamp: Option<string>,
    requestId: Option<string>,
    duration: string,
    billedDuration: string,
    memoryUsed: string,
    status: string)

  const NOT_AVAILABLE: string := "N/A"
  const DEFAULT_STATUS: string := "success"

  function CellPair(c: Cell): (string, string) {
    (c.field, c.value)
  }

  /** `{item['field']: item['value'] for item in result}`. */
  function Fields(row: Row): seq<(string, string)> {
    PyDict.FromPairs(Map(CellPair, row))
  }

  /** A field of the row: the value of the last cell carrying its name. */
  function Field(row: Row, name: string): (r: Option<string>)
    ensures r == PyDict.LastValue(Map(CellPair, row), name)
  {
    PyDict.FromPairsLastWins(Map(CellPair, row), name);
    PyDict.Get(Fields(row), name)
  }

  /** `fields.get('@message', '')`. */
  function Message(row: Row): string {
    Field(row, "@message").GetOr("")
  }

  /** A Lambda REPORT line mentions both durations. */
  predicate IsReport(message: string) {
    Text.Contains(message, "Duration") && Text.Contains(message, "Billed Duration")
  }

  predicate IsReportRow(row: Row) {
    IsReport(Message(row))
  }

  /** Only the billed-duration test decides: "Duration" is part of "Billed Duration". */
  lemma ReportIffBilled(message: string)
    ensures IsReport(message) <==> Text.Contains(message, "Billed Duration")
  {
    if Text.Contains(message, "Billed Duration") {
      var i := Text.ContainsWitness(message, "Billed Duration");
      assert message[i + 7..i + 15] == message[i..i + 15][7..15];
      Text.ContainsAt(message, "Duration", i + 7);
    }
  }

  /** `':' in part`. */
  predicate HasColon(part: string) {
    Text.IndexOf(part, ':').Some?
  }

  /** `key, value = part.split(':', 1)`, each stripped: the key is what comes
      before the first ':', the value everything after it. Only parts with a
      ':' reach it. */
  function Metric(part: string): (string, string) {
    match Text.IndexOf(part, ':')
    case None => (Text.Strip(part), "")
    case Some(i) => (Text.Strip(part[..i]), Text.Strip(part[i + 1..]))
  }

  /** The metric pairs of the tab-separated parts that contain ':', in order. */
  function MetricPairs(parts: seq<string>): seq<(string, string)> {
    Map(Metric, Filter(HasColon, parts))
  }

  /** The `metrics` dict built from a message: a later part with the same
      key overwrites an earlier one. */
  function Metrics(message: string): seq<(string, string)> {
    PyDict.FromPairs(MetricPairs(Text.Split(message, '\t')))
  }

  /** A metric of the message: the value of the last part carrying its key,
      or `default` when no part does. */
  function MetricOr(message: string, key: string, default: string): (r: string)
    ensures r == PyDict.LastValue(MetricPairs(Text.Split(message, '\t')), key).GetOr(default)
  {
    PyDict.FromPairsLastWins(MetricPairs(Text.Split(message, '\t')), key);
    PyDict.Get(Metrics(message), key).GetOr(default)
  }

  /** The invocation a REPORT row yields: the row's `@timestamp` and
      `@requestId` cells, and the message's metrics, "N/A" (or "success" for
      the status) when the message has none. */
  function ToInvocation(row: Row): (r: Invocation)
    ensures r.timestamp == PyDict.LastValue(Map(CellPair, row), "@timestamp")
    ensures r.requestId == PyDict.LastValue(Map(CellPair, row), "@requestId")
    ensures var pairs := MetricPairs(Text.Split(Message(row), '\t'));
      && r.duration == PyDict.LastValue(pairs, "Duration").GetOr(NOT_AVAILABLE)
      && r.billedDuration == PyDict.LastValue(pairs, "Billed Duration").GetOr(NOT_AVAILABLE)
      && r.memoryUsed == PyDict.LastValue(pairs, "Max Memory Used").GetOr(NOT_AVAILABLE)
      && r.status == PyDict.LastValue(pairs, "Status").GetOr(DEFAULT_STATUS)
  {
    var message := Message(row);
    Invocation(
      Field(row, "@timestamp"),
      Field(row, "@requestId"),
      MetricOr(message, "Duration", NOT_AVAILABLE),
      MetricOr(message, "Billed Duration", NOT_AVAILABLE),
      MetricOr(message, "Max Memory Used", NOT_AVAILABLE),
      MetricOr(message, "Status", DEFAULT_STATUS))
  }

  /** `_parse_log_results(results)`: one invocation per REPORT row, in the
      rows' order; every other row is skipped. */
  method ParseLogResults(results: seq<Row>) returns (invocations: seq<Invocation>)
    ensures invocations == Map(ToInvocation, Filter(IsReportRow, results))
    ensures |invocations| <= |results|
  {
    invocations := [];
    for n := 0 to |results|
      invariant invocations == Map(ToInvocation, Filter(IsReportRow, results[..n]))
    {
      FilterMapStep(IsReportRow, ToInvocation, results, n);
      if IsReportRow(results[n]) {
        invocations := invocations + [ToInvocation(results[n])];
      }
    }
    assert results[..|results|] == results;
  }

  /** Invocation `j` comes from the `j`th REPORT row, and every REPORT row
      yields the invocation numbered by the REPORT rows before it. */
  lemma InvocationSource(results: seq<Row>, j: nat) returns (k: nat)
    requires j < |Map(ToInvocation, Filter(IsReportRow, results))|
    ensures k < |results| && IsReportRow(results[k])
    ensures |Filter(IsReportRow, results[..k])| == j
    ensures Map(ToInvocation, Filter(IsReportRow, results))[j] == ToInvocation(results[k])
  {
    k := FilterSource(IsReportRow, results, j);
  }

  lemma InvocationOfReport(results: seq<Row>, k: nat)
    requires k < |results| && IsReportRow(results[k])
    ensures var j := |Filter(IsReportRow, results[..k])|;
      j < |Map(ToInvocation, Filter(IsReportRow, results))|
      && Map(ToInvocation, Filter(IsReportRow, results))[j] == ToInvocation(results[k])
  {
    FilterPosition(IsReportRow, results, k);
  }

  /** A metric taken from a part with a ':' is the part split at its first
      ':': the key holds no ':', and key, ':' and value cover the part up to
      surrounding whitespace. */
  lemma MetricSplitsAtFirstColon(part: string)
    requires HasColon(part)
    ensures forall c :: c in Metric(part).0 ==> c != ':'
    ensures exists i :: 0 <= i < |part| && part[i] == ':' && Metric(part) == (Text.Strip(part[..i]), Text.Strip(part[i + 1..]))
  {
    var i := Text.IndexOf(part, ':').value;
    StripKeepsCharacters(part[..i]);
  }

  /** Stripping only removes characters. */
  lemma StripKeepsCharacters(s: string)
    ensures forall c :: c in Text.Strip(s) ==> c in s
  {
    var t := Text.TrimStart(s);
    assert forall c :: c in Text.TrimEnd(t) ==> c in t;
    assert forall c :: c in t ==> c in s;
  }
}

=== FILE: models.dfy ===
/** The insight records the engine produces and their `to_dict` encodings
    (lambda_functions/insights_engine/models.py).

    Two omission rules are at work: `TrendData` and the optional numeric
    fields drop a value only when it is None, while the nested trend groups,
    the rank positions and the WR distribution are dropped when falsy
    (an absent group, a rank of 0, an empty distribution). The trend,
    player, team and superlative encoders come with decoders, and the round-trip
    lemmas show exactly which values survive encoding; the defense and
    output encoders are described by what each key holds.
 */
module Models {
  import opened Wrappers
  import opened Seqs
  import opened Json

  // ---------------------------------------------------------------- TrendData

  datatype Direction = Rising | Falling | Stable {
    function Name(): string {
      match this
      case Rising => "rising"
      case Falling => "falling"
      case Stable => "stable"
    }
  }

  function ParseDirection(s: string): (r: Option<Direction>)
    ensures r.Some? ==> r.value.Name() == s
  {
    if s == "rising" then Some(Rising)
    else if s == "falling" then Some(Falling)
    else if s == "stable" then Some(Stable)
    else None
  }

  /** Every direction's name reads back as that direction. */
  lemma ParseName(d: Direction)
    ensures ParseDirection(d.Name()) == Some(d)
  {
    match d
    case Rising =>
    case Falling => assert d.Name()[0] != "rising"[0];
    case Stable => assert d.Name()[0] != "rising"[0] && d.Name()[0] != "falling"[0];
  }

  datatype Trend = Trend(
    current: real,
    previous: Option<real>,
    delta: Option<real>,
    deltaPct: Option<real>,
    threeWeek: seq<real>,
    direction: Option<Direction>,
    slope: Option<real>,
    projected: Option<real>)

  /** `TrendData(current_value=v)`: every optional field at its default. */
  function BareTrend(v: real): Trend {
    Trend(v, None, None, None, [], None, None, None)
  }

  function TrendEntries(t: Trend): seq<Entry> {
    [ Put("current_value", JNum(t.current)),
      PutNum("previous_value", t.previous),
      PutNum("delta", t.delta),
      PutNum("delta_pct", t.deltaPct),
      Put("three_week_values", Nums(t.threeWeek)),
      ("trend_direction", if t.direction.Some? then Some(JStr(t.direction.value.Name())) else None),
      PutNum("slope", t.slope),
      PutNum("projected_next", t.projected) ]
  }

  /** Each entry of `TrendEntries` is what `get` finds under its key. */
  lemma TrendReadAt(t: Trend, i: nat)
    requires i < |TrendEntries(t)|
    ensures var es := TrendEntries(t);
            Get(Obj(es), es[i].0) == es[i].1
  {
    LookupUnique(TrendEntries(t), i);
  }

  const TREND_KEYS: seq<string> :=
    ["current_value", "previous_value", "delta", "delta_pct", "three_week_values",
     "trend_direction", "slope", "projected_next"]

  /** `TrendData.to_dict`: every field, except the ones that are None. */
  function TrendToDict(t: Trend): (r: Json)
    ensures r.JObj?
    ensures Get(r, "current_value") == Some(JNum(t.current))
    ensures Get(r, "previous_value") == (if t.previous.Some? then Some(JNum(t.previous.value)) else None)
    ensures Get(r, "delta") == (if t.delta.Some? then Some(JNum(t.delta.value)) else None)
    ensures Get(r, "delta_pct") == (if t.deltaPct.Some? then Some(JNum(t.deltaPct.value)) else None)
    ensures Get(r, "three_week_values") == Some(Nums(t.threeWeek))
    ensures Has(r, "trend_direction") <==> t.direction.Some?
    ensures t.direction.Some? ==> Get(r, "trend_direction") == Some(JStr(t.direction.value.Name()))
    ensures Get(r, "slope") == (if t.slope.Some? then Some(JNum(t.slope.value)) else None)
    ensures Get(r, "projected_next") == (if t.projected.Some? then Some(JNum(t.projected.value)) else None)
    ensures forall k :: k !in TREND_KEYS ==> !Has(r, k)
  {
    TrendKeysOnly(t);
    TrendEntriesRead(t);
    Obj(TrendEntries(t))
  }

  /** What `get` finds under each of the trend's keys. */
  lemma TrendEntriesRead(t: Trend)
    ensures var r := Obj(TrendEntries(t));
      && Get(r, "current_value") == Some(JNum(t.current))
      && Get(r, "previous_value") == (if t.previous.Some? then Some(JNum(t.previous.value)) else None)
      && Get(r, "delta") == (if t.delta.Some? then Some(JNum(t.delta.value)) else None)
      && Get(r, "delta_pct") == (if t.deltaPct.Some? then Some(JNum(t.deltaPct.value)) else None)
      && Get(r, "three_week_values") == Some(Nums(t.threeWeek))
      && (Has(r, "trend_direction") <==> t.direction.Some?)
      && (t.direction.Some? ==> Get(r, "trend_direction") == Some(JStr(t.direction.value.Name())))
      && Get(r, "slope") == (if t.slope.Some? then Some(JNum(t.slope.value)) else None)
      && Get(r, "projected_next") == (if t.projected.Some? then Some(JNum(t.projected.value)) else None)
  {
    TrendReadAt(t, 0); TrendReadAt(t, 1); TrendReadAt(t, 2); TrendReadAt(t, 3);
    TrendReadAt(t, 4); TrendReadAt(t, 5); TrendReadAt(t, 6); TrendReadAt(t, 7);
  }

  /** The dict has no key outside `TREND_KEYS`. */
  lemma TrendKeysOnly(t: Trend)
    ensures forall k :: k !in TREND_KEYS ==> !Has(Obj(TrendEntries(t)), k)
  {
    forall k | k !in TREND_KEYS
      ensures !Has(Obj(TrendEntries(t)), k)
    {
      LookupAbsent(TrendEntries(t), k);
    }
  }

  function TrendFromDict(j: Json): Option<Trend> {
    var cur := AsNum(Get(j, "current_value"));
    var tw := Get(j, "three_week_values");
    if cur.None? || tw.None? || !tw.value.JArr? then None
    else match AsNums(tw.value.items)
      case None => None
      case Some(ws) =>
        var dir := AsStr(Get(j, "trend_direction"));
        Some(Trend(cur.value,
                   AsNum(Get(j, "previous_value")),
                   AsNum(Get(j, "delta")),
                   AsNum(Get(j, "delta_pct")),
                   ws,
                   if dir.Some? then ParseDirection(dir.value) else None,
                   AsNum(Get(j, "slope")),
                   AsNum(Get(j, "projected_next"))))
  }

  /** Dropping the None fields loses nothing: every trend reads back as itself. */
  lemma TrendRoundTrip(t: Trend)
    ensures TrendFromDict(TrendToDict(t)) == Some(t)
  {
    var j := TrendToDict(t);
    assert AsNum(Get(j, "current_value")) == Some(t.current);
    NumsRoundTrip(t.threeWeek);
    assert Get(j, "three_week_values") == Some(Nums(t.threeWeek));
    var tw := Get(j, "three_week_values").value;
    assert AsNums(tw.items) == Some(t.threeWeek);
    var dir := AsStr(Get(j, "trend_direction"));
    assert (if dir.Some? then ParseDirection(dir.value) else None) == t.direction by {
      if t.direction.Some? {
        assert dir == Some(t.direction.value.Name());
        ParseName(t.direction.value);
      } else {
        assert dir.None?;
      }
    }
  }

  // ---------------------------------------------------------------- trend groups

  datatype VolumeTrends = VolumeTrends(
    targetShare: Option<Trend>,
    snapShare: Option<Trend>,
    touchShare: Option<Trend>,
    carries: Option<Trend>,
    targets: Option<Trend>)

  datatype EfficiencyTrends = EfficiencyTrends(
    yardsPerCarry: Option<Trend>,
    yardsPerTarget: Option<Trend>,
    catchRate: Option<Trend>,
    yardsPerReception: Option<Trend>,
    fantasyPointsPerTouch: Option<Trend>)

  /** An entry holding a nested trend, present iff the trend is set. */
  function PutTrend(k: string, t: Option<Trend>): Entry {
    (k, if t.Some? then Some(TrendToDict(t.value)) else None)
  }

  function AsTrend(j: Option<Json>): Option<Trend> {
    if j.Some? then TrendFromDict(j.value) else None
  }

  /** The dict under `k` reads back as the trend that was put there. */
  predicate Holds(r: Json, k: string, t: Option<Trend>) {
    && (Has(r, k) <==> t.Some?)
    && AsTrend(Get(r, k)) == t
  }

  /** A trend entry that `get` reaches reads back as its trend. */
  lemma PutTrendHolds(es: seq<Entry>, i: nat, k: string, t: Option<Trend>)
    requires i < |es| && es[i] == PutTrend(k, t) && Get(Obj(es), k) == es[i].1
    ensures Holds(Obj(es), k, t)
  {
    if t.Some? {
      TrendRoundTrip(t.value);
    }
  }

  function VolumeEntries(v: VolumeTrends): seq<Entry> {
    [ PutTrend("target_share", v.targetShare),
      PutTrend("snap_share", v.snapShare),
      PutTrend("touch_share", v.touchShare),
      PutTrend("carries", v.carries),
      PutTrend("targets", v.targets) ]
  }

  /** Each entry of `VolumeEntries` is what `get` finds under its key. */
  lemma VolumeReadAt(v: VolumeTrends, i: nat)
    requires i < |VolumeEntries(v)|
    ensures var es := VolumeEntries(v);
            Get(Obj(es), es[i].0) == es[i].1
  {
    LookupUnique(VolumeEntries(v), i);
  }

  /** `VolumeTrends.to_dict`: a key for each metric whose trend is set. */
  function VolumeToDict(v: VolumeTrends): (r: Json)
    ensures r.JObj?
    ensures Holds(r, "target_share", v.targetShare)
    ensures Holds(r, "snap_share", v.snapShare)
    ensures Holds(r, "touch_share", v.touchShare)
    ensures Holds(r, "carries", v.carries)
    ensures Holds(r, "targets", v.targets)
  {
    var es := VolumeEntries(v);
    VolumeReadAt(v, 0); PutTrendHolds(es, 0, "target_share", v.targetShare);
    VolumeReadAt(v, 1); PutTrendHolds(es, 1, "snap_share", v.snapShare);
    VolumeReadAt(v, 2); PutTrendHolds(es, 2, "touch_share", v.touchShare);
    VolumeReadAt(v, 3); PutTrendHolds(es, 3, "carries", v.carries);
    VolumeReadAt(v, 4); PutTrendHolds(es, 4, "targets", v.targets);
    Obj(es)
  }

  function VolumeFromDict(j: Json): Option<VolumeTrends> {
    if !j.JObj? then None
    else Some(VolumeTrends(AsTrend(Get(j, "target_share")), AsTrend(Get(j, "snap_share")),
                           AsTrend(Get(j, "touch_share")), AsTrend(Get(j, "carries")),
                           AsTrend(Get(j, "targets"))))
  }

  lemma VolumeRoundTrip(v: VolumeTrends)
    ensures VolumeFromDict(VolumeToDict(v)) == Some(v)
  {
  }

  function EfficiencyEntries(e: EfficiencyTrends): seq<Entry> {
    [ PutTrend("yards_per_carry", e.yardsPerCarry),
      PutTrend("yards_per_target", e.yardsPerTarget),
      PutTrend("catch_rate", e.catchRate),
      PutTrend("yards_per_reception", e.yardsPerReception),
      PutTrend("fantasy_points_per_touch", e.fantasyPointsPerTouch) ]
  }

  /** Each entry of `EfficiencyEntries` is what `get` finds under its key. */
  lemma EfficiencyReadAt(e: EfficiencyTrends, i: nat)
    requires i < |EfficiencyEntries(e)|
    ensures var es := EfficiencyEntries(e);
            Get(Obj(es), es[i].0) == es[i].1
  {
    LookupUnique(EfficiencyEntries(e), i);
  }

  /** `EfficiencyTrends.to_dict`: a key for each ratio whose trend is set. */
  function EfficiencyToDict(e: EfficiencyTrends): (r: Json)
    ensures r.JObj?
    ensures Holds(r, "yards_per_carry", e.yardsPerCarry)
    ensures Holds(r, "yards_per_target", e.yardsPerTarget)
    ensures Holds(r, "catch_rate", e.catchRate)
    ensures Holds(r, "yards_per_reception", e.yardsPerReception)
    ensures Holds(r, "fantasy_points_per_touch", e.fantasyPointsPerTouch)
  {
    var es := EfficiencyEntries(e);
    EfficiencyReadAt(e, 0); PutTrendHolds(es, 0, "yards_per_carry", e.yardsPerCarry);
    EfficiencyReadAt(e, 1); PutTrendHolds(es, 1, "yards_per_target", e.yardsPerTarget);
    EfficiencyReadAt(e, 2); PutTrendHolds(es, 2, "catch_rate", e.catchRate);
    EfficiencyReadAt(e, 3); PutTrendHolds(es, 3, "yards_per_reception", e.yardsPerReception);
    EfficiencyReadAt(e, 4); PutTrendHolds(es, 4, "fantasy_points_per_touch", e.fantasyPointsPerTouch);
    Obj(es)
  }

  function EfficiencyFromDict(j: Json): Option<EfficiencyTrends> {
    if !j.JObj? then None
    else Some(EfficiencyTrends(AsTrend(Get(j, "yards_per_carry")), AsTrend(Get(j, "yards_per_target")),
                               AsTrend(Get(j, "catch_rate")), AsTrend(Get(j, "yards_per_reception")),
                               AsTrend(Get(j, "fantasy_points_per_touch"))))
  }

  lemma EfficiencyRoundTrip(e: EfficiencyTrends)
    ensures EfficiencyFromDict(EfficiencyToDict(e)) == Some(e)
  {
  }

  // ---------------------------------------------------------------- PlayerInsight

  datatype PlayerInsight = PlayerInsight(
    playerId: string,
    playerName: string,
    position: string,
    team: string,
    week: int,
    season: int,
    volume: Option<VolumeTrends>,
    efficiency: Option<EfficiencyTrends>,
    touchesDelta: Option<real>,
    fantasyPointsDelta: Option<real>,
    volumeRank: Option<int>,
    efficiencyRank: Option<int>,
    timestamp: string)

  /** An entry for an optional rank, present iff the rank is truthy (set and non-zero). */
  function PutRank(k: string, r: Option<int>): Entry {
    (k, if r.Some? && r.value != 0 then Some(JInt(r.value)) else None)
  }

  /** Python truthiness of an optional integer. */
  function Truthy(r: Option<int>): Option<int> {
    if r.Some? && r.value != 0 then r else None
  }

  function AsVolume(j: Option<Json>): Option<VolumeTrends> {
    if j.Some? then VolumeFromDict(j.value) else None
  }

  function AsEfficiency(j: Option<Json>): Option<EfficiencyTrends> {
    if j.Some? then EfficiencyFromDict(j.value) else None
  }

  function PlayerEntries(p: PlayerInsight): seq<Entry> {
    [ Put("player_id", JStr(p.playerId)),
      Put("player_name", JStr(p.playerName)),
      Put("position", JStr(p.position)),
      Put("team", JStr(p.team)),
      Put("week", JInt(p.week)),
      Put("season", JInt(p.season)),
      Put("timestamp", JStr(p.timestamp)),
      ("volume_trends", if p.volume.Some? then Some(VolumeToDict(p.volume.value)) else None),
      ("efficiency_trends", if p.efficiency.Some? then Some(EfficiencyToDict(p.efficiency.value)) else None),
      PutNum("touches_delta", p.touchesDelta),
      PutNum("fantasy_points_delta", p.fantasyPointsDelta),
      PutRank("volume_rank_position", p.volumeRank),
      PutRank("efficiency_rank_position", p.efficiencyRank) ]
  }

  /** Each entry of `PlayerEntries` is what `get` finds under its key. */
  lemma PlayerReadAt(p: PlayerInsight, i: nat)
    requires i < |PlayerEntries(p)|
    ensures var es := PlayerEntries(p);
            Get(Obj(es), es[i].0) == es[i].1
  {
    LookupUnique(PlayerEntries(p), i);
  }

  lemma PutVolumeHolds(es: seq<Entry>, i: nat, v: Option<VolumeTrends>)
    requires i < |es| && Get(Obj(es), es[i].0) == es[i].1
    requires es[i] == ("volume_trends", if v.Some? then Some(VolumeToDict(v.value)) else None)
    ensures Has(Obj(es), "volume_trends") <==> v.Some?
    ensures AsVolume(Get(Obj(es), "volume_trends")) == v
  {
    if v.Some? {
      VolumeRoundTrip(v.value);
    }
  }

  lemma PutEfficiencyHolds(es: seq<Entry>, i: nat, e: Option<EfficiencyTrends>)
    requires i < |es| && Get(Obj(es), es[i].0) == es[i].1
    requires es[i] == ("efficiency_trends", if e.Some? then Some(EfficiencyToDict(e.value)) else None)
    ensures Has(Obj(es), "efficiency_trends") <==> e.Some?
    ensures AsEfficiency(Get(Obj(es), "efficiency_trends")) == e
  {
    if e.Some? {
      EfficiencyRoundTrip(e.value);
    }
  }

  lemma PlayerIdentityReads(p: PlayerInsight)
    ensures AsStr(Get(Obj(PlayerEntries(p)), "player_id")) == Some(p.playerId)
    ensures AsStr(Get(Obj(PlayerEntries(p)), "player_name")) == Some(p.playerName)
    ensures AsStr(Get(Obj(PlayerEntries(p)), "position")) == Some(p.position)
    ensures AsStr(Get(Obj(PlayerEntries(p)), "team")) == Some(p.team)
    ensures AsInt(Get(Obj(PlayerEntries(p)), "week")) == Some(p.week)
    ensures AsInt(Get(Obj(PlayerEntries(p)), "season")) == Some(p.season)
    ensures AsStr(Get(Obj(PlayerEntries(p)), "timestamp")) == Some(p.timestamp)
  {
    var es := PlayerEntries(p);
    PlayerReadAt(p, 0); PlayerReadAt(p, 1); PlayerReadAt(p, 2); PlayerReadAt(p, 3);
    PlayerReadAt(p, 4); PlayerReadAt(p, 5); PlayerReadAt(p, 6);
  }

  lemma PlayerGroupsReads(p: PlayerInsight)
    ensures Has(Obj(PlayerEntries(p)), "volume_trends") <==> p.volume.Some?
    ensures AsVolume(Get(Obj(PlayerEntries(p)), "volume_trends")) == p.volume
    ensures Has(Obj(PlayerEntries(p)), "efficiency_trends") <==> p.efficiency.Some?
    ensures AsEfficiency(Get(Obj(PlayerEntries(p)), "efficiency_trends")) == p.efficiency
  {
    var es := PlayerEntries(p);
    PlayerReadAt(p, 7); PutVolumeHolds(es, 7, p.volume);
    PlayerReadAt(p, 8); PutEfficiencyHolds(es, 8, p.efficiency);
  }

  lemma PlayerDeltasReads(p: PlayerInsight)
    ensures Has(Obj(PlayerEntries(p)), "touches_delta") <==> p.touchesDelta.Some?
    ensures AsNum(Get(Obj(PlayerEntries(p)), "touches_delta")) == p.touchesDelta
    ensures Has(Obj(PlayerEntries(p)), "fantasy_points_delta") <==> p.fantasyPointsDelta.Some?
    ensures AsNum(Get(Obj(PlayerEntries(p)), "fantasy_points_delta")) == p.fantasyPointsDelta
    ensures Has(Obj(PlayerEntries(p)), "volume_rank_position") <==> p.volumeRank.Some? && p.volumeRank.value != 0
    ensures AsInt(Get(Obj(PlayerEntries(p)), "volume_rank_position")) == Truthy(p.volumeRank)
    ensures Has(Obj(PlayerEntries(p)), "efficiency_rank_position") <==> p.efficiencyRank.Some? && p.efficiencyRank.value != 0
    ensures AsInt(Get(Obj(PlayerEntries(p)), "efficiency_rank_position")) == Truthy(p.efficiencyRank)
  {
    var es := PlayerEntries(p);
    PlayerReadAt(p, 9); PlayerReadAt(p, 10); PlayerReadAt(p, 11); PlayerReadAt(p, 12);
  }

  /** `PlayerInsight.to_dict`: the seven identity keys always; the trend
      groups and the two deltas when set (a delta of 0 is kept); a rank only
      when it is set and non-zero. */
  function PlayerToDict(p: PlayerInsight): (r: Json)
    ensures r.JObj?
    ensures AsStr(Get(r, "player_id")) == Some(p.playerId)
    ensures AsStr(Get(r, "player_name")) == Some(p.playerName)
    ensures AsStr(Get(r, "position")) == Some(p.position)
    ensures AsStr(Get(r, "team")) == Some(p.team)
    ensures AsInt(Get(r, "week")) == Some(p.week)
    ensures AsInt(Get(r, "season")) == Some(p.season)
    ensures AsStr(Get(r, "timestamp")) == Some(p.timestamp)
    ensures Has(r, "volume_trends") <==> p.volume.Some?
    ensures AsVolume(Get(r, "volume_trends")) == p.volume
    ensures Has(r, "efficiency_trends") <==> p.efficiency.Some?
    ensures AsEfficiency(Get(r, "efficiency_trends")) == p.efficiency
    ensures Has(r, "touches_delta") <==> p.touchesDelta.Some?
    ensures AsNum(Get(r, "touches_delta")) == p.touchesDelta
    ensures Has(r, "fantasy_points_delta") <==> p.fantasyPointsDelta.Some?
    ensures AsNum(Get(r, "fantasy_points_delta")) == p.fantasyPointsDelta
    ensures Has(r, "volume_rank_position") <==> p.volumeRank.Some? && p.volumeRank.value != 0
    ensures AsInt(Get(r, "volume_rank_position")) == Truthy(p.volumeRank)
    ensures Has(r, "efficiency_rank_position") <==> p.efficiencyRank.Some? && p.efficiencyRank.value != 0
    ensures AsInt(Get(r, "efficiency_rank_position")) == Truthy(p.efficiencyRank)
  {
    PlayerIdentityReads(p); PlayerGroupsReads(p); PlayerDeltasReads(p);
    Obj(PlayerEntries(p))
  }


  function PlayerFromDict(j: Json): Option<PlayerInsight> {
    var id := AsStr(Get(j, "player_id"));
    var name := AsStr(Get(j, "player_name"));
    var pos := AsStr(Get(j, "position"));
    var team := AsStr(Get(j, "team"));
    var week := AsInt(Get(j, "week"));
    var season := AsInt(Get(j, "season"));
    var ts := AsStr(Get(j, "timestamp"));
    if id.None? || name.None? || pos.None? || team.None? || week.None? || season.None? || ts.None? then None
    else Some(PlayerInsight(id.value, name.value, pos.value, team.value, week.value, season.value,
                            AsVolume(Get(j, "volume_trends")), AsEfficiency(Get(j, "efficiency_trends")),
                            AsNum(Get(j, "touches_delta")), AsNum(Get(j, "fantasy_points_delta")),
                            AsInt(Get(j, "volume_rank_position")), AsInt(Get(j, "efficiency_rank_position")),
                            ts.value))
  }

  /** The insight with each rank of 0 replaced by None. */
  function DropFalsyRanks(p: PlayerInsight): PlayerInsight {
    p.(volumeRank := Truthy(p.volumeRank), efficiencyRank := Truthy(p.efficiencyRank))
  }

  /** Encoding loses exactly the zero ranks. */
  lemma PlayerRoundTrip(p: PlayerInsight)
    ensures PlayerFromDict(PlayerToDict(p)) == Some(DropFalsyRanks(p))
    ensures PlayerFromDict(PlayerToDict(p)) == Some(p)
        <==> p.volumeRank != Some(0) && p.efficiencyRank != Some(0)
  {
    var j := PlayerToDict(p);
    assert PlayerFromDict(j) == Some(DropFalsyRanks(p));
  }

  // ---------------------------------------------------------------- TeamInsight

  datatype TeamInsight = TeamInsight(
    team: string,
    week: int,
    season: int,
    playsPerGame: Option<Trend>,
    passRate: Option<Trend>,
    pace: Option<Trend>,
    rbEntropy: Option<real>,
    wrDistribution: Option<seq<(string, real)>>,
    timestamp: string)

  function NumPair(e: (string, real)): (string, Json) {
    (e.0, JNum(e.1))
  }

  /** A `Dict[str, float]` as a JSON object. */
  function NumObj(d: seq<(string, real)>): (r: Json)
    ensures r.JObj? && |r.fields| == |d|
  {
    JObj(Map(NumPair, d))
  }

  function AsNumPairs(fields: seq<(string, Json)>): (r: Option<seq<(string, real)>>)
    ensures r.Some? ==> |r.value| == |fields|
  {
    if |fields| == 0 then Some([])
    else if fields[0].1.JNum? then
      match AsNumPairs(fields[1..])
      case Some(rest) => Some([(fields[0].0, fields[0].1.n)] + rest)
      case None => None
    else None
  }

  lemma {:induction false} NumObjRoundTrip(d: seq<(string, real)>)
    ensures AsNumPairs(NumObj(d).fields) == Some(d)
  {
    if |d| > 0 {
      NumObjRoundTrip(d[1..]);
      assert NumObj(d).fields[0] == (d[0].0, JNum(d[0].1));
      assert NumObj(d).fields[1..] == NumObj(d[1..]).fields;
      assert [(d[0].0, d[0].1)] + d[1..] == d;
    }
  }

  lemma DistributionReads(d: Option<seq<(string, real)>>)
    ensures d.Some? ==> AsNumPairs(NumObj(d.value).fields) == d
  {
    if d.Some? {
      NumObjRoundTrip(d.value);
    }
  }

  function AsDistribution(j: Option<Json>): Option<seq<(string, real)>> {
    if j.Some? && j.value.JObj? then AsNumPairs(j.value.fields) else None
  }

  function TeamEntries(t: TeamInsight): seq<Entry> {
    [ Put("team", JStr(t.team)),
      Put("week", JInt(t.week)),
      Put("season", JInt(t.season)),
      Put("timestamp", JStr(t.timestamp)),
      PutTrend("plays_per_game", t.playsPerGame),
      PutTrend("pass_rate", t.passRate),
      PutTrend("pace", t.pace),
      PutNum("rb_committee_entropy", t.rbEntropy),
      ("wr_target_distribution",
       if t.wrDistribution.Some? && |t.wrDistribution.value| > 0 then Some(NumObj(t.wrDistribution.value)) else None) ]
  }

  /** Each entry of `TeamEntries` is what `get` finds under its key. */
  lemma TeamReadAt(t: TeamInsight, i: nat)
    requires i < |TeamEntries(t)|
    ensures var es := TeamEntries(t);
            Get(Obj(es), es[i].0) == es[i].1
  {
    LookupUnique(TeamEntries(t), i);
  }

  /** `TeamInsight.to_dict`: identity keys always; the trends when set; the
      entropy whenever it is not None (0.0 included); the WR distribution
      only when it is non-empty. */
  function TeamToDict(t: TeamInsight): (r: Json)
    ensures r.JObj?
    ensures AsStr(Get(r, "team")) == Some(t.team)
    ensures AsInt(Get(r, "week")) == Some(t.week)
    ensures AsInt(Get(r, "season")) == Some(t.season)
    ensures AsStr(Get(r, "timestamp")) == Some(t.timestamp)
    ensures Holds(r, "plays_per_game", t.playsPerGame)
    ensures Holds(r, "pass_rate", t.passRate)
    ensures Holds(r, "pace", t.pace)
    ensures Has(r, "rb_committee_entropy") <==> t.rbEntropy.Some?
    ensures AsNum(Get(r, "rb_committee_entropy")) == t.rbEntropy
    ensures Has(r, "wr_target_distribution") <==> t.wrDistribution.Some? && |t.wrDistribution.value| > 0
    ensures Has(r, "wr_target_distribution") ==> AsDistribution(Get(r, "wr_target_distribution")) == t.wrDistribution
  {
    TeamEntriesRead(t);
    Obj(TeamEntries(t))
  }

  /** What `get` finds under each of the team insight's keys. */
  lemma TeamEntriesRead(t: TeamInsight)
    ensures var r := Obj(TeamEntries(t));
      && AsStr(Get(r, "team")) == Some(t.team)
      && AsInt(Get(r, "week")) == Some(t.week)
      && AsInt(Get(r, "season")) == Some(t.season)
      && AsStr(Get(r, "timestamp")) == Some(t.timestamp)
      && Holds(r, "plays_per_game", t.playsPerGame)
      && Holds(r, "pass_rate", t.passRate)
      && Holds(r, "pace", t.pace)
      && (Has(r, "rb_committee_entropy") <==> t.rbEntropy.Some?)
      && AsNum(Get(r, "rb_committee_entropy")) == t.rbEntropy
      && (Has(r, "wr_target_distribution") <==> t.wrDistribution.Some? && |t.wrDistribution.value| > 0)
      && (Has(r, "wr_target_distribution") ==> AsDistribution(Get(r, "wr_target_distribution")) == t.wrDistribution)
  {
    TeamTrendsRead(t);
    TeamMeasuresRead(t);
  }

  /** The identity fields and the three trends of a team insight read back. */
  lemma TeamTrendsRead(t: TeamInsight)
    ensures var r := Obj(TeamEntries(t));
      && AsStr(Get(r, "team")) == Some(t.team)
      && AsInt(Get(r, "week")) == Some(t.week)
      && AsInt(Get(r, "season")) == Some(t.season)
      && AsStr(Get(r, "timestamp")) == Some(t.timestamp)
      && Holds(r, "plays_per_game", t.playsPerGame)
      && Holds(r, "pass_rate", t.passRate)
      && Holds(r, "pace", t.pace)
  {
    var es := TeamEntries(t);
    TeamReadAt(t, 0); TeamReadAt(t, 1); TeamReadAt(t, 2); TeamReadAt(t, 3);
    TeamReadAt(t, 4); PutTrendHolds(es, 4, "plays_per_game", t.playsPerGame);
    TeamReadAt(t, 5); PutTrendHolds(es, 5, "pass_rate", t.passRate);
    TeamReadAt(t, 6); PutTrendHolds(es, 6, "pace", t.pace);
  }

  /** The entropy and the WR distribution of a team insight read back. */
  lemma TeamMeasuresRead(t: TeamInsight)
    ensures var r := Obj(TeamEntries(t));
      && (Has(r, "rb_committee_entropy") <==> t.rbEntropy.Some?)
      && AsNum(Get(r, "rb_committee_entropy")) == t.rbEntropy
      && (Has(r, "wr_target_distribution") <==> t.wrDistribution.Some? && |t.wrDistribution.value| > 0)
      && (Has(r, "wr_target_distribution") ==> AsDistribution(Get(r, "wr_target_distribution")) == t.wrDistribution)
  {
    TeamReadAt(t, 7); TeamReadAt(t, 8);
    DistributionReads(t.wrDistribution);
  }

  function TeamFromDict(j: Json): Option<TeamInsight> {
    var team := AsStr(Get(j, "team"));
    var week := AsInt(Get(j, "week"));
    var season := AsInt(Get(j, "season"));
    var ts := AsStr(Get(j, "timestamp"));
    if team.None? || week.None? || season.None? || ts.None? then None
    else Some(TeamInsight(team.value, week.value, season.value,
                          AsTrend(Get(j, "plays_per_game")), AsTrend(Get(j, "pass_rate")),
                          AsTrend(Get(j, "pace")), AsNum(Get(j, "rb_committee_entropy")),
                          AsDistribution(Get(j, "wr_target_distribution")), ts.value))
  }

  /** The insight with an empty WR distribution replaced by None. */
  function DropEmptyDistribution(t: TeamInsight): TeamInsight {
    if t.wrDistribution == Some([]) then t.(wrDistribution := None) else t
  }

  /** Encoding loses exactly an empty WR distribution. */
  lemma TeamRoundTrip(t: TeamInsight)
    ensures TeamFromDict(TeamToDict(t)) == Some(DropEmptyDistribution(t))
    ensures TeamFromDict(TeamToDict(t)) == Some(t) <==> t.wrDistribution != Some([])
  {
    var j := TeamToDict(t);
    assert AsDistribution(Get(j, "wr_target_distribution")) == DropEmptyDistribution(t).wrDistribution;
  }

  // ---------------------------------------------------------------- DefenseInsight

  datatype DefenseInsight = DefenseInsight(
    team: string,
    week: int,
    season: int,
    vsQb: Option<Trend>,
    vsRb: Option<Trend>,
    vsWr: Option<Trend>,
    vsTe: Option<Trend>,
    sacksPerGame: Option<Trend>,
    interceptionsPerGame: Option<Trend>,
    timestamp: string)

  function DefenseEntries(d: DefenseInsight): seq<Entry> {
    [ Put("team", JStr(d.team)),
      Put("week", JInt(d.week)),
      Put("season", JInt(d.season)),
      Put("timestamp", JStr(d.timestamp)),
      PutTrend("points_allowed_vs_qb", d.vsQb),
      PutTrend("points_allowed_vs_rb", d.vsRb),
      PutTrend("points_allowed_vs_wr", d.vsWr),
      PutTrend("points_allowed_vs_te", d.vsTe),
      PutTrend("sacks_per_game", d.sacksPerGame),
      PutTrend("interceptions_per_game", d.interceptionsPerGame) ]
  }

  /** Each entry of `DefenseEntries` is what `get` finds under its key. */
  lemma DefenseReadAt(d: DefenseInsight, i: nat)
    requires i < |DefenseEntries(d)|
    ensures var es := DefenseEntries(d);
            Get(Obj(es), es[i].0) == es[i].1
  {
    LookupUnique(DefenseEntries(d), i);
  }

  lemma DefenseIdentityReads(d: DefenseInsight)
    ensures AsStr(Get(Obj(DefenseEntries(d)), "team")) == Some(d.team)
    ensures AsInt(Get(Obj(DefenseEntries(d)), "week")) == Some(d.week)
    ensures AsInt(Get(Obj(DefenseEntries(d)), "season")) == Some(d.season)
    ensures AsStr(Get(Obj(DefenseEntries(d)), "timestamp")) == Some(d.timestamp)
  {
    var es := DefenseEntries(d);
    DefenseReadAt(d, 0); DefenseReadAt(d, 1); DefenseReadAt(d, 2); DefenseReadAt(d, 3);
  }

  lemma DefenseTrendsReads(d: DefenseInsight)
    ensures Holds(Obj(DefenseEntries(d)), "points_allowed_vs_qb", d.vsQb)
    ensures Holds(Obj(DefenseEntries(d)), "points_allowed_vs_rb", d.vsRb)
    ensures Holds(Obj(DefenseEntries(d)), "points_allowed_vs_wr", d.vsWr)
    ensures Holds(Obj(DefenseEntries(d)), "points_allowed_vs_te", d.vsTe)
    ensures Holds(Obj(DefenseEntries(d)), "sacks_per_game", d.sacksPerGame)
    ensures Holds(Obj(DefenseEntries(d)), "interceptions_per_game", d.interceptionsPerGame)
  {
    var es := DefenseEntries(d);
    DefenseReadAt(d, 4); PutTrendHolds(es, 4, "points_allowed_vs_qb", d.vsQb);
    DefenseReadAt(d, 5); PutTrendHolds(es, 5, "points_allowed_vs_rb", d.vsRb);
    DefenseReadAt(d, 6); PutTrendHolds(es, 6, "points_allowed_vs_wr", d.vsWr);
    DefenseReadAt(d, 7); PutTrendHolds(es, 7, "points_allowed_vs_te", d.vsTe);
    DefenseReadAt(d, 8); PutTrendHolds(es, 8, "sacks_per_game", d.sacksPerGame);
    DefenseReadAt(d, 9); PutTrendHolds(es, 9, "interceptions_per_game", d.interceptionsPerGame);
  }

  /** `DefenseInsight.to_dict`: identity keys always, each trend when set. */
  function DefenseToDict(d: DefenseInsight): (r: Json)
    ensures r.JObj?
    ensures AsStr(Get(r, "team")) == Some(d.team)
    ensures AsInt(Get(r, "week")) == Some(d.week)
    ensures AsInt(Get(r, "season")) == Some(d.season)
    ensures AsStr(Get(r, "timestamp")) == Some(d.timestamp)
    ensures Holds(r, "points_allowed_vs_qb", d.vsQb)
    ensures Holds(r, "points_allowed_vs_rb", d.vsRb)
    ensures Holds(r, "points_allowed_vs_wr", d.vsWr)
    ensures Holds(r, "points_allowed_vs_te", d.vsTe)
    ensures Holds(r, "sacks_per_game", d.sacksPerGame)
    ensures Holds(r, "interceptions_per_game", d.interceptionsPerGame)
  {
    DefenseIdentityReads(d); DefenseTrendsReads(d);
    Obj(DefenseEntries(d))
  }


  // ---------------------------------------------------------------- Superlative

  datatype Superlative = Superlative(
    category: string,
    subcategory: string,
    awardName: string,
    playerId: string,
    playerName: string,
    position: string,
    team: string,
    value: real,
    metricName: string,
    week: int,
    season: int,
    rank: int,
    timestamp: string)

  function SuperlativeEntries(s: Superlative): seq<Entry> {
    [ Put("category", JStr(s.category)),
      Put("subcategory", JStr(s.subcategory)),
      Put("award_name", JStr(s.awardName)),
      Put("player_id", JStr(s.playerId)),
      Put("player_name", JStr(s.playerName)),
      Put("position", JStr(s.position)),
      Put("team", JStr(s.team)),
      Put("value", JNum(s.value)),
      Put("metric_name", JStr(s.metricName)),
      Put("week", JInt(s.week)),
      Put("season", JInt(s.season)),
      Put("rank", JInt(s.rank)),
      Put("timestamp", JStr(s.timestamp)) ]
  }

  /** Each entry of `SuperlativeEntries` is what `get` finds under its key. */
  lemma SuperlativeReadAt(s: Superlative, i: nat)
    requires i < |SuperlativeEntries(s)|
    ensures var es := SuperlativeEntries(s);
            Get(Obj(es), es[i].0) == es[i].1
  {
    LookupUnique(SuperlativeEntries(s), i);
  }

  lemma SuperlativeIdentityReads(s: Superlative)
    ensures AsStr(Get(Obj(SuperlativeEntries(s)), "category")) == Some(s.category)
    ensures AsStr(Get(Obj(SuperlativeEntries(s)), "subcategory")) == Some(s.subcategory)
    ensures AsStr(Get(Obj(SuperlativeEntries(s)), "award_name")) == Some(s.awardName)
    ensures AsStr(Get(Obj(SuperlativeEntries(s)), "player_id")) == Some(s.playerId)
    ensures AsStr(Get(Obj(SuperlativeEntries(s)), "player_name")) == Some(s.playerName)
    ensures AsStr(Get(Obj(SuperlativeEntries(s)), "position")) == Some(s.position)
    ensures AsStr(Get(Obj(SuperlativeEntries(s)), "team")) == Some(s.team)
  {
    var es := SuperlativeEntries(s);
    SuperlativeReadAt(s, 0); SuperlativeReadAt(s, 1); SuperlativeReadAt(s, 2); SuperlativeReadAt(s, 3);
    SuperlativeReadAt(s, 4); SuperlativeReadAt(s, 5); SuperlativeReadAt(s, 6);
  }

  lemma SuperlativeValueReads(s: Superlative)
    ensures AsNum(Get(Obj(SuperlativeEntries(s)), "value")) == Some(s.value)
    ensures AsStr(Get(Obj(SuperlativeEntries(s)), "metric_name")) == Some(s.metricName)
    ensures AsInt(Get(Obj(SuperlativeEntries(s)), "week")) == Some(s.week)
    ensures AsInt(Get(Obj(SuperlativeEntries(s)), "season")) == Some(s.season)
    ensures AsInt(Get(Obj(SuperlativeEntries(s)), "rank")) == Some(s.rank)
    ensures AsStr(Get(Obj(SuperlativeEntries(s)), "timestamp")) == Some(s.timestamp)
  {
    var es := SuperlativeEntries(s);
    SuperlativeReadAt(s, 7); SuperlativeReadAt(s, 8); SuperlativeReadAt(s, 9); SuperlativeReadAt(s, 10);
    SuperlativeReadAt(s, 11); SuperlativeReadAt(s, 12);
  }

  /** `Superlative.to_dict` (`asdict`): every field, in declaration order. */
  function SuperlativeToDict(s: Superlative): (r: Json)
    ensures r.JObj?
    ensures AsStr(Get(r, "category")) == Some(s.category)
    ensures AsStr(Get(r, "subcategory")) == Some(s.subcategory)
    ensures AsStr(Get(r, "award_name")) == Some(s.awardName)
    ensures AsStr(Get(r, "player_id")) == Some(s.playerId)
    ensures AsStr(Get(r, "player_name")) == Some(s.playerName)
    ensures AsStr(Get(r, "position")) == Some(s.position)
    ensures AsStr(Get(r, "team")) == Some(s.team)
    ensures AsNum(Get(r, "value")) == Some(s.value)
    ensures AsStr(Get(r, "metric_name")) == Some(s.metricName)
    ensures AsInt(Get(r, "week")) == Some(s.week)
    ensures AsInt(Get(r, "season")) == Some(s.season)
    ensures AsInt(Get(r, "rank")) == Some(s.rank)
    ensures AsStr(Get(r, "timestamp")) == Some(s.timestamp)
  {
    SuperlativeIdentityReads(s); SuperlativeValueReads(s);
    Obj(SuperlativeEntries(s))
  }


  function SuperlativeFromDict(j: Json): Option<Superlative> {
    var cat := AsStr(Get(j, "category"));
    var sub := AsStr(Get(j, "subcategory"));
    var award := AsStr(Get(j, "award_name"));
    var id := AsStr(Get(j, "player_id"));
    var name := AsStr(Get(j, "player_name"));
    var pos := AsStr(Get(j, "position"));
    var team := AsStr(Get(j, "team"));
    var value := AsNum(Get(j, "value"));
    var metric := AsStr(Get(j, "metric_name"));
    var week := AsInt(Get(j, "week"));
    var season := AsInt(Get(j, "season"));
    var rank := AsInt(Get(j, "rank"));
    var ts := AsStr(Get(j, "timestamp"));
    if cat.None? || sub.None? || award.None? || id.None? || name.None? || pos.None? || team.None?
       || value.None? || metric.None? || week.None? || season.None? || ts.None? then None
    else Some(Superlative(cat.value, sub.value, award.value, id.value, name.value, pos.value, team.value,
                          value.value, metric.value, week.value, season.value,
                          rank.GetOr(1), ts.value))
  }

  /** Every award reads back as itself. */
  lemma SuperlativeRoundTrip(s: Superlative)
    ensures SuperlativeFromDict(SuperlativeToDict(s)) == Some(s)
  {
  }

  // ---------------------------------------------------------------- InsightsOutput

  datatype InsightsOutput = InsightsOutput(
    season: int,
    week: int,
    generatedAt: string,
    playerInsights: seq<Json>,
    teamInsights: seq<Json>,
    defenseInsights: seq<Json>,
    superlatives: seq<Json>,
    metadata: Json)

  const OUTPUT_KEYS: seq<string> :=
    ["season", "week", "generated_at", "player_insights", "team_insights", "defense_insights",
     "superlatives", "metadata"]

  function OutputEntries(o: InsightsOutput): seq<Entry> {
    [ Put("season", JInt(o.season)),
      Put("week", JInt(o.week)),
      Put("generated_at", JStr(o.generatedAt)),
      Put("player_insights", JArr(o.playerInsights)),
      Put("team_insights", JArr(o.teamInsights)),
      Put("defense_insights", JArr(o.defenseInsights)),
      Put("superlatives", JArr(o.superlatives)),
      Put("metadata", o.metadata) ]
  }

  /** Each entry of `OutputEntries` is what `get` finds under its key. */
  lemma OutputReadAt(o: InsightsOutput, i: nat)
    requires i < |OutputEntries(o)|
    ensures var es := OutputEntries(o);
            Get(Obj(es), es[i].0) == es[i].1
  {
    LookupUnique(OutputEntries(o), i);
  }

  lemma OutputReads(o: InsightsOutput)
    ensures AsInt(Get(Obj(OutputEntries(o)), "season")) == Some(o.season)
    ensures AsInt(Get(Obj(OutputEntries(o)), "week")) == Some(o.week)
    ensures AsStr(Get(Obj(OutputEntries(o)), "generated_at")) == Some(o.generatedAt)
    ensures Get(Obj(OutputEntries(o)), "metadata") == Some(o.metadata)
  {
    var es := OutputEntries(o);
    OutputReadAt(o, 0); OutputReadAt(o, 1); OutputReadAt(o, 2); OutputReadAt(o, 7);
  }

  lemma OutputListsRead(o: InsightsOutput)
    ensures Get(Obj(OutputEntries(o)), "player_insights") == Some(JArr(o.playerInsights))
    ensures Get(Obj(OutputEntries(o)), "team_insights") == Some(JArr(o.teamInsights))
    ensures Get(Obj(OutputEntries(o)), "defense_insights") == Some(JArr(o.defenseInsights))
    ensures Get(Obj(OutputEntries(o)), "superlatives") == Some(JArr(o.superlatives))
  {
    var es := OutputEntries(o);
    OutputReadAt(o, 3); OutputReadAt(o, 4); OutputReadAt(o, 5); OutputReadAt(o, 6);
  }

  lemma OutputKeys(o: InsightsOutput)
    ensures Keys(Obj(OutputEntries(o)).fields) == OUTPUT_KEYS
  {
    PresentKeys(OutputEntries(o));
  }

  /** `InsightsOutput.to_dict`: exactly eight keys, each holding its field. */
  function OutputToDict(o: InsightsOutput): (r: Json)
    ensures r.JObj? && Keys(r.fields) == OUTPUT_KEYS
    ensures AsInt(Get(r, "season")) == Some(o.season)
    ensures AsInt(Get(r, "week")) == Some(o.week)
    ensures AsStr(Get(r, "generated_at")) == Some(o.generatedAt)
    ensures Get(r, "player_insights") == Some(JArr(o.playerInsights))
    ensures Get(r, "team_insights") == Some(JArr(o.teamInsights))
    ensures Get(r, "defense_insights") == Some(JArr(o.defenseInsights))
    ensures Get(r, "superlatives") == Some(JArr(o.superlatives))
    ensures Get(r, "metadata") == Some(o.metadata)
  {
    OutputReads(o); OutputListsRead(o); OutputKeys(o);
    Obj(OutputEntries(o))
  }

}

=== FILE: orchestrator.dfy ===
/** The insights engine's entry points (lambda_functions/insights_engine/index.py):
    `generate_insights`, which reads the fetched weeks from storage and fans
    out to the player, team and superlative calculators, and `handler`,
    which resolves the week window, refuses to run when a compared week is
    missing and writes the three output files in a fixed order.

    Storage is a map from (season, week) to the stored weekly file; the
    handler's writes are returned as a list, in the order they are made.
 */
module Orchestrator {
  import opened Wrappers
  import opened Seqs
  import opened Records
  import opened Json
  import opened Models
  import opened WeekWindow
  import PlayerInsights
  import TeamInsights
  import Superlatives
  import PyDict

  // ---------------------------------------------------------------- stored weeks

  /** The `data` key of a weekly file: the older list layout, the newer
      `{players: [...]}` layout, or no `data` key at all. */
  datatype Payload = PlayerList(items: seq<Rec>) | PlayerDict(players: Option<seq<Rec>>) | NoPayload

  /** A weekly file: its `data` key and whether it has any other key. */
  datatype WeekFile = WeekFile(data: Payload, otherKeys: bool) {

    /** Python truthiness of the file's dict. */
    predicate Truthy() {
      !data.NoPayload? || otherKeys
    }

    /** The player lines, in either layout; none when there are none. */
    function Players(): seq<Rec> {
      match data
      case PlayerList(ps) => ps
      case PlayerDict(ps) => ps.GetOr([])
      case NoPayload => []
    }
  }

  /** The weekly files by (season, week). */
  type Store = map<(int, int), WeekFile>

  /** `weekly_data.get(w)` where it is truthy: the stored, non-empty file. */
  function Loaded(store: Store, season: int, week: int): (r: Option<WeekFile>)
    ensures r.Some? <==> (season, week) in store && store[(season, week)].Truthy()
    ensures r.Some? ==> r.value == store[(season, week)]
  {
    if (season, week) in store && store[(season, week)].Truthy() then Some(store[(season, week)]) else None
  }

  /** What `generate_insights` raises. */
  datatype Failure = NoData(week: int) | MissingPlayerId

  // ---------------------------------------------------------------- player maps

  /** A dict from player id to player line, in insertion order. */
  type IdMap = seq<(string, Rec)>

  predicate AllHaveIds(ps: seq<Rec>) {
    forall i :: 0 <= i < |ps| ==> ps[i].Text(PLAYER_ID).Some?
  }

  /** `(p['player_id'], p)` for each line; a line without an id raises. */
  function IdPairs(ps: seq<Rec>): (r: Result<IdMap, Failure>)
    ensures r.Ok? <==> AllHaveIds(ps)
    ensures r.Err? ==> r.error == MissingPlayerId
    ensures r.Ok? ==> |r.value| == |ps|
    ensures r.Ok? ==> forall i :: 0 <= i < |ps| ==> r.value[i] == (ps[i].Text(PLAYER_ID).value, ps[i])
  {
    if |ps| == 0 then Ok([])
    else if ps[0].Text(PLAYER_ID).None? then Err(MissingPlayerId)
    else match IdPairs(ps[1..])
      case Err(e) => Err(e)
      case Ok(rest) => Ok([(ps[0].Text(PLAYER_ID).value, ps[0])] + rest)
  }

  /** Every value of a built map is a line carrying its key as id. */
  predicate Consistent(m: IdMap) {
    forall i :: 0 <= i < |m| ==> m[i].1.Text(PLAYER_ID) == Some(m[i].0)
  }

  /** `{p['player_id']: p for p in ps}`: one entry per distinct id, holding
      the last line with that id. */
  function ById(ps: seq<Rec>): (r: Result<IdMap, Failure>)
    ensures r.Ok? <==> AllHaveIds(ps)
    ensures r.Err? ==> r.error == MissingPlayerId
    ensures r.Ok? ==> PyDict.DistinctKeys(r.value) && Consistent(r.value) && |r.value| <= |ps|
  {
    match IdPairs(ps)
    case Err(e) => Err(e)
    case Ok(pairs) =>
      var m := PyDict.FromPairs(pairs);
      assert Consistent(m) by {
        forall i | 0 <= i < |m|
          ensures m[i].1.Text(PLAYER_ID) == Some(m[i].0)
        {
          assert m[i] in pairs;
        }
      }
      Ok(m)
  }

  /** The last line carrying `id`, if any. */
  function LastLine(ps: seq<Rec>, id: string): Option<Rec> {
    if |ps| == 0 then None
    else if ps[|ps| - 1].Text(PLAYER_ID) == Some(id) then Some(ps[|ps| - 1])
    else LastLine(ps[..|ps| - 1], id)
  }

  /** Looking an id up in the built map finds the last line with that id:
      a later duplicate overwrites an earlier one. */
  lemma {:induction false} ByIdLastWins(ps: seq<Rec>, id: string)
    requires AllHaveIds(ps)
    ensures PyDict.Get(ById(ps).value, id) == LastLine(ps, id)
  {
    var pairs := IdPairs(ps).value;
    PyDict.FromPairsLastWins(pairs, id);
    LastValueIsLastLine(ps, id);
  }

  lemma {:induction false} LastValueIsLastLine(ps: seq<Rec>, id: string)
    requires AllHaveIds(ps)
    ensures PyDict.LastValue(IdPairs(ps).value, id) == LastLine(ps, id)
  {
    if |ps| > 0 {
      var n := |ps| - 1;
      assert AllHaveIds(ps[..n]);
      var pairs := IdPairs(ps).value;
      var init := IdPairs(ps[..n]).value;
      assert pairs[..n] == init;
      LastValueIsLastLine(ps[..n], id);
    }
  }

  /** Every line's id is a key of the built map. */
  lemma ByIdComplete(ps: seq<Rec>, i: nat)
    requires AllHaveIds(ps) && i < |ps|
    ensures PyDict.Get(ById(ps).value, ps[i].Text(PLAYER_ID).value).Some?
  {
    var pairs := IdPairs(ps).value;
    PyDict.LastValueAt(pairs, i);
    PyDict.FromPairsLastWins(pairs, pairs[i].0);
  }

  // ---------------------------------------------------------------- histories

  /** The id map of each fetched week, None for a week with no file or an
      empty one; a loaded week with a line lacking an id raises. */
  function WeekMaps(store: Store, season: int, weeks: seq<int>): (r: Result<seq<Option<IdMap>>, Failure>)
    ensures r.Ok? <==> FetchedWeeksHaveIds(store, season, weeks)
    ensures r.Err? ==> r.error == MissingPlayerId
    ensures r.Ok? ==> |r.value| == |weeks|
    ensures r.Ok? ==> forall i :: 0 <= i < |weeks| ==> (r.value[i].Some? <==> Loaded(store, season, weeks[i]).Some?)
    ensures r.Ok? ==> forall i :: 0 <= i < |weeks| && r.value[i].Some? ==> Consistent(r.value[i].value)
  {
    if |weeks| == 0 then Ok([])
    else
      var rest := WeekMaps(store, season, weeks[1..]);
      match Loaded(store, season, weeks[0])
      case None =>
        if rest.Err? then rest else Ok([None] + rest.value)
      case Some(f) =>
        match ById(f.Players())
        case Err(e) => Err(e)
        case Ok(m) => if rest.Err? then rest else Ok([Some(m)] + rest.value)
  }

  /** The week's line for `id`, when the week is loaded and has it. */
  function LineIn(id: string): Option<IdMap> -> Option<Rec> {
    (m: Option<IdMap>) => if m.Some? then PyDict.Get(m.value, id) else None
  }

  function HasLine(id: string): Option<IdMap> -> bool {
    (m: Option<IdMap>) => LineIn(id)(m).Some?
  }

  function LineOf(id: string): Option<IdMap> -> Rec {
    (m: Option<IdMap>) => LineIn(id)(m).GetOr(Rec(map[], map[]))
  }

  /** A player's history: its line from each fetched week that has it, in week order. */
  function PlayerHistory(maps: seq<Option<IdMap>>, id: string): (r: seq<Rec>)
    ensures |r| <= |maps|
  {
    if |maps| == 0 then []
    else
      var here := LineIn(id)(maps[0]);
      (if here.Some? then [here.value] else []) + PlayerHistory(maps[1..], id)
  }

  /** The history is the subsequence of weeks holding the player, each
      contributing its line: weeks without the player are skipped. */
  lemma {:induction false} PlayerHistoryIsSubsequence(maps: seq<Option<IdMap>>, id: string)
    ensures PlayerHistory(maps, id) == Map(LineOf(id), Filter(HasLine(id), maps))
  {
    if |maps| > 0 {
      PlayerHistoryIsSubsequence(maps[1..], id);
    }
  }

  /** Every history line belongs to the player. */
  lemma {:induction false} PlayerHistoryOwnLines(maps: seq<Option<IdMap>>, id: string, k: nat)
    requires forall i :: 0 <= i < |maps| && maps[i].Some? ==> Consistent(maps[i].value)
    requires k < |PlayerHistory(maps, id)|
    ensures PlayerHistory(maps, id)[k].Text(PLAYER_ID) == Some(id)
  {
    var here := LineIn(id)(maps[0]);
    if here.Some? {
      GetConsistent(maps[0].value, id);
    }
    if here.Some? && k == 0 {
    } else {
      var j := if here.Some? then k - 1 else k;
      assert forall i :: 0 <= i < |maps[1..]| && maps[1..][i].Some? ==> Consistent(maps[1..][i].value) by {
        forall i | 0 <= i < |maps[1..]| && maps[1..][i].Some?
          ensures Consistent(maps[1..][i].value)
        {
          assert maps[1..][i] == maps[i + 1];
        }
      }
      PlayerHistoryOwnLines(maps[1..], id, j);
    }
  }

  /** A lookup in a consistent map finds a line with the looked-up id. */
  lemma {:induction false} GetConsistent(m: IdMap, id: string)
    requires Consistent(m) && PyDict.Get(m, id).Some?
    ensures PyDict.Get(m, id).value.Text(PLAYER_ID) == Some(id)
  {
    if m[0].0 != id {
      assert Consistent(m[1..]) by {
        forall i | 0 <= i < |m[1..]|
          ensures m[1..][i].1.Text(PLAYER_ID) == Some(m[1..][i].0)
        {
          assert m[1..][i] == m[i + 1];
        }
      }
      GetConsistent(m[1..], id);
    }
  }

  // ---------------------------------------------------------------- player insights

  /** One insight per entry of the current map, in map order. */
  function PlayerInsightsOf(current: IdMap, previous: IdMap, maps: seq<Option<IdMap>>,
                            season: int, week: int, timestamp: string): (r: seq<PlayerInsight>)
    ensures |r| == |current|
    ensures forall i :: 0 <= i < |current| ==>
      r[i] == PlayerInsights.PlayerInsightOf(current[i].1, PyDict.Get(previous, current[i].0),
                                            PlayerHistory(maps, current[i].0), season, week, timestamp)
  {
    if |current| == 0 then []
    else
      [PlayerInsights.PlayerInsightOf(current[0].1, PyDict.Get(previous, current[0].0),
                                      PlayerHistory(maps, current[0].0), season, week, timestamp)]
      + PlayerInsightsOf(current[1..], previous, maps, season, week, timestamp)
  }

  // ---------------------------------------------------------------- teams

  function HasTeam(p: Rec): bool {
    p.HasText(TEAM)
  }

  function TeamName(p: Rec): string {
    p.TextOr(TEAM, "")
  }

  /** A team named by some line (a truthy `team`). */
  predicate NamesTeam(players: seq<Rec>, t: string) {
    exists i :: 0 <= i < |players| && players[i].HasText(TEAM) && players[i].text[TEAM] == t
  }

  /** The truthy team of each line, in line order, repeats included. */
  function TeamNames(players: seq<Rec>): (r: seq<string>)
    ensures |r| <= |players|
  {
    if |players| == 0 then []
    else (if HasTeam(players[0]) then [TeamName(players[0])] else []) + TeamNames(players[1..])
  }

  /** The listed names are exactly the teams some line names. */
  lemma {:induction false} TeamNamesMembers(players: seq<Rec>, t: string)
    ensures t in TeamNames(players) <==> NamesTeam(players, t)
  {
    if |players| > 0 {
      TeamNamesMembers(players[1..], t);
      if NamesTeam(players, t) && !(HasTeam(players[0]) && TeamName(players[0]) == t) {
        var i :| 0 <= i < |players| && players[i].HasText(TEAM) && players[i].text[TEAM] == t;
        assert players[1..][i - 1] == players[i];
      }
      if NamesTeam(players[1..], t) {
        var i :| 0 <= i < |players[1..]| && players[1..][i].HasText(TEAM) && players[1..][i].text[TEAM] == t;
        assert players[i + 1] == players[1..][i];
      }
    }
  }

  /** `set(p.get('team') for p in players if p.get('team'))`, listed once
      each in order of first appearance (the model fixes one iteration
      order of the set; only its membership is relied on). */
  function Teams(players: seq<Rec>): (r: seq<string>)
    ensures Distinct(r)
    ensures forall t :: t in r <==> NamesTeam(players, t)
  {
    var named := TeamNames(players);
    var r := Dedup(named);
    forall t
      ensures t in r <==> NamesTeam(players, t)
    {
      TeamNamesMembers(players, t);
    }
    r
  }

  /** The non-empty aggregates of the team over the loaded weeks, in week order. */
  function TeamHistory(files: seq<Option<WeekFile>>, team: string): (r: seq<Rec>)
    ensures |r| <= |files|
    ensures forall i :: 0 <= i < |r| ==> r[i].NonEmpty()
  {
    if |files| == 0 then []
    else
      var rest := TeamHistory(files[1..], team);
      if files[0].Some? then
        var week := Filter(TeamInsights.OnTeam(team), files[0].value.Players());
        var agg := TeamInsights.AggregateTeamStats(week, team);
        if agg.NonEmpty() then [agg] + rest else rest
      else rest
  }

  /** The team's insight from the current and previous lines and the fetched weeks. */
  function TeamInsightFor(num: TeamInsights.Numerics, team: string, current: seq<Rec>, previous: seq<Rec>,
                          files: seq<Option<WeekFile>>, season: int, week: int, timestamp: string): (t: TeamInsight)
    ensures t.team == team && t.season == season && t.week == week
    ensures t.pace.None?
    ensures var tpc := Filter(TeamInsights.OnTeam(team), current);
            var tpp := Filter(TeamInsights.OnTeam(team), previous);
            t == TeamInsights.TeamInsightOf(num, team, TeamInsights.AggregateTeamStats(tpc, team),
                                            if |tpp| > 0 then Some(TeamInsights.AggregateTeamStats(tpp, team)) else None,
                                            TeamHistory(files, team), tpc, season, week, timestamp)
  {
    var onTeam := TeamInsights.OnTeam(team);
    var tpc := Filter(onTeam, current);
    var tpp := Filter(onTeam, previous);
    var teamCurrent := TeamInsights.AggregateTeamStats(tpc, team);
    var teamPrevious := if |tpp| > 0 then Some(TeamInsights.AggregateTeamStats(tpp, team)) else None;
    TeamInsights.TeamInsightOf(num, team, teamCurrent, teamPrevious, TeamHistory(files, team), tpc,
                               season, week, timestamp)
  }

  /** A team named in the current week always has current lines, so its
      insight carries the trends and the personnel measures. */
  lemma NamedTeamIsMeasured(num: TeamInsights.Numerics, team: string, current: seq<Rec>, previous: seq<Rec>,
                            files: seq<Option<WeekFile>>, season: int, week: int, timestamp: string)
    requires NamesTeam(current, team)
    ensures var t := TeamInsightFor(num, team, current, previous, files, season, week, timestamp);
      t.playsPerGame.Some? && t.passRate.Some? && t.rbEntropy.Some? && t.wrDistribution.Some?
  {
    var i :| 0 <= i < |current| && current[i].HasText(TEAM) && current[i].text[TEAM] == team;
    var tpc := Filter(TeamInsights.OnTeam(team), current);
    assert TeamInsights.OnTeam(team)(current[i]);
    assert current[i] in tpc;
    var k :| 0 <= k < |tpc| && tpc[k] == current[i];
    assert tpc[k].Text(TEAM) == Some(team);
  }

  function TeamInsightsOf(num: TeamInsights.Numerics, teams: seq<string>, current: seq<Rec>, previous: seq<Rec>,
                          files: seq<Option<WeekFile>>, season: int, week: int, timestamp: string)
    : (r: seq<TeamInsight>)
    ensures |r| == |teams|
    ensures forall i :: 0 <= i < |teams| ==> r[i] == TeamInsightFor(num, teams[i], current, previous, files, season, week, timestamp)
  {
    if |teams| == 0 then []
    else [TeamInsightFor(num, teams[0], current, previous, files, season, week, timestamp)]
         + TeamInsightsOf(num, teams[1..], current, previous, files, season, week, timestamp)
  }

  function TeamOf(t: TeamInsight): string {
    t.team
  }

  /** One insight per team named in the current week. */
  function TeamsOf(num: TeamInsights.Numerics, current: seq<Rec>, previous: seq<Rec>, files: seq<Option<WeekFile>>,
                   season: int, week: int, timestamp: string): (r: seq<TeamInsight>)
    ensures Distinct(Map(TeamOf, r))
    ensures forall t :: t in Map(TeamOf, r) <==> NamesTeam(current, t)
  {
    var names := Teams(current);
    var r := TeamInsightsOf(num, names, current, previous, files, season, week, timestamp);
    assert forall i :: 0 <= i < |r| ==> r[i].team == names[i];
    assert Map(TeamOf, r) == names;
    r
  }

  /** Each team's insight is computed from that team's lines alone. */
  lemma TeamsOfContent(num: TeamInsights.Numerics, current: seq<Rec>, previous: seq<Rec>, files: seq<Option<WeekFile>>,
                       season: int, week: int, timestamp: string, i: nat)
    requires i < |TeamsOf(num, current, previous, files, season, week, timestamp)|
    ensures var t := TeamsOf(num, current, previous, files, season, week, timestamp)[i];
      t == TeamInsightFor(num, t.team, current, previous, files, season, week, timestamp)
  {
    var names := Teams(current);
    var r := TeamInsightsOf(num, names, current, previous, files, season, week, timestamp);
    assert TeamsOf(num, current, previous, files, season, week, timestamp) == r;
    assert r[i] == TeamInsightFor(num, names[i], current, previous, files, season, week, timestamp);
  }

  /** The loaded file of each fetched week, None where there is none. */
  function LoadedWeeks(store: Store, season: int, weeks: seq<int>): (r: seq<Option<WeekFile>>)
    ensures |r| == |weeks|
    ensures forall i :: 0 <= i < |weeks| ==> r[i] == Loaded(store, season, weeks[i])
  {
    if |weeks| == 0 then [] else [Loaded(store, season, weeks[0])] + LoadedWeeks(store, season, weeks[1..])
  }

  // ---------------------------------------------------------------- generate_insights

  /** What `generate_insights` reads and builds before calling the calculators. */
  datatype Inputs = Inputs(
    weeks: seq<int>,
    current: seq<Rec>,
    previous: seq<Rec>,
    currentMap: IdMap,
    previousMap: IdMap,
    maps: seq<Option<IdMap>>,
    files: seq<Option<WeekFile>>)

  /** Both compared weeks hold data and their lines carry ids. */
  predicate ComparedWeeksReadable(store: Store, season: int, weekTo: int, weekFrom: int) {
    && Loaded(store, season, weekTo).Some? && Loaded(store, season, weekFrom).Some?
    && AllHaveIds(Loaded(store, season, weekTo).value.Players())
    && AllHaveIds(Loaded(store, season, weekFrom).value.Players())
  }

  /** Reads the fetched weeks and builds the id maps, or reports what
      raises: a missing current week first, then a missing compared week,
      then a line without an id. A fetched week's map is built only when
      the current week has a player, as the history loop runs once per
      player. */
  function ReadInputs(store: Store, season: int, weekTo: int, weekFrom: int): (r: Result<Inputs, Failure>)
    ensures Loaded(store, season, weekTo).None? ==> r == Err(NoData(weekTo))
    ensures Loaded(store, season, weekTo).Some? && Loaded(store, season, weekFrom).None? ==> r == Err(NoData(weekFrom))
    ensures r.Ok? ==> ComparedWeeksReadable(store, season, weekTo, weekFrom)
    ensures r.Ok? ==> r.value.weeks == WeeksToFetch(weekFrom, weekTo)
    ensures r.Ok? ==> r.value.current == Loaded(store, season, weekTo).value.Players()
    ensures r.Ok? ==> r.value.previous == Loaded(store, season, weekFrom).value.Players()
    ensures r.Ok? ==> r.value.currentMap == ById(r.value.current).value
    ensures r.Ok? ==> r.value.previousMap == ById(r.value.previous).value
    ensures r.Ok? && |r.value.currentMap| > 0 ==> WeekMaps(store, season, r.value.weeks) == Ok(r.value.maps)
    ensures r.Ok? ==> r.value.files == LoadedWeeks(store, season, r.value.weeks)
  {
    var weeks := WeeksToFetch(weekFrom, weekTo);
    var cur := Loaded(store, season, weekTo);
    var prev := Loaded(store, season, weekFrom);
    if cur.None? then Err(NoData(weekTo))
    else if prev.None? then Err(NoData(weekFrom))
    else
      var current := cur.value.Players();
      var previous := prev.value.Players();
      match ById(current)
      case Err(e) => Err(e)
      case Ok(currentMap) =>
        match ById(previous)
        case Err(e) => Err(e)
        case Ok(previousMap) =>
          var maps := if |currentMap| > 0 then WeekMaps(store, season, weeks) else Ok([]);
          if maps.Err? then Err(maps.error)
          else Ok(Inputs(weeks, current, previous, currentMap, previousMap, maps.value,
                         LoadedWeeks(store, season, weeks)))
  }

  /** Every loaded fetched week's lines carry a player id. */
  predicate FetchedWeeksHaveIds(store: Store, season: int, weeks: seq<int>) {
    forall i :: 0 <= i < |weeks| && Loaded(store, season, weeks[i]).Some? ==> AllHaveIds(Loaded(store, season, weeks[i]).value.Players())
  }

  predicate WindowReadable(store: Store, season: int, weekTo: int, weekFrom: int) {
    ComparedWeeksReadable(store, season, weekTo, weekFrom) && FetchedWeeksHaveIds(store, season, WeeksToFetch(weekFrom, weekTo))
  }

  /** Reading succeeds exactly when both compared weeks hold data and every
      loaded fetched week's lines carry a player id (the other weeks are
      read only when the current week has a player). */
  lemma ReadSucceeds(store: Store, season: int, weekTo: int, weekFrom: int)
    requires WindowReadable(store, season, weekTo, weekFrom)
    ensures ReadInputs(store, season, weekTo, weekFrom).Ok?
  {
    var weeks := WeeksToFetch(weekFrom, weekTo);
    assert WeekMaps(store, season, weeks).Ok?;
  }

  function PlayerIdOf(p: PlayerInsight): string {
    p.playerId
  }

  /** The player insights of the read inputs. */
  function PlayersOf(inputs: Inputs, season: int, week: int, timestamp: string): (r: seq<PlayerInsight>)
    ensures |r| == |inputs.currentMap|
  {
    PlayerInsightsOf(inputs.currentMap, inputs.previousMap, inputs.maps, season, week, timestamp)
  }

  /** The player insights carry the current map's ids, in map order. */
  lemma PlayerIds(inputs: Inputs, season: int, week: int, timestamp: string)
    requires Consistent(inputs.currentMap)
    ensures Map(PlayerIdOf, PlayersOf(inputs, season, week, timestamp)) == Map(PyDict.KeyOf, inputs.currentMap)
  {
    var m := inputs.currentMap;
    var a := PlayersOf(inputs, season, week, timestamp);
    forall i | 0 <= i < |m|
      ensures a[i].playerId == m[i].0
    {
      assert m[i].1.Text(PLAYER_ID) == Some(m[i].0);
    }
  }

  /** The built map's keys are distinct and cover every line's id. */
  lemma IdsCoverLines(current: seq<Rec>)
    requires AllHaveIds(current)
    ensures var ids := Map(PyDict.KeyOf, ById(current).value);
      Distinct(ids) && forall i :: 0 <= i < |current| ==> current[i].Text(PLAYER_ID).value in ids
  {
    var m := ById(current).value;
    var ids := Map(PyDict.KeyOf, m);
    forall i, j | 0 <= i < j < |ids|
      ensures ids[i] != ids[j]
    {
      assert m[i].0 != m[j].0;
    }
    forall i | 0 <= i < |current|
      ensures current[i].Text(PLAYER_ID).value in ids
    {
      ByIdComplete(current, i);
      GetIndex(m, current[i].Text(PLAYER_ID).value);
      var k :| 0 <= k < |m| && m[k].0 == current[i].Text(PLAYER_ID).value;
      assert ids[k] == m[k].0;
    }
  }

  /** Exactly one player insight per distinct player id of the current week. */
  lemma OnePerPlayer(store: Store, season: int, weekTo: int, weekFrom: int, timestamp: string)
    requires ReadInputs(store, season, weekTo, weekFrom).Ok?
    ensures var inputs := ReadInputs(store, season, weekTo, weekFrom).value;
      var ids := Map(PlayerIdOf, PlayersOf(inputs, season, weekTo, timestamp));
      && Distinct(ids)
      && (forall i :: 0 <= i < |inputs.current| ==> inputs.current[i].Text(PLAYER_ID).value in ids)
  {
    var inputs := ReadInputs(store, season, weekTo, weekFrom).value;
    PlayerIds(inputs, season, weekTo, timestamp);
    IdsCoverLines(inputs.current);
  }

  /** A key that is found sits at some position of the map. */
  lemma {:induction false} GetIndex(m: IdMap, k: string)
    requires PyDict.Get(m, k).Some?
    ensures exists i :: 0 <= i < |m| && m[i].0 == k
  {
    if m[0].0 != k {
      GetIndex(m[1..], k);
      var i :| 0 <= i < |m[1..]| && m[1..][i].0 == k;
      assert m[i + 1].0 == k;
    }
  }

  /** Each player insight is built from the last current line with its id,
      the previous week's last line for that id, and its history over the
      fetched weeks. */
  lemma PlayerInsightInputs(store: Store, season: int, weekTo: int, weekFrom: int, timestamp: string, i: nat)
    requires ReadInputs(store, season, weekTo, weekFrom).Ok?
    requires i < |ReadInputs(store, season, weekTo, weekFrom).value.currentMap|
    ensures var inputs := ReadInputs(store, season, weekTo, weekFrom).value;
      var p := PlayersOf(inputs, season, weekTo, timestamp)[i];
      && WeekMaps(store, season, inputs.weeks).Ok?
      && LastLine(inputs.current, p.playerId).Some?
      && p == PlayerInsights.PlayerInsightOf(LastLine(inputs.current, p.playerId).value,
                                             LastLine(inputs.previous, p.playerId),
                                             PlayerHistory(WeekMaps(store, season, inputs.weeks).value, p.playerId),
                                             season, weekTo, timestamp)
  {
    var inputs := ReadInputs(store, season, weekTo, weekFrom).value;
    var m := inputs.currentMap;
    var id := m[i].0;
    assert m[i].1.Text(PLAYER_ID) == Some(id);
    PyDict.GetAt(m, i);
    ByIdLastWins(inputs.current, id);
    ByIdLastWins(inputs.previous, id);
  }

  // ---------------------------------------------------------------- output

  function PlayerJson(p: PlayerInsight): Json {
    PlayerToDict(p)
  }

  function WeekJson(w: int): Json {
    JInt(w)
  }

  /** The metadata block: the four counts and the weeks analysed. */
  function MetadataEntries(players: nat, teams: nat, superlatives: nat, weeks: seq<int>): seq<Entry> {
    [ Put("total_players", JInt(players)),
      Put("total_teams", JInt(teams)),
      Put("total_defenses", JInt(0)),
      Put("total_superlatives", JInt(superlatives)),
      Put("weeks_analyzed", JArr(Map(WeekJson, weeks))) ]
  }

  /** Each entry of `MetadataEntries` is what `get` finds under its key. */
  lemma MetadataReadAt(players: nat, teams: nat, superlatives: nat, weeks: seq<int>, i: nat)
    requires i < |MetadataEntries(players, teams, superlatives, weeks)|
    ensures var es := MetadataEntries(players, teams, superlatives, weeks);
            Get(Obj(es), es[i].0) == es[i].1
  {
    LookupUnique(MetadataEntries(players, teams, superlatives, weeks), i);
  }

  function MetadataOf(players: nat, teams: nat, superlatives: nat, weeks: seq<int>): (r: Json)
    ensures AsInt(Get(r, "total_players")) == Some(players)
    ensures AsInt(Get(r, "total_teams")) == Some(teams)
    ensures AsInt(Get(r, "total_defenses")) == Some(0)
    ensures AsInt(Get(r, "total_superlatives")) == Some(superlatives)
    ensures Get(r, "weeks_analyzed") == Some(JArr(Map(WeekJson, weeks)))
  {
    var es := MetadataEntries(players, teams, superlatives, weeks);
    MetadataReadAt(players, teams, superlatives, weeks, 0);
    MetadataReadAt(players, teams, superlatives, weeks, 1);
    MetadataReadAt(players, teams, superlatives, weeks, 2);
    MetadataReadAt(players, teams, superlatives, weeks, 3);
    MetadataReadAt(players, teams, superlatives, weeks, 4);
    Obj(es)
  }

  /** `generate_insights`: the output for `weekTo` compared with `weekFrom`,
      or what it raises. Defense insights are always empty. */
  function GenerateInsights(num: TeamInsights.Numerics, store: Store, season: int, weekTo: int, weekFrom: int,
                            timestamp: string): (r: Result<InsightsOutput, Failure>)
    ensures r.Ok? <==> ReadInputs(store, season, weekTo, weekFrom).Ok?
    ensures r.Err? ==> r.error == ReadInputs(store, season, weekTo, weekFrom).error
    ensures r.Ok? ==> r.value.season == season && r.value.week == weekTo && r.value.generatedAt == timestamp
    ensures r.Ok? ==> r.value.playerInsights
                      == Map(PlayerJson, PlayersOf(ReadInputs(store, season, weekTo, weekFrom).value, season, weekTo, timestamp))
    ensures r.Ok? ==>
              var inputs := ReadInputs(store, season, weekTo, weekFrom).value;
              r.value.teamInsights
              == Map(TeamToDict, TeamsOf(num, inputs.current, inputs.previous, inputs.files, season, weekTo, timestamp))
    ensures r.Ok? ==> r.value.defenseInsights == []
    ensures r.Ok? ==> AsInt(Get(r.value.metadata, "total_players")) == Some(|r.value.playerInsights|)
    ensures r.Ok? ==> AsInt(Get(r.value.metadata, "total_teams")) == Some(|r.value.teamInsights|)
    ensures r.Ok? ==> AsInt(Get(r.value.metadata, "total_defenses")) == Some(|r.value.defenseInsights|)
    ensures r.Ok? ==> AsInt(Get(r.value.metadata, "total_superlatives")) == Some(|r.value.superlatives|)
    ensures r.Ok? ==> Get(r.value.metadata, "weeks_analyzed") == Some(JArr(Map(WeekJson, WeeksToFetch(weekFrom, weekTo))))
    ensures r.Ok? ==> |r.value.superlatives| <= 18
    ensures r.Ok? ==>
              r.value.superlatives
              == Map(SuperlativeToDict,
                     Superlatives.AllSuperlatives(PlayersOf(ReadInputs(store, season, weekTo, weekFrom).value,
                                                            season, weekTo, timestamp),
                                                  season, weekTo, timestamp))
  {
    match ReadInputs(store, season, weekTo, weekFrom)
    case Err(e) => Err(e)
    case Ok(inputs) =>
      var players := PlayersOf(inputs, season, weekTo, timestamp);
      var teams := TeamsOf(num, inputs.current, inputs.previous, inputs.files, season, weekTo, timestamp);
      var sups := Superlatives.AllSuperlatives(players, season, weekTo, timestamp);
      Ok(InsightsOutput(season, weekTo, timestamp, Map(PlayerJson, players), Map(TeamToDict, teams), [],
                        Map(SuperlativeToDict, sups), MetadataOf(|players|, |teams|, |sups|, inputs.weeks)))
  }

  /** The team insights are one per team named in the current week. */
  lemma OnePerTeam(num: TeamInsights.Numerics, store: Store, season: int, weekTo: int, weekFrom: int,
                   timestamp: string)
    requires ReadInputs(store, season, weekTo, weekFrom).Ok?
    ensures var inputs := ReadInputs(store, season, weekTo, weekFrom).value;
      var teams := TeamsOf(num, inputs.current, inputs.previous, inputs.files, season, weekTo, timestamp);
      && GenerateInsights(num, store, season, weekTo, weekFrom, timestamp).value.teamInsights == Map(TeamToDict, teams)
      && Distinct(Map(TeamOf, teams))
      && (forall t :: t in Map(TeamOf, teams) <==> NamesTeam(inputs.current, t))
  {
    var inputs := ReadInputs(store, season, weekTo, weekFrom).value;
    var players := PlayersOf(inputs, season, weekTo, timestamp);
    var teams := TeamsOf(num, inputs.current, inputs.previous, inputs.files, season, weekTo, timestamp);
    var sups := Superlatives.AllSuperlatives(players, season, weekTo, timestamp);
    assert GenerateInsights(num, store, season, weekTo, weekFrom, timestamp)
        == Ok(InsightsOutput(season, weekTo, timestamp, Map(PlayerJson, players), Map(TeamToDict, teams), [],
                             Map(SuperlativeToDict, sups), MetadataOf(|players|, |teams|, |sups|, inputs.weeks)));
  }

  // ---------------------------------------------------------------- handler

  /** The invocation event: explicit weeks (for comparisons) or none. */
  datatype Event = Event(weekFrom: Option<int>, weekTo: Option<int>, season: Option<int>)

  /** The stored pipeline metadata, as far as the handler reads it.
      `otherKeys` says whether the dict holds a key the two values do not
      account for: any other key, or `current_season`/`current_week`
      stored as null. So `{"current_season": null}` is
      `MetaFile(None, None, true)`: truthy, and without a current week. */
  datatype MetaFile = MetaFile(currentSeason: Option<int>, currentWeek: Option<int>, otherKeys: bool) {
    predicate Truthy() {
      currentSeason.Some? || currentWeek.Some? || otherKeys
    }
  }

  /** Python truthiness of an optional integer event field. */
  predicate Given(x: Option<int>) {
    x.Some? && x.value != 0
  }

  const DEFAULT_SEASON := 2025

  /** The resolved comparison; a season read as None from metadata stays None. */
  datatype Window = Window(season: Option<int>, weekFrom: int, weekTo: int)

  /** Why the handler stops before generating, or what escapes it. */
  datatype Stop = NoMetadata | Crash

  /** Explicit weeks win; otherwise the metadata's current week is compared
      with the one before it. A metadata file without `current_week` makes
      `None - 1` raise outside the handler's `try`. */
  function ResolveWindow(event: Event, meta: Option<MetaFile>): (r: Result<Window, Stop>)
    ensures Given(event.weekFrom) && Given(event.weekTo) ==>
      r == Ok(Window(Some(event.season.GetOr(DEFAULT_SEASON)), event.weekFrom.value, event.weekTo.value))
    ensures !(Given(event.weekFrom) && Given(event.weekTo)) ==>
      (r == Err(NoMetadata) <==> meta.None? || !meta.value.Truthy())
    ensures r == Err(Crash) <==>
      !(Given(event.weekFrom) && Given(event.weekTo)) && meta.Some? && meta.value.Truthy() && meta.value.currentWeek.None?
    ensures r.Ok? && !(Given(event.weekFrom) && Given(event.weekTo)) ==>
      r.value == Window(meta.value.currentSeason, meta.value.currentWeek.value - 1, meta.value.currentWeek.value)
  {
    if Given(event.weekFrom) && Given(event.weekTo) then
      Ok(Window(Some(event.season.GetOr(DEFAULT_SEASON)), event.weekFrom.value, event.weekTo.value))
    else if meta.None? || !meta.value.Truthy() then Err(NoMetadata)
    else if meta.value.currentWeek.None? then Err(Crash)
    else Ok(Window(meta.value.currentSeason, meta.value.currentWeek.value - 1, meta.value.currentWeek.value))
  }

  /** `check_week_exists`: any stored file counts, even an empty one; no
      file is stored under a season of None. */
  predicate WeekExists(store: Store, season: Option<int>, week: int) {
    season.Some? && (season.value, week) in store
  }

  /** One storage write the handler makes. */
  datatype Write =
    | WriteInsights(season: int, week: int, body: Json)
    | WriteSuperlatives(season: int, week: int, items: seq<Json>)
    | WriteLatest(body: Json)

  datatype Response = Response(status: int, writes: seq<Write>)

  /** The three writes of a successful run, in the order they are made:
      the week's output, its superlatives, and the same output again as
      the latest snapshot. */
  function Writes(season: int, week: int, body: Json, superlatives: seq<Json>): (w: seq<Write>)
    ensures |w| == 3
    ensures w[0] == WriteInsights(season, week, body) && w[2] == WriteLatest(w[0].body)
    ensures w[1] == WriteSuperlatives(season, week, superlatives)
  {
    [WriteInsights(season, week, body), WriteSuperlatives(season, week, superlatives), WriteLatest(body)]
  }

  /** The writes of a successful run for one output. */
  function OutputWrites(season: int, out: InsightsOutput): seq<Write> {
    Writes(season, out.week, OutputToDict(out), out.superlatives)
  }

  /** The response once both weeks are stored: 500 when generation raises
      or a write fails (the writes before the failing one stand), 200 after
      all three writes. `failingWrite` is the position of the first write
      storage refuses, if any. */
  function Respond(season: int, generated: Result<InsightsOutput, Failure>, failingWrite: Option<nat>): (r: Response)
    ensures r.status in {200, 500}
    ensures r.status == 200 <==> generated.Ok? && (failingWrite.None? || failingWrite.value >= 3)
    ensures r.status == 200 ==> r.writes == OutputWrites(season, generated.value)
    ensures r.status != 200 ==> |r.writes| < 3
    ensures generated.Ok? && failingWrite.Some? && failingWrite.value < 3 ==>
              r.writes == OutputWrites(season, generated.value)[..failingWrite.value]
  {
    match generated
    case Err(_) => Response(500, [])
    case Ok(out) =>
      var all := OutputWrites(season, out);
      if failingWrite.Some? && failingWrite.value < 3 then Response(500, all[..failingWrite.value])
      else Response(200, all)
  }

  /** `handler`: 500 without metadata, 400 when a compared week has no
      stored file, otherwise the response to generating the insights. */
  function Handler(num: TeamInsights.Numerics, event: Event, meta: Option<MetaFile>, store: Store,
                   timestamp: string, failingWrite: Option<nat>): (r: Result<Response, Stop>)
    ensures r.Err? <==> ResolveWindow(event, meta) == Err(Crash)
    ensures r.Ok? ==> r.value.status in {200, 400, 500}
    ensures r.Ok? && r.value.status == 400 <==>
      ResolveWindow(event, meta).Ok?
      && !(WeekExists(store, ResolveWindow(event, meta).value.season, ResolveWindow(event, meta).value.weekTo)
           && WeekExists(store, ResolveWindow(event, meta).value.season, ResolveWindow(event, meta).value.weekFrom))
    ensures r.Ok? && r.value.status != 200 ==> |r.value.writes| < 3
    ensures r.Ok? && r.value.status == 200 <==> r.Ok? && |r.value.writes| == 3
    ensures r.Ok? && r.value.status == 200 ==> failingWrite.None? || failingWrite.value >= 3
  {
    match ResolveWindow(event, meta)
    case Err(NoMetadata) => Ok(Response(500, []))
    case Err(Crash) => Err(Crash)
    case Ok(w) =>
      if !WeekExists(store, w.season, w.weekTo) || !WeekExists(store, w.season, w.weekFrom) then
        Ok(Response(400, []))
      else
        Ok(Respond(w.season.value, GenerateInsights(num, store, w.season.value, w.weekTo, w.weekFrom, timestamp), failingWrite))
  }

  /** A successful run writes the full output for the compared week, then
      its superlatives, then the same output as the latest snapshot. */
  lemma SuccessfulRunWrites(num: TeamInsights.Numerics, event: Event, meta: Option<MetaFile>, store: Store,
                            timestamp: string, failingWrite: Option<nat>)
    requires Handler(num, event, meta, store, timestamp, failingWrite).Ok?
    requires Handler(num, event, meta, store, timestamp, failingWrite).value.status == 200
    ensures var w := ResolveWindow(event, meta).value;
      var out := GenerateInsights(num, store, w.season.value, w.weekTo, w.weekFrom, timestamp);
      && out.Ok?
      && Handler(num, event, meta, store, timestamp, failingWrite).value.writes == OutputWrites(w.season.value, out.value)
  {
    var w := ResolveWindow(event, meta);
    assert w.Ok?;
    var out := GenerateInsights(num, store, w.value.season.value, w.value.weekTo, w.value.weekFrom, timestamp);
    assert Handler(num, event, meta, store, timestamp, failingWrite).value
           == Respond(w.value.season.value, out, failingWrite);
  }

  /** A scheduled run compares the metadata's current week with the week
      before it; with both weeks stored and well formed it succeeds unless
      a write fails. */
  lemma ScheduledRunSucceeds(num: TeamInsights.Numerics, meta: MetaFile, store: Store, timestamp: string)
    requires meta.currentSeason.Some? && meta.currentWeek.Some?
    requires WindowReadable(store, meta.currentSeason.value, meta.currentWeek.value, meta.currentWeek.value - 1)
    ensures GenerateInsights(num, store, meta.currentSeason.value, meta.currentWeek.value,
                             meta.currentWeek.value - 1, timestamp).Ok?
    ensures Handler(num, Event(None, None, None), Some(meta), store, timestamp, None) ==
      Ok(Response(200, OutputWrites(meta.currentSeason.value,
                                    GenerateInsights(num, store, meta.currentSeason.value, meta.currentWeek.value,
                                                     meta.currentWeek.value - 1, timestamp).value)))
  {
    var s := meta.currentSeason.value;
    var wk := meta.currentWeek.value;
    ReadSucceeds(store, s, wk, wk - 1);
    var event := Event(None, None, None);
    assert ResolveWindow(event, Some(meta)) == Ok(Window(Some(s), wk - 1, wk));
    assert WeekExists(store, Some(s), wk) && WeekExists(store, Some(s), wk - 1) by {
      assert Loaded(store, s, wk).Some? && Loaded(store, s, wk - 1).Some?;
    }
    var generated := GenerateInsights(num, store, s, wk, wk - 1, timestamp);
    assert generated.Ok?;
    assert Handler(num, event, Some(meta), store, timestamp, None) == Ok(Respond(s, generated, None));
  }

}

=== FILE: player_insights.dfy ===
/** The player insights calculator
    (lambda_functions/insights_engine/calculators/player_insights.py).

    A player's current stat line, the previous week's line (absent for the
    first week) and the chronological history lines become one
    `PlayerInsight`: volume trends gated on the presence of a field,
    efficiency ratios gated on a positive denominator, and week-over-week
    deltas gated on a previous line.
 */
module PlayerInsights {
  import opened Wrappers
  import opened Seqs
  import opened Text
  import opened Records
  import opened Models
  import opened Trends
  import Ranking

  // ---------------------------------------------------------------- volume

  /** `previous.get(k) if previous else None`. */
  function PrevField(prev: Option<Rec>, k: string): (r: Option<real>)
    ensures r.Some? <==> Present(prev) && k in prev.value.nums
  {
    if Present(prev) then prev.value.Get(k) else None
  }

  function HasField(k: string): Rec -> bool {
    (h: Rec) => h.Get(k).Some?
  }

  function FieldOf(k: string): Rec -> real {
    (h: Rec) => h.Num(k)
  }

  /** `[h.get(k, 0) for h in history if h.get(k) is not None]`. */
  function FieldHistory(history: seq<Rec>, k: string): (r: seq<real>)
    ensures |r| <= |history|
  {
    Map(FieldOf(k), Filter(HasField(k), history))
  }

  /** The history keeps exactly the weeks that carry the field, in order. */
  lemma {:induction false} FieldHistoryAppend(a: seq<Rec>, b: seq<Rec>, k: string)
    ensures FieldHistory(a + b, k) == FieldHistory(a, k) + FieldHistory(b, k)
  {
    FilterAppend(HasField(k), a, b);
    var fa := Filter(HasField(k), a);
    var fb := Filter(HasField(k), b);
    MapAppend(FieldOf(k), fa, fb);
  }

  lemma FieldHistoryOne(h: Rec, k: string)
    ensures FieldHistory([h], k) == if k in h.nums then [h.nums[k]] else []
  {
    assert [h][1..] == [];
  }

  /** The trend of one counted field, present iff the current line has it. */
  function FieldTrend(current: Rec, prev: Option<Rec>, history: seq<Rec>, k: string): (r: Option<Trend>)
    ensures r.Some? <==> k in current.nums
    ensures r.Some? ==> r.value == CalculateTrend(current.nums[k], PrevField(prev, k), FieldHistory(history, k))
  {
    if current.Get(k).Some? then
      Some(CalculateTrend(current.Num(k), PrevField(prev, k), FieldHistory(history, k)))
    else None
  }

  /** `carries + targets`, each defaulting to 0. */
  function Opportunities(r: Rec): real {
    r.Num(CARRIES) + r.Num(TARGETS)
  }

  /** `_calculate_volume_trends`. */
  function VolumeTrendsOf(current: Rec, prev: Option<Rec>, history: seq<Rec>): (v: VolumeTrends)
    ensures v.targetShare == FieldTrend(current, prev, history, TARGET_SHARE)
    ensures v.carries == FieldTrend(current, prev, history, CARRIES)
    ensures v.targets == FieldTrend(current, prev, history, TARGETS)
    ensures v.snapShare.None?
    ensures v.touchShare.Some? <==> Opportunities(current) > 0.0
    ensures v.touchShare.Some? ==> v.touchShare.value == BareTrend(Opportunities(current))
  {
    var touches := Opportunities(current);
    VolumeTrends(
      FieldTrend(current, prev, history, TARGET_SHARE),
      None,
      if touches > 0.0 then Some(BareTrend(touches)) else None,
      FieldTrend(current, prev, history, CARRIES),
      FieldTrend(current, prev, history, TARGETS))
  }

  // ---------------------------------------------------------------- efficiency

  /** An efficiency ratio: a numerator field over a denominator built from
      counting fields. */
  datatype Ratio = Ratio(numerator: string, denominator: Rec -> real)

  function Carries(r: Rec): real { r.Num(CARRIES) }
  function Targets(r: Rec): real { r.Num(TARGETS) }
  function Receptions(r: Rec): real { r.Num(RECEPTIONS) }
  function Touches(r: Rec): real { r.Num(CARRIES) + r.Num(RECEPTIONS) }

  const YARDS_PER_CARRY := Ratio(RUSHING_YARDS, Carries)
  const YARDS_PER_TARGET := Ratio(RECEIVING_YARDS, Targets)
  const CATCH_RATE := Ratio(RECEPTIONS, Targets)
  const YARDS_PER_RECEPTION := Ratio(RECEIVING_YARDS, Receptions)
  const FANTASY_POINTS_PER_TOUCH := Ratio(FANTASY_POINTS_PPR, Touches)

  predicate Defined(q: Ratio, r: Rec) {
    q.denominator(r) > 0.0
  }

  function Value(q: Ratio, r: Rec): real
    requires Defined(q, r)
  {
    r.Num(q.numerator) / q.denominator(r)
  }

  function IsDefined(q: Ratio): Rec -> bool {
    (h: Rec) => Defined(q, h)
  }

  function ValueOf(q: Ratio): Rec -> real {
    (h: Rec) => if Defined(q, h) then Value(q, h) else 0.0
  }

  /** The ratio for every history week with a positive denominator, in order. */
  function RatioHistory(q: Ratio, history: seq<Rec>): (r: seq<real>)
    ensures |r| <= |history|
  {
    Map(ValueOf(q), Filter(IsDefined(q), history))
  }

  /** The ratio history of a concatenation is the concatenation of the ratio histories. */
  lemma {:induction false} RatioHistoryAppend(q: Ratio, a: seq<Rec>, b: seq<Rec>)
    ensures RatioHistory(q, a + b) == RatioHistory(q, a) + RatioHistory(q, b)
  {
    FilterAppend(IsDefined(q), a, b);
    var fa := Filter(IsDefined(q), a);
    var fb := Filter(IsDefined(q), b);
    MapAppend(ValueOf(q), fa, fb);
  }

  /** A single week contributes its ratio iff its denominator is positive. */
  lemma RatioHistoryOne(q: Ratio, h: Rec)
    ensures RatioHistory(q, [h]) == if Defined(q, h) then [Value(q, h)] else []
  {
    assert [h][1..] == [];
  }

  /** The previous week's ratio, when there is a previous line and its denominator is positive. */
  function PrevRatio(q: Ratio, prev: Option<Rec>): (r: Option<real>)
    ensures r.Some? <==> Present(prev) && Defined(q, prev.value)
    ensures r.Some? ==> r.value == Value(q, prev.value)
  {
    if Present(prev) && Defined(q, prev.value) then Some(Value(q, prev.value)) else None
  }

  function RatioTrend(q: Ratio, current: Rec, prev: Option<Rec>, history: seq<Rec>): (r: Option<Trend>)
    ensures r.Some? <==> Defined(q, current)
    ensures r.Some? ==> r.value == CalculateTrend(Value(q, current), PrevRatio(q, prev), RatioHistory(q, history))
  {
    if Defined(q, current) then
      Some(CalculateTrend(Value(q, current), PrevRatio(q, prev), RatioHistory(q, history)))
    else None
  }

  /** `_calculate_efficiency_trends`: one trend per ratio whose current denominator is positive. */
  function EfficiencyTrendsOf(current: Rec, prev: Option<Rec>, history: seq<Rec>): (e: EfficiencyTrends)
    ensures e.yardsPerCarry.Some? <==> current.Num(CARRIES) > 0.0
    ensures e.yardsPerTarget.Some? <==> current.Num(TARGETS) > 0.0
    ensures e.catchRate.Some? <==> current.Num(TARGETS) > 0.0
    ensures e.yardsPerReception.Some? <==> current.Num(RECEPTIONS) > 0.0
    ensures e.fantasyPointsPerTouch.Some? <==> current.Num(CARRIES) + current.Num(RECEPTIONS) > 0.0
    ensures e.yardsPerCarry.Some? ==>
      e.yardsPerCarry.value.current == current.Num(RUSHING_YARDS) / current.Num(CARRIES)
    ensures e.yardsPerTarget.Some? ==>
      e.yardsPerTarget.value.current == current.Num(RECEIVING_YARDS) / current.Num(TARGETS)
    ensures e.catchRate.Some? ==>
      e.catchRate.value.current == current.Num(RECEPTIONS) / current.Num(TARGETS)
    ensures e.yardsPerReception.Some? ==>
      e.yardsPerReception.value.current == current.Num(RECEIVING_YARDS) / current.Num(RECEPTIONS)
    ensures e.fantasyPointsPerTouch.Some? ==>
      e.fantasyPointsPerTouch.value.current
        == current.Num(FANTASY_POINTS_PPR) / (current.Num(CARRIES) + current.Num(RECEPTIONS))
    ensures e.yardsPerCarry == RatioTrend(YARDS_PER_CARRY, current, prev, history)
    ensures e.yardsPerTarget == RatioTrend(YARDS_PER_TARGET, current, prev, history)
    ensures e.catchRate == RatioTrend(CATCH_RATE, current, prev, history)
    ensures e.yardsPerReception == RatioTrend(YARDS_PER_RECEPTION, current, prev, history)
    ensures e.fantasyPointsPerTouch == RatioTrend(FANTASY_POINTS_PER_TOUCH, current, prev, history)
  {
    EfficiencyTrends(
      RatioTrend(YARDS_PER_CARRY, current, prev, history),
      RatioTrend(YARDS_PER_TARGET, current, prev, history),
      RatioTrend(CATCH_RATE, current, prev, history),
      RatioTrend(YARDS_PER_RECEPTION, current, prev, history),
      RatioTrend(FANTASY_POINTS_PER_TOUCH, current, prev, history))
  }

  // ---------------------------------------------------------------- the insight

  /** `_calculate_touches_delta`: (carries + receptions) now minus before. */
  function TouchesDelta(current: Rec, previous: Rec): (d: real)
    ensures d + Touches(previous) == Touches(current)
  {
    (current.Num(CARRIES) + current.Num(RECEPTIONS)) - (previous.Num(CARRIES) + previous.Num(RECEPTIONS))
  }

  /** `calculate_player_insights`. */
  function PlayerInsightOf(current: Rec, prev: Option<Rec>, history: seq<Rec>, season: int, week: int,
                           timestamp: string): (p: PlayerInsight)
    ensures p.playerId == current.TextOr(PLAYER_ID, "") && p.playerName == current.TextOr(PLAYER_NAME, "")
    ensures p.position == current.TextOr(POSITION, "") && p.team == current.TextOr(TEAM, "")
    ensures p.season == season && p.week == week
    ensures p.volume == Some(VolumeTrendsOf(current, prev, history))
    ensures p.efficiency == Some(EfficiencyTrendsOf(current, prev, history))
    ensures p.touchesDelta.Some? <==> Present(prev)
    ensures p.fantasyPointsDelta.Some? <==> Present(prev)
    ensures Present(prev) ==> p.touchesDelta.value + Touches(prev.value) == Touches(current)
    ensures Present(prev) ==>
      p.fantasyPointsDelta.value + prev.value.Num(FANTASY_POINTS_PPR) == current.Num(FANTASY_POINTS_PPR)
    ensures p.volumeRank.None? && p.efficiencyRank.None?
  {
    var deltas := Present(prev);
    PlayerInsight(
      current.TextOr(PLAYER_ID, ""), current.TextOr(PLAYER_NAME, ""),
      current.TextOr(POSITION, ""), current.TextOr(TEAM, ""),
      week, season,
      Some(VolumeTrendsOf(current, prev, history)),
      Some(EfficiencyTrendsOf(current, prev, history)),
      if deltas then Some(TouchesDelta(current, prev.value)) else None,
      if deltas then Some(current.Num(FANTASY_POINTS_PPR) - prev.value.Num(FANTASY_POINTS_PPR)) else None,
      None, None, timestamp)
  }

  /** An empty previous line counts as no previous line at all. */
  lemma EmptyPreviousIsAbsent(current: Rec, history: seq<Rec>, season: int, week: int, timestamp: string)
    ensures PlayerInsightOf(current, Some(Rec(map[], map[])), history, season, week, timestamp)
         == PlayerInsightOf(current, None, history, season, week, timestamp)
  {
  }

  // ---------------------------------------------------------------- top gainers

  /** A trend's numeric attribute by name. */
  function TrendField(t: Trend, name: string): Option<real> {
    if name == "current_value" then Some(t.current)
    else if name == "previous_value" then t.previous
    else if name == "delta" then t.delta
    else if name == "delta_pct" then t.deltaPct
    else if name == "slope" then t.slope
    else if name == "projected_next" then t.projected
    else None
  }

  function VolumeMetric(v: VolumeTrends, name: string): Option<Trend> {
    if name == "target_share" then v.targetShare
    else if name == "snap_share" then v.snapShare
    else if name == "touch_share" then v.touchShare
    else if name == "carries" then v.carries
    else if name == "targets" then v.targets
    else None
  }

  function EfficiencyMetric(e: EfficiencyTrends, name: string): Option<Trend> {
    if name == "yards_per_carry" then e.yardsPerCarry
    else if name == "yards_per_target" then e.yardsPerTarget
    else if name == "catch_rate" then e.catchRate
    else if name == "yards_per_reception" then e.yardsPerReception
    else if name == "fantasy_points_per_touch" then e.fantasyPointsPerTouch
    else None
  }

  function TrendAt(t: Option<Trend>, name: string): Option<real> {
    if t.Some? then TrendField(t.value, name) else None
  }

  /** `get_nested_value(insight, path)` for paths that end at a number:
      None as soon as an attribute is missing or None. */
  function NestedValue(p: PlayerInsight, path: string): Option<real> {
    var parts := Split(path, '.');
    if parts == ["touches_delta"] then p.touchesDelta
    else if parts == ["fantasy_points_delta"] then p.fantasyPointsDelta
    else if parts == ["week"] then Some(p.week as real)
    else if parts == ["season"] then Some(p.season as real)
    else if parts == ["volume_rank_position"] then
      (if p.volumeRank.Some? then Some(p.volumeRank.value as real) else None)
    else if parts == ["efficiency_rank_position"] then
      (if p.efficiencyRank.Some? then Some(p.efficiencyRank.value as real) else None)
    else if |parts| == 3 && parts[0] == "volume_trends" && p.volume.Some? then
      TrendAt(VolumeMetric(p.volume.value, parts[1]), parts[2])
    else if |parts| == 3 && parts[0] == "efficiency_trends" && p.efficiency.Some? then
      TrendAt(EfficiencyMetric(p.efficiency.value, parts[1]), parts[2])
    else None
  }

  function Metric(path: string): PlayerInsight -> Option<real> {
    (p: PlayerInsight) => NestedValue(p, path)
  }

  /** The ranking step of `get_top_gainers_by_metric`, for any way of
      reading the metric: the insights with a value, largest value first
      (ties in input order), cut by Python's `[:top_n]`. */
  function TopGainersBy(insights: seq<PlayerInsight>, metric: PlayerInsight -> Option<real>, topN: int)
    : (r: seq<PlayerInsight>)
    ensures forall i :: 0 <= i < |r| ==> r[i] in insights && metric(r[i]).Some?
    ensures forall i, j :: 0 <= i < j < |r| ==> metric(r[i]).value >= metric(r[j]).value
    ensures topN >= 0 ==> |r| == Min(topN, |Ranking.Candidates(insights, metric)|)
    ensures |r| <= |Ranking.Ranked(insights, metric)| && r == Ranking.Ranked(insights, metric)[..|r|]
  {
    var ranked := Ranking.Ranked(insights, metric);
    var r := SliceTo(ranked, topN);
    forall i, j | 0 <= i < j < |r|
      ensures metric(r[i]).value >= metric(r[j]).value
    {
      assert r[i] == ranked[i] && r[j] == ranked[j];
      Ranking.RankedOrdered(insights, metric, i, j);
    }
    assert forall i :: 0 <= i < |r| ==> r[i] == ranked[i];
    r
  }

  /** Nothing left out ranks above anything kept: every insight with a value
      that is not among the top gainers has a value no larger than each of
      theirs. */
  lemma TopGainersAreTop(insights: seq<PlayerInsight>, metric: PlayerInsight -> Option<real>, topN: int,
                         x: PlayerInsight)
    requires x in insights && metric(x).Some?
    requires x !in TopGainersBy(insights, metric, topN)
    ensures forall i :: 0 <= i < |TopGainersBy(insights, metric, topN)| ==>
      metric(TopGainersBy(insights, metric, topN)[i]).value >= metric(x).value
  {
    var r := TopGainersBy(insights, metric, topN);
    Ranking.PrefixIsTop(insights, metric, |r|, x);
  }

  /** `get_top_gainers_by_metric(insights, path, top_n)`: the metric is the
      value found by following the dotted `path`. */
  function TopGainers(insights: seq<PlayerInsight>, path: string, topN: int): (r: seq<PlayerInsight>)
    ensures forall i :: 0 <= i < |r| ==> r[i] in insights && NestedValue(r[i], path).Some?
    ensures forall i, j :: 0 <= i < j < |r| ==> NestedValue(r[i], path).value >= NestedValue(r[j], path).value
    ensures topN >= 0 ==> |r| == Min(topN, |Ranking.Candidates(insights, Metric(path))|)
    ensures |r| <= |insights|
    ensures r == TopGainersBy(insights, Metric(path), topN)
  {
    var r := TopGainersBy(insights, Metric(path), topN);
    Ranking.RankedPermutes(insights, Metric(path));
    r
  }
}

=== FILE: py_dict.dfy ===
/** Python `dict` semantics that the pipeline relies on: lookups, keyed
    assignment that keeps a key's first insertion position, and building a
    dict from key/value pairs where a later pair for the same key wins.

    A dict is a sequence of (key, value) pairs in insertion order.
 */
module PyDict {
  import opened Wrappers

  /** `d.get(k)`. */
  function Get<K(==,!new), V>(d: seq<(K, V)>, k: K): (r: Option<V>)
    ensures r.None? <==> forall i :: 0 <= i < |d| ==> d[i].0 != k
  {
    if |d| == 0 then None
    else if d[0].0 == k then Some(d[0].1)
    else Get(d[1..], k)
  }

  /** A value `get` finds is stored beside its key. */
  lemma {:induction false} GetFound<K(!new), V>(d: seq<(K, V)>, k: K)
    requires Get(d, k).Some?
    ensures (k, Get(d, k).value) in d
  {
    if d[0].0 != k {
      GetFound(d[1..], k);
    }
  }

  function KeyOf<K, V>(e: (K, V)): K {
    e.0
  }

  /** Every key appears once. */
  predicate DistinctKeys<K(==,!new), V>(d: seq<(K, V)>) {
    forall i, j :: 0 <= i < j < |d| ==> d[i].0 != d[j].0
  }

  /** In a dict with distinct keys, each key finds the value stored beside it. */
  lemma {:induction false} GetAt<K(!new), V>(d: seq<(K, V)>, i: nat)
    requires DistinctKeys(d) && i < |d|
    ensures Get(d, d[i].0) == Some(d[i].1)
  {
    if i > 0 {
      assert d[0].0 != d[i].0;
      assert DistinctKeys(d[1..]) by {
        forall a, b | 0 <= a < b < |d[1..]|
          ensures d[1..][a].0 != d[1..][b].0
        {
          assert d[1..][a] == d[a + 1] && d[1..][b] == d[b + 1];
        }
      }
      GetAt(d[1..], i - 1);
    }
  }

  /** `d[k] = v`: a new key goes to the end, an existing key keeps its place. */
  function Put<K(==,!new), V>(d: seq<(K, V)>, k: K, v: V): (r: seq<(K, V)>)
    ensures |r| == if Get(d, k).Some? then |d| else |d| + 1
    ensures forall i :: 0 <= i < |d| ==> r[i].0 == d[i].0
    ensures forall i :: 0 <= i < |r| ==> r[i] in d || r[i] == (k, v)
  {
    if |d| == 0 then [(k, v)]
    else if d[0].0 == k then [(k, v)] + d[1..]
    else [d[0]] + Put(d[1..], k, v)
  }

  /** After `d[k] = v`, `k` maps to `v` and every other key is untouched. */
  lemma {:induction false} PutGet<K(!new), V>(d: seq<(K, V)>, k: K, v: V, k': K)
    ensures Get(Put(d, k, v), k') == if k' == k then Some(v) else Get(d, k')
  {
    if |d| > 0 && d[0].0 != k {
      PutGet(d[1..], k, v, k');
      assert Put(d, k, v)[1..] == Put(d[1..], k, v);
    }
  }

  /** Assignment keeps keys distinct. */
  lemma {:induction false} PutDistinct<K(!new), V>(d: seq<(K, V)>, k: K, v: V)
    requires DistinctKeys(d)
    ensures DistinctKeys(Put(d, k, v))
  {
    if |d| > 0 {
      TailDistinct(d);
      if d[0].0 == k {
        assert Put(d, k, v) == [(k, v)] + d[1..];
        ConsDistinct((k, v), d[1..]);
      } else {
        var rest := Put(d[1..], k, v);
        PutDistinct(d[1..], k, v);
        PutGet(d[1..], k, v, d[0].0);
        assert Put(d, k, v) == [d[0]] + rest;
        ConsDistinct(d[0], rest);
      }
    }
  }

  /** Past the first pair, the keys stay distinct and the first key is gone. */
  lemma TailDistinct<K(!new), V>(d: seq<(K, V)>)
    requires DistinctKeys(d) && |d| > 0
    ensures DistinctKeys(d[1..]) && Get(d[1..], d[0].0).None?
  {
    var t := d[1..];
    forall i, j | 0 <= i < j < |t|
      ensures t[i].0 != t[j].0
    {
      assert t[i] == d[i + 1] && t[j] == d[j + 1];
    }
    forall i | 0 <= i < |t|
      ensures t[i].0 != d[0].0
    {
      assert t[i] == d[i + 1];
    }
  }

  /** A pair whose key is new can go in front. */
  lemma ConsDistinct<K(!new), V>(x: (K, V), rest: seq<(K, V)>)
    requires DistinctKeys(rest) && Get(rest, x.0).None?
    ensures DistinctKeys([x] + rest)
  {
    var r := [x] + rest;
    forall i, j | 0 <= i < j < |r|
      ensures r[i].0 != r[j].0
    {
      assert r[j] == rest[j - 1];
      if i > 0 {
        assert r[i] == rest[i - 1];
      }
    }
  }

  lemma NotInGet<K(!new), V>(d: seq<(K, V)>, k: K, i: nat)
    requires Get(d, k).None? && i < |d|
    ensures d[i].0 != k
  {
  }

  /** The value the last pair for `k` carries, if any pair does. */
  function LastValue<K(==,!new), V>(es: seq<(K, V)>, k: K): Option<V> {
    if |es| == 0 then None
    else if es[|es| - 1].0 == k then Some(es[|es| - 1].1)
    else LastValue(es[..|es| - 1], k)
  }

  /** `{k: v for (k, v) in es}`. */
  function FromPairs<K(==,!new), V>(es: seq<(K, V)>): (r: seq<(K, V)>)
    ensures DistinctKeys(r)
    ensures |r| <= |es|
    ensures |es| > 0 ==> |r| > 0
    ensures forall i :: 0 <= i < |r| ==> r[i] in es
  {
    if |es| == 0 then []
    else
      var d := FromPairs(es[..|es| - 1]);
      PutDistinct(d, es[|es| - 1].0, es[|es| - 1].1);
      assert forall x :: x in d ==> x in es;
      Put(d, es[|es| - 1].0, es[|es| - 1].1)
  }

  /** Each key of the built dict holds the value of its last pair: a later
      duplicate overwrites an earlier one. */
  lemma {:induction false} FromPairsLastWins<K(!new), V>(es: seq<(K, V)>, k: K)
    ensures Get(FromPairs(es), k) == LastValue(es, k)
  {
    if |es| > 0 {
      FromPairsLastWins(es[..|es| - 1], k);
      PutGet(FromPairs(es[..|es| - 1]), es[|es| - 1].0, es[|es| - 1].1, k);
    }
  }

  /** Pairs with distinct keys come out unchanged. */
  lemma {:induction false} FromDistinctPairs<K(!new), V>(es: seq<(K, V)>)
    requires DistinctKeys(es)
    ensures FromPairs(es) == es
  {
    if |es| > 0 {
      var n := |es| - 1;
      var init := es[..n];
      InitDistinct(es);
      FromDistinctPairs(init);
      PutAppends(init, es[n].0, es[n].1);
      assert FromPairs(es) == Put(FromPairs(init), es[n].0, es[n].1);
      assert es[n] == (es[n].0, es[n].1);
      assert init + [es[n]] == es;
    }
  }

  /** Before the last pair, the keys stay distinct and the last key is
      absent. */
  lemma InitDistinct<K(!new), V>(es: seq<(K, V)>)
    requires DistinctKeys(es) && |es| > 0
    ensures DistinctKeys(es[..|es| - 1]) && Get(es[..|es| - 1], es[|es| - 1].0).None?
  {
    var init := es[..|es| - 1];
    forall i, j | 0 <= i < j < |init|
      ensures init[i].0 != init[j].0
    {
      assert init[i] == es[i] && init[j] == es[j];
    }
    forall i | 0 <= i < |init|
      ensures init[i].0 != es[|es| - 1].0
    {
      assert init[i] == es[i];
    }
  }

  /** Assigning a new key appends it. */
  lemma {:induction false} PutAppends<K(!new), V>(d: seq<(K, V)>, k: K, v: V)
    requires Get(d, k).None?
    ensures Put(d, k, v) == d + [(k, v)]
  {
    if |d| > 0 {
      assert d[0].0 != k;
      PutAppends(d[1..], k, v);
      assert Put(d, k, v) == [d[0]] + (d[1..] + [(k, v)]);
      ConsSnoc(d, (k, v));
    }
  }

  /** Putting the head back in front of the tail with one more element. */
  lemma ConsSnoc<T>(s: seq<T>, y: T)
    requires |s| > 0
    ensures [s[0]] + (s[1..] + [y]) == s + [y]
  {
    assert [s[0]] + s[1..] == s;
  }

  /** Every key that some pair carries has a last value. */
  lemma {:induction false} LastValueAt<K(!new), V>(es: seq<(K, V)>, j: nat)
    requires j < |es|
    ensures LastValue(es, es[j].0).Some?
  {
    if es[|es| - 1].0 != es[j].0 {
      LastValueAt(es[..|es| - 1], j);
    }
  }

  /** `d.update(es)`: the pairs are assigned in order. */
  function Update<K(==,!new), V>(d: seq<(K, V)>, es: seq<(K, V)>): (r: seq<(K, V)>)
    ensures |r| >= |d|
    ensures forall i :: 0 <= i < |d| ==> r[i].0 == d[i].0
  {
    if |es| == 0 then d
    else Put(Update(d, es[..|es| - 1]), es[|es| - 1].0, es[|es| - 1].1)
  }

  /** After an update, a key holds the value of its last assigned pair, or
      its old value when no pair assigns it. */
  lemma {:induction false} UpdateGet<K(!new), V>(d: seq<(K, V)>, es: seq<(K, V)>, k: K)
    ensures Get(Update(d, es), k) == if LastValue(es, k).Some? then LastValue(es, k) else Get(d, k)
  {
    if |es| > 0 {
      UpdateGet(d, es[..|es| - 1], k);
      PutGet(Update(d, es[..|es| - 1]), es[|es| - 1].0, es[|es| - 1].1, k);
    }
  }
}

=== FILE: ranking.dfy ===
/** The ranking idiom the engine repeats: drop the items whose metric is
    None, then sort the rest by the metric, largest first, keeping ties in
    input order (`sort(key=..., reverse=True)` is stable). */
module Ranking {
  import opened Wrappers
  import opened Seqs
  import StableSort

  function Has<T>(metric: T -> Option<real>): T -> bool {
    (x: T) => metric(x).Some?
  }

  function Key<T>(metric: T -> Option<real>): T -> real {
    (x: T) => metric(x).GetOr(0.0)
  }

  /** The items that have a metric, in input order. */
  function Candidates<T>(xs: seq<T>, metric: T -> Option<real>): seq<T> {
    Filter(Has(metric), xs)
  }

  /** The candidates, stably sorted by metric, largest first. */
  function Ranked<T>(xs: seq<T>, metric: T -> Option<real>): (r: seq<T>)
    ensures |r| == |Candidates(xs, metric)|
    ensures forall i :: 0 <= i < |r| ==> r[i] in xs && metric(r[i]).Some?
  {
    var c := Candidates(xs, metric);
    StableSort.SortDesc(c, Map(Key(metric), c))
  }

  /** The ranking runs from the largest metric down. */
  lemma RankedOrdered<T>(xs: seq<T>, metric: T -> Option<real>, i: nat, j: nat)
    requires i < j < |Ranked(xs, metric)|
    ensures metric(Ranked(xs, metric)[i]).value >= metric(Ranked(xs, metric)[j]).value
  {
    var c := Candidates(xs, metric);
    StableSort.SortDescOrdered(Map(Key(metric), c), i, j);
  }

  /** Ranking rearranges the candidates without adding or losing any. */
  lemma RankedPermutes<T>(xs: seq<T>, metric: T -> Option<real>)
    ensures multiset(Ranked(xs, metric)) == multiset(Candidates(xs, metric))
  {
    var c := Candidates(xs, metric);
    StableSort.SortDescPermutes(c, Map(Key(metric), c));
  }

  /** Every item with a metric is ranked. */
  lemma RankedComplete<T>(xs: seq<T>, metric: T -> Option<real>, x: T)
    requires x in xs && metric(x).Some?
    ensures x in Ranked(xs, metric)
  {
    RankedPermutes(xs, metric);
    assert x in Candidates(xs, metric);
    assert x in multiset(Candidates(xs, metric));
  }

  /** Whatever a prefix of the ranking leaves out has a metric no larger
      than any metric it keeps. */
  lemma PrefixIsTop<T>(xs: seq<T>, metric: T -> Option<real>, k: nat, x: T)
    requires x in xs && metric(x).Some?
    requires k <= |Ranked(xs, metric)| && x !in Ranked(xs, metric)[..k]
    ensures forall i :: 0 <= i < k ==> metric(Ranked(xs, metric)[i]).value >= metric(x).value
  {
    var c := Candidates(xs, metric);
    var keys := Map(Key(metric), c);
    assert x in c;
    var j :| 0 <= j < |c| && c[j] == x;
    StableSort.TopOfSort(c, keys, k, j);
  }

  /** Equal metrics keep their input order: of two ranked items with the
      same metric, the one ranked first came first among the candidates. */
  lemma RankedStable<T>(xs: seq<T>, metric: T -> Option<real>, i: nat, j: nat)
    requires i < j < |Candidates(xs, metric)|
    ensures var c := Candidates(xs, metric);
      var p := StableSort.Order(Map(Key(metric), c));
      && Ranked(xs, metric)[i] == c[p[i]] && Ranked(xs, metric)[j] == c[p[j]]
      && (metric(c[p[i]]) == metric(c[p[j]]) ==> p[i] < p[j])
  {
    var c := Candidates(xs, metric);
    StableSort.SortDescOrdered(Map(Key(metric), c), i, j);
  }

  /** Sorting and then mapping is mapping and then sorting: the order
      depends on the keys alone. */
  lemma SortMap<T, U>(xs: seq<T>, keys: seq<real>, f: T -> U)
    requires |keys| == |xs|
    ensures Map(f, StableSort.SortDesc(xs, keys)) == StableSort.SortDesc(Map(f, xs), keys)
  {
    var l := Map(f, StableSort.SortDesc(xs, keys));
    var r := StableSort.SortDesc(Map(f, xs), keys);
    forall i | 0 <= i < |l|
      ensures l[i] == r[i]
    {
    }
  }
}

=== FILE: records.dfy ===
/** A JSON record of scalar fields, as the pipeline reads them from storage
    (a player's weekly stat line, a team row, an injury report entry).

    Python keeps such a record as one `dict`; the model splits it into the
    text-valued and the number-valued keys. A key absent from both maps is
    absent from the dict. A key that is present but `null` is not
    representable (see README).
 */
module Records {
  import opened Wrappers

  datatype Rec = Rec(text: map<string, string>, nums: map<string, real>) {

    /** `d.get(k)` for a text field. */
    function Text(k: string): Option<string> {
      if k in text then Some(text[k]) else None
    }

    /** `d.get(k, default)` for a text field. */
    function TextOr(k: string, default: string): string {
      if k in text then text[k] else default
    }

    /** `d.get(k)` for a numeric field. */
    function Get(k: string): Option<real> {
      if k in nums then Some(nums[k]) else None
    }

    /** `d.get(k, 0)` for a numeric field. */
    function Num(k: string): real {
      if k in nums then nums[k] else 0.0
    }

    /** Python truthiness of the dict: a dict is falsy iff it is empty. */
    predicate NonEmpty() {
      |text| > 0 || |nums| > 0
    }

    /** Python truthiness of `d.get(k)` for a text field. */
    predicate HasText(k: string) {
      k in text && |text[k]| > 0
    }
  }

  /** Python truthiness of an optional record (`if previous:`). */
  predicate Present(r: Option<Rec>) {
    r.Some? && r.value.NonEmpty()
  }

  // Field names shared by the modules that read player stat lines.
  const PLAYER_ID := "player_id"
  const PLAYER_NAME := "player_name"
  const POSITION := "position"
  const TEAM := "team"
  const CARRIES := "carries"
  const TARGETS := "targets"
  const RECEPTIONS := "receptions"
  const TARGET_SHARE := "target_share"
  const RUSHING_YARDS := "rushing_yards"
  const RECEIVING_YARDS := "receiving_yards"
  const PASSING_YARDS := "passing_yards"
  const FANTASY_POINTS_PPR := "fantasy_points_ppr"
  const ATTEMPTS := "attempts"
  const PASSING_TDS := "passing_tds"
  const RUSHING_TDS := "rushing_tds"
  const RECEIVING_TDS := "receiving_tds"
}

=== FILE: schema.dfy ===
/** The expected layout of the stats bucket as the standalone validator reads
    it (lambda_functions/data_validator/schema.py, class `S3Schema`): weeks per
    season, per-week player minimums and stat ranges.
 */
module Schema {
  import opened Wrappers
  import opened Records
  import Validation

  const MIN_PLAYERS_PER_WEEK: nat := 800
  const MIN_PLAYERS_WILDCARD: nat := 300
  const MIN_PLAYERS_DIVISIONAL: nat := 150
  const MIN_PLAYERS_CONFERENCE: nat := 100
  const MIN_PLAYERS_SUPERBOWL: nat := 50

  const PLAYOFF_WEEKS: seq<int> := [19, 20, 21, 22]

  /** `S3Schema.get_min_players_for_week(week)`. */
  function MinPlayersForWeek(week: int): (r: nat)
    ensures week in PLAYOFF_WEEKS <==> r < MIN_PLAYERS_PER_WEEK
    ensures week == 19 ==> r == 300
    ensures week == 20 ==> r == 150
    ensures week == 21 ==> r == 100
    ensures week == 22 ==> r == 50
    ensures week !in PLAYOFF_WEEKS ==> r == 800
  {
    if week == 22 then MIN_PLAYERS_SUPERBOWL
    else if week == 21 then MIN_PLAYERS_CONFERENCE
    else if week == 20 then MIN_PLAYERS_DIVISIONAL
    else if week == 19 then MIN_PLAYERS_WILDCARD
    else MIN_PLAYERS_PER_WEEK
  }

  /** The bucket validator and the fetcher expect the same minimum for every
      week, so a week the fetcher accepts as full-sized is not flagged short
      later, and the other way round. */
  lemma MinimumsAgree(week: int)
    ensures MinPlayersForWeek(week) == Validation.MinPlayersForWeek(week)
  {
  }

  /** Every week expects at least a Super Bowl's worth of players, and from
      the last regular week through the Super Bowl the minimum never rises. */
  lemma MinimumsBounded(a: int, b: int)
    ensures MinPlayersForWeek(a) >= MIN_PLAYERS_SUPERBOWL
    ensures 18 <= a <= b <= 22 ==> MinPlayersForWeek(b) <= MinPlayersForWeek(a)
  {
  }

  /** `S3Schema().WEEKS_PER_SEASON`, as set in `__post_init__`. */
  const WEEKS_PER_SEASON: map<int, nat> := map[2020 := 21, 2021 := 22, 2022 := 22, 2023 := 22, 2024 := 22, 2025 := 5]

  const VALID_SEASONS: seq<int> := [2020, 2021, 2022, 2023, 2024, 2025]

  /** `schema.WEEKS_PER_SEASON.get(season, 22)`, as the validator reads it. */
  function ExpectedWeeks(season: int): (r: nat)
    ensures season !in VALID_SEASONS ==> r == 22
    ensures 1 <= r <= 22
  {
    if season in WEEKS_PER_SEASON then WEEKS_PER_SEASON[season] else 22
  }

  /** Every listed season has a week count, and the count is the default
      four playoff weeks after an 18-week regular season (17 in 2020) except
      for the season in progress. */
  lemma SeasonsCovered(i: nat)
    requires i < |VALID_SEASONS|
    ensures VALID_SEASONS[i] in WEEKS_PER_SEASON
    ensures VALID_SEASONS[i] < 2025 ==> ExpectedWeeks(VALID_SEASONS[i]) == (if VALID_SEASONS[i] == 2020 then 17 else 18) + 4
  {
  }

  /** `S3Schema.STAT_RANGES`, in declaration order. */
  const STAT_RANGES: seq<Validation.StatRange> := [
    Validation.StatRange(FANTASY_POINTS_PPR, -10.0, 100.0),
    Validation.StatRange(PASSING_YARDS, 0.0, 600.0),
    Validation.StatRange(PASSING_TDS, 0.0, 10.0),
    Validation.StatRange(RUSHING_YARDS, -10.0, 300.0),
    Validation.StatRange(RUSHING_TDS, 0.0, 6.0),
    Validation.StatRange(RECEPTIONS, 0.0, 25.0),
    Validation.StatRange(RECEIVING_YARDS, -10.0, 350.0),
    Validation.StatRange(RECEIVING_TDS, 0.0, 6.0),
    Validation.StatRange(TARGETS, 0.0, 30.0)
  ]

  /** Every range is non-empty, in both tables. */
  lemma RangesWellFormed(i: nat)
    requires i < |STAT_RANGES|
    ensures STAT_RANGES[i].lo <= STAT_RANGES[i].hi
    ensures Validation.STAT_RANGES[i].lo <= Validation.STAT_RANGES[i].hi
  {
  }

  /** The two tables check the same stats in the same order; the bucket
      validator's ranges sit inside the fetcher's, and differ only in allowing
      rushing and receiving yards down to -10 where the fetcher allows -20. */
  lemma SchemaRangesWithinFetcher(i: nat)
    requires i < |STAT_RANGES|
    ensures |Validation.STAT_RANGES| == |STAT_RANGES|
    ensures Validation.STAT_RANGES[i].stat == STAT_RANGES[i].stat
    ensures Validation.STAT_RANGES[i].lo <= STAT_RANGES[i].lo && STAT_RANGES[i].hi == Validation.STAT_RANGES[i].hi
    ensures STAT_RANGES[i] != Validation.STAT_RANGES[i] <==> STAT_RANGES[i].stat in {RUSHING_YARDS, RECEIVING_YARDS}
  {
  }
}

=== FILE: season_totals.dfy ===
/** Season totals (`aggregate_season_stats` in lambda_functions/api/index.py):
    every player's weekly stat lines of the chosen weeks folded into one
    record per player, then listed by fantasy points, best first.

    Reading a week from storage is a parameter (`fetch`): it yields the
    week's player list, empty when the week is missing. A player line is a
    JSON object. Python's `float(s)` on a string is also a parameter
    (`floatOf`), `None` standing for the `ValueError` it raises.
 */
module SeasonTotals {
  import opened Wrappers
  import opened Seqs
  import opened Json
  import PyDict
  import StableSort

  /** One player's stat line of one week. */
  type Line = seq<(string, Json)>

  /** The counting stats summed over the season, in the order the API
      lists them. */
  const SUMMED_FIELDS: seq<string> := PASSING_FIELDS + RUSHING_FIELDS + RECEIVING_FIELDS + SCORING_FIELDS

  const PASSING_FIELDS: seq<string> := [
    "completions", "attempts", "passing_yards", "passing_tds", "passing_interceptions",
    "sacks_suffered", "sack_yards_lost", "sack_fumbles", "sack_fumbles_lost",
    "passing_air_yards", "passing_yards_after_catch", "passing_first_downs",
    "passing_2pt_conversions"]

  const RUSHING_FIELDS: seq<string> := [
    "carries", "rushing_yards", "rushing_tds",
    "rushing_fumbles", "rushing_fumbles_lost", "rushing_first_downs",
    "rushing_2pt_conversions"]

  const RECEIVING_FIELDS: seq<string> := [
    "receptions", "targets", "receiving_yards",
    "receiving_tds", "receiving_fumbles", "receiving_fumbles_lost",
    "receiving_air_yards", "receiving_yards_after_catch", "receiving_first_downs",
    "receiving_epa", "receiving_2pt_conversions", "racr", "target_share",
    "air_yards_share", "wopr"]

  const SCORING_FIELDS: seq<string> := ["special_teams_tds", "fantasy_points", "fantasy_points_ppr"]

  const PLAYER_ID := "player_id"
  const TEAM := "team"
  const POSITION := "position"
  const FANTASY_POINTS_PPR := "fantasy_points_ppr"

  /** A player's running totals: the id, the line the identity fields are
      copied from, how many lines were counted, the truthy teams and
      positions seen, and the sum of each counting stat that had a value. */
  datatype SeasonAgg = SeasonAgg(
    id: Json,
    first: Line,
    weeksPlayed: nat,
    teams: set<Json>,
    positions: set<Json>,
    sums: map<string, real>)

  /** The aggregates keyed by player id, in order of first appearance. */
  type Aggs = seq<(Json, SeasonAgg)>

  /** What one value adds to a sum: nothing when it is missing, null or the
      empty string; its number otherwise; `float(s)` for a string, which may
      raise; and 0 for a list or an object. */
  datatype Amount = Skipped | Counted(x: real) | Unconvertible

  datatype AggError = NotANumber

  /** The whole answer. */
  datatype SeasonStats = SeasonStats(
    season: int,
    weeksAggregated: seq<int>,
    players: seq<SeasonAgg>,
    playerCount: nat,
    weeksIncluded: nat)

  // ---------------------------------------------------------------- one line

  /** A line takes part only when its `player_id` is truthy. */
  predicate Identified(p: Line) {
    Lookup(p, PLAYER_ID).Some? && IsTruthy(Lookup(p, PLAYER_ID).value)
  }

  /** The line is one of player `id`'s. */
  predicate Belongs(p: Line, id: Json) {
    Identified(p) && Lookup(p, PLAYER_ID).value == id
  }

  function AmountOf(v: Option<Json>, floatOf: string -> Option<real>): Amount {
    match v
    case None => Skipped
    case Some(JNull) => Skipped
    case Some(JBool(b)) => Counted(if b then 1.0 else 0.0)
    case Some(JInt(i)) => Counted(i as real)
    case Some(JNum(n)) => Counted(n)
    case Some(JStr(s)) =>
      if s == "" then Skipped
      else if floatOf(s).Some? then Counted(floatOf(s).value) else Unconvertible
    case Some(JArr(_)) => Counted(0.0)
    case Some(JObj(_)) => Counted(0.0)
  }

  /** A running sum after one more value: created at 0 by the first value
      that counts. */
  function Next(acc: Option<real>, a: Amount): Option<real> {
    match a
    case Counted(x) => Some(acc.GetOr(0.0) + x)
    case _ => acc
  }

  function SumOf(sums: map<string, real>, f: string): Option<real> {
    if f in sums then Some(sums[f]) else None
  }

  /** Every summed field of the line converts to a number. */
  predicate LineConvertible(p: Line, fields: seq<string>, floatOf: string -> Option<real>) {
    forall j :: 0 <= j < |fields| ==> AmountOf(Lookup(p, fields[j]), floatOf) != Unconvertible
  }

  /** The inner `for field in summed_fields` loop. */
  function AddFields(sums: map<string, real>, p: Line, fields: seq<string>, floatOf: string -> Option<real>)
    : Option<map<string, real>>
    decreases |fields|
  {
    if |fields| == 0 then Some(sums)
    else
      var f := fields[0];
      match AmountOf(Lookup(p, f), floatOf)
      case Unconvertible => None
      case Skipped => AddFields(sums, p, fields[1..], floatOf)
      case Counted(x) => AddFields(sums[f := SumOf(sums, f).GetOr(0.0) + x], p, fields[1..], floatOf)
  }

  /** Past its first field a distinct list stays distinct and no longer
      holds that field. */
  lemma DistinctTail(fields: seq<string>)
    requires Distinct(fields) && |fields| > 0
    ensures Distinct(fields[1..]) && fields[0] !in fields[1..]
    ensures forall g :: g in fields <==> g == fields[0] || g in fields[1..]
  {
    var rest := fields[1..];
    forall a, b | 0 <= a < b < |rest|
      ensures rest[a] != rest[b]
    {
      assert rest[a] == fields[a + 1] && rest[b] == fields[b + 1];
    }
    forall a | 0 <= a < |rest|
      ensures rest[a] != fields[0]
    {
      assert rest[a] == fields[a + 1];
    }
    assert fields == [fields[0]] + rest;
  }

  /** A line converts on a list of fields when it converts on the first
      and on the rest. */
  lemma LineConvertibleTail(p: Line, fields: seq<string>, floatOf: string -> Option<real>)
    requires |fields| > 0
    ensures LineConvertible(p, fields, floatOf)
        <==> AmountOf(Lookup(p, fields[0]), floatOf) != Unconvertible && LineConvertible(p, fields[1..], floatOf)
  {
    var converts := (f: string) => AmountOf(Lookup(p, f), floatOf) != Unconvertible;
    AllTail(fields, converts);
  }

  /** Every element passes `ok` when the head does and every element of the tail does. */
  lemma AllTail<T>(s: seq<T>, ok: T -> bool)
    requires |s| > 0
    ensures (forall j :: 0 <= j < |s| ==> ok(s[j])) <==> ok(s[0]) && forall j :: 0 <= j < |s[1..]| ==> ok(s[1..][j])
  {
    if ok(s[0]) && forall j :: 0 <= j < |s[1..]| ==> ok(s[1..][j]) {
      forall j | 0 <= j < |s|
        ensures ok(s[j])
      {
        if j > 0 {
          assert s[j] == s[1..][j - 1];
        }
      }
    }
  }

  /** Adding a line's values raises exactly when one of them does not
      convert. */
  lemma {:induction false} AddFieldsConverts(sums: map<string, real>, p: Line, fields: seq<string>,
                                             floatOf: string -> Option<real>)
    ensures AddFields(sums, p, fields, floatOf).None? <==> !LineConvertible(p, fields, floatOf)
    decreases |fields|
  {
    if |fields| > 0 {
      var f := fields[0];
      var amount := AmountOf(Lookup(p, f), floatOf);
      if amount != Unconvertible {
        var next := if amount.Counted? then sums[f := SumOf(sums, f).GetOr(0.0) + amount.x] else sums;
        assert AddFields(sums, p, fields, floatOf) == AddFields(next, p, fields[1..], floatOf);
        AddFieldsConverts(next, p, fields[1..], floatOf);
      }
      LineConvertibleTail(p, fields, floatOf);
    }
  }

  /** Adding a line's values raises exactly when one of them does not
      convert; otherwise each listed field moves on by its value and the
      other sums stay as they were. */
  lemma {:induction false} AddFieldsSpec(sums: map<string, real>, p: Line, fields: seq<string>, floatOf: string -> Option<real>)
    requires Distinct(fields)
    ensures AddFields(sums, p, fields, floatOf).None? <==> !LineConvertible(p, fields, floatOf)
    ensures AddFields(sums, p, fields, floatOf).Some? ==>
              forall f :: SumOf(AddFields(sums, p, fields, floatOf).value, f)
                          == if f in fields then Next(SumOf(sums, f), AmountOf(Lookup(p, f), floatOf)) else SumOf(sums, f)
    decreases |fields|
  {
    AddFieldsConverts(sums, p, fields, floatOf);
    if |fields| > 0 {
      var f := fields[0];
      var rest := fields[1..];
      DistinctTail(fields);
      match AmountOf(Lookup(p, f), floatOf)
      case Unconvertible =>
      case Skipped =>
        assert AddFields(sums, p, fields, floatOf) == AddFields(sums, p, rest, floatOf);
        AddFieldsSpec(sums, p, rest, floatOf);
      case Counted(x) =>
        var next := sums[f := SumOf(sums, f).GetOr(0.0) + x];
        assert AddFields(sums, p, fields, floatOf) == AddFields(next, p, rest, floatOf);
        AddFieldsSpec(next, p, rest, floatOf);
    }
  }

  /** `FoldConverts` for the summed fields of the API. */
  lemma SummedConverts(lines: seq<Line>, floatOf: string -> Option<real>)
    ensures Fold(lines, SUMMED_FIELDS, floatOf).Some? <==> Convertible(lines, SUMMED_FIELDS, floatOf)
  {
    SummedFieldsDistinct();
    FoldConverts(lines, SUMMED_FIELDS, floatOf);
  }

  /** No field is summed twice. */
  lemma SummedFieldsDistinct()
    ensures Distinct(SUMMED_FIELDS)
  {
    DistinctGroups();
    PassingApart();
    RushingApart();
    ReceivingApart();
    var pr := PASSING_FIELDS + RUSHING_FIELDS;
    DistinctAppend(PASSING_FIELDS, RUSHING_FIELDS);
    DisjointAppend(PASSING_FIELDS, RUSHING_FIELDS, RECEIVING_FIELDS);
    DistinctAppend(pr, RECEIVING_FIELDS);
    DisjointAppend(PASSING_FIELDS, RUSHING_FIELDS, SCORING_FIELDS);
    DisjointAppend(pr, RECEIVING_FIELDS, SCORING_FIELDS);
    DistinctAppend(pr + RECEIVING_FIELDS, SCORING_FIELDS);
  }

  lemma DistinctGroups()
    ensures Distinct(PASSING_FIELDS) && Distinct(RUSHING_FIELDS)
    ensures Distinct(RECEIVING_FIELDS) && Distinct(SCORING_FIELDS)
  {
  }

  /** Two groups share no field. */
  predicate Disjoint(a: seq<string>, b: seq<string>) {
    forall i, j :: 0 <= i < |a| && 0 <= j < |b| ==> a[i] != b[j]
  }

  lemma PassingApart()
    ensures Disjoint(PASSING_FIELDS, RUSHING_FIELDS)
    ensures Disjoint(PASSING_FIELDS, RECEIVING_FIELDS)
    ensures Disjoint(PASSING_FIELDS, SCORING_FIELDS)
  {
  }

  lemma RushingApart()
    ensures Disjoint(RUSHING_FIELDS, RECEIVING_FIELDS)
    ensures Disjoint(RUSHING_FIELDS, SCORING_FIELDS)
  {
  }

  lemma ReceivingApart()
    ensures Disjoint(RECEIVING_FIELDS, SCORING_FIELDS)
  {
  }

  lemma DistinctAppend(a: seq<string>, b: seq<string>)
    requires Distinct(a) && Distinct(b) && Disjoint(a, b)
    ensures Distinct(a + b)
  {
  }

  lemma DisjointAppend(a: seq<string>, b: seq<string>, c: seq<string>)
    requires Disjoint(a, c) && Disjoint(b, c)
    ensures Disjoint(a + b, c)
  {
  }

  // ---------------------------------------------------------------- the fold

  /** A player seen for the first time: nothing counted yet, identity taken
      from this line. */
  function Fresh(id: Json, p: Line): SeasonAgg {
    SeasonAgg(id, p, 0, {}, {}, map[])
  }

  /** The truthy value under `k`, as a set of zero or one element. */
  function TruthyValue(p: Line, k: string): set<Json> {
    if Lookup(p, k).Some? && IsTruthy(Lookup(p, k).value) then {Lookup(p, k).value} else {}
  }

  /** The aggregate a line of its player's moves to, once its values are added. */
  function Bump(a: SeasonAgg, p: Line, sums: map<string, real>): SeasonAgg {
    a.(weeksPlayed := a.weeksPlayed + 1,
       teams := a.teams + TruthyValue(p, TEAM),
       positions := a.positions + TruthyValue(p, POSITION),
       sums := sums)
  }

  /** One pass of the inner `for player in players` loop, summing `fields`. */
  function Step(m: Aggs, p: Line, fields: seq<string>, floatOf: string -> Option<real>): Option<Aggs> {
    if !Identified(p) then Some(m)
    else
      var id := Lookup(p, PLAYER_ID).value;
      var a := PyDict.Get(m, id).GetOr(Fresh(id, p));
      match AddFields(a.sums, p, fields, floatOf)
      case None => None
      case Some(sums) => Some(PyDict.Put(m, id, Bump(a, p, sums)))
  }

  /** The aggregates after the given lines, or `None` once a value raises. */
  function Fold(lines: seq<Line>, fields: seq<string>, floatOf: string -> Option<real>): Option<Aggs> {
    if |lines| == 0 then Some([])
    else
      match Fold(lines[..|lines| - 1], fields, floatOf)
      case None => None
      case Some(m) => Step(m, lines[|lines| - 1], fields, floatOf)
  }

  // ---------------------------------------------------------------- reference definitions

  /** Player `id`'s lines, in order. */
  function LinesOf(lines: seq<Line>, id: Json): seq<Line> {
    if |lines| == 0 then []
    else LinesOf(lines[..|lines| - 1], id) + (if Belongs(lines[|lines| - 1], id) then [lines[|lines| - 1]] else [])
  }

  /** The truthy values under `k` across the lines. */
  function ValuesOf(ls: seq<Line>, k: string): set<Json> {
    if |ls| == 0 then {}
    else ValuesOf(ls[..|ls| - 1], k) + TruthyValue(ls[|ls| - 1], k)
  }

  /** The sum of field `f` over the lines, `None` when no line counts. */
  function Total(ls: seq<Line>, f: string, floatOf: string -> Option<real>): Option<real> {
    if |ls| == 0 then None
    else Next(Total(ls[..|ls| - 1], f, floatOf), AmountOf(Lookup(ls[|ls| - 1], f), floatOf))
  }

  /** No identified line holds a value `float` rejects. */
  predicate Convertible(lines: seq<Line>, fields: seq<string>, floatOf: string -> Option<real>) {
    forall i :: 0 <= i < |lines| && Identified(lines[i]) ==> LineConvertible(lines[i], fields, floatOf)
  }

  /** What the reference definitions say player `id`'s aggregate holds. */
  ghost predicate IsExpected(a: SeasonAgg, lines: seq<Line>, fields: seq<string>, id: Json, floatOf: string -> Option<real>) {
    var ls := LinesOf(lines, id);
    |ls| > 0
    && a.id == id && a.first == ls[0] && a.weeksPlayed == |ls|
    && a.teams == ValuesOf(ls, TEAM) && a.positions == ValuesOf(ls, POSITION)
    && forall f :: SumOf(a.sums, f) == if f in fields then Total(ls, f, floatOf) else None
  }

  lemma SnocInit<T>(s: seq<T>, x: T)
    ensures (s + [x])[..|s|] == s
  {
  }

  /** The fold raises exactly when an identified line holds a value that
      does not convert. */
  lemma {:induction false} FoldConverts(lines: seq<Line>, fields: seq<string>, floatOf: string -> Option<real>)
    requires Distinct(fields)
    ensures Fold(lines, fields, floatOf).Some? <==> Convertible(lines, fields, floatOf)
  {
    if |lines| > 0 {
      var init := lines[..|lines| - 1];
      var last := lines[|lines| - 1];
      FoldConverts(init, fields, floatOf);
      ConvertibleSnoc(lines, fields, floatOf);
      if Fold(init, fields, floatOf).Some? && Identified(last) {
        var m := Fold(init, fields, floatOf).value;
        var id := Lookup(last, PLAYER_ID).value;
        var a := PyDict.Get(m, id).GetOr(Fresh(id, last));
        AddFieldsConverts(a.sums, last, fields, floatOf);
      }
    }
  }

  /** The lines convert when all but the last do and the last, if identified, does. */
  lemma ConvertibleSnoc(lines: seq<Line>, fields: seq<string>, floatOf: string -> Option<real>)
    requires |lines| > 0
    ensures var last := lines[|lines| - 1];
      (Convertible(lines, fields, floatOf)
       <==> Convertible(lines[..|lines| - 1], fields, floatOf) && (Identified(last) ==> LineConvertible(last, fields, floatOf)))
  {
    var init := lines[..|lines| - 1];
    assert forall i :: 0 <= i < |init| ==> init[i] == lines[i];
  }

  /** A line leaves every other player's aggregate alone. */
  lemma StepOther(m: Aggs, p: Line, fields: seq<string>, floatOf: string -> Option<real>, id: Json)
    requires Step(m, p, fields, floatOf).Some? && !Belongs(p, id)
    ensures PyDict.Get(Step(m, p, fields, floatOf).value, id) == PyDict.Get(m, id)
  {
    if Identified(p) {
      var k := Lookup(p, PLAYER_ID).value;
      var a := PyDict.Get(m, k).GetOr(Fresh(k, p));
      PyDict.PutGet(m, k, Bump(a, p, AddFields(a.sums, p, fields, floatOf).value), id);
    }
  }

  /** A line of player `id` bumps their aggregate, or starts it from this line. */
  lemma StepOwn(m: Aggs, p: Line, fields: seq<string>, floatOf: string -> Option<real>, id: Json)
    requires Step(m, p, fields, floatOf).Some? && Belongs(p, id)
    ensures var a := PyDict.Get(m, id).GetOr(Fresh(id, p));
            AddFields(a.sums, p, fields, floatOf).Some?
            && PyDict.Get(Step(m, p, fields, floatOf).value, id) == Some(Bump(a, p, AddFields(a.sums, p, fields, floatOf).value))
  {
    var a := PyDict.Get(m, id).GetOr(Fresh(id, p));
    PyDict.PutGet(m, id, Bump(a, p, AddFields(a.sums, p, fields, floatOf).value), id);
  }

  /** Bumping an aggregate that matches the earlier lines by one more line of
      the player matches the lines with it. */
  lemma BumpExpected(a: SeasonAgg, ls: seq<Line>, last: Line, fields: seq<string>, floatOf: string -> Option<real>, id: Json)
    requires Distinct(fields) && Belongs(last, id)
    requires |ls| == 0 ==> a == Fresh(id, last)
    requires |ls| > 0 ==>
               a.id == id && a.first == ls[0] && a.weeksPlayed == |ls|
               && a.teams == ValuesOf(ls, TEAM) && a.positions == ValuesOf(ls, POSITION)
               && forall f :: SumOf(a.sums, f) == if f in fields then Total(ls, f, floatOf) else None
    requires AddFields(a.sums, last, fields, floatOf).Some?
    ensures var b := Bump(a, last, AddFields(a.sums, last, fields, floatOf).value);
            var ls' := ls + [last];
            b.id == id && b.first == ls'[0] && b.weeksPlayed == |ls'|
            && b.teams == ValuesOf(ls', TEAM) && b.positions == ValuesOf(ls', POSITION)
            && forall f :: SumOf(b.sums, f) == if f in fields then Total(ls', f, floatOf) else None
  {
    AddFieldsSpec(a.sums, last, fields, floatOf);
    SnocInit(ls, last);
    var ls' := ls + [last];
    assert forall f :: Total(ls', f, floatOf) == Next(Total(ls, f, floatOf), AmountOf(Lookup(last, f), floatOf));
    if |ls| == 0 {
      assert forall f :: Total(ls, f, floatOf) == None;
      assert ValuesOf(ls, TEAM) == {} && ValuesOf(ls, POSITION) == {};
    }
  }

  /** The fold agrees with the reference definitions: a player is present
      exactly when one of the lines is theirs; it counts those lines, takes
      its identity from the first, and holds the teams, positions and sums
      of them all. */
  lemma {:induction false} FoldMatchesReference(lines: seq<Line>, fields: seq<string>, floatOf: string -> Option<real>, id: Json)
    requires Distinct(fields) && Fold(lines, fields, floatOf).Some?
    ensures PyDict.Get(Fold(lines, fields, floatOf).value, id).Some? <==> |LinesOf(lines, id)| > 0
    ensures PyDict.Get(Fold(lines, fields, floatOf).value, id).Some? ==>
              IsExpected(PyDict.Get(Fold(lines, fields, floatOf).value, id).value, lines, fields, id, floatOf)
  {
    if |lines| > 0 {
      var init := lines[..|lines| - 1];
      var last := lines[|lines| - 1];
      var m := Fold(init, fields, floatOf).value;
      FoldMatchesReference(init, fields, floatOf, id);
      var ls := LinesOf(init, id);
      if Belongs(last, id) {
        StepOwn(m, last, fields, floatOf, id);
        var a := PyDict.Get(m, id).GetOr(Fresh(id, last));
        BumpExpected(a, ls, last, fields, floatOf, id);
        assert LinesOf(lines, id) == ls + [last];
      } else {
        StepOther(m, last, fields, floatOf, id);
        assert LinesOf(lines, id) == ls + [];
        assert ls + [] == ls;
      }
    }
  }

  /** The fold keys each aggregate by its own id, once. */
  lemma {:induction false} FoldWellFormed(lines: seq<Line>, fields: seq<string>, floatOf: string -> Option<real>)
    requires Fold(lines, fields, floatOf).Some?
    ensures PyDict.DistinctKeys(Fold(lines, fields, floatOf).value)
    ensures forall i :: 0 <= i < |Fold(lines, fields, floatOf).value| ==>
              Fold(lines, fields, floatOf).value[i].1.id == Fold(lines, fields, floatOf).value[i].0
  {
    if |lines| > 0 {
      var init := lines[..|lines| - 1];
      var last := lines[|lines| - 1];
      FoldWellFormed(init, fields, floatOf);
      var m := Fold(init, fields, floatOf).value;
      if Identified(last) {
        var id := Lookup(last, PLAYER_ID).value;
        var a := PyDict.Get(m, id).GetOr(Fresh(id, last));
        if PyDict.Get(m, id).Some? {
          PyDict.GetFound(m, id);
        }
        assert a.id == id;
        PyDict.PutDistinct(m, id, Bump(a, last, AddFields(a.sums, last, fields, floatOf).value));
      }
    }
  }

  // ---------------------------------------------------------------- aggregate_season_stats

  function ValueOf(e: (Json, SeasonAgg)): SeasonAgg {
    e.1
  }

  /** `x.get("fantasy_points_ppr", 0)`: the sort key. */
  function PprKey(a: SeasonAgg): real {
    SumOf(a.sums, FANTASY_POINTS_PPR).GetOr(0.0)
  }

  /** `aggregated_players.sort(key=..., reverse=True)`: most PPR points first,
      ties in order of first appearance. */
  function ByPoints(vs: seq<SeasonAgg>): (r: seq<SeasonAgg>)
    ensures multiset(r) == multiset(vs)
    ensures forall i, j :: 0 <= i < j < |r| ==> PprKey(r[i]) >= PprKey(r[j])
  {
    var keys := Map(PprKey, vs);
    StableSort.SortDescPermutes(vs, keys);
    var r := StableSort.SortDesc(vs, keys);
    assert forall i, j :: 0 <= i < j < |r| ==> PprKey(r[i]) >= PprKey(r[j]) by {
      forall i, j | 0 <= i < j < |r|
        ensures PprKey(r[i]) >= PprKey(r[j])
      {
        StableSort.SortDescOrdered(keys, i, j);
      }
    }
    r
  }

  /** The answer built from the aggregates: the players best first, their
      count and the weeks asked for. */
  function Summary(season: int, weeks: seq<int>, m: Aggs): (r: SeasonStats)
    ensures r.season == season && r.weeksAggregated == weeks
    ensures r.weeksIncluded == |weeks| && r.playerCount == |r.players| == |m|
    ensures multiset(r.players) == multiset(Map(ValueOf, m))
    ensures forall i, j :: 0 <= i < j < |r.players| ==> PprKey(r.players[i]) >= PprKey(r.players[j])
  {
    var players := ByPoints(Map(ValueOf, m));
    assert |players| == |multiset(players)| == |Map(ValueOf, m)|;
    SeasonStats(season, weeks, players, |players|, |weeks|)
  }

  /** `aggregate_season_stats(bucket, prefix, season, weeks)`, reading each
      week's player list with `fetch`: raises exactly when a player's stat
      does not convert, and otherwise summarises the season's aggregates. */
  function AggregateSeasonStats(season: int, weeks: seq<int>, fetch: int -> seq<Line>, floatOf: string -> Option<real>)
    : (r: Result<SeasonStats, AggError>)
    ensures r.Err? <==> !Convertible(Concat(Map(fetch, weeks)), SUMMED_FIELDS, floatOf)
    ensures Fold(Concat(Map(fetch, weeks)), SUMMED_FIELDS, floatOf).Some? ==>
              r == Ok(Summary(season, weeks, Fold(Concat(Map(fetch, weeks)), SUMMED_FIELDS, floatOf).value))
  {
    var lines := Concat(Map(fetch, weeks));
    SummedConverts(lines, floatOf);
    match Fold(lines, SUMMED_FIELDS, floatOf)
    case None => Err(NotANumber)
    case Some(m) => Ok(Summary(season, weeks, m))
  }

  /** Each listed player is the reference aggregate of their own lines, and
      no player is listed twice. */
  lemma SeasonPlayer(season: int, weeks: seq<int>, fetch: int -> seq<Line>, floatOf: string -> Option<real>, i: nat)
    requires AggregateSeasonStats(season, weeks, fetch, floatOf).Ok?
    requires i < |AggregateSeasonStats(season, weeks, fetch, floatOf).value.players|
    ensures var players := AggregateSeasonStats(season, weeks, fetch, floatOf).value.players;
            IsExpected(players[i], Concat(Map(fetch, weeks)), SUMMED_FIELDS, players[i].id, floatOf)
            && forall j :: 0 <= j < |players| && j != i ==> players[j].id != players[i].id
  {
    var lines := Concat(Map(fetch, weeks));
    var m := Fold(lines, SUMMED_FIELDS, floatOf).value;
    var vs := Map(ValueOf, m);
    var keys := Map(PprKey, vs);
    var order := StableSort.Order(keys);
    var players := AggregateSeasonStats(season, weeks, fetch, floatOf).value.players;
    SummedFieldsDistinct();
    FoldWellFormed(lines, SUMMED_FIELDS, floatOf);
    assert players == Summary(season, weeks, m).players == ByPoints(vs) == StableSort.SortDesc(vs, keys);
    var k := order[i];
    assert players[i] == m[k].1;
    PyDict.GetAt(m, k);
    FoldMatchesReference(lines, SUMMED_FIELDS, floatOf, m[k].0);
    forall j | 0 <= j < |players| && j != i
      ensures players[j].id != players[i].id
    {
      if i < j {
        StableSort.OrderDistinct(keys, i, j);
      } else {
        StableSort.OrderDistinct(keys, j, i);
      }
      assert players[j] == m[order[j]].1;
    }
  }

  /** Every player with a line in the chosen weeks is listed. */
  lemma SeasonListsEveryone(season: int, weeks: seq<int>, fetch: int -> seq<Line>, floatOf: string -> Option<real>, id: Json)
    returns (i: nat)
    requires AggregateSeasonStats(season, weeks, fetch, floatOf).Ok?
    requires |LinesOf(Concat(Map(fetch, weeks)), id)| > 0
    ensures i < |AggregateSeasonStats(season, weeks, fetch, floatOf).value.players|
    ensures AggregateSeasonStats(season, weeks, fetch, floatOf).value.players[i].id == id
  {
    var lines := Concat(Map(fetch, weeks));
    var m := Fold(lines, SUMMED_FIELDS, floatOf).value;
    var vs := Map(ValueOf, m);
    var keys := Map(PprKey, vs);
    var order := StableSort.Order(keys);
    var players := AggregateSeasonStats(season, weeks, fetch, floatOf).value.players;
    SummedFieldsDistinct();
    FoldWellFormed(lines, SUMMED_FIELDS, floatOf);
    FoldMatchesReference(lines, SUMMED_FIELDS, floatOf, id);
    PyDict.GetFound(m, id);
    var k :| 0 <= k < |m| && m[k] == (id, PyDict.Get(m, id).value);
    assert k in order;
    i :| 0 <= i < |order| && order[i] == k;
    assert players == Summary(season, weeks, m).players == ByPoints(vs) == StableSort.SortDesc(vs, keys);
    assert players[i] == m[k].1;
  }
}

=== FILE: seqs.dfy ===
/** Generic sequence helpers standing in for Python list comprehensions,
    slicing and `sum`. */
module Seqs {

  /** `[x for x in s if f(x)]`. */
  function Filter<T>(f: T -> bool, s: seq<T>): (r: seq<T>)
    ensures |r| <= |s|
    ensures forall i :: 0 <= i < |r| ==> f(r[i]) && r[i] in s
    ensures forall i :: 0 <= i < |s| && f(s[i]) ==> s[i] in r
  {
    if |s| == 0 then []
    else if f(s[0]) then [s[0]] + Filter(f, s[1..])
    else Filter(f, s[1..])
  }

  /** Filtering a concatenation filters each part. */
  lemma {:induction false} FilterAppend<T>(f: T -> bool, a: seq<T>, b: seq<T>)
    ensures Filter(f, a + b) == Filter(f, a) + Filter(f, b)
  {
    if |a| == 0 {
      assert a + b == b;
    } else {
      var ab := a + b;
      assert ab[0] == a[0] && ab[1..] == a[1..] + b;
      FilterAppend(f, a[1..], b);
      if f(a[0]) {
        var head := [a[0]];
        assert Filter(f, ab) == head + Filter(f, a[1..] + b);
        assert head + (Filter(f, a[1..]) + Filter(f, b)) == (head + Filter(f, a[1..])) + Filter(f, b);
      }
    }
  }

  /** Filtering keeps every element that passes as many times as it occurs,
      and nothing else. */
  lemma {:induction false} FilterCounts<T>(f: T -> bool, s: seq<T>, x: T)
    ensures multiset(Filter(f, s))[x] == if f(x) then multiset(s)[x] else 0
  {
    if |s| > 0 {
      FilterCounts(f, s[1..], x);
      assert s == [s[0]] + s[1..];
    }
  }

  /** A filter every element passes keeps the whole sequence. */
  lemma {:induction false} FilterAll<T>(f: T -> bool, s: seq<T>)
    requires forall i :: 0 <= i < |s| ==> f(s[i])
    ensures Filter(f, s) == s
  {
    if |s| > 0 {
      FilterAll(f, s[1..]);
    }
  }

  /** A filter no element passes keeps nothing. */
  lemma {:induction false} FilterNone<T>(f: T -> bool, s: seq<T>)
    requires forall i :: 0 <= i < |s| ==> !f(s[i])
    ensures Filter(f, s) == []
  {
    if |s| > 0 {
      FilterNone(f, s[1..]);
    }
  }

  /** Extending a filtered-and-mapped prefix by one element: what the loop
      `for x in s: if f(x): out.append(g(x))` does at each step. */
  lemma FilterMapStep<T, U>(f: T -> bool, g: T -> U, s: seq<T>, n: nat)
    requires n < |s|
    ensures Map(g, Filter(f, s[..n + 1])) == Map(g, Filter(f, s[..n])) + (if f(s[n]) then [g(s[n])] else [])
  {
    assert s[..n + 1] == s[..n] + [s[n]];
    FilterAppend(f, s[..n], [s[n]]);
    MapAppend(g, Filter(f, s[..n]), Filter(f, [s[n]]));
  }

  /** An element that passes the filter lands at the position counting the
      passing elements before it. */
  lemma FilterPosition<T>(f: T -> bool, s: seq<T>, k: nat)
    requires k < |s| && f(s[k])
    ensures |Filter(f, s[..k])| < |Filter(f, s)|
    ensures Filter(f, s)[|Filter(f, s[..k])|] == s[k]
  {
    assert s == s[..k] + s[k..];
    FilterAppend(f, s[..k], s[k..]);
    assert s[k..][0] == s[k];
  }

  /** Every element of the filtered sequence comes from a passing element
      of `s`, the one with as many passing elements before it. */
  lemma {:induction false} FilterSource<T>(f: T -> bool, s: seq<T>, j: nat) returns (k: nat)
    requires j < |Filter(f, s)|
    ensures k < |s| && f(s[k])
    ensures |Filter(f, s[..k])| == j && Filter(f, s)[j] == s[k]
  {
    var init := s[..|s| - 1];
    var last := s[|s| - 1];
    assert s == init + [last];
    FilterAppend(f, init, [last]);
    assert [last][1..] == [];
    if j < |Filter(f, init)| {
      k := FilterSource(f, init, j);
      assert s[..k] == init[..k];
    } else {
      k := |s| - 1;
      assert s[..k] == init;
    }
  }

  /** `[f(x) for x in s]`. */
  function Map<T, U>(f: T -> U, s: seq<T>): (r: seq<U>)
    ensures |r| == |s|
    ensures forall i :: 0 <= i < |s| ==> r[i] == f(s[i])
  {
    if |s| == 0 then [] else [f(s[0])] + Map(f, s[1..])
  }

  /** Mapping a concatenation maps each part. */
  lemma {:induction false} MapAppend<T, U>(f: T -> U, a: seq<T>, b: seq<T>)
    ensures Map(f, a + b) == Map(f, a) + Map(f, b)
  {
    if |a| == 0 {
      assert a + b == b;
    } else {
      var ab := a + b;
      assert ab[0] == a[0] && ab[1..] == a[1..] + b;
      MapAppend(f, a[1..], b);
      var head := [f(a[0])];
      assert Map(f, ab) == head + Map(f, a[1..] + b);
      assert head + (Map(f, a[1..]) + Map(f, b)) == (head + Map(f, a[1..])) + Map(f, b);
    }
  }

  /** The parts of `ss` joined in order: `[x for part in ss for x in part]`. */
  function Concat<T>(ss: seq<seq<T>>): seq<T> {
    if |ss| == 0 then [] else Concat(ss[..|ss| - 1]) + ss[|ss| - 1]
  }

  /** Joining a part onto the front of the others puts its items first. */
  lemma {:induction false} ConcatCons<T>(x: seq<T>, ss: seq<seq<T>>)
    ensures Concat([x] + ss) == x + Concat(ss)
    decreases |ss|
  {
    var xs := [x] + ss;
    if |ss| == 0 {
      assert xs[..|xs| - 1] == [];
    } else {
      var init := ss[..|ss| - 1];
      assert xs[..|xs| - 1] == [x] + init;
      ConcatCons(x, init);
      assert Concat(xs) == (x + Concat(init)) + ss[|ss| - 1];
    }
  }

  function IsPositive(x: real): bool {
    x > 0.0
  }

  /** `sum(s)`. */
  function Sum(s: seq<real>): real {
    if |s| == 0 then 0.0 else s[0] + Sum(s[1..])
  }

  lemma {:induction false} SumAppend(a: seq<real>, b: seq<real>)
    ensures Sum(a + b) == Sum(a) + Sum(b)
  {
    if |a| == 0 {
      assert a + b == b;
    } else {
      SumAppend(a[1..], b);
      assert (a + b)[0] == a[0];
      assert (a + b)[1..] == a[1..] + b;
    }
  }

  lemma {:induction false} SumNonNegative(s: seq<real>)
    requires forall i :: 0 <= i < |s| ==> s[i] >= 0.0
    ensures Sum(s) >= 0.0
  {
    if |s| > 0 {
      SumNonNegative(s[1..]);
    }
  }

  /** A sum of positive numbers over a non-empty list is positive. */
  lemma {:induction false} SumPositive(s: seq<real>)
    requires |s| > 0 && forall i :: 0 <= i < |s| ==> s[i] > 0.0
    ensures Sum(s) > 0.0
  {
    SumNonNegative(s[1..]);
  }

  /** No term of a sum of non-negative numbers exceeds the sum. */
  lemma {:induction false} TermAtMostSum(s: seq<real>, i: nat)
    requires i < |s| && forall k :: 0 <= k < |s| ==> s[k] >= 0.0
    ensures s[i] <= Sum(s)
  {
    if i == 0 {
      SumNonNegative(s[1..]);
    } else {
      TermAtMostSum(s[1..], i - 1);
    }
  }

  /** `s[:n]` for a non-negative `n`. */
  function Take<T>(s: seq<T>, n: nat): (r: seq<T>)
    ensures |r| == if n < |s| then n else |s|
    ensures r == s[..|r|]
  {
    if n < |s| then s[..n] else s
  }

  /** Python's `s[:n]` for any integer `n`: a negative `n` drops that many
      elements from the end. */
  function SliceTo<T>(s: seq<T>, n: int): (r: seq<T>)
    ensures |r| <= |s| && r == s[..|r|]
    ensures n >= 0 ==> |r| == if n < |s| then n else |s|
    ensures n < 0 ==> |r| == if |s| + n > 0 then |s| + n else 0
  {
    if n >= 0 then Take(s, n)
    else if |s| + n > 0 then s[..|s| + n]
    else []
  }

  /** `s[-n:]` for a positive `n` (the whole list when it is shorter). */
  function TakeLast<T>(s: seq<T>, n: nat): (r: seq<T>)
    ensures |r| == if n < |s| then n else |s|
    ensures r == s[|s| - |r|..]
  {
    if n < |s| then s[|s| - n..] else s
  }

  /** `list(reversed(s))`. */
  function Reverse<T>(s: seq<T>): (r: seq<T>)
    ensures |r| == |s|
    ensures forall i :: 0 <= i < |s| ==> r[i] == s[|s| - 1 - i]
  {
    if |s| == 0 then [] else Reverse(s[1..]) + [s[0]]
  }

  /** `list(reversed(s[-n:]))` lists the last `n` elements, last first. */
  lemma LastReversed<T>(s: seq<T>, n: nat, i: nat)
    requires i < n && i < |s|
    ensures Reverse(TakeLast(s, n))[i] == s[|s| - 1 - i]
  {
    var t := TakeLast(s, n);
    assert Reverse(t)[i] == t[|t| - 1 - i];
    assert t[|t| - 1 - i] == s[|s| - 1 - i];
  }

  /** Every element appears once. */
  predicate Distinct<T(==)>(s: seq<T>) {
    forall i, j :: 0 <= i < j < |s| ==> s[i] != s[j]
  }

  /** The elements of `s`, each once, in order of first appearance
      (`list(dict.fromkeys(s))`). */
  function Dedup<T(==)>(s: seq<T>): (r: seq<T>)
    ensures Distinct(r)
    ensures forall i :: 0 <= i < |r| ==> r[i] in s
    ensures forall i :: 0 <= i < |s| ==> s[i] in r
    ensures |r| <= |s|
  {
    var r := DedupFrom(s, []);
    assert [] + r == r;
    r
  }

  function DedupFrom<T(==)>(s: seq<T>, seen: seq<T>): (r: seq<T>)
    requires Distinct(seen)
    ensures Distinct(seen + r)
    ensures forall i :: 0 <= i < |r| ==> r[i] in s
    ensures forall i :: 0 <= i < |s| ==> s[i] in seen + r
    ensures |r| <= |s|
  {
    if |s| == 0 then []
    else if s[0] in seen then DedupFrom(s[1..], seen)
    else
      var r := [s[0]] + DedupFrom(s[1..], seen + [s[0]]);
      assert seen + r == (seen + [s[0]]) + DedupFrom(s[1..], seen + [s[0]]);
      r
  }
}

=== FILE: stable_sort.dfy ===
/** Python's `list.sort(key=..., reverse=True)` / `sorted(..., reverse=True)`.

  Python's sort is stable and `reverse=True` keeps equal keys in their input
  order, so the result is the unique arrangement in which every element comes
  before the next one either because its key is larger, or because the keys
  are equal and it came first in the input. The model computes that
  arrangement as a sequence of input positions (`Order`) and picks the
  elements at those positions (`Pick`).
 */
module StableSort {

  /** Position `i` precedes position `j` in a stable descending sort by `keys`. */
  predicate Before(keys: seq<real>, i: nat, j: nat) {
    i < |keys| && j < |keys| && (keys[i] > keys[j] || (keys[i] == keys[j] && i < j))
  }

  /** Every earlier position of `p` precedes every later one. */
  predicate Ordered(keys: seq<real>, p: seq<nat>) {
    forall a, b :: 0 <= a < b < |p| ==> Before(keys, p[a], p[b])
  }

  /** `p` is an arrangement of all positions 0 .. |keys|-1. */
  predicate IsArrangement(keys: seq<real>, p: seq<nat>) {
    && |p| == |keys|
    && (forall i :: 0 <= i < |p| ==> p[i] < |keys|)
    && (forall j :: 0 <= j < |keys| ==> j in p)
  }

  function Insert(keys: seq<real>, s: seq<nat>, k: nat): seq<nat> {
    if |s| == 0 then [k]
    else if Before(keys, k, s[0]) then [k] + s
    else [s[0]] + Insert(keys, s[1..], k)
  }

  lemma {:induction false} InsertContents(keys: seq<real>, s: seq<nat>, k: nat)
    ensures multiset(Insert(keys, s, k)) == multiset(s) + multiset{k}
  {
    if |s| > 0 && !Before(keys, k, s[0]) {
      InsertContents(keys, s[1..], k);
      assert s == [s[0]] + s[1..];
    }
  }

  lemma {:induction false} InsertMembers(keys: seq<real>, s: seq<nat>, k: nat)
    ensures |Insert(keys, s, k)| == |s| + 1
    ensures forall x :: x in Insert(keys, s, k) <==> x in s || x == k
  {
    if |s| > 0 && !Before(keys, k, s[0]) {
      InsertMembers(keys, s[1..], k);
      assert s == [s[0]] + s[1..];
    }
  }

  lemma {:induction false} InsertOrdered(keys: seq<real>, s: seq<nat>, k: nat)
    requires Ordered(keys, s)
    requires k < |keys| && k !in s
    requires forall i :: 0 <= i < |s| ==> s[i] < |keys|
    ensures Ordered(keys, Insert(keys, s, k))
  {
    if |s| == 0 {
    } else if Before(keys, k, s[0]) {
    } else {
      var rest := Insert(keys, s[1..], k);
      InsertOrdered(keys, s[1..], k);
      InsertMembers(keys, s[1..], k);
      assert Before(keys, s[0], k);
      forall x | x in rest
        ensures Before(keys, s[0], x)
      {
        if x != k {
          var b :| 0 <= b < |s[1..]| && s[1..][b] == x;
          assert s[b + 1] == x;
        }
      }
      var r := [s[0]] + rest;
      forall a, b | 0 <= a < b < |r|
        ensures Before(keys, r[a], r[b])
      {
        if a == 0 {
          assert r[b] == rest[b - 1];
          assert r[b] in rest;
        } else {
          assert r[a] == rest[a - 1] && r[b] == rest[b - 1];
        }
      }
    }
  }

  /** Positions 0 .. n-1 inserted one after another: an insertion sort. */
  function SortPrefix(keys: seq<real>, n: nat): (r: seq<nat>)
    requires n <= |keys|
    ensures |r| == n
    ensures forall i :: 0 <= i < |r| ==> r[i] < n
  {
    if n == 0 then []
    else
      var s := SortPrefix(keys, n - 1);
      InsertMembers(keys, s, n - 1);
      var r := Insert(keys, s, n - 1);
      assert forall i :: 0 <= i < |r| ==> r[i] in r;
      r
  }

  lemma {:induction false} SortPrefixCorrect(keys: seq<real>, n: nat)
    requires n <= |keys|
    ensures forall x: nat :: x < n ==> x in SortPrefix(keys, n)
    ensures Ordered(keys, SortPrefix(keys, n))
  {
    if n > 0 {
      var s := SortPrefix(keys, n - 1);
      SortPrefixCorrect(keys, n - 1);
      InsertMembers(keys, s, n - 1);
      assert SortPrefix(keys, n) == Insert(keys, s, n - 1);
      assert n - 1 !in s;
      InsertOrdered(keys, s, n - 1);
    }
  }

  /** The stable descending arrangement of the positions of `keys`. */
  function Order(keys: seq<real>): (p: seq<nat>)
    ensures IsArrangement(keys, p)
    ensures Ordered(keys, p)
  {
    SortPrefixCorrect(keys, |keys|);
    SortPrefix(keys, |keys|)
  }

  /** The elements of `xs` at the positions listed in `p`, in that order. */
  function Pick<T>(xs: seq<T>, p: seq<nat>): (r: seq<T>)
    requires forall i :: 0 <= i < |p| ==> p[i] < |xs|
    ensures |r| == |p|
    ensures forall i :: 0 <= i < |p| ==> r[i] == xs[p[i]]
  {
    if |p| == 0 then [] else [xs[p[0]]] + Pick(xs, p[1..])
  }

  /** `xs` stably sorted by `keys` (parallel to `xs`), largest key first. */
  function SortDesc<T>(xs: seq<T>, keys: seq<real>): (r: seq<T>)
    requires |keys| == |xs|
    ensures |r| == |xs|
    ensures forall i :: 0 <= i < |r| ==> r[i] == xs[Order(keys)[i]]
  {
    Pick(xs, Order(keys))
  }

  /** The sorted keys are non-increasing and equal keys keep their input order. */
  lemma SortDescOrdered(keys: seq<real>, a: nat, b: nat)
    requires a < b < |keys|
    ensures keys[Order(keys)[a]] >= keys[Order(keys)[b]]
    ensures keys[Order(keys)[a]] == keys[Order(keys)[b]] ==> Order(keys)[a] < Order(keys)[b]
  {
  }

  /** An arrangement lists each position once. */
  lemma OrderDistinct(keys: seq<real>, a: nat, b: nat)
    requires a < b < |keys|
    ensures Order(keys)[a] != Order(keys)[b]
  {
    assert Before(keys, Order(keys)[a], Order(keys)[b]);
  }

  /** Sorting rearranges the elements without adding or losing any. */
  lemma {:induction false} SortDescPermutes<T>(xs: seq<T>, keys: seq<real>)
    requires |keys| == |xs|
    ensures multiset(SortDesc(xs, keys)) == multiset(xs)
  {
    PickSortPrefix(xs, keys, |xs|);
    assert xs[..|xs|] == xs;
  }

  lemma {:induction false} PickInsert<T>(xs: seq<T>, keys: seq<real>, s: seq<nat>, k: nat)
    requires k < |xs|
    requires forall i :: 0 <= i < |s| ==> s[i] < |xs|
    ensures forall i :: 0 <= i < |Insert(keys, s, k)| ==> Insert(keys, s, k)[i] < |xs|
    ensures multiset(Pick(xs, Insert(keys, s, k))) == multiset(Pick(xs, s)) + multiset{xs[k]}
  {
    InsertMembers(keys, s, k);
    var ins := Insert(keys, s, k);
    forall i | 0 <= i < |ins|
      ensures ins[i] < |xs|
    {
      assert ins[i] in ins;
    }
    if |s| > 0 && !Before(keys, k, s[0]) {
      PickInsert(xs, keys, s[1..], k);
      assert Pick(xs, s) == [xs[s[0]]] + Pick(xs, s[1..]);
    }
  }

  lemma {:induction false} PickSortPrefix<T>(xs: seq<T>, keys: seq<real>, n: nat)
    requires |keys| == |xs| && n <= |xs|
    ensures multiset(Pick(xs, SortPrefix(keys, n))) == multiset(xs[..n])
  {
    if n > 0 {
      var s := SortPrefix(keys, n - 1);
      PickSortPrefix(xs, keys, n - 1);
      PickInsert(xs, keys, s, n - 1);
      PrefixSnoc(xs, n);
    }
  }

  lemma PrefixSnoc<T>(xs: seq<T>, n: nat)
    requires 0 < n <= |xs|
    ensures multiset(xs[..n]) == multiset(xs[..n - 1]) + multiset{xs[n - 1]}
  {
    assert xs[..n] == xs[..n - 1] + [xs[n - 1]];
  }


  /** Whatever a prefix of the sorted list leaves out has a key no larger
      than any key it keeps. */
  lemma TopOfSort<T>(xs: seq<T>, keys: seq<real>, k: nat, j: nat)
    requires |keys| == |xs| && k <= |xs| && j < |xs|
    requires xs[j] !in SortDesc(xs, keys)[..k]
    ensures forall i :: 0 <= i < k ==> keys[Order(keys)[i]] >= keys[j]
  {
    var p := Order(keys);
    assert j in p;
    var m :| 0 <= m < |p| && p[m] == j;
    var sorted := SortDesc(xs, keys);
    assert sorted[m] == xs[j];
    assert forall t :: 0 <= t < k ==> sorted[..k][t] in sorted[..k];
    assert m >= k;
    forall i | 0 <= i < k
      ensures keys[p[i]] >= keys[j]
    {
      assert Before(keys, p[i], p[m]);
    }
  }
}

=== FILE: superlatives.dfy ===
/** League-wide awards (lambda_functions/insights_engine/calculators/superlatives.py).

    Each award family ranks the insights that carry its metric, largest
    first, and hands out ranks 1, 2, 3 to the head of the ranking; target
    share also names the three smallest deltas as "losers".
 */
module Superlatives {
  import opened Wrappers
  import opened Seqs
  import opened Text
  import opened Models
  import Ranking

  // ---------------------------------------------------------------- metrics

  /** `volume_trends.target_share.delta`, when every step is set. */
  function TargetShareDelta(p: PlayerInsight): Option<real> {
    if p.volume.Some? && p.volume.value.targetShare.Some? then p.volume.value.targetShare.value.delta
    else None
  }

  function TouchesDelta(p: PlayerInsight): Option<real> {
    p.touchesDelta
  }

  function FantasyPointsDelta(p: PlayerInsight): Option<real> {
    p.fantasyPointsDelta
  }

  /** A ratio's delta when it is set and strictly positive (an improvement). */
  function Improvement(t: Option<Trend>): Option<real> {
    if t.Some? && t.value.delta.Some? && t.value.delta.value > 0.0 then t.value.delta else None
  }

  function YpcImprovement(p: PlayerInsight): Option<real> {
    if p.efficiency.Some? then Improvement(p.efficiency.value.yardsPerCarry) else None
  }

  function CatchRateImprovement(p: PlayerInsight): Option<real> {
    if p.efficiency.Some? then Improvement(p.efficiency.value.catchRate) else None
  }

  // ---------------------------------------------------------------- awards

  /** What an award family writes into each of its superlatives. */
  datatype Family = Family(category: string, subcategory: string, title: string, metricName: string)

  const TARGET_SHARE_GAINER := Family("volume", "target_share", "Target Share Gainer", "target_share_delta")
  const TARGET_SHARE_LOSER := Family("volume", "target_share", "Target Share Loser", "target_share_delta")
  const TOUCHES_GAINER := Family("volume", "touches", "Touches Gainer", "touches_delta")
  const YPC_IMPROVER := Family("efficiency", "yards_per_carry", "YPC Improver", "yards_per_carry_delta")
  const CATCH_RATE_IMPROVER := Family("efficiency", "catch_rate", "Catch Rate Improver", "catch_rate_delta")
  const FANTASY_GAINER := Family("fantasy_performance", "fantasy_points_ppr", "Fantasy Points Gainer", "fantasy_points_delta")

  /** `f"{title} (Rank {rank})"`. */
  function AwardName(title: string, rank: nat): string {
    title + " (Rank " + NatToString(rank) + ")"
  }

  /** The superlative family `f` gives insight `x`, with metric value `v`, at `rank`. */
  function Award(x: PlayerInsight, v: real, f: Family, rank: nat, season: int, week: int, timestamp: string)
    : Superlative
  {
    Superlative(f.category, f.subcategory, AwardName(f.title, rank), x.playerId, x.playerName,
                x.position, x.team, v, f.metricName, week, season, rank, timestamp)
  }

  /** One superlative per listed insight, ranked from `first` upwards in list order. */
  function Awards(xs: seq<PlayerInsight>, metric: PlayerInsight -> Option<real>, f: Family, first: nat,
                  season: int, week: int, timestamp: string): (r: seq<Superlative>)
    requires forall i :: 0 <= i < |xs| ==> metric(xs[i]).Some?
    ensures |r| == |xs|
    ensures forall i :: 0 <= i < |r| ==>
      r[i] == Award(xs[i], metric(xs[i]).value, f, first + i, season, week, timestamp)
  {
    if |xs| == 0 then []
    else
      [Award(xs[0], metric(xs[0]).value, f, first, season, week, timestamp)]
      + Awards(xs[1..], metric, f, first + 1, season, week, timestamp)
  }

  /** Every award of `r` is filed under the category and subcategory of `f`
      and ranks 1, 2 or 3. */
  predicate Filed(r: seq<Superlative>, f: Family) {
    forall i :: 0 <= i < |r| ==>
      r[i].category == f.category && r[i].subcategory == f.subcategory && 1 <= r[i].rank <= 3
  }

  /** The top three of the ranking by `metric`, as ranks 1..3 of family `f`. */
  function TopAwards(insights: seq<PlayerInsight>, metric: PlayerInsight -> Option<real>, f: Family,
                     season: int, week: int, timestamp: string): (r: seq<Superlative>)
    ensures |r| == Min(3, |Ranking.Candidates(insights, metric)|)
    ensures Filed(r, f)
    ensures forall i :: 0 <= i < |r| ==> r[i].rank == i + 1
    ensures forall i, j :: 0 <= i < j < |r| ==> r[i].value >= r[j].value
  {
    var ranked := Ranking.Ranked(insights, metric);
    var r := Awards(Take(ranked, 3), metric, f, 1, season, week, timestamp);
    forall i, j | 0 <= i < j < |r|
      ensures r[i].value >= r[j].value
    {
      Ranking.RankedOrdered(insights, metric, i, j);
    }
    r
  }

  /** Award `i` goes to the insight ranked `i`, for its metric value. */
  lemma TopAwardAt(insights: seq<PlayerInsight>, metric: PlayerInsight -> Option<real>, f: Family,
                   season: int, week: int, timestamp: string, i: nat)
    requires i < |TopAwards(insights, metric, f, season, week, timestamp)|
    ensures var x := Ranking.Ranked(insights, metric)[i];
      TopAwards(insights, metric, f, season, week, timestamp)[i]
        == Award(x, metric(x).value, f, i + 1, season, week, timestamp)
  {
  }

  /** Every listed insight has a target-share delta, largest first. */
  predicate DeltaDescending(ranked: seq<PlayerInsight>) {
    && (forall i :: 0 <= i < |ranked| ==> TargetShareDelta(ranked[i]).Some?)
    && (forall a, b :: 0 <= a < b < |ranked| ==> TargetShareDelta(ranked[a]).value >= TargetShareDelta(ranked[b]).value)
  }

  /** The target-share ranking satisfies `DeltaDescending`. */
  lemma RankedDescending(insights: seq<PlayerInsight>)
    ensures DeltaDescending(Ranking.Ranked(insights, TargetShareDelta))
  {
    var ranked := Ranking.Ranked(insights, TargetShareDelta);
    forall a, b | 0 <= a < b < |ranked|
      ensures TargetShareDelta(ranked[a]).value >= TargetShareDelta(ranked[b]).value
    {
      Ranking.RankedOrdered(insights, TargetShareDelta, a, b);
    }
  }

  /** The first three of `ranked` as ranks 1..3 of `Target Share Gainer`. */
  function Gainers(ranked: seq<PlayerInsight>, season: int, week: int, timestamp: string)
    : (r: seq<Superlative>)
    requires DeltaDescending(ranked)
    ensures |r| == Min(3, |ranked|)
    ensures forall i :: 0 <= i < |r| ==>
      r[i] == Award(ranked[i], TargetShareDelta(ranked[i]).value, TARGET_SHARE_GAINER, i + 1,
                    season, week, timestamp)
    ensures forall i, j :: 0 <= i < j < |r| ==> r[i].value >= r[j].value
    ensures Filed(r, TARGET_SHARE_GAINER)
  {
    Awards(Take(ranked, 3), TargetShareDelta, TARGET_SHARE_GAINER, 1, season, week, timestamp)
  }

  /** The last three of `ranked`, last first, as ranks 1..3 of `Target Share Loser`. */
  function Losers(ranked: seq<PlayerInsight>, season: int, week: int, timestamp: string)
    : (r: seq<Superlative>)
    requires DeltaDescending(ranked)
    ensures |r| == Min(3, |ranked|)
    ensures forall i :: 0 <= i < |r| ==>
      var x := ranked[|ranked| - 1 - i];
      r[i] == Award(x, TargetShareDelta(x).value, TARGET_SHARE_LOSER, i + 1, season, week, timestamp)
    ensures forall i, j :: 0 <= i < j < |r| ==> r[i].value <= r[j].value
    ensures Filed(r, TARGET_SHARE_LOSER)
  {
    var r := Awards(Reverse(TakeLast(ranked, 3)), TargetShareDelta, TARGET_SHARE_LOSER, 1, season, week, timestamp);
    forall i | 0 <= i < |r|
      ensures var x := ranked[|ranked| - 1 - i];
        r[i] == Award(x, TargetShareDelta(x).value, TARGET_SHARE_LOSER, i + 1, season, week, timestamp)
    {
      LastReversed(ranked, 3, i);
    }
    r
  }

  /** `_target_share_superlatives`: ranks 1..3 to the largest deltas, then
      ranks 1..3 to the smallest, smallest first. The losers are not filtered
      by sign. */
  function TargetShareAwards(insights: seq<PlayerInsight>, season: int, week: int, timestamp: string)
    : (r: seq<Superlative>)
    ensures |r| == 2 * Min(3, |Ranking.Candidates(insights, TargetShareDelta)|)
    ensures Filed(r, TARGET_SHARE_GAINER)
    ensures forall i, j :: 0 <= i < j < |r| / 2 ==> r[i].value >= r[j].value
    ensures forall i, j :: |r| / 2 <= i < j < |r| ==> r[i].value <= r[j].value
  {
    var ranked := Ranking.Ranked(insights, TargetShareDelta);
    if |ranked| == 0 then []
    else
      RankedDescending(insights);
      GainersThenLosers(ranked, season, week, timestamp)
  }

  /** The gainers of a descending ranking followed by its losers. */
  function GainersThenLosers(ranked: seq<PlayerInsight>, season: int, week: int, timestamp: string)
    : (r: seq<Superlative>)
    requires DeltaDescending(ranked)
    ensures |r| == 2 * Min(3, |ranked|)
    ensures Filed(r, TARGET_SHARE_GAINER)
    ensures forall i, j :: 0 <= i < j < |r| / 2 ==> r[i].value >= r[j].value
    ensures forall i, j :: |r| / 2 <= i < j < |r| ==> r[i].value <= r[j].value
  {
    var gainers := Gainers(ranked, season, week, timestamp);
    var losers := Losers(ranked, season, week, timestamp);
    HalvesOrdered(gainers, losers);
    gainers + losers
  }

  /** Gainers then losers: all filed under target share, the first half
      descending and the second half ascending. */
  lemma HalvesOrdered(g: seq<Superlative>, l: seq<Superlative>)
    requires |g| == |l|
    requires Filed(g, TARGET_SHARE_GAINER) && Filed(l, TARGET_SHARE_LOSER)
    requires forall i, j :: 0 <= i < j < |g| ==> g[i].value >= g[j].value
    requires forall i, j :: 0 <= i < j < |l| ==> l[i].value <= l[j].value
    ensures Filed(g + l, TARGET_SHARE_GAINER)
    ensures forall i, j :: 0 <= i < j < |g + l| / 2 ==> (g + l)[i].value >= (g + l)[j].value
    ensures forall i, j :: |g + l| / 2 <= i < j < |g + l| ==> (g + l)[i].value <= (g + l)[j].value
  {
    var r := g + l;
    forall i | 0 <= i < |r|
      ensures r[i].category == "volume" && r[i].subcategory == "target_share" && 1 <= r[i].rank <= 3
    {
      if i >= |g| {
        assert r[i] == l[i - |g|];
      }
    }
    forall i, j | |r| / 2 <= i < j < |r|
      ensures r[i].value <= r[j].value
    {
      assert r[i] == l[i - |g|] && r[j] == l[j - |g|];
    }
  }

  /** The first `min(3, n)` target-share awards go to the `n` ranked
      candidates from the top, as gainers. */
  lemma GainerAt(insights: seq<PlayerInsight>, season: int, week: int, timestamp: string, i: nat)
    requires i < Min(3, |Ranking.Ranked(insights, TargetShareDelta)|)
    ensures var x := Ranking.Ranked(insights, TargetShareDelta)[i];
      TargetShareAwards(insights, season, week, timestamp)[i]
        == Award(x, TargetShareDelta(x).value, TARGET_SHARE_GAINER, i + 1, season, week, timestamp)
  {
  }

  /** The rest go to the ranked candidates from the bottom, as losers. */
  lemma LoserAt(insights: seq<PlayerInsight>, season: int, week: int, timestamp: string, j: nat)
    requires j < Min(3, |Ranking.Ranked(insights, TargetShareDelta)|)
    ensures var ranked := Ranking.Ranked(insights, TargetShareDelta);
      var x := ranked[|ranked| - 1 - j];
      TargetShareAwards(insights, season, week, timestamp)[Min(3, |ranked|) + j]
        == Award(x, TargetShareDelta(x).value, TARGET_SHARE_LOSER, j + 1, season, week, timestamp)
  {
    var ranked := Ranking.Ranked(insights, TargetShareDelta);
    RankedDescending(insights);
    var gainers := Gainers(ranked, season, week, timestamp);
    var losers := Losers(ranked, season, week, timestamp);
    assert TargetShareAwards(insights, season, week, timestamp) == gainers + losers;
    assert (gainers + losers)[|gainers| + j] == losers[j];
  }

  /** With fewer than six candidates the gainers and losers share a player:
      the last gainer is also the loser of rank n - 2, counting from 0. */
  lemma LosersOverlapGainers(insights: seq<PlayerInsight>, season: int, week: int, timestamp: string)
    requires 0 < |Ranking.Candidates(insights, TargetShareDelta)| < 6
    ensures var r := TargetShareAwards(insights, season, week, timestamp);
      var n := |Ranking.Candidates(insights, TargetShareDelta)|;
      var k := Min(3, n);
      r[k - 1].playerId == r[n].playerId && r[k - 1].value == r[n].value
  {
    var ranked := Ranking.Ranked(insights, TargetShareDelta);
    var n := |ranked|;
    var k := Min(3, n);
    GainerAt(insights, season, week, timestamp, k - 1);
    LoserAt(insights, season, week, timestamp, n - k);
  }

  /** `generate_all_superlatives`: target share, touches, YPC, catch rate,
      then fantasy points, each family at most three deep (six for target
      share). */
  function AllSuperlatives(insights: seq<PlayerInsight>, season: int, week: int, timestamp: string)
    : (r: seq<Superlative>)
    ensures |r| == 2 * Min(3, |Ranking.Candidates(insights, TargetShareDelta)|)
                   + Min(3, |Ranking.Candidates(insights, TouchesDelta)|)
                   + Min(3, |Ranking.Candidates(insights, YpcImprovement)|)
                   + Min(3, |Ranking.Candidates(insights, CatchRateImprovement)|)
                   + Min(3, |Ranking.Candidates(insights, FantasyPointsDelta)|)
    ensures |r| <= 18
  {
    TargetShareAwards(insights, season, week, timestamp)
    + TopAwards(insights, TouchesDelta, TOUCHES_GAINER, season, week, timestamp)
    + TopAwards(insights, YpcImprovement, YPC_IMPROVER, season, week, timestamp)
    + TopAwards(insights, CatchRateImprovement, CATCH_RATE_IMPROVER, season, week, timestamp)
    + TopAwards(insights, FantasyPointsDelta, FANTASY_GAINER, season, week, timestamp)
  }

  /** Every award of the full list ranks 1, 2 or 3 within its family. */
  lemma AllRanksWithinThree(insights: seq<PlayerInsight>, season: int, week: int, timestamp: string)
    ensures RanksWithinThree(AllSuperlatives(insights, season, week, timestamp))
  {
    var ts := TargetShareAwards(insights, season, week, timestamp);
    var touches := TopAwards(insights, TouchesDelta, TOUCHES_GAINER, season, week, timestamp);
    var ypc := TopAwards(insights, YpcImprovement, YPC_IMPROVER, season, week, timestamp);
    var catchRate := TopAwards(insights, CatchRateImprovement, CATCH_RATE_IMPROVER, season, week, timestamp);
    var fantasy := TopAwards(insights, FantasyPointsDelta, FANTASY_GAINER, season, week, timestamp);
    FiledRanks(ts, TARGET_SHARE_GAINER);
    FiledRanks(touches, TOUCHES_GAINER);
    FiledRanks(ypc, YPC_IMPROVER);
    FiledRanks(catchRate, CATCH_RATE_IMPROVER);
    FiledRanks(fantasy, FANTASY_GAINER);
    RanksAppend(ts, touches);
    RanksAppend(ts + touches, ypc);
    RanksAppend(ts + touches + ypc, catchRate);
    RanksAppend(ts + touches + ypc + catchRate, fantasy);
  }

  predicate RanksWithinThree(r: seq<Superlative>) {
    forall i :: 0 <= i < |r| ==> 1 <= r[i].rank <= 3
  }

  lemma FiledRanks(r: seq<Superlative>, f: Family)
    requires Filed(r, f)
    ensures RanksWithinThree(r)
  {
  }

  lemma RanksAppend(a: seq<Superlative>, b: seq<Superlative>)
    requires RanksWithinThree(a) && RanksWithinThree(b)
    ensures RanksWithinThree(a + b)
  {
    assert forall i :: |a| <= i < |a + b| ==> (a + b)[i] == b[i - |a|];
  }

  /** The fantasy category of the full list is exactly the fantasy family:
      no other family files an award under it. */
  lemma FantasyCategoryIsFantasyFamily(insights: seq<PlayerInsight>, season: int, week: int, timestamp: string)
    ensures ByCategory(AllSuperlatives(insights, season, week, timestamp), "fantasy_performance", None)
         == TopAwards(insights, FantasyPointsDelta, FANTASY_GAINER, season, week, timestamp)
  {
    var ts := TargetShareAwards(insights, season, week, timestamp);
    var touches := TopAwards(insights, TouchesDelta, TOUCHES_GAINER, season, week, timestamp);
    var ypc := TopAwards(insights, YpcImprovement, YPC_IMPROVER, season, week, timestamp);
    var catchRate := TopAwards(insights, CatchRateImprovement, CATCH_RATE_IMPROVER, season, week, timestamp);
    var fantasy := TopAwards(insights, FantasyPointsDelta, FANTASY_GAINER, season, week, timestamp);
    assert AllSuperlatives(insights, season, week, timestamp) == ts + touches + ypc + catchRate + fantasy;
    FantasyBlockOnly(ts, touches, ypc, catchRate, fantasy);
  }

  /** Of five blocks filed under the five families, only the last is filed
      under the fantasy category. */
  lemma FantasyBlockOnly(a: seq<Superlative>, b: seq<Superlative>, c: seq<Superlative>, d: seq<Superlative>,
                         e: seq<Superlative>)
    requires Filed(a, TARGET_SHARE_GAINER) && Filed(b, TOUCHES_GAINER) && Filed(c, YPC_IMPROVER)
    requires Filed(d, CATCH_RATE_IMPROVER) && Filed(e, FANTASY_GAINER)
    ensures Filter(InCategory("fantasy_performance"), a + b + c + d + e) == e
  {
    var f := InCategory("fantasy_performance");
    FilterNone(f, a);
    FilterNone(f, b);
    FilterNone(f, c);
    FilterNone(f, d);
    FilterAll(f, e);
    FilterAppend(f, a, b);
    FilterAppend(f, a + b, c);
    FilterAppend(f, a + b + c, d);
    FilterAppend(f, a + b + c + d, e);
  }

  /** The full list is the five families one after another: each
      subcategory selects exactly its own family's awards, in their order. */
  lemma SubcategoryBlocks(insights: seq<PlayerInsight>, season: int, week: int, timestamp: string)
    ensures var all := AllSuperlatives(insights, season, week, timestamp);
      && Filter(InSubcategory("target_share"), all) == TargetShareAwards(insights, season, week, timestamp)
      && Filter(InSubcategory("touches"), all) == TopAwards(insights, TouchesDelta, TOUCHES_GAINER, season, week, timestamp)
      && Filter(InSubcategory("yards_per_carry"), all) == TopAwards(insights, YpcImprovement, YPC_IMPROVER, season, week, timestamp)
      && Filter(InSubcategory("catch_rate"), all) == TopAwards(insights, CatchRateImprovement, CATCH_RATE_IMPROVER, season, week, timestamp)
      && Filter(InSubcategory("fantasy_points_ppr"), all) == TopAwards(insights, FantasyPointsDelta, FANTASY_GAINER, season, week, timestamp)
  {
    var ts := TargetShareAwards(insights, season, week, timestamp);
    var touches := TopAwards(insights, TouchesDelta, TOUCHES_GAINER, season, week, timestamp);
    var ypc := TopAwards(insights, YpcImprovement, YPC_IMPROVER, season, week, timestamp);
    var catchRate := TopAwards(insights, CatchRateImprovement, CATCH_RATE_IMPROVER, season, week, timestamp);
    var fantasy := TopAwards(insights, FantasyPointsDelta, FANTASY_GAINER, season, week, timestamp);
    Regroup(ts, touches, ypc, catchRate, fantasy);
    Apart(ts, TARGET_SHARE_GAINER, touches, TOUCHES_GAINER, ypc, YPC_IMPROVER, catchRate, CATCH_RATE_IMPROVER, fantasy, FANTASY_GAINER);
    Block([], ts, touches + ypc + catchRate + fantasy, TARGET_SHARE_GAINER);
    Block(ts, touches, ypc + catchRate + fantasy, TOUCHES_GAINER);
    Block(ts + touches, ypc, catchRate + fantasy, YPC_IMPROVER);
    Block(ts + touches + ypc, catchRate, fantasy, CATCH_RATE_IMPROVER);
    Block(ts + touches + ypc + catchRate, fantasy, [], FANTASY_GAINER);
  }

  /** Five blocks in a row, grouped around each one of them. */
  lemma Regroup<T>(a: seq<T>, b: seq<T>, c: seq<T>, d: seq<T>, e: seq<T>)
    ensures a + b + c + d + e == [] + a + (b + c + d + e)
    ensures a + b + c + d + e == a + b + (c + d + e)
    ensures a + b + c + d + e == (a + b) + c + (d + e)
    ensures a + b + c + d + e == (a + b + c) + d + e
    ensures a + b + c + d + e == (a + b + c + d) + e + []
  {
  }

  /** No award of `s` is filed under subcategory `sub`. */
  predicate Elsewhere(s: seq<Superlative>, sub: string) {
    forall i :: 0 <= i < |s| ==> s[i].subcategory != sub
  }

  lemma ElsewhereAppend(a: seq<Superlative>, b: seq<Superlative>, sub: string)
    requires Elsewhere(a, sub) && Elsewhere(b, sub)
    ensures Elsewhere(a + b, sub)
  {
    assert forall i :: |a| <= i < |a + b| ==> (a + b)[i] == b[i - |a|];
  }

  lemma FiledElsewhere(r: seq<Superlative>, f: Family, sub: string)
    requires Filed(r, f) && f.subcategory != sub
    ensures Elsewhere(r, sub)
  {
  }

  /** Five blocks filed under five different subcategories: every block is
      elsewhere for the others' subcategories, and so is every run of
      neighbouring blocks. */
  lemma Apart(a: seq<Superlative>, fa: Family, b: seq<Superlative>, fb: Family, c: seq<Superlative>, fc: Family,
              d: seq<Superlative>, fd: Family, e: seq<Superlative>, fe: Family)
    requires Filed(a, fa) && Filed(b, fb) && Filed(c, fc) && Filed(d, fd) && Filed(e, fe)
    requires [fa.subcategory, fb.subcategory, fc.subcategory, fd.subcategory, fe.subcategory]
          == ["target_share", "touches", "yards_per_carry", "catch_rate", "fantasy_points_ppr"]
    ensures Elsewhere(b + c + d + e, fa.subcategory)
    ensures Elsewhere(a, fb.subcategory) && Elsewhere(c + d + e, fb.subcategory)
    ensures Elsewhere(a + b, fc.subcategory) && Elsewhere(d + e, fc.subcategory)
    ensures Elsewhere(a + b + c, fd.subcategory) && Elsewhere(e, fd.subcategory)
    ensures Elsewhere(a + b + c + d, fe.subcategory)
  {
    SubcategoriesDiffer();
    FiledElsewhere(b, fb, fa.subcategory);
    FiledElsewhere(c, fc, fa.subcategory);
    FiledElsewhere(d, fd, fa.subcategory);
    FiledElsewhere(e, fe, fa.subcategory);
    ElsewhereAppend(b, c, fa.subcategory);
    ElsewhereAppend(b + c, d, fa.subcategory);
    ElsewhereAppend(b + c + d, e, fa.subcategory);
    FiledElsewhere(a, fa, fb.subcategory);
    FiledElsewhere(c, fc, fb.subcategory);
    FiledElsewhere(d, fd, fb.subcategory);
    FiledElsewhere(e, fe, fb.subcategory);
    ElsewhereAppend(c, d, fb.subcategory);
    ElsewhereAppend(c + d, e, fb.subcategory);
    FiledElsewhere(a, fa, fc.subcategory);
    FiledElsewhere(b, fb, fc.subcategory);
    FiledElsewhere(d, fd, fc.subcategory);
    FiledElsewhere(e, fe, fc.subcategory);
    ElsewhereAppend(a, b, fc.subcategory);
    ElsewhereAppend(d, e, fc.subcategory);
    FiledElsewhere(a, fa, fd.subcategory);
    FiledElsewhere(b, fb, fd.subcategory);
    FiledElsewhere(c, fc, fd.subcategory);
    FiledElsewhere(e, fe, fd.subcategory);
    ElsewhereAppend(a, b, fd.subcategory);
    ElsewhereAppend(a + b, c, fd.subcategory);
    FiledElsewhere(a, fa, fe.subcategory);
    FiledElsewhere(b, fb, fe.subcategory);
    FiledElsewhere(c, fc, fe.subcategory);
    FiledElsewhere(d, fd, fe.subcategory);
    ElsewhereAppend(a, b, fe.subcategory);
    ElsewhereAppend(a + b, c, fe.subcategory);
    ElsewhereAppend(a + b + c, d, fe.subcategory);
  }

  lemma SubcategoriesDiffer()
    ensures Distinct(["target_share", "touches", "yards_per_carry", "catch_rate", "fantasy_points_ppr"])
  {
  }

  /** Selecting family `f`'s subcategory keeps its own block and drops the
      awards around it, filed under other subcategories. */
  lemma Block(before: seq<Superlative>, own: seq<Superlative>, after: seq<Superlative>, f: Family)
    requires Filed(own, f)
    requires Elsewhere(before, f.subcategory) && Elsewhere(after, f.subcategory)
    ensures Filter(InSubcategory(f.subcategory), before + own + after) == own
  {
    var p := InSubcategory(f.subcategory);
    FilterAll(p, own);
    FilterNone(p, before);
    FilterNone(p, after);
    FilterAppend(p, before, own);
    FilterAppend(p, before + own, after);
  }

  // ---------------------------------------------------------------- filters

  function InCategory(category: string): Superlative -> bool {
    (s: Superlative) => s.category == category
  }

  function InSubcategory(subcategory: string): Superlative -> bool {
    (s: Superlative) => s.subcategory == subcategory
  }

  /** Whether `s` belongs to `category` and, when a non-empty subcategory is
      given, to that subcategory as well. */
  predicate Selected(s: Superlative, category: string, subcategory: Option<string>) {
    s.category == category && (subcategory.None? || |subcategory.value| == 0 || s.subcategory == subcategory.value)
  }

  /** `get_superlatives_by_category`: the subcategory narrows the result only
      when it is given and non-empty. */
  function ByCategory(sups: seq<Superlative>, category: string, subcategory: Option<string>)
    : (r: seq<Superlative>)
    ensures forall i :: 0 <= i < |r| ==> r[i] in sups && r[i].category == category
    ensures subcategory.Some? && |subcategory.value| > 0 ==>
      forall i :: 0 <= i < |r| ==> r[i].subcategory == subcategory.value
    ensures forall x :: multiset(r)[x] == if Selected(x, category, subcategory) then multiset(sups)[x] else 0
  {
    var byCategory := Filter(InCategory(category), sups);
    var r := if subcategory.Some? && |subcategory.value| > 0
      then Filter(InSubcategory(subcategory.value), byCategory) else byCategory;
    forall x
      ensures multiset(r)[x] == if Selected(x, category, subcategory) then multiset(sups)[x] else 0
    {
      FilterCounts(InCategory(category), sups, x);
      if subcategory.Some? && |subcategory.value| > 0 {
        FilterCounts(InSubcategory(subcategory.value), byCategory, x);
      }
    }
    r
  }

  /** `get_player_awards`: every award of the player, each as often as it occurs. */
  function PlayerAwards(sups: seq<Superlative>, playerId: string): (r: seq<Superlative>)
    ensures forall i :: 0 <= i < |r| ==> r[i] in sups && r[i].playerId == playerId
    ensures forall x :: multiset(r)[x] == if x.playerId == playerId then multiset(sups)[x] else 0
  {
    var f := (s: Superlative) => s.playerId == playerId;
    var r := Filter(f, sups);
    forall x
      ensures multiset(r)[x] == if x.playerId == playerId then multiset(sups)[x] else 0
    {
      FilterCounts(f, sups, x);
    }
    r
  }
}

=== FILE: team_insights.dfy ===
/** The team insights calculator
    (lambda_functions/insights_engine/calculators/team_insights.py).

    A team's aggregated current line, the previous week's aggregate (absent
    in the first week), the history aggregates and the team's player lines
    become one `TeamInsight`: a plays-per-game and a pass-rate trend when
    the current aggregate is non-empty, and the RB committee entropy and the
    top-3 WR target distribution when the team has player lines. Neither
    trend carries a regression. `math.log2` and `round(x, 3)` are taken as
    parameters (`Numerics`).
 */
module TeamInsights {
  import opened Wrappers
  import opened Seqs
  import opened Records
  import opened Models
  import opened Trends
  import Ranking
  import PyDict

  // ---------------------------------------------------------------- numerics

  /** `math.log2` and `round(x, 3)`. */
  datatype Numerics = Numerics(log2: real -> real, round3: real -> real)

  /** What the contracts rely on: log2 is non-positive on (0, 1], log2(1) is
      0 and log2(1/2) is -1; rounding keeps non-negative values non-negative
      and 0 at 0. */
  ghost predicate Sound(num: Numerics) {
    && (forall p: real :: 0.0 < p <= 1.0 ==> num.log2(p) <= 0.0)
    && num.log2(1.0) == 0.0
    && num.log2(0.5) == -1.0
    && (forall x: real :: x >= 0.0 ==> num.round3(x) >= 0.0)
    && num.round3(0.0) == 0.0
  }

  // ---------------------------------------------------------------- aggregation

  const PASS_ATTEMPTS := "pass_attempts"
  const RUSH_ATTEMPTS := "rush_attempts"
  const TOTAL_YARDS := "total_yards"
  const TOTAL_TDS := "total_tds"

  /** `p.get('team') == team`. */
  function OnTeam(team: string): Rec -> bool {
    (p: Rec) => p.Text(TEAM) == Some(team)
  }

  /** A player's pass attempts count only when the player is a QB. */
  function QbAttempts(p: Rec): real {
    if p.Text(POSITION) == Some("QB") then p.Num(ATTEMPTS) else 0.0
  }

  function Carries(p: Rec): real {
    p.Num(CARRIES)
  }

  function Yards(p: Rec): real {
    p.Num(PASSING_YARDS) + p.Num(RUSHING_YARDS) + p.Num(RECEIVING_YARDS)
  }

  function Tds(p: Rec): real {
    p.Num(PASSING_TDS) + p.Num(RUSHING_TDS) + p.Num(RECEIVING_TDS)
  }

  datatype Totals = Totals(passAttempts: real, rushAttempts: real, yards: real, tds: real)

  /** One pass of the aggregation loop. */
  function AddPlayer(t: Totals, p: Rec): Totals {
    Totals(t.passAttempts + QbAttempts(p), t.rushAttempts + Carries(p), t.yards + Yards(p), t.tds + Tds(p))
  }

  /** The aggregation loop over `ps`, starting from `t`. */
  function Accumulate(t: Totals, ps: seq<Rec>): Totals
    decreases |ps|
  {
    if |ps| == 0 then t else Accumulate(AddPlayer(t, ps[0]), ps[1..])
  }

  /** The loop adds up each column: every total is the column's sum. */
  lemma {:induction false} AccumulateSums(t: Totals, ps: seq<Rec>)
    ensures Accumulate(t, ps) == Totals(t.passAttempts + Sum(Map(QbAttempts, ps)),
                                        t.rushAttempts + Sum(Map(Carries, ps)),
                                        t.yards + Sum(Map(Yards, ps)),
                                        t.tds + Sum(Map(Tds, ps)))
    decreases |ps|
  {
    if |ps| > 0 {
      AccumulateSums(AddPlayer(t, ps[0]), ps[1..]);
      assert Map(QbAttempts, ps)[1..] == Map(QbAttempts, ps[1..]);
      assert Map(Carries, ps)[1..] == Map(Carries, ps[1..]);
      assert Map(Yards, ps)[1..] == Map(Yards, ps[1..]);
      assert Map(Tds, ps)[1..] == Map(Tds, ps[1..]);
    }
  }

  /** `aggregate_team_stats_from_players(players, team)`: `{}` when no player
      is on the team, otherwise the team name and the four column totals over
      the team's players. */
  function AggregateTeamStats(players: seq<Rec>, team: string): (r: Rec)
    ensures r.NonEmpty() <==> exists i :: 0 <= i < |players| && players[i].Text(TEAM) == Some(team)
    ensures !r.NonEmpty() ==> r == Rec(map[], map[])
    ensures r.NonEmpty() ==>
      && r.text == map[TEAM := team]
      && r.nums.Keys == {PASS_ATTEMPTS, RUSH_ATTEMPTS, TOTAL_YARDS, TOTAL_TDS}
    ensures r.NonEmpty() ==>
      var ps := Filter(OnTeam(team), players);
      && r.Num(PASS_ATTEMPTS) == Sum(Map(QbAttempts, ps))
      && r.Num(RUSH_ATTEMPTS) == Sum(Map(Carries, ps))
      && r.Num(TOTAL_YARDS) == Sum(Map(Yards, ps))
      && r.Num(TOTAL_TDS) == Sum(Map(Tds, ps))
  {
    var ps := Filter(OnTeam(team), players);
    if |ps| == 0 then
      assert forall i :: 0 <= i < |players| ==> !OnTeam(team)(players[i]);
      Rec(map[], map[])
    else
      AccumulateSums(Totals(0.0, 0.0, 0.0, 0.0), ps);
      assert ps[0] in players;
      TotalsRecord(team, Accumulate(Totals(0.0, 0.0, 0.0, 0.0), ps))
  }

  /** The aggregated dict for one team: its name and the four totals. */
  function TotalsRecord(team: string, t: Totals): (r: Rec)
    ensures r.NonEmpty()
    ensures r.text == map[TEAM := team]
    ensures r.nums.Keys == {PASS_ATTEMPTS, RUSH_ATTEMPTS, TOTAL_YARDS, TOTAL_TDS}
    ensures && r.Num(PASS_ATTEMPTS) == t.passAttempts && r.Num(RUSH_ATTEMPTS) == t.rushAttempts
            && r.Num(TOTAL_YARDS) == t.yards && r.Num(TOTAL_TDS) == t.tds
  {
    Rec(map[TEAM := team],
        map[PASS_ATTEMPTS := t.passAttempts, RUSH_ATTEMPTS := t.rushAttempts,
            TOTAL_YARDS := t.yards, TOTAL_TDS := t.tds])
  }

  /** Only the team's own players count: adding other teams' lines changes nothing. */
  lemma OtherTeamsIgnored(players: seq<Rec>, others: seq<Rec>, team: string)
    requires forall i :: 0 <= i < |others| ==> others[i].Text(TEAM) != Some(team)
    ensures AggregateTeamStats(players + others, team) == AggregateTeamStats(players, team)
  {
    FilterAppend(OnTeam(team), players, others);
    FilterNone(OnTeam(team), others);
    assert Filter(OnTeam(team), players + others) == Filter(OnTeam(team), players);
    var all := players + others;
    if exists i :: 0 <= i < |all| && all[i].Text(TEAM) == Some(team) {
      var i :| 0 <= i < |all| && all[i].Text(TEAM) == Some(team);
      assert i < |players| && players[i] == all[i];
    }
  }

  // ---------------------------------------------------------------- plays per game

  /** `pass_attempts + rush_attempts`, each defaulting to 0. */
  function Plays(r: Rec): real {
    r.Num(PASS_ATTEMPTS) + r.Num(RUSH_ATTEMPTS)
  }

  /** The history weeks with a positive play count, in order. */
  function PlaysHistory(history: seq<Rec>): (r: seq<real>)
    ensures forall i :: 0 <= i < |r| ==> r[i] > 0.0
  {
    Filter(IsPositive, Map(Plays, history))
  }

  /** The previous play count, kept only when it is truthy (present and non-zero). */
  function PrevPlays(previous: Option<Rec>): (r: Option<real>)
    ensures r.Some? <==> Present(previous) && Plays(previous.value) != 0.0
  {
    if Present(previous) && Plays(previous.value) != 0.0 then Some(Plays(previous.value)) else None
  }

  /** `_calculate_plays_per_game_trend`. */
  function PlaysTrend(current: Rec, previous: Option<Rec>, history: seq<Rec>): (t: Trend)
    ensures t.current == Plays(current)
    ensures t.previous.Some? <==> Present(previous) && Plays(previous.value) != 0.0
    ensures t.previous.Some? ==> t.previous.value == Plays(previous.value)
    ensures t.delta.Some? <==> t.previous.Some?
    ensures t.deltaPct.Some? <==> t.previous.Some?
    ensures t.delta.Some? ==> t.previous.value + t.delta.value == t.current
    ensures |t.threeWeek| == 0 || |t.threeWeek| == 3
    ensures forall i :: 0 <= i < |t.threeWeek| ==> t.threeWeek[i] > 0.0
    ensures t.direction.None? && t.slope.None? && t.projected.None?
  {
    var prev := PrevPlays(previous);
    var hist := PlaysHistory(history);
    var t := BareTrend(Plays(current));
    var t := if prev.Some? then
               var delta := Plays(current) - prev.value;
               t.(previous := prev, delta := Some(delta), deltaPct := Some(delta / prev.value * 100.0))
             else t;
    if |hist| >= 3 then t.(threeWeek := hist[|hist| - 3..]) else t
  }

  /** The plays trend is the shared trend primitive without its regression,
      over the truthy previous count and the positive history counts. */
  lemma PlaysTrendIsTrend(current: Rec, previous: Option<Rec>, history: seq<Rec>)
    ensures PlaysTrend(current, previous, history)
         == WithoutRegression(CalculateTrend(Plays(current), PrevPlays(previous), PlaysHistory(history)))
  {
  }

  // ---------------------------------------------------------------- pass rate

  /** `pass_attempts / (pass_attempts + rush_attempts)` when the total is positive. */
  function PassRate(r: Rec): (rate: Option<real>)
    ensures rate.Some? <==> Plays(r) > 0.0
  {
    if Plays(r) > 0.0 then Some(r.Num(PASS_ATTEMPTS) / Plays(r)) else None
  }

  /** With non-negative attempts the pass rate is a fraction. */
  lemma PassRateInUnit(r: Rec)
    requires r.Num(PASS_ATTEMPTS) >= 0.0 && r.Num(RUSH_ATTEMPTS) >= 0.0
    ensures PassRate(r).Some? ==> 0.0 <= PassRate(r).value <= 1.0
  {
    if Plays(r) > 0.0 {
      RatioAtMostOne(r.Num(PASS_ATTEMPTS), Plays(r));
    }
  }

  lemma RatioAtMostOne(a: real, b: real)
    requires 0.0 <= a <= b && b > 0.0
    ensures 0.0 <= a / b <= 1.0
  {
    assert a / b * b == a;
  }

  function HasRate(r: Rec): bool {
    PassRate(r).Some?
  }

  function RateOf(r: Rec): real {
    PassRate(r).GetOr(0.0)
  }

  /** The pass rates of the history weeks with a positive play count, in order. */
  function PassRateHistory(history: seq<Rec>): (r: seq<real>)
    ensures |r| == |Filter(HasRate, history)|
  {
    Map(RateOf, Filter(HasRate, history))
  }

  /** The previous pass rate, when there is a previous line with a positive play count. */
  function PrevPassRate(previous: Option<Rec>): (r: Option<real>)
    ensures r.Some? <==> Present(previous) && Plays(previous.value) > 0.0
  {
    if Present(previous) then PassRate(previous.value) else None
  }

  /** `_calculate_pass_rate_trend`. */
  function PassRateTrend(current: Rec, previous: Option<Rec>, history: seq<Rec>): (t: Trend)
    ensures t.current == if Plays(current) > 0.0 then current.Num(PASS_ATTEMPTS) / Plays(current) else 0.0
    ensures t.previous.Some? <==> Present(previous) && Plays(previous.value) > 0.0
    ensures t.delta.Some? <==> t.previous.Some?
    ensures t.deltaPct.Some? <==> t.previous.Some? && t.previous.value != 0.0
    ensures t.delta.Some? ==> t.previous.value + t.delta.value == t.current
    ensures |t.threeWeek| == 0 || |t.threeWeek| == 3
    ensures t.direction.None? && t.slope.None? && t.projected.None?
  {
    UnfittedTrend(PassRate(current).GetOr(0.0), PrevPassRate(previous), PassRateHistory(history))
  }

  /** The pass-rate trend is the shared trend primitive without its regression. */
  lemma PassRateTrendIsTrend(current: Rec, previous: Option<Rec>, history: seq<Rec>)
    ensures PassRateTrend(current, previous, history)
         == WithoutRegression(CalculateTrend(PassRate(current).GetOr(0.0), PrevPassRate(previous),
                                             PassRateHistory(history)))
  {
    UnfittedIsTrend(PassRate(current).GetOr(0.0), PrevPassRate(previous), PassRateHistory(history));
  }

  // ---------------------------------------------------------------- RB committee entropy

  function IsRb(p: Rec): bool {
    p.Text(POSITION) == Some("RB")
  }

  /** `carries + receptions`, each defaulting to 0. */
  function RbTouches(p: Rec): real {
    p.Num(CARRIES) + p.Num(RECEPTIONS)
  }

  /** The positive touch counts of the team's RBs, in input order. */
  function RbTouchList(players: seq<Rec>): (r: seq<real>)
    ensures forall i :: 0 <= i < |r| ==> r[i] > 0.0
  {
    Filter(IsPositive, Map(RbTouches, Filter(IsRb, players)))
  }

  /** `-p * log2(p)` for `p = t / total`, skipped when `p` is not positive. */
  function EntropyTerm(num: Numerics, t: real, total: real): real
    requires total > 0.0
  {
    var p := t / total;
    if p > 0.0 then -(p * num.log2(p)) else 0.0
  }

  /** The Shannon entropy sum over the touch counts `ts`. */
  function Entropy(num: Numerics, ts: seq<real>, total: real): real
    requires total > 0.0
  {
    if |ts| == 0 then 0.0 else EntropyTerm(num, ts[0], total) + Entropy(num, ts[1..], total)
  }

  /** A share of at most the whole contributes a non-negative term. */
  lemma TermNonNegative(num: Numerics, t: real, total: real)
    requires Sound(num) && 0.0 < t <= total
    ensures EntropyTerm(num, t, total) >= 0.0
  {
    var p := t / total;
    RatioAtMostOne(t, total);
    assert p > 0.0;
    var l := num.log2(p);
    assert l <= 0.0;
    assert p * l <= 0.0 by {
      assert p * (-l) >= 0.0;
    }
  }

  /** Entropy over shares of at most the whole is never negative. */
  lemma {:induction false} EntropyNonNegative(num: Numerics, ts: seq<real>, total: real)
    requires Sound(num) && total > 0.0
    requires forall i :: 0 <= i < |ts| ==> 0.0 < ts[i] <= total
    ensures Entropy(num, ts, total) >= 0.0
  {
    if |ts| > 0 {
      TermNonNegative(num, ts[0], total);
      EntropyNonNegative(num, ts[1..], total);
    }
  }

  /** `_calculate_rb_committee_entropy`: 0 without RBs or without RB
      touches, otherwise the rounded Shannon entropy of the touch shares. */
  function RbCommitteeEntropy(num: Numerics, players: seq<Rec>): (e: real)
    ensures RbTouchList(players) == [] ==> e == 0.0
    ensures Sound(num) ==> e >= 0.0
  {
    var rbs := Filter(IsRb, players);
    if |rbs| == 0 then 0.0
    else
      var touches := RbTouchList(players);
      var total := Sum(touches);
      if total == 0.0 then 0.0
      else
        SumNonNegative(touches);
        EntropyBounded(num, touches);
        num.round3(Entropy(num, touches, total))
  }

  /** Over positive counts the entropy of their shares is non-negative. */
  lemma EntropyBounded(num: Numerics, touches: seq<real>)
    requires Sum(touches) > 0.0
    requires forall i :: 0 <= i < |touches| ==> touches[i] > 0.0
    ensures Sound(num) ==> Entropy(num, touches, Sum(touches)) >= 0.0
  {
    if Sound(num) {
      forall i | 0 <= i < |touches|
        ensures touches[i] <= Sum(touches)
      {
        TermAtMostSum(touches, i);
      }
      EntropyNonNegative(num, touches, Sum(touches));
    }
  }

  /** A bell-cow back, the only RB with touches, gives entropy 0. */
  lemma BellCowEntropy(num: Numerics, players: seq<Rec>)
    requires Sound(num) && |RbTouchList(players)| == 1
    ensures RbCommitteeEntropy(num, players) == 0.0
  {
    var ts := RbTouchList(players);
    var t := ts[0];
    assert t > 0.0;
    assert Sum(ts) == t by {
      assert ts[1..] == [];
    }
    EntropyOfTouches(num, players);
    OneTerm(num, t);
    assert ts == [t];
  }

  lemma OneTerm(num: Numerics, t: real)
    requires Sound(num) && t > 0.0
    ensures Entropy(num, [t], t) == 0.0
  {
    assert t / t == 1.0;
    assert EntropyTerm(num, t, t) == 0.0;
    assert [t][1..] == [];
  }

  /** Two backs sharing the touches evenly give one bit of entropy. */
  lemma EvenSplitEntropy(num: Numerics, players: seq<Rec>, t: real)
    requires Sound(num) && RbTouchList(players) == [t, t]
    ensures RbCommitteeEntropy(num, players) == num.round3(1.0)
  {
    var ts := RbTouchList(players);
    assert ts[0] == t;
    assert t > 0.0;
    SumTwice(t);
    EntropyOfTouches(num, players);
    Half(t);
    EvenTerms(num, t);
  }

  lemma SumTwice(t: real)
    ensures Sum([t, t]) == 2.0 * t
  {
    assert [t, t][1..] == [t] && [t][1..] == [];
    assert Sum([t]) == t + Sum([t][1..]);
  }

  lemma EvenTerms(num: Numerics, t: real)
    requires Sound(num) && t > 0.0 && t / (2.0 * t) == 0.5
    ensures Entropy(num, [t, t], 2.0 * t) == 1.0
  {
    assert EntropyTerm(num, t, 2.0 * t) == 0.5;
    assert [t, t][1..] == [t] && [t][1..] == [];
    assert Entropy(num, [t], 2.0 * t) == 0.5;
  }

  /** With some RB touches the result is the rounded entropy of their shares. */
  lemma EntropyOfTouches(num: Numerics, players: seq<Rec>)
    requires |RbTouchList(players)| > 0
    ensures Sum(RbTouchList(players)) > 0.0
    ensures RbCommitteeEntropy(num, players)
         == num.round3(Entropy(num, RbTouchList(players), Sum(RbTouchList(players))))
  {
    SumPositive(RbTouchList(players));
    assert |Map(RbTouches, Filter(IsRb, players))| > 0;
  }

  lemma Half(t: real)
    requires t > 0.0
    ensures t / (2.0 * t) == 0.5
  {
    var d := 2.0 * t;
    assert d / d == 1.0;
    assert t / d == (d / d) / 2.0;
  }

  // ---------------------------------------------------------------- WR target distribution

  /** A WR's targets, when the player is a WR with a positive count. */
  function WrTargets(p: Rec): (r: Option<real>)
    ensures r.Some? ==> r.value > 0.0
  {
    if p.Text(POSITION) == Some("WR") && p.Num(TARGETS) > 0.0 then Some(p.Num(TARGETS)) else None
  }

  function Targets(p: Rec): real {
    p.Num(TARGETS)
  }

  /** `p.get('player_name', 'Unknown')`. */
  function WrName(p: Rec): string {
    p.TextOr(PLAYER_NAME, "Unknown")
  }

  /** The WRs with targets. */
  function Wrs(players: seq<Rec>): (r: seq<Rec>)
    ensures forall i :: 0 <= i < |r| ==> r[i] in players && Targets(r[i]) > 0.0
  {
    Ranking.Candidates(players, WrTargets)
  }

  /** The WRs' total targets. */
  function WrTotal(players: seq<Rec>): real {
    Sum(Map(Targets, Wrs(players)))
  }

  /** The three WRs with the most targets, ties in input order. */
  function TopWrs(players: seq<Rec>): (r: seq<Rec>)
    ensures |r| == Min(3, |Wrs(players)|)
    ensures forall i :: 0 <= i < |r| ==> r[i] in players && WrTargets(r[i]).Some?
  {
    Take(Ranking.Ranked(players, WrTargets), 3)
  }

  /** The distribution pair of one WR: name and rounded target share. */
  function Shares(num: Numerics, wrs: seq<Rec>, total: real): (r: seq<(string, real)>)
    requires total > 0.0
    ensures |r| == |wrs|
    ensures forall i :: 0 <= i < |wrs| ==> r[i] == (WrName(wrs[i]), num.round3(Targets(wrs[i]) / total))
  {
    if |wrs| == 0 then [] else [(WrName(wrs[0]), num.round3(Targets(wrs[0]) / total))] + Shares(num, wrs[1..], total)
  }

  /** The WRs' total is positive as soon as there is one. */
  lemma WrTotalPositive(players: seq<Rec>)
    requires |Wrs(players)| > 0
    ensures WrTotal(players) > 0.0
  {
    SumPositive(Map(Targets, Wrs(players)));
  }

  /** `_calculate_wr_target_distribution`: `{name: round(targets / total, 3)}`
      for the top three WRs by targets, where a later WR with the same name
      overwrites an earlier one. */
  function WrTargetDistribution(num: Numerics, players: seq<Rec>): (d: seq<(string, real)>)
    ensures |d| <= 3
    ensures PyDict.DistinctKeys(d)
    ensures |d| == 0 <==> |Wrs(players)| == 0
  {
    var wrs := Wrs(players);
    if |wrs| == 0 then []
    else
      WrTotalPositive(players);
      PyDict.FromPairs(Shares(num, TopWrs(players), WrTotal(players)))
  }

  /** `e` is the name and rounded share of the `j`-th top WR. */
  predicate IsShareOf(num: Numerics, players: seq<Rec>, j: nat, e: (string, real))
    requires j < |TopWrs(players)| && WrTotal(players) > 0.0
  {
    e == (WrName(TopWrs(players)[j]), num.round3(Targets(TopWrs(players)[j]) / WrTotal(players)))
  }

  /** Every entry of the distribution belongs to one of the top three WRs. */
  lemma DistributionFromTop(num: Numerics, players: seq<Rec>, i: nat)
    requires i < |WrTargetDistribution(num, players)|
    ensures WrTotal(players) > 0.0
    ensures exists j :: 0 <= j < |TopWrs(players)| && IsShareOf(num, players, j, WrTargetDistribution(num, players)[i])
  {
    WrTotalPositive(players);
    var es := Shares(num, TopWrs(players), WrTotal(players));
    var d := WrTargetDistribution(num, players);
    assert d == PyDict.FromPairs(es);
    assert d[i] in es;
    var j :| 0 <= j < |es| && es[j] == d[i];
    assert IsShareOf(num, players, j, d[i]);
  }

  /** With a sound rounding every share in the distribution is non-negative. */
  lemma DistributionNonNegative(num: Numerics, players: seq<Rec>, i: nat)
    requires Sound(num) && i < |WrTargetDistribution(num, players)|
    ensures WrTargetDistribution(num, players)[i].1 >= 0.0
  {
    DistributionFromTop(num, players, i);
    var e := WrTargetDistribution(num, players)[i];
    var top := TopWrs(players);
    var total := WrTotal(players);
    var j :| 0 <= j < |top| && IsShareOf(num, players, j, e);
    var x := Targets(top[j]);
    assert WrTargets(top[j]).Some?;
    assert x > 0.0;
    PositiveRatio(x, total);
    assert e.1 == num.round3(x / total);
  }

  lemma PositiveRatio(a: real, b: real)
    requires a > 0.0 && b > 0.0
    ensures a / b > 0.0
  {
  }

  /** Every one of the top three WRs is named in the distribution. */
  lemma TopWrNamed(num: Numerics, players: seq<Rec>, j: nat)
    requires j < |TopWrs(players)|
    ensures PyDict.Get(WrTargetDistribution(num, players), WrName(TopWrs(players)[j])).Some?
  {
    WrTotalPositive(players);
    var es := Shares(num, TopWrs(players), WrTotal(players));
    PyDict.LastValueAt(es, j);
    PyDict.FromPairsLastWins(es, es[j].0);
  }

  /** When the top three WRs' names differ, the distribution lists them in
      rank order with their rounded shares. */
  lemma DistinctNamesDistribution(num: Numerics, players: seq<Rec>)
    requires forall a, b :: 0 <= a < b < |TopWrs(players)| ==> WrName(TopWrs(players)[a]) != WrName(TopWrs(players)[b])
    requires |Wrs(players)| > 0
    ensures WrTotal(players) > 0.0
    ensures WrTargetDistribution(num, players) == Shares(num, TopWrs(players), WrTotal(players))
  {
    WrTotalPositive(players);
    var es := Shares(num, TopWrs(players), WrTotal(players));
    assert PyDict.DistinctKeys(es);
    PyDict.FromDistinctPairs(es);
  }

  // ---------------------------------------------------------------- team insight

  /** `calculate_team_insights`: the shared plays and pass-rate trends when
      the current aggregate is non-empty, the RB entropy and WR target
      distribution when there are player lines, and never a pace trend. The previous week's player lines are not used. */
  function TeamInsightOf(num: Numerics, team: string, current: Rec, previous: Option<Rec>, history: seq<Rec>,
                         players: seq<Rec>, season: int, week: int, timestamp: string): (t: TeamInsight)
    ensures t.team == team && t.week == week && t.season == season && t.timestamp == timestamp
    ensures t.playsPerGame.Some? <==> current.NonEmpty()
    ensures t.passRate.Some? <==> current.NonEmpty()
    ensures t.pace.None?
    ensures t.rbEntropy.Some? <==> |players| > 0
    ensures t.wrDistribution.Some? <==> |players| > 0
    ensures t.playsPerGame.Some? ==> t.playsPerGame.value.slope.None? && t.playsPerGame.value.current == Plays(current)
    ensures t.passRate.Some? ==> t.passRate.value.slope.None?
    ensures Sound(num) && t.rbEntropy.Some? ==> t.rbEntropy.value >= 0.0
    ensures t.wrDistribution.Some? ==> |t.wrDistribution.value| <= 3
    ensures current.NonEmpty() ==>
              t.playsPerGame == Some(WithoutRegression(CalculateTrend(Plays(current), PrevPlays(previous), PlaysHistory(history))))
    ensures current.NonEmpty() ==>
              t.passRate == Some(WithoutRegression(CalculateTrend(PassRate(current).GetOr(0.0), PrevPassRate(previous),
                                                                  PassRateHistory(history))))
    ensures |players| > 0 ==> t.rbEntropy == Some(RbCommitteeEntropy(num, players))
    ensures |players| > 0 ==> t.wrDistribution == Some(WrTargetDistribution(num, players))
  {
    PlaysTrendIsTrend(current, previous, history);
    PassRateTrendIsTrend(current, previous, history);
    var base := TeamInsight(team, week, season, None, None, None, None, None, timestamp);
    var withTrends := if current.NonEmpty() then
                        base.(playsPerGame := Some(PlaysTrend(current, previous, history)),
                              passRate := Some(PassRateTrend(current, previous, history)))
                      else base;
    if |players| > 0 then
      withTrends.(rbEntropy := Some(RbCommitteeEntropy(num, players)),
                  wrDistribution := Some(WrTargetDistribution(num, players)))
    else withTrends
  }
}

=== FILE: text.dfy ===
/** String helpers standing in for the Python string methods the system uses:
    `lower()` (ASCII only), `in` on strings, `split(sep)`, `split(sep, 1)`,
    `strip()` (ASCII whitespace only), `str(n)` for naturals and `int(s)`.
 */
module Text {
  import opened Wrappers

  // ---------------------------------------------------------------- lower()

  function LowerChar(c: char): char {
    if 'A' <= c <= 'Z' then (c as int + 32) as char else c
  }

  function Lower(s: string): (r: string)
    ensures |r| == |s|
    ensures forall i :: 0 <= i < |s| ==> r[i] == LowerChar(s[i])
  {
    if |s| == 0 then "" else [LowerChar(s[0])] + Lower(s[1..])
  }

  /** Python's `a.lower() == b.lower()` over ASCII. */
  predicate EqualsIgnoreCase(a: string, b: string) {
    Lower(a) == Lower(b)
  }

  // ---------------------------------------------------------------- `sub in s`

  /** Python's `sub in s`. */
  predicate Contains(s: string, sub: string)
    decreases |s|
  {
    if |s| < |sub| then false
    else s[..|sub|] == sub || Contains(s[1..], sub)
  }

  /** `Contains` agrees with the positional definition of a substring. */
  lemma {:induction false} ContainsAt(s: string, sub: string, i: nat)
    requires i + |sub| <= |s| && s[i..i + |sub|] == sub
    ensures Contains(s, sub)
    decreases i
  {
    if i == 0 {
      assert s[..|sub|] == s[0..|sub|];
    } else {
      assert s[1..][i - 1..i - 1 + |sub|] == s[i..i + |sub|];
      ContainsAt(s[1..], sub, i - 1);
    }
  }

  /** Where `Contains` holds, the substring starts at some position. */
  lemma {:induction false} ContainsWitness(s: string, sub: string) returns (i: nat)
    requires Contains(s, sub)
    ensures i + |sub| <= |s| && s[i..i + |sub|] == sub
    decreases |s|
  {
    if s[..|sub|] == sub {
      i := 0;
    } else {
      var k := ContainsWitness(s[1..], sub);
      assert s[1..][k..k + |sub|] == s[k + 1..k + 1 + |sub|];
      i := k + 1;
    }
  }

  // ---------------------------------------------------------------- split

  function IndexOf(s: string, c: char): (r: Option<nat>)
    ensures r.Some? ==> r.value < |s| && s[r.value] == c
    ensures r.Some? ==> forall j :: 0 <= j < r.value ==> s[j] != c
    ensures r.None? ==> forall j :: 0 <= j < |s| ==> s[j] != c
  {
    if |s| == 0 then None
    else if s[0] == c then Some(0)
    else match IndexOf(s[1..], c)
      case None => None
      case Some(k) => Some(k + 1)
  }

  /** Python's `s.split(sep)` for a one-character separator. */
  function Split(s: string, sep: char): (parts: seq<string>)
    ensures |parts| >= 1
    ensures forall k, j :: 0 <= k < |parts| && 0 <= j < |parts[k]| ==> parts[k][j] != sep
    decreases |s|
  {
    match IndexOf(s, sep)
    case None => [s]
    case Some(i) => [s[..i]] + Split(s[i + 1..], sep)
  }

  /** Python's `sep.join(parts)`. */
  function Join(parts: seq<string>, sep: char): string {
    if |parts| == 0 then ""
    else if |parts| == 1 then parts[0]
    else parts[0] + [sep] + Join(parts[1..], sep)
  }

  /** Splitting loses nothing: joining the parts back gives the original string. */
  lemma {:induction false} SplitJoin(s: string, sep: char)
    ensures Join(Split(s, sep), sep) == s
    decreases |s|
  {
    match IndexOf(s, sep)
    case None =>
    case Some(i) =>
      var rest := Split(s[i + 1..], sep);
      SplitJoin(s[i + 1..], sep);
      assert Split(s, sep) == [s[..i]] + rest;
      assert s == s[..i] + [sep] + s[i + 1..];
  }

  // ---------------------------------------------------------------- strip()

  /** ASCII characters Python's `str.isspace` accepts. */
  predicate IsSpace(c: char) {
    c == ' ' || (9 <= c as int <= 13) || (28 <= c as int <= 31)
  }

  function TrimStart(s: string): (r: string)
    ensures |r| <= |s| && r == s[|s| - |r|..]
    ensures |r| > 0 ==> !IsSpace(r[0])
    ensures forall j :: 0 <= j < |s| - |r| ==> IsSpace(s[j])
  {
    if |s| > 0 && IsSpace(s[0]) then TrimStart(s[1..]) else s
  }

  function TrimEnd(s: string): (r: string)
    ensures |r| <= |s| && r == s[..|r|]
    ensures |r| > 0 ==> !IsSpace(r[|r| - 1])
    ensures forall j :: |r| <= j < |s| ==> IsSpace(s[j])
  {
    if |s| > 0 && IsSpace(s[|s| - 1]) then TrimEnd(s[..|s| - 1]) else s
  }

  /** Python's `s.strip()`: the longest infix with no whitespace at either end. */
  function Strip(s: string): (r: string)
    ensures |r| <= |s|
    ensures |r| > 0 ==> !IsSpace(r[0]) && !IsSpace(r[|r| - 1])
  {
    TrimEnd(TrimStart(s))
  }

  // ---------------------------------------------------------------- str(n), int(s)

  function DigitChar(d: nat): char
    requires d < 10
  {
    ('0' as int + d) as char
  }

  predicate IsDigit(c: char) {
    '0' <= c <= '9'
  }

  function DigitValue(c: char): nat
    requires IsDigit(c)
  {
    c as int - '0' as int
  }

  /** Python's `str(n)` for a natural number. */
  function NatToString(n: nat): (r: string)
    ensures |r| >= 1
    ensures forall i :: 0 <= i < |r| ==> IsDigit(r[i])
  {
    if n < 10 then [DigitChar(n)] else NatToString(n / 10) + [DigitChar(n % 10)]
  }

  predicate AllDigits(s: string) {
    forall i :: 0 <= i < |s| ==> IsDigit(s[i])
  }

  function DigitsValue(s: string): nat
    requires AllDigits(s)
  {
    if |s| == 0 then 0 else DigitsValue(s[..|s| - 1]) * 10 + DigitValue(s[|s| - 1])
  }

  /** Python's `int(s)` on an optional sign followed by ASCII digits; anything else fails. */
  function ParseInt(s: string): Option<int> {
    if |s| > 0 && (s[0] == '-' || s[0] == '+') then
      var body := s[1..];
      if |body| > 0 && AllDigits(body) then
        Some(if s[0] == '-' then -(DigitsValue(body) as int) else DigitsValue(body) as int)
      else None
    else if |s| > 0 && AllDigits(s) then Some(DigitsValue(s) as int)
    else None
  }

  /** Rendering a natural and parsing it back gives the same number. */
  lemma {:induction false} NatToStringRoundTrip(n: nat)
    ensures ParseInt(NatToString(n)) == Some(n as int)
  {
    DigitsOfNatToString(n);
  }

  lemma {:induction false} DigitsOfNatToString(n: nat)
    ensures DigitsValue(NatToString(n)) == n
  {
    if n >= 10 {
      var s := NatToString(n);
      DigitsOfNatToString(n / 10);
      assert s[..|s| - 1] == NatToString(n / 10);
    }
  }
}

=== FILE: trends.dfy ===
/** The trend primitive of the player insights calculator
    (`_calculate_trend`, `_calculate_linear_regression`). */
module Trends {
  import opened Wrappers
  import opened Seqs
  import opened Models

  // ---------------------------------------------------------------- regression

  /** `list(range(n))` as reals. */
  function Xs(n: nat): (r: seq<real>)
    ensures |r| == n
    ensures forall i :: 0 <= i < n ==> r[i] == i as real
  {
    if n == 0 then [] else Xs(n - 1) + [(n - 1) as real]
  }

  /** `statistics.mean(s)`. */
  function Mean(s: seq<real>): real
    requires |s| > 0
  {
    Sum(s) / |s| as real
  }

  /** `sum((xs[i] - mx) * (ys[i] - my) for i in range(n))`. */
  function CrossDev(xs: seq<real>, ys: seq<real>, mx: real, my: real): real
    requires |xs| == |ys|
  {
    if |xs| == 0 then 0.0
    else (xs[0] - mx) * (ys[0] - my) + CrossDev(xs[1..], ys[1..], mx, my)
  }

  /** `sum((xs[i] - mx) ** 2 for i in range(n))`. */
  function SquareDev(xs: seq<real>, mx: real): real {
    if |xs| == 0 then 0.0 else (xs[0] - mx) * (xs[0] - mx) + SquareDev(xs[1..], mx)
  }

  lemma {:induction false} SquareDevNonNegative(xs: seq<real>, mx: real)
    ensures SquareDev(xs, mx) >= 0.0
  {
    if |xs| > 0 {
      SquareDevNonNegative(xs[1..], mx);
      SquareNonNegative(xs[0] - mx);
    }
  }

  lemma SquareNonNegative(d: real)
    ensures d * d >= 0.0
  {
    if d < 0.0 {
      assert d * d == (-d) * (-d);
    }
  }

  lemma PositiveSquare(d: real)
    requires d != 0.0
    ensures d * d > 0.0
  {
    if d < 0.0 {
      assert d * d == (-d) * (-d);
    }
  }

  /** With two or more points the x spread is never zero, so the
      `denominator == 0` branch of the regression cannot be taken. */
  lemma XSpreadPositive(n: nat)
    requires n >= 2
    ensures SquareDev(Xs(n), Mean(Xs(n))) > 0.0
  {
    var xs := Xs(n);
    var m := Mean(xs);
    SquareDevNonNegative(xs[2..], m);
    assert xs[1..][1..] == xs[2..];
    SquareNonNegative(xs[0] - m);
    SquareNonNegative(xs[1] - m);
    assert (xs[0] - m) * (xs[0] - m) + (xs[1] - m) * (xs[1] - m) > 0.0 by {
      if xs[0] - m == 0.0 {
        assert xs[1] - m == 1.0;
      } else {
        PositiveSquare(xs[0] - m);
      }
    }
  }

  /** Ordinary least squares over x = 0..n-1: the slope and the value
      projected at x = n, floored at 0; (0, last value) for fewer than two
      points or a zero x spread, and (0, 0) for no points. */
  function Regression(values: seq<real>): (r: (real, real))
    ensures |values| == 0 ==> r == (0.0, 0.0)
    ensures |values| == 1 ==> r == (0.0, values[0])
  {
    if |values| < 2 then (0.0, if |values| > 0 then values[|values| - 1] else 0.0)
    else
      var n := |values|;
      var xs := Xs(n);
      var xm := Mean(xs);
      var ym := Mean(values);
      var numerator := CrossDev(xs, values, xm, ym);
      var denominator := SquareDev(xs, xm);
      if denominator == 0.0 then (0.0, values[n - 1])
      else
        var slope := numerator / denominator;
        var intercept := ym - slope * xm;
        var projected := slope * n as real + intercept;
        (slope, MaxReal(0.0, projected))
  }

  /** The projection is never negative once there are two points. */
  lemma ProjectionNonNegative(values: seq<real>)
    requires |values| >= 2
    ensures Regression(values).1 >= 0.0
  {
    XSpreadPositive(|values|);
  }

  /** Over three points the regression has a closed form: the slope is half
      the change from the first to the last point, and the projection is the
      mean plus two slopes, floored at 0. */
  lemma Regression3(v: seq<real>)
    requires |v| == 3
    ensures Regression(v).0 == (v[2] - v[0]) / 2.0
    ensures Regression(v).1 == MaxReal(0.0, (v[0] + v[1] + v[2]) / 3.0 + (v[2] - v[0]))
  {
    var xs := Xs(3);
    assert xs == [0.0, 1.0, 2.0];
    assert Sum(xs) == 3.0;
    assert Mean(xs) == 1.0;
    assert Sum(v[2..]) == v[2] by {
      assert v[2..][1..] == [];
    }
    assert v[1..][1..] == v[2..];
    assert Sum(v) == v[0] + v[1] + v[2];
    var ym := Mean(v);
    assert xs[1..][1..] == [2.0];
    assert SquareDev(xs, 1.0) == 2.0;
    assert CrossDev(xs[2..], v[2..], 1.0, ym) == v[2] - ym by {
      assert xs[2..][1..] == [] && v[2..][1..] == [];
    }
    assert xs[1..][1..] == xs[2..];
    assert CrossDev(xs, v, 1.0, ym) == v[2] - v[0];
  }

  /** The regression over exactly three points, in the closed form of
      `Regression3`: the slope and the floored projection. */
  function Fit3(v: seq<real>): (r: (real, real))
    requires |v| == 3
    ensures r.1 >= 0.0
    ensures r.0 > 0.0 <==> v[2] > v[0]
  {
    ((v[2] - v[0]) / 2.0, MaxReal(0.0, (v[0] + v[1] + v[2]) / 3.0 + (v[2] - v[0])))
  }

  /** The closed form is the least-squares fit. */
  lemma Fit3IsRegression(v: seq<real>)
    requires |v| == 3
    ensures Fit3(v) == Regression(v)
  {
    Regression3(v);
  }

  /** Points on a line are fitted exactly: the slope is the line's and the
      projection is the line's next value, floored at 0. */
  lemma RegressionOfLine(a: real, b: real)
    ensures Regression([a, a + b, a + 2.0 * b]) == (b, MaxReal(0.0, a + 3.0 * b))
  {
    Regression3([a, a + b, a + 2.0 * b]);
  }

  /** The example [10, 20, 30]: slope 10, projection 40. */
  lemma RegressionExample()
    ensures Regression([10.0, 20.0, 30.0]) == (10.0, 40.0)
  {
    RegressionOfLine(10.0, 10.0);
  }

  // ---------------------------------------------------------------- trend

  /** The direction of a slope against the ±0.05 threshold. */
  function Classify(slope: real): (d: Direction)
    ensures d == Rising <==> slope > 0.05
    ensures d == Falling <==> slope < -0.05
    ensures d == Stable <==> -0.05 <= slope <= 0.05
  {
    if slope > 0.05 then Rising else if slope < -0.05 then Falling else Stable
  }

  /** `_calculate_trend(current, previous, history)`. */
  function CalculateTrend(current: real, previous: Option<real>, history: seq<real>): (t: Trend)
    ensures t.current == current && t.previous == previous
    ensures t.delta.Some? <==> previous.Some?
    ensures previous.Some? ==> t.delta == Some(current - previous.value)
    ensures t.deltaPct.Some? <==> previous.Some? && previous.value != 0.0
    ensures t.deltaPct.Some? ==> t.deltaPct.value == (current - previous.value) / previous.value * 100.0
    ensures |history| < 3 ==> t.threeWeek == [] && t.slope.None? && t.projected.None? && t.direction.None?
    ensures |history| >= 3 ==>
      var n := |history|;
      && t.threeWeek == [history[n - 3], history[n - 2], history[n - 1]]
      && t.slope == Some((history[n - 1] - history[n - 3]) / 2.0)
      && t.projected == Some(MaxReal(0.0, (history[n - 3] + history[n - 2] + history[n - 1]) / 3.0
                                          + (history[n - 1] - history[n - 3])))
      && t.direction == Some(Classify(t.slope.value))
  {
    var delta := if previous.Some? then Some(current - previous.value) else None;
    var deltaPct := if previous.Some? && previous.value != 0.0 then Some(delta.value / previous.value * 100.0) else None;
    if |history| >= 3 then
      var last3 := history[|history| - 3..];
      var (slope, projected) := Fit3(last3);
      Trend(current, previous, delta, deltaPct, last3, Some(Classify(slope)), Some(slope), Some(projected))
    else
      Trend(current, previous, delta, deltaPct, [], None, None, None)
  }

  /** The delta undoes the previous value: previous + delta is the current
      value, and the percentage scales back to the delta. */
  lemma DeltaInverse(current: real, previous: Option<real>, history: seq<real>)
    ensures var t := CalculateTrend(current, previous, history);
      && (t.delta.Some? ==> t.previous.value + t.delta.value == current)
      && (t.deltaPct.Some? ==> t.deltaPct.value * t.previous.value / 100.0 == t.delta.value)
  {
  }

  /** Only the last three history values matter. */
  lemma TrendUsesLastThree(current: real, previous: Option<real>, older: seq<real>, history: seq<real>)
    requires |history| >= 3
    ensures CalculateTrend(current, previous, older + history) == CalculateTrend(current, previous, history)
  {
    var h := older + history;
    assert h[|h| - 3..] == history[|history| - 3..];
  }

  /** The trend the team and defense calculators build by hand: the value,
      the delta and percentage change against a previous value (no
      percentage against 0), and the last three history values, with no
      fitted line. */
  function UnfittedTrend(current: real, previous: Option<real>, history: seq<real>): (t: Trend)
    ensures t.direction.None? && t.slope.None? && t.projected.None?
  {
    var t := BareTrend(current);
    var t := if previous.Some? then
               var delta := current - previous.value;
               t.(previous := previous, delta := Some(delta),
                  deltaPct := if previous.value != 0.0 then Some(delta / previous.value * 100.0) else None)
             else t;
    if |history| >= 3 then t.(threeWeek := history[|history| - 3..]) else t
  }

  /** Building the trend by hand agrees with the shared primitive once its
      fitted line is dropped. */
  lemma UnfittedIsTrend(current: real, previous: Option<real>, history: seq<real>)
    ensures UnfittedTrend(current, previous, history) == WithoutRegression(CalculateTrend(current, previous, history))
  {
    var n := |history|;
    if n >= 3 {
      assert history[n - 3..] == [history[n - 3], history[n - 2], history[n - 1]];
    }
  }

  /** The trend with no direction, slope or projection: the team and defense
      calculators never fit a line. */
  function WithoutRegression(t: Trend): Trend {
    t.(direction := None, slope := None, projected := None)
  }
}

=== FILE: validation.dfy ===
/** The fetch-side checks a week and the metadata file must pass before they
    are written (lambda_functions/data_fetcher/validation.py, class
    `DataValidator`).

    Error messages are kept as a datatype instead of formatted strings. Python
    calls a message critical when its lower-cased text contains "missing" or
    "corruption"; `Critical` says which kinds of message that is, given the
    fixed wording of each one.
 */
module Validation {
  import opened Wrappers
  import opened Seqs
  import opened Records
  import Text

  // ---------------------------------------------------------------- minimum player counts

  const MIN_PLAYERS_REGULAR: nat := 800
  const MIN_PLAYERS_WILDCARD: nat := 300
  const MIN_PLAYERS_DIVISIONAL: nat := 150
  const MIN_PLAYERS_CONFERENCE: nat := 100
  const MIN_PLAYERS_SUPERBOWL: nat := 50

  /** The fewest players a complete week can have: one game fewer per playoff
      round, the regular season everywhere else. */
  function MinPlayersForWeek(week: int): (r: nat)
    ensures r >= MIN_PLAYERS_SUPERBOWL
    ensures r <= MIN_PLAYERS_REGULAR
    ensures (week < 19 || week > 22) <==> r == MIN_PLAYERS_REGULAR
    ensures week == 19 ==> r == 300
    ensures week == 20 ==> r == 150
    ensures week == 21 ==> r == 100
    ensures week == 22 ==> r == 50
  {
    if week == 22 then MIN_PLAYERS_SUPERBOWL
    else if week == 21 then MIN_PLAYERS_CONFERENCE
    else if week == 20 then MIN_PLAYERS_DIVISIONAL
    else if week == 19 then MIN_PLAYERS_WILDCARD
    else MIN_PLAYERS_REGULAR
  }

  /** Later playoff rounds never expect more players than earlier ones. */
  lemma PlayoffMinimumsShrink(a: int, b: int)
    requires 18 <= a <= b <= 22
    ensures MinPlayersForWeek(b) <= MinPlayersForWeek(a)
  {
  }

  // ---------------------------------------------------------------- stat ranges

  datatype StatRange = StatRange(stat: string, lo: real, hi: real)

  /** `DataValidator.STAT_RANGES`, in declaration order. */
  const STAT_RANGES: seq<StatRange> := [
    StatRange(FANTASY_POINTS_PPR, -10.0, 100.0),
    StatRange(PASSING_YARDS, 0.0, 600.0),
    StatRange(PASSING_TDS, 0.0, 10.0),
    StatRange(RUSHING_YARDS, -20.0, 300.0),
    StatRange(RUSHING_TDS, 0.0, 6.0),
    StatRange(RECEPTIONS, 0.0, 25.0),
    StatRange(RECEIVING_YARDS, -20.0, 350.0),
    StatRange(RECEIVING_TDS, 0.0, 6.0),
    StatRange(TARGETS, 0.0, 30.0)
  ]

  const REQUIRED_PLAYER_FIELDS: seq<string> := [PLAYER_ID, PLAYER_NAME, POSITION, TEAM, "week"]

  // ---------------------------------------------------------------- inputs and messages

  /** One element of the `players` list: a dict, or anything else (None, a
      string, a number), which every check skips. */
  datatype Entry = NotDict | Dict(fields: Rec)

  /** `p and isinstance(p, dict)`. */
  predicate IsPlayer(e: Entry) {
    e.Dict? && e.fields.NonEmpty()
  }

  /** The parts of the week payload the checks look at. */
  datatype WeeklyPayload = NoDataKey | NoPlayersKey | WithPlayers(players: seq<Entry>)

  datatype Outlier = Outlier(stat: string, player: string, value: real, lo: real, hi: real)

  datatype Message =
    | DataKeyMissing
    | PlayersKeyMissing
    | FewPlayers(count: nat, expected: nat, week: int)
    | FieldsMissing(fields: seq<string>)
    | Unusual(outlier: Outlier)
    | Corruption(outliers: nat)

  /** `'missing' in m.lower() or 'corruption' in m.lower()`. The two
      missing-key messages and the missing-fields message say "missing", the
      outlier summary says "corruption", and the player-count message says
      neither. An outlier message quotes the player's name, and only the name
      can carry either word. */
  predicate Critical(m: Message) {
    match m
    case FewPlayers(_, _, _) => false
    case Unusual(o) => NameIsCritical(o.player)
    case _ => true
  }

  predicate NameIsCritical(name: string) {
    Text.Contains(Text.Lower(name), "missing") || Text.Contains(Text.Lower(name), "corruption")
  }

  predicate NoneCritical(errors: seq<Message>) {
    forall i :: 0 <= i < |errors| ==> !Critical(errors[i])
  }

  datatype Verdict<M> = Verdict(valid: bool, errors: seq<M>)

  // ---------------------------------------------------------------- validate_weekly_data

  /** The first player dict among the first ten entries. */
  function Sample(players: seq<Entry>): (r: Option<Rec>)
    ensures r.Some? <==> exists i :: 0 <= i < |players| && i < 10 && IsPlayer(players[i])
  {
    FirstPlayer(Take(players, 10))
  }

  function FirstPlayer(players: seq<Entry>): (r: Option<Rec>)
    ensures r.Some? <==> exists i :: 0 <= i < |players| && IsPlayer(players[i])
    ensures r.Some? ==> exists i :: 0 <= i < |players| && IsPlayer(players[i]) && players[i].fields == r.value
                          && forall j :: 0 <= j < i ==> !IsPlayer(players[j])
  {
    if |players| == 0 then None
    else if IsPlayer(players[0]) then Some(players[0].fields)
    else
      var r := FirstPlayer(players[1..]);
      if r.Some? then
        var i :| 0 <= i < |players[1..]| && IsPlayer(players[1..][i]) && players[1..][i].fields == r.value
                 && forall j :: 0 <= j < i ==> !IsPlayer(players[1..][j]);
        assert players[i + 1] == players[1..][i];
        r
      else r
  }

  predicate HasField(r: Rec, k: string) {
    k in r.text || k in r.nums
  }

  /** The required fields the sample lacks, in declaration order. */
  function MissingFields(sample: Rec): (r: seq<string>)
    ensures forall i :: 0 <= i < |r| ==> r[i] in REQUIRED_PLAYER_FIELDS && !HasField(sample, r[i])
    ensures forall k :: k in REQUIRED_PLAYER_FIELDS && !HasField(sample, k) ==> k in r
  {
    Filter((k: string) => !HasField(sample, k), REQUIRED_PLAYER_FIELDS)
  }

  /** The stat of range `g` is present in `p` and falls outside it. */
  predicate OutOfRange(p: Rec, g: StatRange) {
    p.Get(g.stat).Some? && (p.Get(g.stat).value < g.lo || p.Get(g.stat).value > g.hi)
  }

  /** The outlier reported for player `p` against a range `g` it breaks. */
  function OutlierAt(p: Rec, g: StatRange): Outlier {
    Outlier(g.stat, p.TextOr(PLAYER_NAME, "Unknown"), p.Num(g.stat), g.lo, g.hi)
  }

  /** The out-of-range stats of one player, in `STAT_RANGES` order. */
  function PlayerOutliers(p: Rec): (r: seq<Outlier>)
    ensures forall i :: 0 <= i < |r| ==> r[i].value < r[i].lo || r[i].value > r[i].hi
  {
    RangeOutliers(p, STAT_RANGES)
  }

  /** The outlier a single range yields: one when the player breaks it. */
  function Flagged(p: Rec, g: StatRange): (r: seq<Outlier>)
    ensures |r| <= 1
  {
    if OutOfRange(p, g) then [OutlierAt(p, g)] else []
  }

  function RangeOutliers(p: Rec, ranges: seq<StatRange>): (r: seq<Outlier>)
    ensures |r| <= |ranges|
    ensures forall i :: 0 <= i < |r| ==> r[i].value < r[i].lo || r[i].value > r[i].hi
  {
    if |ranges| == 0 then [] else Flagged(p, ranges[0]) + RangeOutliers(p, ranges[1..])
  }

  /** The ranges the player breaks, each reported once, in range order, with
      the player's name and value. */
  lemma {:induction false} RangeOutliersExact(p: Rec, ranges: seq<StatRange>)
    ensures RangeOutliers(p, ranges)
            == Map((g: StatRange) => OutlierAt(p, g), Filter((g: StatRange) => OutOfRange(p, g), ranges))
    decreases |ranges|
  {
    if |ranges| > 0 {
      RangeOutliersExact(p, ranges[1..]);
    }
  }

  /** A player's outliers are exactly the `STAT_RANGES` entries it breaks:
      every reported outlier is a range the player's value lies outside, and
      every range the value lies outside is reported. */
  lemma PlayerOutliersExact(p: Rec)
    ensures forall o :: o in PlayerOutliers(p) ==>
              exists g :: g in STAT_RANGES && OutOfRange(p, g) && o == OutlierAt(p, g)
    ensures forall j :: 0 <= j < |STAT_RANGES| && OutOfRange(p, STAT_RANGES[j]) ==> OutlierAt(p, STAT_RANGES[j]) in PlayerOutliers(p)
  {
    RangeOutliersCover(p, STAT_RANGES);
  }

  /** Every reported outlier comes from a range the player breaks, and every
      range the player breaks is reported. */
  lemma {:induction false} RangeOutliersCover(p: Rec, ranges: seq<StatRange>)
    ensures forall o :: o in RangeOutliers(p, ranges) ==>
              exists g :: g in ranges && OutOfRange(p, g) && o == OutlierAt(p, g)
    ensures forall j :: 0 <= j < |ranges| && OutOfRange(p, ranges[j]) ==> OutlierAt(p, ranges[j]) in RangeOutliers(p, ranges)
    decreases |ranges|
  {
    if |ranges| > 0 {
      var tl := ranges[1..];
      RangeOutliersCover(p, tl);
      var r := RangeOutliers(p, ranges);
      assert r == Flagged(p, ranges[0]) + RangeOutliers(p, tl);
      forall o | o in r
        ensures exists g :: g in ranges && OutOfRange(p, g) && o == OutlierAt(p, g)
      {
        if o !in RangeOutliers(p, tl) {
          assert OutOfRange(p, ranges[0]) && o == OutlierAt(p, ranges[0]);
        } else {
          var g :| g in tl && OutOfRange(p, g) && o == OutlierAt(p, g);
          assert g in ranges;
        }
      }
      forall j | 0 <= j < |ranges| && OutOfRange(p, ranges[j])
        ensures OutlierAt(p, ranges[j]) in r
      {
        if j > 0 {
          assert ranges[j] == tl[j - 1];
        }
      }
    }
  }

  /** The outliers of an entry that is a player dict. */
  function EntryOutliers(e: Entry): seq<Outlier> {
    if IsPlayer(e) then PlayerOutliers(e.fields) else []
  }

  /** Every out-of-range stat of every player dict, in scan order. */
  function Outliers(players: seq<Entry>): (r: seq<Outlier>)
    ensures |r| <= |players| * |STAT_RANGES|
  {
    if |players| == 0 then []
    else
      (if IsPlayer(players[0]) then PlayerOutliers(players[0].fields) else [])
      + Outliers(players[1..])
  }

  /** The scan joins the player dicts' own outliers one after another,
      skipping every entry that is not a player dict. */
  lemma {:induction false} OutliersJoined(players: seq<Entry>)
    ensures Outliers(players) == Concat(Map(EntryOutliers, Filter(IsPlayer, players)))
    decreases |players|
  {
    if |players| > 0 {
      OutliersJoined(players[1..]);
      var tail := Map(EntryOutliers, Filter(IsPlayer, players[1..]));
      if IsPlayer(players[0]) {
        assert Filter(IsPlayer, players) == [players[0]] + Filter(IsPlayer, players[1..]);
        assert Map(EntryOutliers, Filter(IsPlayer, players)) == [EntryOutliers(players[0])] + tail;
        ConcatCons(EntryOutliers(players[0]), tail);
      }
    }
  }

  function AsMessage(o: Outlier): Message {
    Unusual(o)
  }

  function CountErrors(players: seq<Entry>, week: int): seq<Message> {
    if |players| < MinPlayersForWeek(week) then [FewPlayers(|players|, MinPlayersForWeek(week), week)] else []
  }

  function FieldErrors(sample: Rec): seq<Message> {
    var missing := MissingFields(sample);
    if |missing| > 0 then [FieldsMissing(missing)] else []
  }

  /** The outliers among the first hundred entries. */
  function Scanned(players: seq<Entry>): seq<Outlier> {
    Outliers(Take(players, 100))
  }

  /** The first three outliers are reported one by one; more than twenty in
      all add a corruption warning. */
  function OutlierErrors(outliers: seq<Outlier>): seq<Message> {
    Map(AsMessage, Take(outliers, 3)) + (if |outliers| > 20 then [Corruption(|outliers|)] else [])
  }

  function SampleErrors(players: seq<Entry>): seq<Message> {
    match Sample(players)
    case None => []
    case Some(s) => FieldErrors(s) + OutlierErrors(Scanned(players))
  }

  /** The messages for a payload that holds a player list. */
  function WeeklyErrors(players: seq<Entry>, week: int): seq<Message> {
    CountErrors(players, week) + SampleErrors(players)
  }

  /** `DataValidator.validate_weekly_data(data, week)`. */
  function ValidateWeekly(payload: WeeklyPayload, week: int): (r: Verdict<Message>)
    ensures payload.NoDataKey? ==> r == Verdict(false, [DataKeyMissing])
    ensures payload.NoPlayersKey? ==> r == Verdict(false, [PlayersKeyMissing])
    ensures r.valid <==> NoneCritical(r.errors)
    ensures payload.WithPlayers? && |payload.players| < MinPlayersForWeek(week) ==>
              |r.errors| > 0 && r.errors[0] == FewPlayers(|payload.players|, MinPlayersForWeek(week), week)
  {
    match payload
    case NoDataKey =>
      var errors := [DataKeyMissing];
      assert Critical(errors[0]);
      Verdict(false, errors)
    case NoPlayersKey =>
      var errors := [PlayersKeyMissing];
      assert Critical(errors[0]);
      Verdict(false, errors)
    case WithPlayers(ps) =>
      var errors := WeeklyErrors(ps, week);
      Verdict(NoneCritical(errors), errors)
  }

  lemma NoneCriticalAppend(a: seq<Message>, b: seq<Message>)
    ensures NoneCritical(a + b) <==> NoneCritical(a) && NoneCritical(b)
  {
    if NoneCritical(a) && NoneCritical(b) {
      forall i | 0 <= i < |a + b|
        ensures !Critical((a + b)[i])
      {
        if i >= |a| {
          assert (a + b)[i] == b[i - |a|];
        }
      }
    }
    if NoneCritical(a + b) {
      forall i | 0 <= i < |a|
        ensures !Critical(a[i])
      {
        assert (a + b)[i] == a[i];
      }
      forall i | 0 <= i < |b|
        ensures !Critical(b[i])
      {
        assert (a + b)[|a| + i] == b[i];
      }
    }
  }

  /** The outlier messages are harmless unless there are more than twenty
      outliers or one of the first three names a player whose name says
      "missing" or "corruption". */
  lemma OutlierErrorsHarmless(outliers: seq<Outlier>)
    ensures NoneCritical(OutlierErrors(outliers)) <==>
              |outliers| <= 20 && forall k :: 0 <= k < |outliers| && k < 3 ==> !NameIsCritical(outliers[k].player)
  {
    var shown := Map(AsMessage, Take(outliers, 3));
    var tail: seq<Message> := if |outliers| > 20 then [Corruption(|outliers|)] else [];
    NoneCriticalAppend(shown, tail);
    if |outliers| <= 20 && forall k :: 0 <= k < |outliers| && k < 3 ==> !NameIsCritical(outliers[k].player) {
      forall i | 0 <= i < |shown|
        ensures !Critical(shown[i])
      {
        assert shown[i] == Unusual(outliers[i]);
      }
    }
    if NoneCritical(shown) {
      forall k | 0 <= k < |outliers| && k < 3
        ensures !NameIsCritical(outliers[k].player)
      {
        assert shown[k] == Unusual(outliers[k]);
      }
    }
    if |outliers| > 20 {
      assert tail[0] == Corruption(|outliers|);
    }
  }

  /** A week passes exactly when its sample player has every required field,
      the first hundred entries hold at most twenty outliers, and none of the
      first three outliers belongs to a player whose name says "missing" or
      "corruption". The player count never decides it, and when none of the
      first ten entries is a player dict nothing else is checked at all. */
  lemma {:induction false} WeeklyValidIff(players: seq<Entry>, week: int)
    ensures ValidateWeekly(WithPlayers(players), week).valid <==>
              match Sample(players)
              case None => true
              case Some(s) =>
                |MissingFields(s)| == 0 && |Scanned(players)| <= 20
                && forall k :: 0 <= k < |Scanned(players)| && k < 3 ==> !NameIsCritical(Scanned(players)[k].player)
  {
    var count := CountErrors(players, week);
    NoneCriticalAppend(count, SampleErrors(players));
    match Sample(players)
    case None =>
    case Some(s) =>
      NoneCriticalAppend(FieldErrors(s), OutlierErrors(Scanned(players)));
      OutlierErrorsHarmless(Scanned(players));
      if |MissingFields(s)| > 0 {
        assert FieldErrors(s)[0] == FieldsMissing(MissingFields(s));
      }
  }

  /** Whether a week passes does not depend on the week number: a short
      week is reported but never rejected. */
  lemma ValidityIgnoresWeek(players: seq<Entry>, a: int, b: int)
    ensures ValidateWeekly(WithPlayers(players), a).valid == ValidateWeekly(WithPlayers(players), b).valid
  {
    WeeklyValidIff(players, a);
    WeeklyValidIff(players, b);
  }

  function IsUnusual(m: Message): bool {
    m.Unusual?
  }

  lemma SampleUnusual(players: seq<Entry>)
    requires Sample(players).Some?
    ensures Filter(IsUnusual, SampleErrors(players)) == Map(AsMessage, Take(Scanned(players), 3))
  {
    var s := Sample(players).value;
    var outs := Scanned(players);
    var shown := Map(AsMessage, Take(outs, 3));
    var tail: seq<Message> := if |outs| > 20 then [Corruption(|outs|)] else [];
    assert OutlierErrors(outs) == shown + tail;
    assert SampleErrors(players) == FieldErrors(s) + OutlierErrors(outs);
    FilterNone(IsUnusual, FieldErrors(s));
    FilterAll(IsUnusual, shown);
    FilterNone(IsUnusual, tail);
    FilterAppend(IsUnusual, shown, tail);
    FilterAppend(IsUnusual, FieldErrors(s), OutlierErrors(outs));
  }

  /** The outlier messages are the first three outliers, in scan order, and
      only those. */
  lemma UnusualMessages(players: seq<Entry>, week: int)
    requires Sample(players).Some?
    ensures Filter(IsUnusual, ValidateWeekly(WithPlayers(players), week).errors)
            == Map(AsMessage, Take(Scanned(players), 3))
    ensures |Filter(IsUnusual, ValidateWeekly(WithPlayers(players), week).errors)| <= 3
  {
    var count := CountErrors(players, week);
    assert ValidateWeekly(WithPlayers(players), week).errors == count + SampleErrors(players);
    FilterNone(IsUnusual, count);
    FilterAppend(IsUnusual, count, SampleErrors(players));
    SampleUnusual(players);
  }

  function IsCorruption(m: Message): bool {
    m.Corruption?
  }

  lemma SampleCorruption(players: seq<Entry>)
    ensures Filter(IsCorruption, SampleErrors(players))
            == if Sample(players).Some? && |Scanned(players)| > 20 then [Corruption(|Scanned(players)|)] else []
  {
    if Sample(players).Some? {
      var s := Sample(players).value;
      var outs := Scanned(players);
      var shown := Map(AsMessage, Take(outs, 3));
      var tail: seq<Message> := if |outs| > 20 then [Corruption(|outs|)] else [];
      assert OutlierErrors(outs) == shown + tail;
      assert SampleErrors(players) == FieldErrors(s) + OutlierErrors(outs);
      FilterNone(IsCorruption, FieldErrors(s));
      FilterNone(IsCorruption, shown);
      FilterAll(IsCorruption, tail);
      FilterAppend(IsCorruption, shown, tail);
      FilterAppend(IsCorruption, FieldErrors(s), OutlierErrors(outs));
    }
  }

  /** A corruption warning appears, once, exactly when a sample player exists
      and the first hundred entries hold more than twenty outliers. */
  lemma CorruptionIff(players: seq<Entry>, week: int)
    ensures Filter(IsCorruption, ValidateWeekly(WithPlayers(players), week).errors)
            == if Sample(players).Some? && |Scanned(players)| > 20 then [Corruption(|Scanned(players)|)] else []
  {
    var count := CountErrors(players, week);
    assert ValidateWeekly(WithPlayers(players), week).errors == count + SampleErrors(players);
    FilterNone(IsCorruption, count);
    FilterAppend(IsCorruption, count, SampleErrors(players));
    SampleCorruption(players);
  }

  /** Entries past the hundredth never change the verdict or the messages;
      only their number matters. */
  lemma OnlyFirstHundredScanned(players: seq<Entry>, others: seq<Entry>, week: int)
    requires |players| >= 100 && |others| == |players| - 100
    ensures ValidateWeekly(WithPlayers(players), week) == ValidateWeekly(WithPlayers(players[..100] + others), week)
  {
    var q := players[..100] + others;
    assert Take(q, 100) == Take(players, 100);
    SampleErrorsByPrefix(players, q);
    assert WeeklyErrors(players, week) == WeeklyErrors(q, week);
  }

  /** The sample checks read only the first hundred entries. */
  lemma SampleErrorsByPrefix(a: seq<Entry>, b: seq<Entry>)
    requires Take(a, 100) == Take(b, 100)
    ensures SampleErrors(a) == SampleErrors(b)
  {
    assert Take(a, 10) == Take(Take(a, 100), 10) && Take(b, 10) == Take(Take(b, 100), 10);
  }

  // ---------------------------------------------------------------- validate_metadata

  /** The value stored under `weeks_available`. */
  datatype WeeksValue = NotAList | AList(weeks: seq<int>)

  /** Which required keys the metadata dict holds, and the value of
      `weeks_available` when it is present. */
  datatype MetadataPayload = MetadataPayload(hasSeason: bool, hasWeek: bool, weeksAvailable: Option<WeeksValue>)

  datatype MetadataError = FieldMissing(field: string) | WeeksNotAList | WeeksEmpty

  /** `DataValidator.validate_metadata(metadata)`. */
  function ValidateMetadata(m: MetadataPayload): (r: Verdict<MetadataError>)
    ensures r.valid <==> m.hasSeason && m.hasWeek && m.weeksAvailable.Some?
                         && m.weeksAvailable.value.AList? && |m.weeksAvailable.value.weeks| > 0
    ensures FieldMissing("current_season") in r.errors <==> !m.hasSeason
    ensures FieldMissing("current_week") in r.errors <==> !m.hasWeek
    ensures FieldMissing("weeks_available") in r.errors <==> m.weeksAvailable.None?
    ensures |r.errors| <= 3
  {
    var missing :=
      (if m.hasSeason then [] else [FieldMissing("current_season")])
      + (if m.hasWeek then [] else [FieldMissing("current_week")])
      + (if m.weeksAvailable.Some? then [] else [FieldMissing("weeks_available")]);
    var shape := match m.weeksAvailable
      case None => []
      case Some(NotAList) => [WeeksNotAList]
      case Some(AList(ws)) => if |ws| == 0 then [WeeksEmpty] else [];
    var errors := missing + shape;
    Verdict(|errors| == 0, errors)
  }
}

=== FILE: week_window.dfy ===
/** The weeks the insights engine reads
    (lambda_functions/insights_engine/index.py, `generate_insights`): the
    previous week, the current week and, from week 2 on, the week before
    the previous one, as `sorted(set(...))`.
 */
module WeekWindow {

  /** Strictly ascending, hence duplicate-free. */
  predicate Increasing(s: seq<int>) {
    forall i, j :: 0 <= i < j < |s| ==> s[i] < s[j]
  }

  /** `x` placed into an ascending list that may already hold it. */
  function InsertSorted(s: seq<int>, x: int): (r: seq<int>)
    requires Increasing(s)
    ensures Increasing(r)
    ensures forall y :: y in r <==> y in s || y == x
    ensures |r| <= |s| + 1
  {
    if |s| == 0 then [x]
    else if x < s[0] then [x] + s
    else if x == s[0] then s
    else
      var rest := InsertSorted(s[1..], x);
      assert forall i :: 0 <= i < |rest| ==> s[0] < rest[i] by {
        forall i | 0 <= i < |rest| ensures s[0] < rest[i] {
          assert rest[i] in rest;
        }
      }
      ConsIncreasing(s[0], rest);
      [s[0]] + rest
  }

  /** A head below every element of an ascending tail keeps it ascending. */
  lemma ConsIncreasing(h: int, rest: seq<int>)
    requires Increasing(rest)
    requires forall i :: 0 <= i < |rest| ==> h < rest[i]
    ensures Increasing([h] + rest)
  {
    var r := [h] + rest;
    forall i, j | 0 <= i < j < |r| ensures r[i] < r[j] {
      assert r[j] == rest[j - 1];
      if i > 0 {
        assert r[i] == rest[i - 1];
      }
    }
  }

  /** `sorted(set(xs))`. */
  function SortedSet(xs: seq<int>): (r: seq<int>)
    ensures Increasing(r)
    ensures forall y :: y in r <==> y in xs
    ensures |r| <= |xs|
  {
    if |xs| == 0 then []
    else
      assert xs == xs[..|xs| - 1] + [xs[|xs| - 1]];
      InsertSorted(SortedSet(xs[..|xs| - 1]), xs[|xs| - 1])
  }

  /** `weeks_to_fetch`: ascending, duplicate-free, at most three weeks, and
      exactly the two compared weeks plus the one before `weekFrom` when
      `weekFrom >= 2`. */
  function WeeksToFetch(weekFrom: int, weekTo: int): (r: seq<int>)
    ensures Increasing(r) && |r| <= 3
    ensures forall w :: w in r <==> w == weekFrom || w == weekTo || (weekFrom >= 2 && w == weekFrom - 1)
  {
    SortedSet(if weekFrom >= 2 then [weekFrom - 1, weekFrom, weekTo] else [weekFrom, weekTo])
  }

  /** Of one week. */
  lemma SortedSetOne(a: int)
    ensures SortedSet([a]) == [a]
  {
    assert [a][..0] == [];
  }

  /** Of two ascending weeks. */
  lemma SortedSetTwo(a: int, b: int)
    requires a < b
    ensures SortedSet([a, b]) == [a, b]
  {
    assert [a, b][..1] == [a];
    SortedSetOne(a);
    assert [a][1..] == [] && InsertSorted([], b) == [b];
    assert InsertSorted([a], b) == [a] + [b] == [a, b];
  }

  /** Of three ascending weeks. */
  lemma SortedSetThree(a: int, b: int, c: int)
    requires a < b < c
    ensures SortedSet([a, b, c]) == [a, b, c]
  {
    assert [a, b, c][..2] == [a, b];
    SortedSetTwo(a, b);
    assert [a, b][1..] == [b] && [b][1..] == [];
    assert InsertSorted([b], c) == [b, c];
  }

  /** In the scheduled mode (`weekFrom = weekTo - 1`) from week 3 on, the
      engine reads the last three weeks. */
  lemma ScheduledWindow(week: int)
    requires week >= 3
    ensures WeeksToFetch(week - 1, week) == [week - 2, week - 1, week]
  {
    SortedSetThree(week - 2, week - 1, week);
  }

  /** Comparing week 1 with week 2 reads just those two weeks. */
  lemma FirstWeeksWindow()
    ensures WeeksToFetch(1, 2) == [1, 2]
  {
    SortedSetTwo(1, 2);
  }
}

=== FILE: wrappers.dfy ===
/** Failure-compatible wrappers shared by every module of the model.

  - Option<T> stands for a Python value that may be None (or a dict key that may be absent).
  - Result<T, E> stands for a computation that may raise: Err carries what was raised.
 */
module Wrappers {

  datatype Option<+T> = None | Some(value: T) {

    /** The value, or `default` when absent (Python's `d.get(key, default)`). */
    function GetOr(default: T): T {
      match this
      case Some(v) => v
      case None => default
    }
  }

  datatype Result<+T, +E> = Ok(value: T) | Err(error: E) {

    predicate IsFailure() {
      Err?
    }

    function PropagateFailure<U>(): Result<U, E>
      requires Err?
    {
      Err(error)
    }

    function Extract(): T
      requires Ok?
    {
      value
    }
  }

  function Min(a: int, b: int): int {
    if a <= b then a else b
  }

  function MaxReal(a: real, b: real): real {
    if a >= b then a else b
  }
}
